=== FILE: README.md ===
# Tajik Quran portal: a Dafny model of its core

TajikQuranPortal is a Quran reader. It shows the Arabic text of each verse with a Tajik translation and has these parts:

- an Express API over an in-memory store;
- a React client;
- corpus scripts that import, rebuild and repair the `surahs`, `verses` and `word_analysis` tables from SQL dumps of the Tanzil text;
- three Java programs that extract words from the JQuranTree corpus.

This project restates the deterministic logic of those parts as pure Dafny functions over immutable data and proves what each part promises. Every module follows one source file, or one group of files that share logic:

- **Shared records and JavaScript built-ins**: `Schema`, `Json`, `Wrappers`, `Text`, `Seqs`, `Console`. `Text` and `Seqs` hold `trim`, `split`, `join`, `parseInt`, Java `Integer.parseInt`, `filter`, `find`, the stable `sort` and fixed-size slicing.
- **Server**:
  - `MemStorage` models `server/storage.ts`.
  - `Routes` models `server/routes.ts`. It gives the status code of every handler over the store.
  - `WordService` models `server/word-service.ts`.
- **Text transformers**:
  - `Tajweed`: the markup rewriter.
  - `JsonString`: the Java `escape` and the string decoding it is meant to invert.
  - `Fonts`: Arabic-Indic numerals and font classes.
  - `QuranWords`, `WordData`, `WordExtractor`: the three Java extractors.
- **Corpus scripts**:
  - `Corpus`: the tables, `MAX(id) + 1` ids, and the missing-number and short-surah queries.
  - `SqlTuples`: the tuple regular expressions.
  - `Markers`: the two Bismillah spellings.
  - One module per script: `Rebuild`, `FixAllBismillah`, `FixMissingVerses`, `AddMissingVerses`, `ListedVerses` (for `fix-remaining-verses.ts` and `fix-verse-numbering.ts`), `ImportData`, `ImportWords`, `UpdateTafsir`.
- **Client rules**:
  - `SurahList`: `home.tsx` and `home-new.tsx`.
  - `SurahPage`, `Header`, `BismillahBanner`.
  - `BookmarkHook`: `useBookmarks.ts`.
  - `FloatingHeader`.

Inputs the code does not compute become parameters:

- The database is a value of type `Corpus.Db` or `WordService.WordDb`: rows in storage order, `id` as primary key, `unique_key` unique.
- In the members that model exceptions, whether a call throws is an argument. Repeated calls consult an oracle `ok: nat -> bool` indexed by the position of the call: `WordService` (`InsertAll`, `Answer`, `GetVerseWordAnalysis`), `ImportWords`, `UpdateTafsir` and the verse import of `ImportData`. The surah seeding of `import-data.ts` uses `seedOk`. A run with one fixed point of failure takes a value naming it: `ImportData.Halt`, `QuranWords.IoFate`, or `WordExtractor.VerseLookup` for the corpus lookup. The other repair scripts fail only on a unique-key clash computed from the rows (see "## Left out").
- File contents are strings.
- The clock is an integer `now`.
- `toLowerCase` is a function parameter `lower`.
- `JSON.parse` is a function parameter `parse`.
- The JQuranTree document is a plain datatype.

## Model

| member | source | states |
|---|---|---|
| Schema.VerseKeyIsVerseRef | server/storage.ts:227 | The key `s:v` built from two numbers matches `^\d+:\d+$` exactly when both numbers are non-negative. |
| Text.Trim | scripts/update-tafsir.ts:15 | The trimmed text is no longer than the input and has no white space or line terminator at either end; it is empty iff every character is one. |
| Text.SplitJoin | server/word-service.ts:116 | Splitting on a one-character separator inverts joining with it when no piece holds the separator. |
| Text.Split | scripts/update-tafsir.ts:15 | The pieces of `split(sep)` hold no separator and joining them with it gives the input back. |
| Text.ParseIntOfIntToString | server/routes.ts:24 | `parseInt` reads back every integer that `toString` writes, with and without hexadecimal detection (integers unbounded; see Left out). |
| Text.ParseIntOfNonNumeral | server/routes.ts:143-147 | Text that starts with no space, sign or digit parses to `NaN`. |
| Text.JavaParseIntOfIntToString | WordDataExtractor.java:22-23 | `Integer.parseInt` reads back every 32-bit integer that `Integer.toString` writes. |
| Text.JavaParseIntRefusesNonNumerals | WordDataExtractor.java:58-60 | `Integer.parseInt` refuses every non-numeral: the empty string, a bare sign, a first character that is neither sign nor digit, and any non-digit after the first character. Each lands in the `NumberFormatException` branch. |
| Text.JavaParseIntRefusesOutOfRange | WordDataExtractor.java:58-60 | A well-formed numeral outside 32 bits is refused too: above 2147483647, or below -2147483648 with a minus sign. |
| Text.NoColonInNumeral | client/src/lib/fonts.ts:40-42 | A numeral holds no colon, so a `surah:verse` key splits back at its only colon. |
| Seqs.Filter | client/src/pages/home.tsx:68-75 | `filter` keeps an element iff it satisfies the predicate, as often as it occurs, in order: a subsequence of the input with the filtered multiset. |
| Seqs.SortBySorted | server/storage.ts:195-197 | The `sort` by key gives a sequence ordered by key. |
| Seqs.SortByStableAll | server/storage.ts:278-285 | The sort is stable: for every key, the elements carrying it keep their input order, and the result is ordered. |
| Seqs.SortBySortedInput | server/word-service.ts:72 | Sorting a sequence already ordered by key changes nothing. |
| Seqs.Chunks | import-words.cjs:82-87 | Fixed-size slicing: the slices concatenate to the input, each holds between 1 and n elements, and only the last may be short. |
| Seqs.Find | client/src/hooks/useBookmarks.ts:56 | `find` returns the first element satisfying the predicate, or nothing when none does. |
| Seqs.FindUnique | server/storage.ts:214-216 | When exactly one element satisfies the predicate, `find` returns it. |
| MemStorage.Init | server/storage.ts:50-175 | The constructor and `initializeData` leave a valid store with 2 surahs, 5 verses, 1 user, 1 bookmark and no searches. |
| MemStorage.CreateUser | server/storage.ts:187-192 | The user takes the current counter as id, the counter advances, the id exceeds every stored id, `get` finds the user under it, and every other id reads as before. |
| MemStorage.GetUserByUsername | server/storage.ts:181-185 | The result is the first stored user, in insertion order, with that name; nothing only when no user has it. `createUser` does not refuse a duplicate name, so the first-match rule matters. |
| MemStorage.GetAllSurahs | server/storage.ts:195-197 | Every stored surah exactly once (same multiset), ordered by ascending number. |
| MemStorage.GetSurahByNumber | server/storage.ts:203-206 | The first stored surah with that number, and nothing only when none has it. |
| MemStorage.GetVersesBySurah | server/storage.ts:208-212 | Exactly the verses with that `surah_id`, each as often as stored, ordered by verse number. The sort is stable: verses with the same number keep their storage order. |
| MemStorage.GetVerseByKey | server/storage.ts:214-216 | The first stored verse with that key, and nothing only when none has it. |
| MemStorage.SearchVerses | server/storage.ts:218-245 | A subsequence of the stored verses, all passing the surah filter (applied only when `surahId` is truthy). A reference query selects exactly the verses whose key equals it in every language. Any other query selects exactly the verses whose Arabic text contains it (`arabic`/`both`) or whose lower-cased Tajik text contains the lower-cased query (`tajik`/`both`). Any other language selects nothing. |
| MemStorage.GetBookmarksByUser | server/storage.ts:249-257 | One entry per bookmark of the user, in order, each paired with the verse its `verse_id` names. |
| MemStorage.CreateBookmark | server/storage.ts:259-264 | The bookmark takes the current counter and `now`, the counter advances, the bookmark is found under its fresh id, and every other id reads as before. |
| MemStorage.DeleteBookmark | server/storage.ts:266-268 | The result is true iff a bookmark had that id. Afterwards exactly the other bookmarks remain, in order, and nothing else in the store changes. |
| MemStorage.AddSearchHistory | server/storage.ts:271-276 | The entry takes the current counter and `now`, the counter advances, the entry is found under its fresh id, and every other id reads as before. |
| MemStorage.GetSearchHistoryByUser | server/storage.ts:278-285 | Exactly that user's entries, each as often as stored, newest first; entries with equal timestamps keep their order. |
| MemStorage.IdsBelowFilter | server/storage.ts:266-268 | Removing entries keeps the ids increasing and below the counter, so deletion keeps the store valid. |
| Routes.ListSurahs | server/routes.ts:13-19 | Status 200 with every surah once, by ascending number. |
| Routes.GetSurahRoute | server/routes.ts:22-40 | 400 iff the number parses to `NaN`; 404 iff it parses but no surah has it; otherwise 200 with a stored surah of that number. |
| Routes.GetSurahVersesRoute | server/routes.ts:43-62 | The same 400 and 404 conditions, then 200 with the verses of the surah found. |
| Routes.GetVerseRoute | server/routes.ts:65-83 | 400 iff the key is not `digits:digits`; 404 iff no verse has it; otherwise 200 with the verse carrying that key. |
| Routes.VerseKeyRouteFindsVerse | server/routes.ts:65-83 | Every stored verse whose key has the reference form is answered with status 200. |
| Routes.UserIdParam | server/routes.ts:113 | A missing `userId` parses to `NaN`. |
| Routes.SearchRoute | server/routes.ts:86-108 | A missing or empty `q` gives 400 and records nothing. Otherwise 200 with the search result; a truthy `userId` adds exactly one history entry, and no `userId` leaves the store as it was. |
| Routes.GetBookmarksRoute | server/routes.ts:111-124 | 400 iff `userId` parses to `NaN`, otherwise 200 with that user's bookmarks and their verses. |
| Routes.PostBookmarkRoute | server/routes.ts:127-138 | A body failing validation gives 400 and changes nothing; a valid one gives 201 with the bookmark just created. |
| Routes.DeleteBookmarkRoute | server/routes.ts:141-159 | 400 iff the id parses to `NaN`; 204 iff a bookmark with that id existed, which is then removed; 404 otherwise; the store changes only on 204. |
| Routes.GetSearchHistoryRoute | server/routes.ts:162-175 | 400 iff `userId` parses to `NaN`, otherwise 200 with that user's history, newest first. |
| Routes.PostThenDeleteBookmark | server/routes.ts:127-159 | Posting a bookmark and deleting it by the id in the reply answers 204 and leaves the original bookmarks. |
| Tajweed.TableKeysAreAlternation | client/src/lib/tajweed.ts:45-53 | The pattern's alternation lists exactly the 17 table keys, so the unknown-type fallback is unreachable. |
| Tajweed.SilentAndLaamShareClass | client/src/lib/tajweed.ts:16-17 | `l` and `s` share the CSS class `slnt` but have distinct `data-type` values. |
| Tajweed.CloseBracket | client/src/lib/tajweed.ts:45 | The lazy `(.*?)\]` stops at the first `]`, and fails at a line terminator or at the end. |
| Tajweed.MatchAt | client/src/lib/tajweed.ts:45 | A match starts with `[`, a table key, an optional `:digits` id and `[`; its content holds no `]` and no line terminator. |
| Tajweed.ScanCoversInput | client/src/lib/tajweed.ts:48 | Matches are taken left to right without overlap, and the text between them is kept: the segments spell the input again. |
| Tajweed.MarkupRoundTrip | client/src/lib/tajweed.ts:45 | A well-formed markup written out is recognised again as exactly that markup. |
| Tajweed.ParseTajweed | client/src/lib/tajweed.ts:37-60 | Empty input gives the empty string, and input without `[` comes back unchanged. |
| Tajweed.ParseTajweedIsReplace | client/src/lib/tajweed.ts:37-41 | The two early returns agree with the global replace, so `parseTajweed` is the replace on every input. |
| Tajweed.NoMarkupRendersItself | client/src/lib/tajweed.ts:48-59 | Text holding no markup match renders as itself. |
| JsonString.Escape | QuranWordExtractor.java:94-102 | A string holding none of the seven characters comes back unchanged. |
| JsonString.EscapeIsPerChar | QuranWordExtractor.java:94-102 | Because backslash goes first, the seven `replace` passes amount to escaping each character on its own. |
| JsonString.EscapeRoundTrip | QuranWordExtractor.java:94-102 | Decoding the escaped text as a JSON string body (section 7 of RFC 8259) gives the input back, for every input without another control character. |
| JsonString.EscapeKeepsBareControl | QuranWordExtractor.java:94-102 | Any other control character passes through unescaped, and the output is then no valid JSON string body. |
| JsonString.EscapeLength | QuranWordExtractor.java:94-102 | Escaping never shortens a string, and it lengthens every string holding one of the seven characters. |
| QuranWords.Words | QuranWordExtractor.java:38-47 | Chapters are visited 1..max in ascending order: every word's surah is in 1..max and the surahs never decrease. |
| QuranWords.WordsPrefix | QuranWordExtractor.java:38-47 | Visiting more chapters only appends: the words of chapters 1..n are a prefix of those of 1..max. |
| QuranWords.WriteArray | QuranWordExtractor.java:33-76 | The writer loop with its `firstWord` flag writes exactly `[\n`, the objects joined by `,\n`, and `\n]\n`. |
| QuranWords.ArrayShape | QuranWordExtractor.java:58-76 | There is no leading or trailing comma: the first object follows `[\n` and the last object precedes `\n]\n`. |
| QuranWords.Run | QuranWordExtractor.java:15-88 | No argument prints the usage and exits 1. A number outside 1..114 prints an error and exits 1, and no other path exits 1. A malformed number is reported on standard error with no exit call. A file exists iff the number is in 1..114 and `new FileWriter` does not throw. The file is always a prefix of the full array text, and all of it when nothing throws. An `IOException` is reported as `Error writing to file: ` and the message. Any other exception is reported with its stack trace. Either way standard output keeps the progress lines printed before it. |
| WordData.VerbatimIsEscapedIffClean | WordDataExtractor.java:48-51 | The verbatim object equals the escaped one iff neither text holds a character that needs escaping. |
| WordData.PrintArray | WordDataExtractor.java:45-56 | The print loop writes exactly `[`, the objects joined by `", "`, then `]` and a newline. |
| WordData.Run | WordDataExtractor.java:14-66 | Fewer than two arguments print the usage and exit 1. A malformed number prints the format error and exits 1. A missing verse prints `Verse not found` with both numbers and exits 1. A lookup that throws prints `Error: ` and the message, then the stack trace, and exits 1. The exit is 0 iff both numbers parse and the verse is found, and then standard output holds exactly the array line of the verse's tokens. |
| WordExtractor.WordObject | WordExtractor.java:51-67 | The object carries `position` i+1 and the Arabic text. Without an analysis it holds only those two fields. With one, `translation` equals `lemma`, and missing parts are null. |
| WordExtractor.WordsFrom | WordExtractor.java:42-70 | Each listed word is a token whose type is not NONE, at position index+1, and positions strictly increase. |
| WordExtractor.EveryWordListed | WordExtractor.java:46 | No word is lost: every token whose type is not NONE has its object in the list. |
| WordExtractor.AllWordsContiguous | WordExtractor.java:42-51 | Without NONE tokens, positions run 1..n with no gap. |
| WordExtractor.Extract | WordExtractor.java:20-87 | Fewer than two arguments print the usage on standard error and exit 1. A malformed number, or a lookup that throws, prints `Error: ` and the message, then the stack trace headed by the exception's class and message, and exits 1. The result object holds `surah`, `verse` and the `words` exactly when the verse opens. |
| WordService.Words | server/word-service.ts:116 | The pieces hold no space and are not blank, and they form a subsequence of `split(' ')`. Every non-blank piece of the split is kept, as often as it occurs there, and no blank one is. |
| WordService.WordsOfJoin | server/word-service.ts:116 | Words joined by single spaces come back as they were. |
| WordService.SimpleWordAnalysis | server/word-service.ts:114-133 | One row per word. Positions run 1..n in text order, and the i-th row carries the i-th word. Every row has the verse id and null transliteration, translation, root and part of speech. |
| WordService.InsertAll | server/word-service.ts:85-106 | Insert `i` goes through iff `ok(from + i)`. The rows up to the first one that throws are appended in order with consecutive serial ids, and the verse table is untouched. The loop fails exactly when some insert throws, and then the insert right after the stored rows is the one that threw. |
| WordService.VerseAt | server/word-service.ts:55-63 | A stored verse with key `s:v`, and nothing only when none has it. |
| WordService.StoreFresh | server/word-service.ts:77-106 | The old rows are untouched and `k` new rows follow them: the first `k` words, numbered from the next id. The reply is 200 with exactly those rows, in position order, iff every insert goes through. Otherwise it is 500 "Error processing word analysis", insert `2 + k` threw, and the `k` rows stay stored. |
| WordService.Reply | server/word-service.ts:94-106 | The same as `StoreFresh`, stated for any word list in position order. |
| WordService.Answer | server/word-service.ts:65-106 | Either 200 with rows ordered by position, or 500 "Error processing word analysis". If the select of stored rows throws, the reply is 500 and nothing changes. Stored rows are returned as a permutation with equal rows per position, and nothing is written. Otherwise it does what `StoreFresh` does. |
| WordService.GetVerseWordAnalysis | server/word-service.ts:30-108 | A missing parameter gives 400 "required", and a `NaN` gives 400 "invalid". If the verse select throws, the reply is 500 and nothing changes. 404 iff the select goes through and no verse has the key. No 400 or 404 writes anything. A 200, or any write, comes from `Answer` on the verse with that key. |
| Fonts.ArabicFontClass | client/src/lib/fonts.ts:4-17 | Every class starts with the base class, and the base class alone is exactly what an unknown size gets. |
| Fonts.TajikFontClass | client/src/lib/fonts.ts:20-31 | The class is always one of text-sm, text-base and text-lg, whatever the size. |
| Fonts.FontClassesSeparateSizes | client/src/lib/fonts.ts:4-31 | sm, md and lg get pairwise distinct classes in both scripts, and a missing size gets the md class. |
| Fonts.ArabicNumberRoundTrip | client/src/lib/fonts.ts:34-37 | Reading the Arabic-Indic numerals back digit by digit gives the non-negative number formatted. |
| Fonts.FormatArabicNumberInjective | client/src/lib/fonts.ts:34-37 | Distinct non-negative integers are formatted differently. |
| Fonts.FormatArabicNumberDropsSign | client/src/lib/fonts.ts:34-37 | The minus sign maps to nothing, so `-n` and `n` look the same. |
| Fonts.FormatVerseKeyParses | client/src/lib/fonts.ts:40-42 | Both halves of a formatted key parse back to the numbers it was made from. |
| Markers.SpellingsDiffer | scripts/rebuild-quran-data.ts:9 | The tatweel spelling and the plain spelling of the Bismillah differ, and neither starts with the other. |
| Corpus.NextVerseId | scripts/add-missing-verses.ts:204-208 | `(max || 0) + 1` is above every stored id, and it is the least such when the table is not empty. |
| Corpus.InsertVerse | scripts/fix-remaining-verses.ts:72-82 | The row is appended unless it clashes on id or key, in which case the insert fails. |
| Corpus.InsertKeepsKeyed | scripts/fix-remaining-verses.ts:72-82 | An accepted insert keeps both table constraints. |
| Corpus.NextIdInsert | scripts/fix-remaining-verses.ts:68-82 | A row numbered with the next id is accepted iff its key is not yet stored: its id never clashes. |
| Corpus.MissingNumbers | scripts/fix-missing-verses.ts:101-108 | In ascending order, exactly the numbers of 1..expected that are not present. |
| Corpus.NoneMissing | scripts/add-missing-verses.ts:65-68 | Nothing is missing iff every number of 1..expected is present. |
| Corpus.Short | scripts/add-missing-verses.ts:21-32 | Exactly the surahs whose `verses_count` exceeds their stored verses, in number order. |
| Corpus.Mismatched | scripts/fix-remaining-verses.ts:88-107 | Exactly the surahs whose verse count differs from `verses_count`, in number order. |
| SqlTuples.TupleAtRender | scripts/rebuild-quran-data.ts:72-78 | A rendered tuple at the start of a text is matched whole: the captures are the row, and matching resumes after its `)`. |
| SqlTuples.ScanRendered | scripts/rebuild-quran-data.ts:72-78 | Rendered tuples separated by `, ` are read back as exactly those rows, in order. |
| SqlTuples.ScanDumpStatement | scripts/rebuild-quran-data.ts:63-80 | The tuple pattern finds exactly the tuples of a one-line dump statement, in order. |
| SqlTuples.StatementRender | scripts/import-data.ts:129-135 | The statement pattern matches a header, white space and a rendered tuple as that tuple. |
| Rebuild.ReadsDumpLine | scripts/rebuild-quran-data.ts:63-80 | A dump statement on one line parses to exactly its verses, in order. |
| Rebuild.LineVersesParsed | scripts/rebuild-quran-data.ts:63-80 | Every verse found on a considered line is among the parsed verses. |
| Rebuild.BatchesPartition | scripts/rebuild-quran-data.ts:29-30 | The twelve batches each span at most ten surahs, and surah n lies in batch (n-1)/10 and in no other: they partition 1..114. |
| Rebuild.GroupIsFilter | scripts/rebuild-quran-data.ts:95-102 | The list grouped under a surah number is exactly that surah's verses, in input order. |
| Rebuild.StoredText | scripts/rebuild-quran-data.ts:124-133 | Verse 1:1 becomes the Bismillah. Verse 1 of any other surah loses a leading Bismillah and is trimmed. Other verses keep their text. |
| Rebuild.Upsert | scripts/rebuild-quran-data.ts:137-171 | An existing row changes only its Arabic text, and no other row changes. A missing verse is inserted iff its key is free, with the next id, key `s:a`, empty Tajik text and page and juz 0. Either way the verse holds the stored text afterwards. |
| Rebuild.UpsertKeepsKeyed | scripts/rebuild-quran-data.ts:137-171 | An upsert keeps both table constraints. |
| Rebuild.SurahIdsLastWins | scripts/rebuild-quran-data.ts:210-220 | A later surah row with the same number overwrites an earlier one in the map. |
| Rebuild.UpsertKeepsOther | scripts/rebuild-quran-data.ts:139-171 | An upsert of one (surah, verse) pair leaves the Arabic text of every other pair as it was. |
| Rebuild.UpsertAllKeeps | scripts/rebuild-quran-data.ts:122-173 | The upserts of one surah leave the text of every pair they do not write. |
| Rebuild.UpsertAllStores | scripts/rebuild-quran-data.ts:122-173 | After a surah's upserts succeed, each of its verse numbers holds the stored text of the last entry with that number: a later duplicate overwrites an earlier one. |
| Rebuild.ProcessSurahsStores | scripts/rebuild-quran-data.ts:104-118 | Going through the batch's surah numbers, each surah with an id ends up holding the last entry per verse number, because no other surah writes under its id. |
| Rebuild.ProcessBatchStores | scripts/rebuild-quran-data.ts:90-118 | A batch holding the surah of the last parsed verse with a key stores that verse's text under the surah's id. |
| Rebuild.ProcessBatchesKeeps | scripts/rebuild-quran-data.ts:29-38 | The batches leave the text of every pair that none of their verses writes. |
| Rebuild.ProcessBatchesStores | scripts/rebuild-quran-data.ts:29-38 | A verse whose surah lies in one batch keeps the text that batch stored through all later batches. |
| Rebuild.BatchesStoreLast | scripts/rebuild-quran-data.ts:29-38 | When every batch succeeds, the last parsed verse for each key of a surah 1..114 with an id has its stored text in the table. |
| Rebuild.SurahIdsDistinct | scripts/rebuild-quran-data.ts:210-220 | When surah rows have distinct ids, different surah numbers map to different ids. |
| Rebuild.Run | scripts/rebuild-quran-data.ts:21-47 | The intended run leaves surahs untouched and changes stored verses only in their Arabic text. It keeps both constraints. When it exits 0 it has stored every parsed verse whose surah is in 1..114 and has an id. With distinct surah ids, each such key then holds the stored text of its last parsed verse. |
| Rebuild.AsWrittenStoresNothing | scripts/rebuild-quran-data.ts:210-215 | A parsed verse missing from the tables is stored by a successful intended run but is still missing after the script as written. |
| FixAllBismillah.NormalizeFree | scripts/fix-all-bismillah.ts:70-74 | A text with no `! ` separator is left unchanged by the rewrite of `! ` into `. `. |
| FixAllBismillah.SplitPunctJoin | scripts/fix-all-bismillah.ts:70-72 | Joining the pieces of `split(/[!.] /)` with `. ` gives the text with every `! ` turned into `. `. |
| FixAllBismillah.SplitPunctOnePiece | scripts/fix-all-bismillah.ts:70-71 | `split(/[!.] /)` yields a single piece exactly when the text holds no `! ` or `. ` separator. |
| FixAllBismillah.SplitPunctPrefix | scripts/fix-all-bismillah.ts:70-72 | A leading run without `!` or `.` stays glued to the front of the first piece; the later pieces are those of the remainder. |
| FixAllBismillah.ArabicRoundTrip | scripts/fix-all-bismillah.ts:64-67 | Stripping the marker off `marker + text` gives the trimmed text back. |
| FixAllBismillah.TajikRoundTrip | scripts/fix-all-bismillah.ts:70-77 | The marker followed by `! ` or `. ` and a verse gives the trimmed verse back, with its own `! ` turned into `. `. |
| FixAllBismillah.FirstPieceSwallowed | scripts/fix-all-bismillah.ts:70-74 | The first piece runs up to the first separator, so words between the marker and it are dropped. |
| FixAllBismillah.TajikAloneVanishes | scripts/fix-all-bismillah.ts:75-77 | The bare marker, and `marker!`, strip to the empty text. |
| FixAllBismillah.ApplyAllPointwise | scripts/fix-all-bismillah.ts:60-89 | With distinct ids, the loop updates each selected row with its own stripped texts and leaves every other row as it was. |
| FixAllBismillah.RunPointwise | scripts/fix-all-bismillah.ts:14-108 | With ids as primary key, the script repairs each verse on its own: every row afterwards is that row put through the per-verse repair. |
| FixAllBismillah.FatihaEndsMarked | scripts/fix-all-bismillah.ts:19-30 | Al-Fatiha's first verse ends with the Arabic marker and the Tajik `marker!`, whatever it held. |
| FixAllBismillah.TawbahCountedNotFixed | scripts/fix-all-bismillah.ts:93-104 | A marked first verse of At-Tawbah is never fixed, yet it still counts in the closing check, which excludes only surah 1. |
| FixMissingVerses.UnescapeEscape | scripts/fix-missing-verses.ts:194-199 | Undoing doubled quotes inverts the SQL escaping of every text. |
| FixMissingVerses.LoneQuote | scripts/fix-missing-verses.ts:194-197 | A lone quote counts as both the opening and the closing quote, and it is kept. |
| FixMissingVerses.ReadTupleGroup | scripts/fix-missing-verses.ts:183-199 | The group of a plain tuple reads back as that tuple. |
| FixMissingVerses.ParseDumpLine | scripts/fix-missing-verses.ts:177-203 | The intended parser reads a one-tuple dump statement back as the tuple. |
| FixMissingVerses.ParseDumpLineAsWritten | scripts/fix-missing-verses.ts:178-188 | The parser as written reads the column list of the same line, so every number is `NaN`. |
| FixMissingVerses.FillSurah | scripts/fix-missing-verses.ts:113-138 | Rows are only appended and the constraints kept. Every added row is restored from the dump as `s:n` with no translation. When no insert fails, every missing number the dump holds is stored. |
| FixMissingVerses.FillAll | scripts/fix-missing-verses.ts:87-140 | Rows are only appended and the constraints kept. Each added row is restored for one of the surahs. When no insert fails, every number of a short surah that the dump holds is stored. |
| FixMissingVerses.Repair | scripts/fix-missing-verses.ts:18-165 | An unreadable dump exits 1 with the tables untouched. Surahs never change, and verses are only appended with the constraints kept. Exit 0 means every number of a short surah that the dump holds is stored. |
| FixMissingVerses.AsWrittenInsertsNothing | scripts/fix-missing-verses.ts:178-188 | Over a dump of one-tuple Tanzil statements the script as written finds no verse and changes nothing. |
| FixMissingVerses.IntendedReadsEveryTuple | scripts/fix-missing-verses.ts:178-203 | The intended parser reads every one-tuple statement of the same dump. |
| AddMissingVerses.KnownPairsDistinct | scripts/add-missing-verses.ts:78-158 | No (surah, verse) pair of the 19-entry table appears twice. |
| AddMissingVerses.LookupIsTable | scripts/add-missing-verses.ts:78-158 | The text chosen for a pair is the table's entry for it, and none when the table has none. |
| AddMissingVerses.KnownEndsWithRemaining | scripts/add-missing-verses.ts:79-158 | The last nine entries are the list of the remaining-verses script, texts included. |
| AddMissingVerses.Run | scripts/add-missing-verses.ts:17-200 | Surahs are untouched and verses only appended, with constraints kept. Every added row is a table verse of a short surah. When the script exits 0 every missing table verse is stored. |
| AddMissingVerses.AddedRowsFromTable | scripts/add-missing-verses.ts:160-174 | Each added row belongs to a short surah, is keyed `s:v`, and carries the table's text for that pair and an empty translation. |
| ListedVerses.ItemRow | scripts/fix-verse-numbering.ts:71-85 | The inserted row has the next id, key `s:v`, the listed text, empty Tajik text, page and juz 0, and an empty audio URL. |
| ListedVerses.InsertItem | scripts/fix-remaining-verses.ts:44-82 | An unknown surah or a stored verse is skipped. Otherwise the row is appended, or the insert fails because its key is taken. |
| ListedVerses.InsertAll | scripts/fix-verse-numbering.ts:39-90 | Rows are only appended and constraints kept. With isolation no error escapes. Without an error every item is settled, and every added row is a listed verse. |
| ListedVerses.RerunInsertsNothing | scripts/fix-remaining-verses.ts:52-65 | Once every item is settled, running the loop again leaves the table as it is. |
| ListedVerses.RunRemaining | scripts/fix-remaining-verses.ts:36-112 | Surahs are untouched and verses only appended. The exit is 0 or 1, and exit 0 leaves every one of the nine listed verses settled. |
| ListedVerses.RunRenumbering | scripts/fix-verse-numbering.ts:35-118 | Errors are caught per item, so the script always exits 0. Surahs are untouched, verses only appended, and every one of the seven listed verses is settled. |
| ListedVerses.RunsIdempotent | scripts/fix-verse-numbering.ts:39-66 | Running either script again after it succeeded adds no row. |
| ImportData.SeedSurahs | scripts/import-data.ts:89-102 | The insert of entry `i` goes through iff `seedOk(from + i)`, and one that throws is skipped. Rows are only appended. The number of every entry whose insert went through is present afterwards. Each new row is such an entry, and numbers stay unique. |
| ImportData.PutGet | scripts/import-data.ts:135 | After `set(k, v)`, `get(k)` is `v` and every other key reads as before. |
| ImportData.Put | scripts/import-data.ts:135 | A present key keeps its place and takes the new value, a new key goes last, and nothing else changes. |
| ImportData.ExtractLastWins | scripts/import-data.ts:128-148 | The map holds, for each key, the text of the last row with that key. |
| ImportData.KeysWellFormed | scripts/import-data.ts:158-161 | Every key of a map read from matched tuples has the `sura:aya` form: two non-empty digit runs around one colon. |
| ImportData.BuildAll | scripts/import-data.ts:158-192 | Every built verse comes from an Arabic entry whose surah maps to a truthy id and which has a Tajik text; it carries both texts, that id, the aya number and the audio URL. Every such entry yields a built verse. |
| ImportData.JoinExact | scripts/import-data.ts:158-192 | A verse is built for key k iff k is an Arabic key whose surah maps to a truthy id and which has a Tajik text. |
| ImportData.BuiltFromRows | scripts/import-data.ts:128-192 | Every built verse carries the texts of the last Arabic and the last Tajik tuple with its key. |
| ImportData.JoinOfDumps | scripts/import-data.ts:128-192 | Conversely, such a key with mapped surah yields a built verse with both texts. |
| ImportData.FlushesAreChunks | scripts/import-data.ts:194-217 | The flushed batches are the chunks of 50 of the pending verses followed by the new ones: they partition them in order and only the last may hold fewer. |
| ImportData.InsertBatch | scripts/import-data.ts:199 | Rows are only appended and constraints kept. Each new row comes from the batch, and afterwards every key of the batch is stored; a batch already stored changes nothing. |
| ImportData.SumSelectedBound | scripts/import-data.ts:198-216 | The reported count never exceeds the verses batched, and equals it when no insert throws. |
| ImportData.ImportVerses | scripts/import-data.ts:150-217 | Rows are only appended and constraints kept. Each new row is a built verse. Every verse of a batch that went through is stored. |
| ImportData.RunWith | scripts/import-data.ts:26-233 | Without `DATABASE_URL` the script exits 1 untouched. If the schema DDL throws, it exits 0 untouched. Surah rows are only appended, and each new one is an entry whose insert went through. Exit 1 after that happens iff the table was empty, every surah insert threw and the select went through. The closing log line is reached iff the select and the file reads go through, and otherwise no verse is written. Verses are only appended, each from a verse joined against the seeded table. The count never exceeds the Arabic keys, and when no insert throws it equals the joined verses, all stored. |
| ImportData.Run | scripts/import-data.ts:15-116 | With the script's five entries, when the schema is in place and no surah insert throws, surahs 1 to 5 are present and the exit status is 0. |
| ImportData.RerunAddsNothing | scripts/import-data.ts:194-217 | A second run after one in which nothing threw stores nothing new, yet reports the same count. |
| ImportData.ScanStatementLines | scripts/import-data.ts:129-136 | The statement pattern reads back exactly the tuples of a one-statement-per-line dump, in order. |
| ImportWords.ImportWord | import-words.cjs:18-71 | A word succeeds iff its verse is found and no call throws. An existing (verse, position) row then gets only its text and transliteration. Otherwise a row is inserted with null translation, root and part of speech. The verse table is untouched. |
| ImportWords.ImportBatch | import-words.cjs:12-74 | Success plus error equals the batch size, and the successes are exactly the words that land. Existing rows keep their pairs. The text the rows end up with is stated by `BatchKeeps` and `BatchCarriesLast`. |
| ImportWords.BatchKeeps | import-words.cjs:17-71 | A batch none of whose words falls on a (verse, position) pair leaves that pair's rows carrying what they carried. |
| ImportWords.BatchCarriesLast | import-words.cjs:17-71 | When no call of the batch throws, every row of each pair the batch falls on carries the text and transliteration of the last word of the batch on that pair. |
| ImportWords.ImportBatchesCarry | import-words.cjs:95-99 | The text facts of the first batch and of the remaining batches combine into those of all the batches, since the batches run in order. |
| ImportWords.ImportBatches | import-words.cjs:80-101 | Over all batches, success plus error equals the number of words, and the successes are the landing words. The verse table is untouched and existing pairs stay. The rows of a pair no word falls on keep their text. When no call throws, every landing word has its pair stored, and every row of a pair carries the text and transliteration of the last word on that pair. |
| ImportWords.Run | import-words.cjs:76-105 | Totals add up to the number of words and the successes are the landing words. The verse table is untouched and existing pairs stay. When no call throws, every word that finds its verse has its pair stored, and every row of its pair carries the text and transliteration of the last word in the file on that pair. |
| ImportWords.LandingAppend | import-words.cjs:91-101 | The landing words of a concatenation are those of each part, summed. |
| ImportWords.RerunAddsNoRow | import-words.cjs:32-64 | After a run in which no call threw, a second run over the same words adds no row. |
| UpdateTafsir.Lines | scripts/update-tafsir.ts:15 | Every line is non-blank and holds no newline, and the lines are a subsequence of the newline split. |
| UpdateTafsir.LinesOfJoin | scripts/update-tafsir.ts:15 | Lines joined by newlines come back as the non-blank ones among them, all of them when none is blank. |
| UpdateTafsir.BatchCount | scripts/update-tafsir.ts:21 | `Math.ceil(n / 50)`: the least count whose batches of 50 cover n lines. |
| UpdateTafsir.BatchAt | scripts/update-tafsir.ts:23-26 | Batch i is the slice at 50i, nonempty, of at most 50 lines, and of exactly 50 unless it is the last. |
| UpdateTafsir.BatchesAreChunks | scripts/update-tafsir.ts:20-26 | The batches are the fixed-size slicing of the lines and cover every line once, in order. |
| UpdateTafsir.QuoteFree | scripts/update-tafsir.ts:34 | The greedy `[^']+` run: the longest quote-free prefix, stopped by a quote or the end. |
| UpdateTafsir.ReadEscaped | scripts/update-tafsir.ts:34-38 | Reading an SQL literal undoes escaping: the text comes back, and reading stops at the closing quote. |
| UpdateTafsir.CaptureAtMatches | scripts/update-tafsir.ts:34 | The as-written capture at a position is the regular expression's match there, and the only one. |
| UpdateTafsir.CaptureFrom | scripts/update-tafsir.ts:33-34 | `match` gives the capture of the leftmost match, and nothing iff no position matches. |
| UpdateTafsir.ReplaceDoubledQuote | scripts/update-tafsir.ts:38 | The text is unchanged iff it has no doubled quote; otherwise it is one character shorter. |
| UpdateTafsir.ReplaceQuoteFree | scripts/update-tafsir.ts:34-38 | The replace never changes a quote-free capture, so it is dead code as written. |
| UpdateTafsir.Parse | scripts/update-tafsir.ts:33-38 | A line yields an update iff both patterns match; the key is nonempty and quote-free. |
| UpdateTafsir.TafsirOfLiteral | scripts/update-tafsir.ts:34-38 | For a commentary literal: the corrected reading gives the text back, the as-written one only its part before the first quote, and they agree iff the text has no quote. |
| UpdateTafsir.AsWrittenCutsAtQuote | scripts/update-tafsir.ts:34-38 | For the commentary `it''s` the script as written captures `it` and issues its update with it, while reading the whole literal gives `it's`. |
| UpdateTafsir.Issued | scripts/update-tafsir.ts:28-50 | At most one update per line; an update is issued iff some line parses to it and its call goes through. |
| UpdateTafsir.IssuedAllParsed | scripts/update-tafsir.ts:47-49 | A call that throws is caught per line: when none throws, every line that parses issues its update. |
| UpdateTafsir.Run | scripts/update-tafsir.ts:9-62 | The batch count is `ceil(n/50)`, the number of 50-line slices. The updates are those of the whole line list, in order, so batching changes nothing. |
| SurahList.FilterSurahs | client/src/pages/home.tsx:62-75 | An empty term keeps every surah. Otherwise a surah is kept iff the lower-cased term is in its lower-cased Tajik or English name or its number. The result is an order-preserving subsequence. |
| SurahList.SearchByNumber | client/src/pages/home-new.tsx:72-80 | Searching for a surah's own number keeps that surah. |
| SurahList.ScrollToPosition | client/src/pages/home.tsx:49-56 | The stored direction flips on every call. The target is the top exactly for `top` or a zero-height page. |
| SurahList.ClickTwice | client/src/pages/home-new.tsx:54-61 | Two clicks restore the stored direction, having visited the top and the bottom. |
| SurahList.LastReadLinkOfKey | client/src/pages/home.tsx:202 | For a stored key `s:v` the link is `/surah/{n}#verse-s-v`: only the first colon is replaced. |
| SurahList.LoadLastRead | client/src/pages/home.tsx:79-85 | No stored value gives no position. A value that fails to parse makes the effect throw. Otherwise the parsed position is shown. |
| SurahList.LoadLastReadGuarded | client/src/pages/home-new.tsx:84-94 | A value that fails to parse is caught and leaves no position; a parsed one is shown. |
| BismillahBanner.Bismillah | client/src/components/quran/Bismillah.tsx:12-34 | Nothing iff the surah is 1 or 9. Otherwise the tatweel Arabic line, with the Tajik line iff `showTranslation` is true (default false). |
| SurahPage.PreviousSurah | client/src/pages/surah.tsx:62-64 | n-1 iff n > 1, otherwise none. |
| SurahPage.NextSurah | client/src/pages/surah.tsx:66-68 | n+1 iff n < 114, otherwise none. |
| SurahPage.NeighboursInRange | client/src/pages/surah.tsx:62-68 | On a page 1..114 the neighbours stay in 1..114. Exactly the ends lack one. Stepping back then forward returns to the page. |
| SurahPage.SavedLastRead | client/src/pages/surah.tsx:30-41 | A record iff the surah is loaded and the page number is positive. It is always verse 1, keyed `n:1`, under the loaded surah's number and Tajik name. |
| SurahPage.SavedLinkTargetsFirstVerse | client/src/pages/surah.tsx:30-41 | The saved record's link continues at the first verse of the same surah. |
| SurahPage.BannerShown | client/src/pages/surah.tsx:122-124 | The banner shows iff the surah is loaded with verses, no verse 1 carries the tatweel Bismillah, and the surah is neither 1 nor 9. It never carries a translation. |
| SurahPage.PlaySurah | client/src/pages/surah.tsx:44-59 | No verses gives an error and plays nothing; otherwise the first verse's key is played. |
| Header.ButtonsMatchNavigation | client/src/components/layout/Header.tsx:51-59 | A button is disabled iff pressing it does nothing. An enabled button goes where the surah page's neighbour computation points. |
| Header.VerseOptions | client/src/components/layout/Header.tsx:208-212 | Exactly 1..versesCount, strictly ascending; nothing for a count of 0 or less. |
| Header.HandleVerseChange | client/src/components/layout/Header.tsx:67-73 | There is a scroll target iff a surah is current, and it is the anchor `verse-{surah number}-{picked value}`. |
| Header.AnchorIsVerseRowId | client/src/components/layout/Header.tsx:69 | Picking verse v scrolls to exactly the element id that the row of verse `surah:v` carries in `VerseItem.tsx` line 122: `verse-` followed by the key, with its first colon turned into a hyphen. |
| Header.OptionAnchorsDistinct | client/src/components/layout/Header.tsx:67-73 | Distinct options of the picker target distinct anchors. |
| BookmarkHook.FindByVerse | client/src/hooks/useBookmarks.ts:56 | When every entry carries its verse there is no error. A found entry is the first one for the verse, and nothing found means no entry is for it. |
| BookmarkHook.IsVerseBookmarked | client/src/hooks/useBookmarks.ts:49-63 | While loading or without data: not bookmarked, no id. Otherwise bookmarked iff some entry is for the verse. The id is exactly that of the first entry for the verse, or none when that id is 0 or there is no such entry. The loading flag is passed through. |
| BookmarkHook.ServerAnswerDecides | client/src/hooks/useBookmarks.ts:49-63 | Against the server's list for user 1, a verse shows as bookmarked iff the store holds a bookmark of user 1 for it. |
| BookmarkHook.AddThenListed | client/src/hooks/useBookmarks.ts:19-34 | Adding through the server passes validation and answers 201 with a bookmark of user 1. The list fetched afterwards shows the verse as bookmarked. |
| BookmarkHook.RemoveThenGone | client/src/hooks/useBookmarks.ts:36-47 | Removing a stored bookmark answers 204, and the list no longer holds it. |
| BookmarkHook.InvalidationMissesList | client/src/hooks/useBookmarks.ts:31 | The key invalidated on success does not prefix-match the list's query key. |
| BookmarkHook.InvalidatedKeyCorrected | client/src/hooks/useBookmarks.ts:15 | On success the invalidation matches the list's own key. |
| FloatingHeader.OnScroll | client/src/components/layout/FloatingHeader.tsx:19-26 | Shows when moving up past 100. Hides when moving down or at 50 or less. Otherwise visibility is kept. The last offset becomes y. |
| FloatingHeader.OnScrollKeepsInv | client/src/components/layout/FloatingHeader.tsx:19-26 | One scroll event keeps the header hidden near the top. |
| FloatingHeader.ScrollAllKeepsInv | client/src/components/layout/FloatingHeader.tsx:11-26 | From the initial state any run of scroll events keeps the header hidden within 50 pixels of the top. |
| FloatingHeader.ShownOnlyAfterUpwardScroll | client/src/components/layout/FloatingHeader.tsx:11-26 | From the initial state the header shows only after an event that lies more than 50 pixels down and was not a downward move. |

## Left out

- Database I/O is not modelled. Drizzle and `postgres` queries, the DDL, transactions and connection handling are replaced by sequences of rows. `SERIAL` ids are the next id above the table. `onConflictDoNothing`, `LIKE` and `COUNT`/`HAVING` are modelled as their row-level effect. Where exceptions are modelled, whether a call raises one is an argument (see above).
- The default user that `import-data.ts` inserts is not modelled, because it touches no table the rest of the model reads. An exception from that insert is not modelled either: it comes after every modelled write and after the closing log line.
- React rendering, routing, react-query caching beyond key matching, `localStorage` and the browser window are not modelled. Only the values the components compute are.
- `JSON.parse` is a parameter, and so are Unicode `toLowerCase` and JQuranTree internals (documents, tokens, word types, Buckwalter transliteration). They are foreign code.
- The key order of json-simple's `HashMap` in `WordExtractor.java` is unspecified. The result is a map, not bytes.
- `fetchTajweed*` in `client/src/lib/tajweed.ts` is not modelled: it is network code.
- The `setTimeout` pause between tafsir batches, progress logs and `console` output are not modelled. They change no data.
- `scripts/fix-bismillah.ts` is not modelled: it runs entirely inside Postgres `REGEXP_REPLACE`.
- `import-word-data.js` is not modelled: its `where` depends on drizzle semantics that are not visible.
- The psql tafsir scripts are not modelled: they shell out to psql. Their slicing is the same partition as `UpdateTafsir.BatchesAreChunks`.
- Deployment and build scripts are not modelled.
- Audio playback and its floating-point timing are not modelled.
- The scroll offset is an integer, while the browser's is floating point.
- The `tafsir` column is not in `shared/schema.ts`, so `UpdateTafsir.Run` states the updates it issues, not a table.
- The search overlay passes a surah number where `searchVerses` compares a surah id. `MemStorage.SearchVerses` follows the storage code as written.
- Java `Integer.parseInt` is modelled over ASCII digits only; Unicode decimal digits in other scripts are left out.
- Rebuild.Run: models the script as it evidently intends. As written, the database part throws before any write (`Rebuild.RunAsWritten`).
- ImportData.RunWith: `sql.end()` in the `finally` block is taken to succeed. If it threw, the top-level `catch` would exit 1.
- QuranWords.Run: the file after a failed write is any prefix of the text written so far, because the buffered `FileWriter` is never closed on that path. Which characters it flushed is not modelled. Each progress line prints the chapter's own number, so `getChapterNumber()` is taken to return the number it was asked for.
- WordService.GetVerseWordAnalysis: the 500 body's `error` field, which holds the driver's message, is not modelled. Neither is the `success: false` field of the error bodies. Only the status and `message` are.
- WordService.InsertAll: an insert that throws is taken to use up no serial id. Postgres may use one up anyway; the model does not say which id the next row gets after a failure.
- AddMissingVerses.Run, FixAllBismillah.Run, FixMissingVerses.Repair, FixMissingVerses.Run, Rebuild.Run, ListedVerses.RunRemaining and ListedVerses.RunRenumbering: the only failure they model is a unique-key clash computed from the rows. Any other query or connection exception, which reaches the script's top-level `.catch` and exits 1 (for example `scripts/fix-remaining-verses.ts` lines 116-119), is not modelled.
- Json.Value: a JSON number is an integer (`Number(n: int)`). In the source, numbers in request bodies such as `user_id` and `verse_id` are doubles, so a fractional value is not expressible in the model.
- WordService.SimpleWordAnalysis: one `now` stands for every `created_at`. The service calls `new Date()` once per row, so its timestamps may differ from row to row.
- FloatingHeader.OnScroll: each scroll event is taken to see the latest `lastScrollY`. In the component the listener is re-registered only after a render, so events between renders may read a stale offset.
- Tajweed.ParseTajweed: the replacement is stated for every table key. The `console.warn` of the unreachable fallback is left out.
- Text.ParseIntOfIntToString: integers are unbounded. A JavaScript number is a double, so in the source the round trip holds only for safe integers (magnitude at most 2^53); from 1e21 on `toString` writes exponent notation and `parseInt` reads back only the digits before the `e`. The numbers that reach it here are surah and verse numbers and row ids.
- SurahPage.PlaySurah: the `surahName` argument passed to `playAudio` is not modelled; only the key of the verse played is.
- ImportWords.Run: one `now` stands for every `created_at`. The script calls `new Date()` once per row, so its timestamps may differ from row to row.
- SurahList.LoadLastRead: `parse` answers `None` for any text that does not give a last-read position, and that counts as the throw of `JSON.parse`. Text that `JSON.parse` reads as `null` does not throw in the source: the page then shows no position. The model reports a failure for it instead. Other JSON that is not a position object is not modelled either.

## Findings

| source | as written | input that shows it | evidently intended | confidence | as-written member | corrected member |
|---|---|---|---|---|---|---|
| scripts/fix-missing-verses.ts:180-186 | the first `\((.*?)\)` group of an `INSERT INTO` line is taken as the verse tuple | ``INSERT INTO `quran_text` (`index`, `sura`, `aya`, `text`) VALUES (1, 1, 1, 'x');``: the first group is the column list, so `sura` is `NaN` and no verse is ever found | read the tuple after `VALUES` | high; not executed | FixMissingVerses.AsWrittenInsertsNothing | FixMissingVerses.IntendedReadsEveryTuple |
| client/src/hooks/useBookmarks.ts:31 | both mutations invalidate the key `["/api/bookmarks"]` | a successful add: the list is cached under `["/api/bookmarks?userId=1"]`, whose one element differs, so the list stays stale | invalidate the list's own key | medium; not executed | BookmarkHook.InvalidationMissesList | BookmarkHook.InvalidatedKeyCorrected |
| scripts/update-tafsir.ts:34 | the commentary is captured by `[^']+`, so it ends at the first quote and the `''` replace never fires | `UPDATE verses SET tafsir = 'it''s' WHERE unique_key = '1:1';` captures `it` and issues the update with it (the `tafsir` column is not declared in `shared/schema.ts`, so what the table then holds is not shown) | read the whole literal, undoing doubled quotes | high; not executed | UpdateTafsir.AsWrittenCutsAtQuote | UpdateTafsir.TafsirOfLiteral |
| scripts/rebuild-quran-data.ts:210-215 | `getSurahIdsMap` and the upsert read `surahs` and `verses`, which the imports rename to `surahsTable` and `versesTable` | any run that parses the dump: the first `processBatch` calls `getSurahIdsMap`, which throws a `ReferenceError` before any write | use the imported tables | high; not executed | Rebuild.AsWrittenStoresNothing | Rebuild.Run |

=== FILE: addmissing.dfy ===
/**
 * `scripts/add-missing-verses.ts`: for every surah with fewer stored verses
 * than its `verses_count`, the verse numbers it lacks are restored from a
 * fixed table of 19 verses; a missing verse outside the table is reported
 * and left missing. The loop is the one `scripts/fix-missing-verses.ts`
 * runs, with the table in place of the parsed dump.
 */
module AddMissingVerses {
  import opened Wrappers
  import opened Text
  import opened Schema
  import opened Corpus
  import opened ListedVerses
  import opened FixMissingVerses

  /** The verses the script knows, in the order of its `if … else if` chain. */
  const Known: seq<Item> := [
    Item(3, 67, "مَا كَانَ إِبْرَاهِيمُ يَهُودِيًّا وَلَا نَصْرَانِيًّا وَلَـٰكِن كَانَ حَنِيفًا مُّسْلِمًا وَمَا كَانَ مِنَ الْمُشْرِكِينَ"),
    Item(8, 17, "فَلَمْ تَقْتُلُوهُمْ وَلَـٰكِنَّ اللَّهَ قَتَلَهُمْ ۚ وَمَا رَمَيْتَ إِذْ رَمَيْتَ وَلَـٰكِنَّ اللَّهَ رَمَىٰ ۚ وَلِيُبْلِيَ الْمُؤْمِنِينَ مِنْهُ بَلَاءً حَسَنًا ۚ إِنَّ اللَّهَ سَمِيعٌ عَلِيمٌ"),
    Item(9, 85, "وَلَا تُعْجِبْكَ أَمْوَالُهُمْ وَأَوْلَادُهُمْ ۚ إِنَّمَا يُرِيدُ اللَّهُ أَن يُعَذِّبَهُم بِهَا فِي الدُّنْيَا وَتَزْهَقَ أَنفُسُهُمْ وَهُمْ كَافِرُونَ"),
    Item(33, 18, "قَدْ يَعْلَمُ اللَّهُ الْمُعَوِّقِينَ مِنكُمْ وَالْقَائِلِينَ لِإِخْوَانِهِمْ هَلُمَّ إِلَيْنَا ۖ وَلَا يَأْتُونَ الْبَأْسَ إِلَّا قَلِيلًا"),
    Item(33, 32, "يَا نِسَاءَ النَّبِيِّ لَسْتُنَّ كَأَحَدٍ مِّنَ النِّسَاءِ ۚ إِنِ اتَّقَيْتُنَّ فَلَا تَخْضَعْنَ بِالْقَوْلِ فَيَطْمَعَ الَّذِي فِي قَلْبِهِ مَرَضٌ وَقُلْنَ قَوْلًا مَّعْرُوفًا"),
    Item(40, 35, "الَّذِينَ يُجَادِلُونَ فِي آيَاتِ اللَّهِ بِغَيْرِ سُلْطَانٍ أَتَاهُمْ ۖ كَبُرَ مَقْتًا عِندَ اللَّهِ وَعِندَ الَّذِينَ آمَنُوا ۚ كَذَٰلِكَ يَطْبَعُ اللَّهُ عَلَىٰ كُلِّ قَلْبِ مُتَكَبِّرٍ جَبَّارٍ"),
    Item(47, 11, "ذَٰلِكَ بِأَنَّ اللَّهَ مَوْلَى الَّذِينَ آمَنُوا وَأَنَّ الْكَافِرِينَ لَا مَوْلَىٰ لَهُمْ"),
    Item(47, 30, "وَلَوْ نَشَاءُ لَأَرَيْنَاكَهُمْ فَلَعَرَفْتَهُم بِسِيمَاهُمْ ۚ وَلَتَعْرِفَنَّهُمْ فِي لَحْنِ الْقَوْلِ ۚ وَاللَّهُ يَعْلَمُ أَعْمَالَكُمْ"),
    Item(48, 6, "وَيُعَذِّبَ الْمُنَافِقِينَ وَالْمُنَافِقَاتِ وَالْمُشْرِكِينَ وَالْمُشْرِكَاتِ الظَّانِّينَ بِاللَّهِ ظَنَّ السَّوْءِ ۚ عَلَيْهِمْ دَائِرَةُ السَّوْءِ ۖ وَغَضِبَ اللَّهُ عَلَيْهِمْ وَلَعَنَهُمْ وَأَعَدَّ لَهُمْ جَهَنَّمَ ۖ وَسَاءَتْ مَصِيرًا"),
    Item(48, 15, "سَيَقُولُ الْمُخَلَّفُونَ إِذَا انطَلَقْتُمْ إِلَىٰ مَغَانِمَ لِتَأْخُذُوهَا ذَرُونَا نَتَّبِعْكُمْ ۖ يُرِيدُونَ أَن يُبَدِّلُوا كَلَامَ اللَّهِ ۚ قُل لَّن تَتَّبِعُونَا كَذَٰلِكُمْ قَالَ اللَّهُ مِن قَبْلُ ۖ فَسَيَقُولُونَ بَلْ تَحْسُدُونَنَا ۚ بَلْ كَانُوا لَا يَفْقَهُونَ إِلَّا قَلِيلًا"),
    Item(48, 23, "سُنَّةَ اللَّهِ الَّتِي قَدْ خَلَتْ مِن قَبْلُ ۖ وَلَن تَجِدَ لِسُنَّةِ اللَّهِ تَبْدِيلًا"),
    Item(63, 7, "هُمُ الَّذِينَ يَقُولُونَ لَا تُنفِقُوا عَلَىٰ مَنْ عِندَ رَسُولِ اللَّهِ حَتَّىٰ يَنفَضُّوا ۗ وَلِلَّهِ خَزَائِنُ السَّمَاوَاتِ وَالْأَرْضِ وَلَـٰكِنَّ الْمُنَافِقِينَ لَا يَفْقَهُونَ"),
    Item(64, 9, "يَوْمَ يَجْمَعُكُمْ لِيَوْمِ الْجَمْعِ ۖ ذَٰلِكَ يَوْمُ التَّغَابُنِ ۗ وَمَن يُؤْمِن بِاللَّهِ وَيَعْمَلْ صَالِحًا يُكَفِّرْ عَنْهُ سَيِّئَاتِهِ وَيُدْخِلْهُ جَنَّاتٍ تَجْرِي مِن تَحْتِهَا الْأَنْهَارُ خَالِدِينَ فِيهَا أَبَدًا ۚ ذَٰلِكَ الْفَوْزُ الْعَظِيمُ"),
    Item(65, 6, "أَسْكِنُوهُنَّ مِنْ حَيْثُ سَكَنتُم مِّن وُجْدِكُمْ وَلَا تُضَارُّوهُنَّ لِتُضَيِّقُوا عَلَيْهِنَّ ۚ وَإِن كُنَّ أُولَاتِ حَمْلٍ فَأَنفِقُوا عَلَيْهِنَّ حَتَّىٰ يَضَعْنَ حَمْلَهُنَّ ۚ فَإِنْ أَرْضَعْنَ لَكُمْ فَآتُوهُنَّ أُجُورَهُنَّ ۖ وَأْتَمِرُوا بَيْنَكُم بِمَعْرُوفٍ ۖ وَإِن تَعَاسَرْتُمْ فَسَتُرْضِعُ لَهُ أُخْرَىٰ"),
    Item(68, 43, "خَاشِعَةً أَبْصَارُهُمْ تَرْهَقُهُمْ ذِلَّةٌ ۖ وَقَدْ كَانُوا يُدْعَوْنَ إِلَى السُّجُودِ وَهُمْ سَالِمُونَ"),
    Item(69, 32, "ثُمَّ فِي سِلْسِلَةٍ ذَرْعُهَا سَبْعُونَ ذِرَاعًا فَاسْلُكُوهُ"),
    Item(71, 15, "أَلَمْ تَرَوْا كَيْفَ خَلَقَ اللَّهُ سَبْعَ سَمَاوَاتٍ طِبَاقًا"),
    Item(72, 6, "وَأَنَّهُ كَانَ رِجَالٌ مِّنَ الْإِنسِ يَعُوذُونَ بِرِجَالٍ مِّنَ الْجِنِّ فَزَادُوهُمْ رَهَقًا"),
    Item(81, 15, "فَلَا أُقْسِمُ بِالْخُنَّسِ")
  ]

  /** A table entry in the shape of a parsed dump row. */
  function AsParsed(it: Item): ParsedVerse {
    ParsedVerse(Int(0), Int(it.surah), Int(it.verse), it.arabic)
  }

  /** The table as the fill loop reads it. */
  function KnownRows(): (r: seq<ParsedVerse>)
    ensures |r| == |Known|
    ensures forall i :: 0 <= i < |r| ==> r[i] == AsParsed(Known[i])
  {
    seq(|Known|, i requires 0 <= i < |Known| => AsParsed(Known[i]))
  }

  /** No (surah, verse) pair appears twice in the table. */
  lemma KnownPairsDistinct()
    ensures forall i, j :: 0 <= i < j < |Known| ==> (Known[i].surah, Known[i].verse) != (Known[j].surah, Known[j].verse)
  {
  }

  /**
   * The text chosen for verse `n` of surah `number`: the table's entry for
   * that pair, or nothing when the table has none.
   */
  lemma LookupIsTable(number: int, n: int)
    ensures Original(KnownRows(), number, n).Some? <==>
      exists i :: 0 <= i < |Known| && Known[i].surah == number && Known[i].verse == n
    ensures forall i :: 0 <= i < |Known| && Known[i].surah == number && Known[i].verse == n ==>
      Original(KnownRows(), number, n).value.text == Known[i].arabic
  {
    var rows := KnownRows();
    var r := Original(rows, number, n);
    if exists i :: 0 <= i < |Known| && Known[i].surah == number && Known[i].verse == n {
      var i :| 0 <= i < |Known| && Known[i].surah == number && Known[i].verse == n;
      assert rows[i].sura == Int(number) && rows[i].aya == Int(n);
    }
    if r.Some? {
      var m :| 0 <= m < |rows| && rows[m] == r.value && rows[m].sura == Int(number) && rows[m].aya == Int(n);
      assert Known[m].surah == number && Known[m].verse == n;
      KnownPairsDistinct();
    }
  }

  /** The last nine entries are the list of `scripts/fix-remaining-verses.ts`, texts included. */
  lemma KnownEndsWithRemaining()
    ensures Known[10..] == Remaining
  {
  }

  /**
   * The script. The short surahs are taken once, before any insert; each
   * one's missing numbers are read when its turn comes; an insert that
   * throws ends the script with exit 1.
   */
  function Run(db: Db): (r: Finish)
    ensures r.db.surahs == db.surahs && Appends(db.verses, r.db.verses)
    ensures Keyed(db.verses) ==> Keyed(r.db.verses)
    ensures r.exitCode in {0, 1}
    ensures r.exitCode == 0 ==> forall s, n ::
      (s in db.surahs && s.versesCount > Count(db.verses, s.id) && 1 <= n <= s.versesCount &&
       Original(KnownRows(), s.number, n).Some?) ==> n in Numbers(r.db.verses, s.id)
    ensures RestoredFor(db.verses, r.db.verses, KnownRows(), Short(db))
  {
    var step := FillAll(db.verses, db.verses, KnownRows(), Short(db));
    Finish(Db(db.surahs, step.verses), if step.error.None? then 0 else 1)
  }

  /**
   * Every row the script adds is a table verse of a short surah: keyed
   * `surah:verse`, with the table's text, no translation, and the page,
   * juz and audio URL of a repair row.
   */
  lemma AddedRowsFromTable(db: Db, k: int)
    requires |db.verses| <= k < |Run(db).db.verses|
    ensures var v := Run(db).db.verses[k];
      exists s, i :: s in Short(db) && 0 <= i < |Known| && v.surahId == s.id &&
        Known[i].surah == s.number && Known[i].verse == v.verseNumber && v.arabicText == Known[i].arabic &&
        v.uniqueKey == VerseKey(s.number, v.verseNumber) && v.tajikText == ""
  {
    var v := Run(db).db.verses[k];
    assert RestoredForOne(v, KnownRows(), Short(db));
    var s :| s in Short(db) && Restored(v, KnownRows(), s);
    LookupIsTable(s.number, v.verseNumber);
    var i :| 0 <= i < |Known| && Known[i].surah == s.number && Known[i].verse == v.verseNumber;
  }
}

=== FILE: bookmarkhook.dfy ===
/**
 * `client/src/hooks/useBookmarks.ts`: the client's view of the bookmarks of
 * the fixed user 1 — whether a verse is bookmarked and under which id — and
 * the requests that add and remove a bookmark, with the query-cache key they
 * invalidate afterwards.
 *
 * The bookmark list is what `GET /api/bookmarks?userId=1` answers. A query
 * key is a sequence of strings; TanStack Query invalidates every cached query
 * whose key starts with the given key, element by element.
 */
module BookmarkHook {
  import opened Wrappers
  import opened Text
  import opened Schema
  import opened MemStorage
  import Json
  import Routes

  /** The user every bookmark of this client belongs to. */
  const MockUserId: int := 1

  /** The key under which the bookmark list is cached and fetched: `/api/bookmarks?userId=1`. */
  const BookmarksQueryKey: seq<string> := ["/api/bookmarks?userId=" + IntToString(MockUserId)]

  /** What the hook reports for one verse. */
  datatype Status = Status(isBookmarked: bool, bookmarkId: Option<int>, isLoading: bool)

  /** `b.verse.id === verseId` is defined on entries whose verse is present. */
  predicate HasVerse(e: BookmarkWithVerse, verseId: int) {
    e.verse.Some? && e.verse.value.id == verseId
  }

  /** Entry `i` is the first entry for the verse. */
  predicate FirstFor(entries: seq<BookmarkWithVerse>, i: int, verseId: int) {
    0 <= i < |entries| && HasVerse(entries[i], verseId) &&
    forall j :: 0 <= j < i ==> !HasVerse(entries[j], verseId)
  }

  /**
   * `bookmarks.find(b => b.verse.id === verseId)`: the first entry for the
   * verse. An entry without a verse met before a match makes the callback
   * throw (`Err`).
   */
  function FindByVerse(entries: seq<BookmarkWithVerse>, verseId: int): (r: Result<Option<BookmarkWithVerse>, string>)
    ensures (forall i :: 0 <= i < |entries| ==> entries[i].verse.Some?) ==> r.Ok?
    ensures r.Ok? && r.value.None? ==> forall i :: 0 <= i < |entries| ==> !HasVerse(entries[i], verseId)
    ensures r.Ok? && r.value.Some? ==> exists i :: FirstFor(entries, i, verseId) && entries[i] == r.value.value
    decreases |entries|
  {
    if |entries| == 0 then Ok(None)
    else
      match entries[0].verse
      case None => Err("TypeError: Cannot read properties of undefined (reading 'id')")
      case Some(v) =>
        if v.id == verseId then
          assert FirstFor(entries, 0, verseId);
          Ok(Some(entries[0]))
        else
          var r := FindByVerse(entries[1..], verseId);
          assert forall i :: 0 < i < |entries| ==> entries[i] == entries[1..][i - 1];
          assert r.Ok? && r.value.Some? ==> exists i :: FirstFor(entries, i, verseId) && entries[i] == r.value.value by {
            if r.Ok? && r.value.Some? {
              var k :| FirstFor(entries[1..], k, verseId) && entries[1..][k] == r.value.value;
              assert entries[k + 1] == entries[1..][k];
              assert forall j :: 0 < j <= k ==> entries[j] == entries[1..][j - 1];
              assert FirstFor(entries, k + 1, verseId);
            }
          }
          r
  }

  /**
   * `useIsVerseBookmarked`: while loading or without data, not bookmarked
   * and no id. Otherwise bookmarked iff some entry is for the verse; the id
   * is the first such entry's bookmark id, and a 0 id reads as none.
   */
  function IsVerseBookmarked(isLoading: bool, data: Option<seq<BookmarkWithVerse>>, verseId: int): (r: Result<Status, string>)
    ensures isLoading || data.None? ==> r == Ok(Status(false, None, isLoading))
    ensures !isLoading && data.Some? && (forall i :: 0 <= i < |data.value| ==> data.value[i].verse.Some?) ==> r.Ok?
    ensures r.Ok? && !isLoading && data.Some? ==>
      (r.value.isBookmarked <==> exists i :: 0 <= i < |data.value| && HasVerse(data.value[i], verseId))
    ensures r.Ok? && r.value.bookmarkId.Some? ==> r.value.isBookmarked && r.value.bookmarkId.value != 0
    ensures r.Ok? && r.value.bookmarkId.Some? ==>
      exists i :: FirstFor(data.value, i, verseId) && data.value[i].bookmark.id == r.value.bookmarkId.value
    ensures r.Ok? && !isLoading && data.Some? ==> forall i :: FirstFor(data.value, i, verseId) ==>
      r.value.bookmarkId == (if data.value[i].bookmark.id != 0 then Some(data.value[i].bookmark.id) else None)
    ensures r.Ok? ==> r.value.isLoading == isLoading
  {
    if isLoading || data.None? then Ok(Status(false, None, isLoading))
    else
      match FindByVerse(data.value, verseId)
      case Err(e) => Err(e)
      case Ok(found) =>
        var id := if found.Some? && found.value.bookmark.id != 0 then Some(found.value.bookmark.id) else None;
        Ok(Status(found.Some?, id, isLoading))
  }

  /** The user's bookmarks all point to stored verses. */
  predicate VersesPresent(st: Store, userId: int) {
    forall b :: b in st.bookmarks && b.userId == userId ==> GetVerse(st, b.verseId).Some?
  }

  /**
   * Against the server's answer for user 1, a verse shows as bookmarked
   * exactly when the store holds a bookmark of user 1 for it.
   */
  lemma ServerAnswerDecides(st: Store, verseId: int)
    requires VersesPresent(st, MockUserId)
    ensures var r := IsVerseBookmarked(false, Some(GetBookmarksByUser(st, MockUserId)), verseId);
      r.Ok? && (r.value.isBookmarked <==> exists b :: b in st.bookmarks && b.userId == MockUserId && b.verseId == verseId)
  {
    var list := GetBookmarksByUser(st, MockUserId);
    ListedEntries(st, verseId);
    var r := IsVerseBookmarked(false, Some(list), verseId);
    if exists b :: b in st.bookmarks && b.userId == MockUserId && b.verseId == verseId {
      var b :| b in st.bookmarks && b.userId == MockUserId && b.verseId == verseId;
      var i :| 0 <= i < |list| && list[i].bookmark == b;
      assert HasVerse(list[i], verseId);
    }
  }

  /**
   * The entries of the server's list: each holds its verse, is for a verse
   * exactly when its bookmark names it, and every bookmark of the user is
   * listed.
   */
  lemma ListedEntries(st: Store, verseId: int)
    requires VersesPresent(st, MockUserId)
    ensures var list := GetBookmarksByUser(st, MockUserId);
      (forall i :: 0 <= i < |list| ==> list[i].verse.Some?) &&
      (forall i :: 0 <= i < |list| ==> (HasVerse(list[i], verseId) <==> list[i].bookmark.verseId == verseId)) &&
      (forall i :: 0 <= i < |list| ==> list[i].bookmark in st.bookmarks && list[i].bookmark.userId == MockUserId) &&
      (forall b :: b in st.bookmarks && b.userId == MockUserId ==> exists i :: 0 <= i < |list| && list[i].bookmark == b)
  {
    var list := GetBookmarksByUser(st, MockUserId);
    var own := UserBookmarks(st, MockUserId);
    forall i | 0 <= i < |list|
      ensures list[i].verse.Some? && (HasVerse(list[i], verseId) <==> list[i].bookmark.verseId == verseId)
      ensures list[i].bookmark in st.bookmarks
    {
      assert own[i] in own;
      VerseHasId(st, own[i].verseId);
    }
    forall b | b in st.bookmarks && b.userId == MockUserId
      ensures exists i :: 0 <= i < |list| && list[i].bookmark == b
    {
      assert b in own;
      var i :| 0 <= i < |own| && own[i] == b;
      assert list[i].bookmark == b;
    }
  }

  /** A verse found by id carries that id. */
  lemma VerseHasId(st: Store, id: int)
    ensures GetVerse(st, id).Some? ==> GetVerse(st, id).value.id == id
  {
  }

  /** The body `useAddBookmark` posts: `{ user_id: 1, verse_id }`. */
  function AddBookmarkBody(verseId: int): Json.Value {
    Json.Obj(map["user_id" := Json.Number(MockUserId), "verse_id" := Json.Number(verseId)])
  }

  /** The route `useRemoveBookmark` deletes: `/bookmarks/{id}` under `/api`. */
  function RemoveBookmarkParam(bookmarkId: int): string {
    IntToString(bookmarkId)
  }

  /**
   * Adding a bookmark through the server: the body passes validation, the
   * reply is 201 with a bookmark of user 1 for the verse, and the bookmark
   * list fetched afterwards shows the verse as bookmarked under that id.
   */
  lemma AddThenListed(st: Store, verseId: int, now: int)
    requires Valid(st) && VersesPresent(st, MockUserId) && GetVerse(st, verseId).Some?
    ensures var posted := Routes.PostBookmarkRoute(st, AddBookmarkBody(verseId), now);
      posted.reply.Body? && posted.reply.status == 201 &&
      posted.reply.body.userId == MockUserId && posted.reply.body.verseId == verseId &&
      var r := IsVerseBookmarked(false, Some(GetBookmarksByUser(posted.store, MockUserId)), verseId);
      r.Ok? && r.value.isBookmarked
  {
    var body := AddBookmarkBody(verseId);
    assert Routes.ValidBookmarkBody(body);
    var posted := Routes.PostBookmarkRoute(st, body, now);
    var st' := posted.store;
    var b := posted.reply.body;
    assert st'.verses == st.verses;
    assert GetVerse(st', verseId) == GetVerse(st, verseId);
    assert b in st'.bookmarks;
    assert VersesPresent(st', MockUserId) by {
      forall x | x in st'.bookmarks && x.userId == MockUserId
        ensures GetVerse(st', x.verseId).Some?
      {
        if x != b {
          assert x in st.bookmarks;
        }
      }
    }
    ServerAnswerDecides(st', verseId);
  }

  /** Removing a bookmark the store holds answers 204, and the list no longer holds it. */
  lemma RemoveThenGone(st: Store, b: Bookmark)
    requires b in st.bookmarks
    ensures var d := Routes.DeleteBookmarkRoute(st, RemoveBookmarkParam(b.id));
      d.reply == Routes.NoContent && b !in d.store.bookmarks
  {
    ParseIntOfIntToString(b.id, true);
    var i :| 0 <= i < |st.bookmarks| && st.bookmarks[i] == b;
  }

  /** TanStack Query's prefix match of a query key against an invalidation key. */
  predicate KeyMatches(queryKey: seq<string>, filter: seq<string>) {
    |filter| <= |queryKey| && queryKey[..|filter|] == filter
  }

  /**
   * The key both mutations invalidate, as written: `["/api/bookmarks"]`,
   * passed to `invalidateQueries` only from `onSuccess`.
   */
  function InvalidatedKey(success: bool): (r: Option<seq<string>>)
    ensures r.Some? <==> success
    ensures r.Some? ==> r.value == ["/api/bookmarks"]
  {
    if success then Some(["/api/bookmarks"]) else None
  }

  /**
   * The invalidation key as written does not reach the bookmark list: its
   * one element differs from the list's key string, so a successful add or
   * remove leaves the cached list in place.
   */
  lemma InvalidationMissesList(success: bool)
    ensures InvalidatedKey(success).Some? ==> !KeyMatches(BookmarksQueryKey, InvalidatedKey(success).value)
  {
    assert BookmarksQueryKey[0] != "/api/bookmarks" by {
      assert |BookmarksQueryKey[0]| != |"/api/bookmarks"|;
    }
  }

  /** The intended invalidation: the list's own key, so a successful mutation marks the list stale. */
  function InvalidatedKeyCorrected(success: bool): (r: Option<seq<string>>)
    ensures r.Some? <==> success
    ensures r.Some? ==> KeyMatches(BookmarksQueryKey, r.value) && |r.value| > 0
  {
    if success then Some(BookmarksQueryKey) else None
  }
}

=== FILE: console.dfy ===
/**
 * What a command-line program leaves behind: the text it wrote to standard
 * output and standard error, and its exit status. `println` writes a line
 * followed by `\n`.
 */
module Console {
  import opened Wrappers

  datatype Outcome = Outcome(stdout: string, stderr: string, exitCode: int)

  /** A run that printed one line to standard output and called `System.exit(code)`. */
  function OutLine(line: string, code: int): Outcome {
    Outcome(line + "\n", "", code)
  }

  /** A run that printed one line to standard error and ended with `code`. */
  function ErrLine(line: string, code: int): Outcome {
    Outcome("", line + "\n", code)
  }

  /** The message of the `NumberFormatException` that `Integer.parseInt(s)` throws for a malformed decimal numeral. */
  function NumberFormatMessage(s: string): string {
    "For input string: \"" + s + "\""
  }

  /** A Java exception as the catch blocks see it: its class name and `getMessage()`, which may be `null`. */
  datatype Thrown = Thrown(className: string, message: Option<string>)

  /** The `NumberFormatException` of `Integer.parseInt(s)` for a malformed numeral. */
  function NumberFormat(s: string): Thrown {
    Thrown("java.lang.NumberFormatException", Some(NumberFormatMessage(s)))
  }

  /** `"" + e.getMessage()`: string concatenation writes a `null` message as `null`. */
  function MessageText(e: Thrown): string {
    if e.message.Some? then e.message.value else "null"
  }

  /**
   * `System.err.println("Error: " + e.getMessage()); e.printStackTrace();`:
   * the error line, then `Throwable.toString()` (the class name, followed by
   * `: ` and the message when there is one) on a line of its own, then the
   * `\tat …` frame lines, which are the JVM's and come in as `frames`.
   */
  function ReportText(e: Thrown, frames: string): (r: string)
    ensures e.message.Some? ==>
      r == "Error: " + e.message.value + "\n" + e.className + ": " + e.message.value + "\n" + frames
    ensures e.message.None? ==> r == "Error: null\n" + e.className + "\n" + frames
  {
    "Error: " + MessageText(e) + "\n" + e.className + (if e.message.Some? then ": " + e.message.value else "") + "\n" + frames
  }
}

=== FILE: corpus.dfy ===
/**
 * The `surahs` and `verses` tables as the corpus-repair scripts see them,
 * and what those scripts share: the `MAX(id) + 1` verse id, an insert that
 * the primary key and the unique `unique_key` column can refuse, the verse
 * count of a surah, and the verse numbers a surah is missing.
 */
module Corpus {
  import opened Wrappers
  import opened Seqs
  import opened Schema

  /** The two tables, rows in storage order. */
  datatype Db = Db(surahs: seq<Surah>, verses: seq<Verse>)

  /** How a script ends: the tables as it left them and its exit status. */
  datatype Finish = Finish(db: Db, exitCode: int)

  /** The verse table as a loop of writes leaves it, and the error that ended the loop, if any. */
  datatype Step = Step(verses: seq<Verse>, error: Option<string>)

  /** `b` is `a` with rows appended. */
  predicate Appends(a: seq<Verse>, b: seq<Verse>) {
    |a| <= |b| && b[..|a|] == a
  }

  /** `SELECT MAX(id) FROM verses`: SQL NULL for an empty table. */
  function MaxVerseId(verses: seq<Verse>): (r: Option<int>)
    ensures r.None? <==> |verses| == 0
    ensures r.Some? ==> forall i :: 0 <= i < |verses| ==> verses[i].id <= r.value
    ensures r.Some? ==> exists i :: 0 <= i < |verses| && verses[i].id == r.value
    decreases |verses|
  {
    if |verses| == 0 then None
    else
      var init := verses[..|verses| - 1];
      var m := MaxVerseId(init);
      var last := verses[|verses| - 1].id;
      assert forall i :: 0 <= i < |init| ==> init[i] == verses[i];
      if m.None? || m.value < last then Some(last) else m
  }

  /**
   * `(max || 0) + 1`: a NULL maximum counts as 0. The id is above every id
   * in the table, and it is the least such when the table is not empty.
   */
  function NextVerseId(verses: seq<Verse>): (r: int)
    ensures forall i :: 0 <= i < |verses| ==> verses[i].id < r
    ensures |verses| == 0 ==> r == 1
    ensures |verses| > 0 ==> exists i :: 0 <= i < |verses| && verses[i].id == r - 1
  {
    MaxVerseId(verses).GetOr(0) + 1
  }

  /** The table constraints: `id` is the primary key and `unique_key` is unique. */
  predicate Keyed(verses: seq<Verse>) {
    forall i, j :: 0 <= i < j < |verses| ==> verses[i].id != verses[j].id && verses[i].uniqueKey != verses[j].uniqueKey
  }

  /** The row clashes with no stored row on either constraint. */
  predicate Fits(verses: seq<Verse>, v: Verse) {
    forall i :: 0 <= i < |verses| ==> verses[i].id != v.id && verses[i].uniqueKey != v.uniqueKey
  }

  const DuplicateKey: string := "duplicate key value violates unique constraint"

  /** `db.insert(verses).values(row)`: the row is appended, or the insert throws on a clash. */
  function InsertVerse(verses: seq<Verse>, v: Verse): (r: Result<seq<Verse>, string>)
    ensures r.Ok? <==> Fits(verses, v)
    ensures r.Ok? ==> |r.value| == |verses| + 1 && r.value[..|verses|] == verses && r.value[|verses|] == v
    ensures r.Err? ==> r.error == DuplicateKey
  {
    if Fits(verses, v) then Ok(verses + [v]) else Err(DuplicateKey)
  }

  /** An accepted insert keeps the constraints. */
  lemma InsertKeepsKeyed(verses: seq<Verse>, v: Verse)
    requires Keyed(verses) && InsertVerse(verses, v).Ok?
    ensures Keyed(InsertVerse(verses, v).value)
  {
  }

  /** A row numbered with `NextVerseId` never clashes on the id, so it is refused only for its key. */
  lemma NextIdInsert(verses: seq<Verse>, v: Verse)
    requires v.id == NextVerseId(verses)
    ensures InsertVerse(verses, v).Ok? <==> forall i :: 0 <= i < |verses| ==> verses[i].uniqueKey != v.uniqueKey
  {
  }

  /** The row the repair scripts insert: no translation yet, page and juz 0, an empty audio URL. */
  function NewVerse(id: int, surahId: int, verseNumber: int, arabic: string, key: string): Verse {
    Verse(id, surahId, verseNumber, arabic, "", Some(0), Some(0), Some(""), key)
  }

  function SurahNumber(s: Surah): int {
    s.number
  }

  /** `select … from surahs where number = n limit 1`. */
  function SurahWithNumber(surahs: seq<Surah>, n: int): (r: Option<Surah>)
    ensures r.None? <==> forall i :: 0 <= i < |surahs| ==> surahs[i].number != n
    ensures r.Some? ==> r.value in surahs && r.value.number == n
  {
    Find(surahs, (s: Surah) => s.number == n)
  }

  /** `select … from verses where surah_id = s and verse_number = n limit 1`. */
  function VerseAt(verses: seq<Verse>, surahId: int, n: int): (r: Option<Verse>)
    ensures r.None? <==> forall i :: 0 <= i < |verses| ==> !(verses[i].surahId == surahId && verses[i].verseNumber == n)
    ensures r.Some? ==> r.value in verses && r.value.surahId == surahId && r.value.verseNumber == n
  {
    Find(verses, (v: Verse) => v.surahId == surahId && v.verseNumber == n)
  }

  function InSurah(surahId: int): Verse -> bool {
    (v: Verse) => v.surahId == surahId
  }

  /** `COUNT(verses.id)` of a surah, as the left join groups it. */
  function Count(verses: seq<Verse>, surahId: int): nat {
    |Filter(verses, InSurah(surahId))|
  }

  /** The verse numbers stored for a surah. */
  function Numbers(verses: seq<Verse>, surahId: int): set<int> {
    set v | v in verses && v.surahId == surahId :: v.verseNumber
  }

  /** Appending rows never loses a verse number. */
  lemma AppendsKeepsNumbers(a: seq<Verse>, b: seq<Verse>, surahId: int)
    requires Appends(a, b)
    ensures Numbers(a, surahId) <= Numbers(b, surahId)
  {
    forall n | n in Numbers(a, surahId)
      ensures n in Numbers(b, surahId)
    {
      var v :| v in a && v.surahId == surahId && v.verseNumber == n;
      var i :| 0 <= i < |a| && a[i] == v;
      assert b[i] == v;
    }
  }

  /**
   * The loop `for (i = 1; i <= expected; i++) if (!existing.has(i)) push(i)`:
   * in ascending order, exactly the numbers of 1..expected not in `existing`.
   */
  function MissingNumbers(expected: int, existing: set<int>): (r: seq<int>)
    ensures forall x :: x in r <==> 1 <= x <= expected && x !in existing
    ensures forall i, j :: 0 <= i < j < |r| ==> r[i] < r[j]
    decreases expected
  {
    if expected < 1 then []
    else
      var before := MissingNumbers(expected - 1, existing);
      assert forall i :: 0 <= i < |before| ==> before[i] < expected by {
        forall i | 0 <= i < |before|
          ensures before[i] < expected
        {
          assert before[i] in before;
        }
      }
      if expected in existing then before else before + [expected]
  }

  /** Nothing is missing exactly when every number of 1..expected is present. */
  lemma NoneMissing(expected: int, existing: set<int>)
    ensures |MissingNumbers(expected, existing)| == 0 <==> forall x :: 1 <= x <= expected ==> x in existing
  {
    var r := MissingNumbers(expected, existing);
    if |r| > 0 {
      assert r[0] in r;
    }
  }

  /** Surahs ordered by `number`, as `orderBy(surahs.number)` returns them. */
  function ByNumber(surahs: seq<Surah>): (r: seq<Surah>)
    ensures SortedBy(r, SurahNumber) && multiset(r) == multiset(surahs)
  {
    SortBySorted(surahs, SurahNumber);
    SortBy(surahs, SurahNumber)
  }

  /** `HAVING verses_count > COUNT(verses.id)`: the surahs with fewer verses than they should have. */
  function Short(db: Db): (r: seq<Surah>)
    ensures SortedBy(r, SurahNumber)
    ensures forall s :: s in r <==> s in db.surahs && s.versesCount > Count(db.verses, s.id)
  {
    var r := ByNumber(Filter(db.surahs, (s: Surah) => s.versesCount > Count(db.verses, s.id)));
    assert forall s :: s in r <==> s in multiset(r);
    r
  }

  /** `HAVING verses_count != COUNT(verses.id)`: the report the repair scripts print at the end. */
  function Mismatched(db: Db): (r: seq<Surah>)
    ensures SortedBy(r, SurahNumber)
    ensures forall s :: s in r <==> s in db.surahs && s.versesCount != Count(db.verses, s.id)
  {
    var r := ByNumber(Filter(db.surahs, (s: Surah) => s.versesCount != Count(db.verses, s.id)));
    assert forall s :: s in r <==> s in multiset(r);
    r
  }
}

=== FILE: fixbismillah.dfy ===
/**
 * `scripts/fix-all-bismillah.ts`: puts the bismillah (spelt without the
 * tatweel) into the first verse of Al-Fatiha, strips it from the first
 * verse of every other surah except At-Tawbah, and counts what is left.
 *
 * SQL `LIKE 'marker%'` is a prefix test here: neither marker contains `%`
 * or `_`. The join of verses to surahs goes through the surah id, which is
 * the primary key of `surahs`.
 */
module FixAllBismillah {
  import opened Wrappers
  import opened Text
  import opened Seqs
  import opened Schema
  import opened Corpus
  import opened Markers

  /** `/[!.] /` matches at `k`: a `!` or `.` followed by a space. */
  predicate IsSep(s: string, k: int) {
    0 <= k && k + 1 < |s| && (s[k] == '!' || s[k] == '.') && s[k + 1] == ' '
  }

  /** No `!` and no `.` at all. */
  predicate NoPunct(s: string) {
    forall i :: 0 <= i < |s| ==> s[i] != '!' && s[i] != '.'
  }

  /**
   * Every `! ` made `. `. A separator ends in a space, which cannot start
   * another one, so the separators never overlap and each is rewritten on
   * its own.
   */
  function Normalize(s: string): (r: string)
    ensures |r| == |s|
  {
    seq(|s|, k requires 0 <= k < |s| => if s[k] == '!' && IsSep(s, k) then '.' else s[k])
  }

  /** `s.split(/[!.] /)`: the pieces between separators. */
  function SplitPunct(s: string): (parts: seq<string>)
    ensures |parts| > 0
    decreases |s|
  {
    if |s| < 2 then [s]
    else if IsSep(s, 0) then [""] + SplitPunct(s[2..])
    else
      var rest := SplitPunct(s[1..]);
      [[s[0]] + rest[0]] + rest[1..]
  }

  /** There is a single piece exactly when the text holds no separator. */
  lemma {:induction false} SplitPunctOnePiece(s: string)
    ensures |SplitPunct(s)| == 1 <==> forall k :: !IsSep(s, k)
    decreases |s|
  {
    if |s| < 2 {
    } else if IsSep(s, 0) {
      assert |SplitPunct(s)| == 1 + |SplitPunct(s[2..])|;
    } else {
      SplitPunctOnePiece(s[1..]);
      assert |SplitPunct(s)| == |SplitPunct(s[1..])|;
      NoSepShift(s);
    }
  }

  /** Without a separator at the front, `s` has one exactly when `s[1..]` has one. */
  lemma NoSepShift(s: string)
    requires |s| >= 2 && !IsSep(s, 0)
    ensures (forall k :: !IsSep(s, k)) <==> (forall k :: !IsSep(s[1..], k))
  {
    if exists k :: IsSep(s[1..], k) {
      var k :| IsSep(s[1..], k);
      assert IsSep(s, k + 1);
    }
    if exists k :: IsSep(s, k) {
      var k :| IsSep(s, k);
      assert k > 0 && IsSep(s[1..], k - 1);
    }
  }

  /** Joining the pieces with `. ` gives the text back with every `! ` turned into `. `. */
  lemma {:induction false} SplitPunctJoin(s: string)
    ensures Join(SplitPunct(s), ". ") == Normalize(s)
    decreases |s|
  {
    if |s| < 2 {
      assert Normalize(s) == s;
    } else if IsSep(s, 0) {
      SplitPunctJoin(s[2..]);
      JoinAfterSep(s);
    } else {
      SplitPunctJoin(s[1..]);
      JoinAfterChar(s);
    }
  }

  lemma JoinAfterSep(s: string)
    requires |s| >= 2 && IsSep(s, 0)
    requires Join(SplitPunct(s[2..]), ". ") == Normalize(s[2..])
    ensures Join(SplitPunct(s), ". ") == Normalize(s)
  {
    var rest := SplitPunct(s[2..]);
    assert SplitPunct(s) == [""] + rest;
    assert ([""] + rest)[1..] == rest;
    assert Join([""] + rest, ". ") == ". " + Join(rest, ". ");
    NormalizeAfterSep(s);
  }

  lemma NormalizeAfterSep(s: string)
    requires |s| >= 2 && IsSep(s, 0)
    ensures Normalize(s) == ". " + Normalize(s[2..])
  {
    forall k | 2 <= k < |s| ensures IsSep(s, k) <==> IsSep(s[2..], k - 2) { }
  }

  lemma JoinAfterChar(s: string)
    requires |s| >= 2 && !IsSep(s, 0)
    requires Join(SplitPunct(s[1..]), ". ") == Normalize(s[1..])
    ensures Join(SplitPunct(s), ". ") == Normalize(s)
  {
    SplitPunctNoSep(s);
    JoinFrontChar(s[0], SplitPunct(s), SplitPunct(s[1..]), ". ");
    NormalizeAfterChar(s);
  }

  /** A character put in front of the first piece comes out in front of the joined text. */
  lemma JoinFrontChar(c: char, parts: seq<string>, rest: seq<string>, sep: string)
    requires |parts| > 0 && |rest| > 0
    requires parts[0] == [c] + rest[0] && parts[1..] == rest[1..]
    ensures Join(parts, sep) == [c] + Join(rest, sep)
  {
    if |rest| > 1 {
      assert |parts| > 1;
      assert Join(parts, sep) == parts[0] + sep + Join(rest[1..], sep);
    } else {
      assert |parts| == 1;
    }
  }

  lemma NormalizeAfterChar(s: string)
    requires |s| >= 2 && !IsSep(s, 0)
    ensures Normalize(s) == [s[0]] + Normalize(s[1..])
  {
    forall k | 1 <= k < |s| ensures IsSep(s, k) <==> IsSep(s[1..], k - 1) { }
  }

  /** A leading run without `!` or `.` stays in the first piece. */
  lemma {:induction false} SplitPunctPrefix(a: string, y: string)
    requires NoPunct(a)
    ensures SplitPunct(a + y)[0] == a + SplitPunct(y)[0]
    ensures SplitPunct(a + y)[1..] == SplitPunct(y)[1..]
    decreases |a|
  {
    if |a| > 0 {
      if |a[1..] + y| == 0 {
        SplitPunctSingle(a, y);
      } else {
        SplitPunctPrefix(a[1..], y);
        SplitPunctPrefixStep(a, y);
      }
    } else {
      assert a + y == y && a + SplitPunct(y)[0] == SplitPunct(y)[0];
    }
  }

  lemma SplitPunctSingle(a: string, y: string)
    requires |a| > 0 && |a[1..] + y| == 0
    ensures SplitPunct(a + y)[0] == a + SplitPunct(y)[0]
    ensures SplitPunct(a + y)[1..] == SplitPunct(y)[1..]
  {
    assert y == [] && a + y == a && |a| == 1;
    assert SplitPunct(y) == [""] && SplitPunct(a) == [a];
  }

  lemma SplitPunctPrefixStep(a: string, y: string)
    requires |a| > 0 && a[0] != '!' && a[0] != '.' && |a[1..] + y| > 0
    requires SplitPunct(a[1..] + y)[0] == a[1..] + SplitPunct(y)[0]
    requires SplitPunct(a[1..] + y)[1..] == SplitPunct(y)[1..]
    ensures SplitPunct(a + y)[0] == a + SplitPunct(y)[0]
    ensures SplitPunct(a + y)[1..] == SplitPunct(y)[1..]
  {
    SplitPunctNoSepAppend(a, y);
    PrefixGlue(a, SplitPunct(a + y), SplitPunct(a[1..] + y), SplitPunct(y));
  }

  lemma SplitPunctNoSepAppend(a: string, y: string)
    requires |a| > 0 && a[0] != '!' && a[0] != '.' && |a[1..] + y| > 0
    ensures SplitPunct(a + y)[0] == [a[0]] + SplitPunct(a[1..] + y)[0]
    ensures SplitPunct(a + y)[1..] == SplitPunct(a[1..] + y)[1..]
  {
    AppendFront(a, y);
    SplitPunctNoSep(a + y);
  }

  lemma AppendFront<T>(a: seq<T>, y: seq<T>)
    requires |a| > 0
    ensures |a + y| == |a[1..] + y| + 1 && (a + y)[0] == a[0] && (a + y)[1..] == a[1..] + y
  {
  }

  /** The piece bookkeeping of one step of `SplitPunctPrefix`, over plain sequences. */
  lemma PrefixGlue(a: string, whole: seq<string>, tail: seq<string>, rest: seq<string>)
    requires |a| > 0 && |whole| > 0 && |tail| > 0 && |rest| > 0
    requires whole[0] == [a[0]] + tail[0] && whole[1..] == tail[1..]
    requires tail[0] == a[1..] + rest[0] && tail[1..] == rest[1..]
    ensures whole[0] == a + rest[0] && whole[1..] == rest[1..]
  {
    assert [a[0]] + (a[1..] + rest[0]) == a + rest[0];
  }

  /** Without a separator at the front, the first character joins the first piece of the rest. */
  lemma SplitPunctNoSep(s: string)
    requires |s| >= 2 && !IsSep(s, 0)
    ensures SplitPunct(s)[0] == [s[0]] + SplitPunct(s[1..])[0]
    ensures SplitPunct(s)[1..] == SplitPunct(s[1..])[1..]
  {
  }

  /** A separator at the front leaves an empty first piece. */
  lemma SplitPunctSep(c: char, x: string)
    requires c == '!' || c == '.'
    ensures SplitPunct([c, ' '] + x) == [""] + SplitPunct(x)
  {
    var y := [c, ' '] + x;
    assert IsSep(y, 0) && y[2..] == x;
  }

  /** With no `! ` in it, normalising changes nothing. */
  lemma NormalizeFree(s: string)
    requires forall k :: !(IsSep(s, k) && s[k] == '!')
    ensures Normalize(s) == s
  {
  }

  /** `arabicText.startsWith(marker)`: the marker goes and the rest is trimmed; other text is kept. */
  function StripArabic(t: string): (r: string)
    ensures !StartsWith(t, Plain) ==> r == t
  {
    if StartsWith(t, Plain) then Trim(t[|Plain|..]) else t
  }

  /** The characters `/^[!., ]+/` takes. */
  predicate IsLeadPunct(c: char) {
    c == '!' || c == '.' || c == ',' || c == ' '
  }

  /** `.replace(/^[!., ]+/, '')`: the longest leading run of those characters goes. */
  function DropLeadPunct(s: string): (r: string)
    ensures |r| <= |s| && r == s[|s| - |r|..]
    ensures forall i :: 0 <= i < |s| - |r| ==> IsLeadPunct(s[i])
    ensures |r| > 0 ==> !IsLeadPunct(r[0])
    decreases |s|
  {
    if |s| > 0 && IsLeadPunct(s[0]) then
      var r := DropLeadPunct(s[1..]);
      assert s[1..][|s| - 1 - |r|..] == s[|s| - |r|..];
      assert forall i :: 1 <= i < |s| - |r| ==> s[i] == s[1..][i - 1];
      r
    else s
  }

  /**
   * The Tajik text: when it starts with the marker and splits into several
   * pieces, the first piece goes and the rest is joined with `. ` and
   * trimmed; when it does not split, the marker and any leading `!., ` go
   * and the rest is trimmed. Other text is kept.
   */
  function StripTajik(t: string): (r: string)
    ensures !StartsWith(t, Tajik) ==> r == t
  {
    if StartsWith(t, Tajik) then
      var parts := SplitPunct(t);
      if |parts| > 1 then Trim(Join(parts[1..], ". "))
      else Trim(DropLeadPunct(t[|Tajik|..]))
    else t
  }

  /** Stripping the marker off `marker + text` gives the text back, trimmed. */
  lemma ArabicRoundTrip(x: string)
    ensures StripArabic(Plain + x) == Trim(x)
    ensures |x| > 0 && !IsJsSpace(x[0]) && !IsJsSpace(x[|x| - 1]) ==> StripArabic(Plain + " " + x) == x
  {
    assert StartsWith(Plain + x, Plain);
    assert (Plain + x)[|Plain|..] == x;
    assert StartsWith(Plain + " " + x, Plain);
    assert (Plain + " " + x)[|Plain|..] == " " + x;
    TrimSpaced(x);
    if |x| > 0 && !IsJsSpace(x[0]) && !IsJsSpace(x[|x| - 1]) {
      TrimSolid(x);
    }
  }

  lemma TajikNoPunct()
    ensures NoPunct(Tajik)
  {
  }

  /**
   * The marker followed by `! ` or `. ` and a verse: the verse comes back
   * trimmed, with each of its own `! ` turned into `. `.
   */
  lemma TajikRoundTrip(c: char, x: string)
    requires c == '!' || c == '.'
    ensures StripTajik(Tajik + [c, ' '] + x) == Trim(Normalize(x))
  {
    var t := Tajik + [c, ' '] + x;
    var y := [c, ' '] + x;
    assert t == Tajik + y;
    assert StartsWith(t, Tajik);
    TajikNoPunct();
    SplitPunctPrefix(Tajik, y);
    SplitPunctSep(c, x);
    SplitPunctJoin(x);
    assert Tajik + "" == Tajik;
    assert ([""] + SplitPunct(x))[1..] == SplitPunct(x);
    assert SplitPunct(t)[1..] == SplitPunct(x);
  }

  /**
   * The first piece is everything up to the first separator, so words
   * between the marker and that separator are dropped with it.
   */
  lemma FirstPieceSwallowed(y: string, z: string)
    requires NoPunct(y)
    ensures StripTajik(Tajik + " " + y + ". " + z) == Trim(Normalize(z))
  {
    var a := Tajik + " " + y;
    TajikNoPunct();
    assert NoPunct(a) by {
      forall i | 0 <= i < |a| ensures a[i] != '!' && a[i] != '.' {
        if i < |Tajik| {
          assert a[i] == Tajik[i];
        } else if i > |Tajik| {
          assert a[i] == y[i - |Tajik| - 1];
        }
      }
    }
    var t := Tajik + " " + y + ". " + z;
    var w := ". " + z;
    assert t == a + w;
    assert StartsWith(t, Tajik) by {
      assert t[..|Tajik|] == Tajik;
    }
    SplitPunctPrefix(a, w);
    SplitPunctSep('.', z);
    SplitPunctJoin(z);
    assert a + "" == a;
    assert ([""] + SplitPunct(z))[1..] == SplitPunct(z);
    assert SplitPunct(t)[1..] == SplitPunct(z);
  }

  /** The bare marker, and Al-Fatiha's own `marker!`, would be stripped to nothing. */
  lemma TajikAloneVanishes()
    ensures StripTajik(Tajik) == ""
    ensures StripTajik(TajikExclaimed) == ""
  {
    TajikNoPunct();
    MarkerAlone(Tajik, "");
    MarkerAlone(Tajik, "!");
    assert Tajik + "" == Tajik;
    SplitPunctOnePiece(Tajik);
    SplitPunctOnePiece(TajikExclaimed);
    assert DropLeadPunct("!") == "";
  }

  /** A marker without `!` or `.`, followed by at most one character that is not a space, has no separator. */
  lemma MarkerAlone(m: string, x: string)
    requires NoPunct(m) && |x| <= 1 && (|x| == 1 ==> x[0] != ' ')
    ensures StartsWith(m + x, m) && (m + x)[|m|..] == x
    ensures forall k :: !IsSep(m + x, k)
  {
    var t := m + x;
    assert t[..|m|] == m;
    forall k | 0 <= k < |m|
      ensures !IsSep(t, k)
    {
      assert t[k] == m[k];
      if k + 1 == |m| && k + 1 < |t| {
        assert t[k + 1] == x[0];
      }
    }
  }

  /** The surah a verse belongs to: the first (by the primary key, the only) surah with its id. */
  function SurahOf(surahs: seq<Surah>, v: Verse): Option<Surah> {
    Find(surahs, (s: Surah) => s.id == v.surahId)
  }

  /** The verse still starts with one of the markers. */
  predicate Prefixed(v: Verse) {
    StartsWith(v.arabicText, Plain) || StartsWith(v.tajikText, Tajik)
  }

  /** The selection: first verses of surahs other than 1 and 9 that start with a marker. */
  predicate IsCandidate(surahs: seq<Surah>, v: Verse) {
    v.verseNumber == 1 && SurahOf(surahs, v).Some? &&
    SurahOf(surahs, v).value.number != 1 && SurahOf(surahs, v).value.number != 9 && Prefixed(v)
  }

  /** The closing count's condition: only surah 1 is excluded. */
  predicate IsRemaining(surahs: seq<Surah>, v: Verse) {
    v.verseNumber == 1 && SurahOf(surahs, v).Some? && SurahOf(surahs, v).value.number != 1 && Prefixed(v)
  }

  /** The row update of a selected verse, from the texts read when it was selected. */
  function FixVerse(v: Verse, selected: Verse): (r: Verse)
    ensures r.id == v.id && r.surahId == v.surahId && r.verseNumber == v.verseNumber && r.uniqueKey == v.uniqueKey
    ensures r.arabicText == StripArabic(selected.arabicText) && r.tajikText == StripTajik(selected.tajikText)
  {
    v.(arabicText := StripArabic(selected.arabicText), tajikText := StripTajik(selected.tajikText))
  }

  /** `update verses set … where id = selected.id` */
  function UpdateById(verses: seq<Verse>, selected: Verse): (r: seq<Verse>)
    ensures |r| == |verses|
    ensures forall k :: 0 <= k < |r| ==> r[k].id == verses[k].id
  {
    seq(|verses|, k requires 0 <= k < |verses| =>
      if verses[k].id == selected.id then FixVerse(verses[k], selected) else verses[k])
  }

  /** The update loop over the selected rows, in order. */
  function ApplyAll(verses: seq<Verse>, selected: seq<Verse>): (r: seq<Verse>)
    ensures |r| == |verses|
    ensures forall k :: 0 <= k < |r| ==> r[k].id == verses[k].id
    decreases |selected|
  {
    if |selected| == 0 then verses else ApplyAll(UpdateById(verses, selected[0]), selected[1..])
  }

  function VerseIdOf(v: Verse): int {
    v.id
  }

  /**
   * With the selected ids distinct, the loop amounts to one update per row:
   * a row whose id was selected gets that selection's stripped texts, and
   * every other row is left alone.
   */
  lemma {:induction false} ApplyAllPointwise(verses: seq<Verse>, selected: seq<Verse>)
    requires DistinctBy(selected, VerseIdOf)
    ensures forall k, j :: 0 <= k < |verses| && 0 <= j < |selected| && selected[j].id == verses[k].id ==>
      ApplyAll(verses, selected)[k] == FixVerse(verses[k], selected[j])
    ensures forall k :: 0 <= k < |verses| && (forall j :: 0 <= j < |selected| ==> selected[j].id != verses[k].id) ==>
      ApplyAll(verses, selected)[k] == verses[k]
    decreases |selected|
  {
    if |selected| > 0 {
      var once := UpdateById(verses, selected[0]);
      var tail := selected[1..];
      assert DistinctBy(tail, VerseIdOf) by {
        forall i, j | 0 <= i < j < |tail| ensures VerseIdOf(tail[i]) != VerseIdOf(tail[j]) {
          assert tail[i] == selected[i + 1] && tail[j] == selected[j + 1];
        }
      }
      ApplyAllPointwise(once, tail);
      forall k, j | 0 <= k < |verses| && 0 <= j < |selected| && selected[j].id == verses[k].id
        ensures ApplyAll(verses, selected)[k] == FixVerse(verses[k], selected[j])
      {
        if j == 0 {
          assert forall m :: 0 <= m < |tail| ==> tail[m].id != verses[k].id by {
            forall m | 0 <= m < |tail| ensures tail[m].id != verses[k].id {
              assert VerseIdOf(selected[0]) != VerseIdOf(selected[m + 1]);
            }
          }
        } else {
          assert tail[j - 1] == selected[j];
          assert FixVerse(once[k], selected[j]) == FixVerse(verses[k], selected[j]);
        }
      }
      forall k | 0 <= k < |verses| && (forall j :: 0 <= j < |selected| ==> selected[j].id != verses[k].id)
        ensures ApplyAll(verses, selected)[k] == verses[k]
      {
        assert selected[0].id != verses[k].id;
        forall m | 0 <= m < |tail| ensures tail[m].id != once[k].id {
          assert tail[m] == selected[m + 1];
        }
      }
    }
  }

  /** Al-Fatiha's first verse: the marker in Arabic and `marker!` in Tajik. */
  function FixFatiha(v: Verse, fatihaId: int): (r: Verse)
    ensures v.surahId == fatihaId && v.verseNumber == 1 ==> r.arabicText == Plain && r.tajikText == TajikExclaimed
    ensures !(v.surahId == fatihaId && v.verseNumber == 1) ==> r == v
    ensures r.id == v.id && r.surahId == v.surahId && r.verseNumber == v.verseNumber && r.uniqueKey == v.uniqueKey
  {
    if v.surahId == fatihaId && v.verseNumber == 1 then v.(arabicText := Plain, tajikText := TajikExclaimed) else v
  }

  function FatihaUpdate(verses: seq<Verse>, fatihaId: int): (r: seq<Verse>)
    ensures |r| == |verses|
    ensures forall k :: 0 <= k < |r| ==> r[k] == FixFatiha(verses[k], fatihaId)
  {
    seq(|verses|, k requires 0 <= k < |verses| => FixFatiha(verses[k], fatihaId))
  }

  /** The tables afterwards, how many verses were fixed, and the closing count. */
  datatype Report = Report(db: Db, fixed: nat, remaining: nat)

  /** The script: an unknown surah 1 aborts it (exit 1); otherwise the three steps in order. */
  function Run(db: Db): (r: Result<Report, string>)
    ensures r.Err? <==> SurahWithNumber(db.surahs, 1).None?
    ensures r.Ok? ==> r.value.db.surahs == db.surahs && |r.value.db.verses| == |db.verses|
  {
    match SurahWithNumber(db.surahs, 1)
    case None => Err("Surah 1 not found")
    case Some(fatiha) =>
      var afterFatiha := FatihaUpdate(db.verses, fatiha.id);
      var selected := Filter(afterFatiha, (v: Verse) => IsCandidate(db.surahs, v));
      var verses := ApplyAll(afterFatiha, selected);
      Ok(Report(Db(db.surahs, verses), |selected|, |Filter(verses, (v: Verse) => IsRemaining(db.surahs, v))|))
  }

  /** What the script does to one verse, as a reference for the loop. */
  function Repaired(surahs: seq<Surah>, fatihaId: int, v: Verse): Verse {
    var w := FixFatiha(v, fatihaId);
    if IsCandidate(surahs, w) then FixVerse(w, w) else w
  }

  /**
   * Verse ids being the primary key, the script repairs each verse on its
   * own: the result at every row is that row put through `Repaired`.
   */
  lemma RunPointwise(db: Db)
    requires DistinctBy(db.verses, VerseIdOf)
    requires SurahWithNumber(db.surahs, 1).Some?
    ensures var fatihaId := SurahWithNumber(db.surahs, 1).value.id;
      forall k :: 0 <= k < |db.verses| ==>
        Run(db).value.db.verses[k] == Repaired(db.surahs, fatihaId, db.verses[k])
  {
    var fatihaId := SurahWithNumber(db.surahs, 1).value.id;
    var afterFatiha := FatihaUpdate(db.verses, fatihaId);
    var p := (v: Verse) => IsCandidate(db.surahs, v);
    var selected := Filter(afterFatiha, p);
    assert DistinctBy(afterFatiha, VerseIdOf) by {
      forall i, j | 0 <= i < j < |afterFatiha| ensures VerseIdOf(afterFatiha[i]) != VerseIdOf(afterFatiha[j]) {
        assert VerseIdOf(db.verses[i]) != VerseIdOf(db.verses[j]);
      }
    }
    FilterDistinct(afterFatiha, p, VerseIdOf);
    ApplyAllPointwise(afterFatiha, selected);
    forall k | 0 <= k < |db.verses|
      ensures ApplyAll(afterFatiha, selected)[k] == Repaired(db.surahs, fatihaId, db.verses[k])
    {
      SelectedById(afterFatiha, p, k);
    }
  }

  /**
   * In a table with distinct ids, the rows a filter selects carry the id
   * of row `k` exactly when row `k` itself is selected.
   */
  lemma SelectedById(verses: seq<Verse>, p: Verse -> bool, k: int)
    requires DistinctBy(verses, VerseIdOf) && 0 <= k < |verses|
    ensures p(verses[k]) ==> exists j :: 0 <= j < |Filter(verses, p)| && Filter(verses, p)[j] == verses[k]
    ensures !p(verses[k]) ==> forall j :: 0 <= j < |Filter(verses, p)| ==> Filter(verses, p)[j].id != verses[k].id
  {
    var selected := Filter(verses, p);
    if p(verses[k]) {
      assert verses[k] in selected;
    } else {
      forall j | 0 <= j < |selected| ensures selected[j].id != verses[k].id {
        assert selected[j] in verses;
        var m :| 0 <= m < |verses| && verses[m] == selected[j];
        if m < k {
          assert VerseIdOf(verses[m]) != VerseIdOf(verses[k]);
        } else if m > k {
          assert VerseIdOf(verses[k]) != VerseIdOf(verses[m]);
        }
      }
    }
  }

  /** Surah ids are the primary key of `surahs`. */
  predicate SurahsKeyed(surahs: seq<Surah>) {
    forall i, j :: 0 <= i < j < |surahs| ==> surahs[i].id != surahs[j].id
  }

  /** The surah a verse's id finds is the one carrying that id. */
  lemma SurahOfKeyed(surahs: seq<Surah>, s: Surah, v: Verse)
    requires SurahsKeyed(surahs) && s in surahs && s.id == v.surahId
    ensures SurahOf(surahs, v) == Some(s)
  {
    var i :| 0 <= i < |surahs| && surahs[i] == s;
    var f := SurahOf(surahs, v);
    var m :| 0 <= m < |surahs| && surahs[m] == f.value && surahs[m].id == v.surahId;
    if m != i {
      if m < i {} else {}
    }
  }

  /**
   * Al-Fatiha's first verse ends up with the marker and `marker!`, whatever
   * it held: the update writes them and the selection leaves surah 1 alone.
   */
  lemma FatihaEndsMarked(db: Db, k: int)
    requires DistinctBy(db.verses, VerseIdOf) && SurahsKeyed(db.surahs)
    requires SurahWithNumber(db.surahs, 1).Some?
    requires 0 <= k < |db.verses| && db.verses[k].verseNumber == 1
    requires db.verses[k].surahId == SurahWithNumber(db.surahs, 1).value.id
    ensures Run(db).value.db.verses[k].arabicText == Plain
    ensures Run(db).value.db.verses[k].tajikText == TajikExclaimed
  {
    var fatiha := SurahWithNumber(db.surahs, 1).value;
    RunPointwise(db);
    var w := FixFatiha(db.verses[k], fatiha.id);
    SurahOfKeyed(db.surahs, fatiha, w);
    assert !IsCandidate(db.surahs, w);
  }

  /**
   * The first verse of At-Tawbah is never selected, so one that starts
   * with the marker is left as it was and still counts in the closing
   * count, which excludes only surah 1.
   */
  lemma TawbahCountedNotFixed(db: Db, k: int)
    requires DistinctBy(db.verses, VerseIdOf) && SurahsKeyed(db.surahs)
    requires SurahWithNumber(db.surahs, 1).Some?
    requires 0 <= k < |db.verses| && db.verses[k].verseNumber == 1 && Prefixed(db.verses[k])
    requires exists s :: s in db.surahs && s.number == 9 && s.id == db.verses[k].surahId
    ensures Run(db).value.db.verses[k] == db.verses[k]
    ensures Run(db).value.remaining > 0
  {
    var fatiha := SurahWithNumber(db.surahs, 1).value;
    var s :| s in db.surahs && s.number == 9 && s.id == db.verses[k].surahId;
    var v := db.verses[k];
    SurahOfKeyed(db.surahs, s, v);
    assert v.surahId != fatiha.id by {
      SurahOfKeyed(db.surahs, fatiha, v.(surahId := fatiha.id));
      if v.surahId == fatiha.id {
        SurahOfKeyed(db.surahs, fatiha, v);
      }
    }
    RunPointwise(db);
    var after := Run(db).value.db.verses;
    assert after[k] == v;
    assert IsRemaining(db.surahs, after[k]);
    assert after[k] in Filter(after, (x: Verse) => IsRemaining(db.surahs, x));
  }
}

=== FILE: fixlisted.dfy ===
/**
 * The insert-if-absent loop that `scripts/fix-remaining-verses.ts` and
 * `scripts/fix-verse-numbering.ts` run over a fixed list of verses, and
 * that `scripts/add-missing-verses.ts` runs over the verses it finds
 * missing: look the surah up by number, skip a verse already stored under
 * (surah id, verse number), otherwise insert it under `MAX(id) + 1` with
 * the key `surah:verse`, no translation, page and juz 0 and an empty audio
 * URL.
 */
module ListedVerses {
  import opened Wrappers
  import opened Schema
  import opened Corpus

  /** One verse to restore: its surah number, verse number and Arabic text. */
  datatype Item = Item(surah: int, verse: int, arabic: string)

  /** The list of `scripts/fix-remaining-verses.ts`. */
  const Remaining: seq<Item> := [
    Item(48, 23, "سُنَّةَ اللَّهِ الَّتِي قَدْ خَلَتْ مِن قَبْلُ ۖ وَلَن تَجِدَ لِسُنَّةِ اللَّهِ تَبْدِيلًا"),
    Item(63, 7, "هُمُ الَّذِينَ يَقُولُونَ لَا تُنفِقُوا عَلَىٰ مَنْ عِندَ رَسُولِ اللَّهِ حَتَّىٰ يَنفَضُّوا ۗ وَلِلَّهِ خَزَائِنُ السَّمَاوَاتِ وَالْأَرْضِ وَلَـٰكِنَّ الْمُنَافِقِينَ لَا يَفْقَهُونَ"),
    Item(64, 9, "يَوْمَ يَجْمَعُكُمْ لِيَوْمِ الْجَمْعِ ۖ ذَٰلِكَ يَوْمُ التَّغَابُنِ ۗ وَمَن يُؤْمِن بِاللَّهِ وَيَعْمَلْ صَالِحًا يُكَفِّرْ عَنْهُ سَيِّئَاتِهِ وَيُدْخِلْهُ جَنَّاتٍ تَجْرِي مِن تَحْتِهَا الْأَنْهَارُ خَالِدِينَ فِيهَا أَبَدًا ۚ ذَٰلِكَ الْفَوْزُ الْعَظِيمُ"),
    Item(65, 6, "أَسْكِنُوهُنَّ مِنْ حَيْثُ سَكَنتُم مِّن وُجْدِكُمْ وَلَا تُضَارُّوهُنَّ لِتُضَيِّقُوا عَلَيْهِنَّ ۚ وَإِن كُنَّ أُولَاتِ حَمْلٍ فَأَنفِقُوا عَلَيْهِنَّ حَتَّىٰ يَضَعْنَ حَمْلَهُنَّ ۚ فَإِنْ أَرْضَعْنَ لَكُمْ فَآتُوهُنَّ أُجُورَهُنَّ ۖ وَأْتَمِرُوا بَيْنَكُم بِمَعْرُوفٍ ۖ وَإِن تَعَاسَرْتُمْ فَسَتُرْضِعُ لَهُ أُخْرَىٰ"),
    Item(68, 43, "خَاشِعَةً أَبْصَارُهُمْ تَرْهَقُهُمْ ذِلَّةٌ ۖ وَقَدْ كَانُوا يُدْعَوْنَ إِلَى السُّجُودِ وَهُمْ سَالِمُونَ"),
    Item(69, 32, "ثُمَّ فِي سِلْسِلَةٍ ذَرْعُهَا سَبْعُونَ ذِرَاعًا فَاسْلُكُوهُ"),
    Item(71, 15, "أَلَمْ تَرَوْا كَيْفَ خَلَقَ اللَّهُ سَبْعَ سَمَاوَاتٍ طِبَاقًا"),
    Item(72, 6, "وَأَنَّهُ كَانَ رِجَالٌ مِّنَ الْإِنسِ يَعُوذُونَ بِرِجَالٍ مِّنَ الْجِنِّ فَزَادُوهُمْ رَهَقًا"),
    Item(81, 15, "فَلَا أُقْسِمُ بِالْخُنَّسِ")
  ]

  /** The list of `scripts/fix-verse-numbering.ts`. */
  const Renumbered: seq<Item> := [
    Item(63, 10, "وَأَنفِقُوا مِن مَّا رَزَقْنَاكُم مِّن قَبْلِ أَن يَأْتِيَ أَحَدَكُمُ الْمَوْتُ فَيَقُولَ رَبِّ لَوْلَا أَخَّرْتَنِي إِلَىٰ أَجَلٍ قَرِيبٍ فَأَصَّدَّقَ وَأَكُن مِّنَ الصَّالِحِينَ"),
    Item(64, 17, "إِن تُقْرِضُوا اللَّهَ قَرْضًا حَسَنًا يُضَاعِفْهُ لَكُمْ وَيَغْفِرْ لَكُمْ ۚ وَاللَّهُ شَكُورٌ حَلِيمٌ"),
    Item(68, 32, "عَسَىٰ رَبُّنَا أَن يُبْدِلَنَا خَيْرًا مِّنْهَا إِنَّا إِلَىٰ رَبِّنَا رَاغِبُونَ"),
    Item(69, 19, "فَأَمَّا مَنْ أُوتِيَ كِتَابَهُ بِيَمِينِهِ فَيَقُولُ هَاؤُمُ اقْرَءُوا كِتَابِيَهْ"),
    Item(71, 12, "وَيُمْدِدْكُم بِأَمْوَالٍ وَبَنِينَ وَيَجْعَل لَّكُمْ جَنَّاتٍ وَيَجْعَل لَّكُمْ أَنْهَارًا"),
    Item(72, 12, "وَأَنَّا ظَنَنَّا أَن لَّن نُّعْجِزَ اللَّهَ فِي الْأَرْضِ وَلَن نُّعْجِزَهُ هَرَبًا"),
    Item(81, 11, "وَإِذَا الصُّحُفُ نُشِرَتْ")
  ]

  /** Some stored row already carries the key. */
  predicate KeyTaken(verses: seq<Verse>, key: string) {
    exists i :: 0 <= i < |verses| && verses[i].uniqueKey == key
  }

  /** The row an item becomes when its surah has id `surahId`. */
  function ItemRow(verses: seq<Verse>, surahId: int, it: Item): (r: Verse)
    ensures r.id == NextVerseId(verses) && r.surahId == surahId && r.verseNumber == it.verse
    ensures r.arabicText == it.arabic && r.tajikText == "" && r.uniqueKey == VerseKey(it.surah, it.verse)
    ensures r.page == Some(0) && r.juz == Some(0) && r.audioUrl == Some("")
  {
    NewVerse(NextVerseId(verses), surahId, it.verse, it.arabic, VerseKey(it.surah, it.verse))
  }

  /**
   * Nothing is left to do for the item: its surah is unknown, the verse is
   * stored, or its key is taken so that inserting it can only fail.
   */
  predicate Settled(surahs: seq<Surah>, verses: seq<Verse>, it: Item) {
    match SurahWithNumber(surahs, it.surah)
    case None => true
    case Some(s) => VerseAt(verses, s.id, it.verse).Some? || KeyTaken(verses, VerseKey(it.surah, it.verse))
  }

  /**
   * One item: an unknown surah or a stored verse is skipped; otherwise the
   * row is inserted, which fails when its key is taken.
   */
  function InsertItem(surahs: seq<Surah>, verses: seq<Verse>, it: Item): (r: Result<seq<Verse>, string>)
    ensures SurahWithNumber(surahs, it.surah).None? ==> r == Ok(verses)
    ensures SurahWithNumber(surahs, it.surah).Some? && VerseAt(verses, SurahWithNumber(surahs, it.surah).value.id, it.verse).Some? ==>
      r == Ok(verses)
    ensures r.Ok? ==> Appends(verses, r.value) && Settled(surahs, r.value, it)
    ensures r.Ok? && r.value != verses ==>
      r.value == verses + [ItemRow(verses, SurahWithNumber(surahs, it.surah).value.id, it)]
    ensures r.Err? ==> (r.error == DuplicateKey && SurahWithNumber(surahs, it.surah).Some? &&
      VerseAt(verses, SurahWithNumber(surahs, it.surah).value.id, it.verse).None? &&
      KeyTaken(verses, VerseKey(it.surah, it.verse)))
  {
    match SurahWithNumber(surahs, it.surah)
    case None => Ok(verses)
    case Some(s) =>
      if VerseAt(verses, s.id, it.verse).Some? then Ok(verses)
      else
        var row := ItemRow(verses, s.id, it);
        var r := InsertVerse(verses, row);
        if r.Ok? then
          assert r.value == verses + [row];
          assert r.value[|verses|] == row;
          assert VerseAt(r.value, s.id, it.verse).Some?;
          r
        else
          assert !Fits(verses, row);
          r
  }

  /** The row is one of the listed verses: its text and key come from an item. */
  predicate FromItems(v: Verse, items: seq<Item>) {
    exists i :: 0 <= i < |items| && v.arabicText == items[i].arabic && v.uniqueKey == VerseKey(items[i].surah, items[i].verse)
  }

  /**
   * The loop over the list. With `isolate` (fix-verse-numbering) a failed
   * insert is caught and the loop goes on; without it (fix-remaining-verses)
   * the failure ends the loop and the script.
   */
  function InsertAll(surahs: seq<Surah>, verses: seq<Verse>, items: seq<Item>, isolate: bool): (r: Step)
    ensures Appends(verses, r.verses)
    ensures isolate ==> r.error.None?
    ensures Keyed(verses) ==> Keyed(r.verses)
    ensures r.error.None? ==> forall i :: 0 <= i < |items| ==> Settled(surahs, r.verses, items[i])
    ensures forall k :: |verses| <= k < |r.verses| ==> FromItems(r.verses[k], items)
    decreases |items|
  {
    if |items| == 0 then Step(verses, None)
    else
      var first := InsertItem(surahs, verses, items[0]);
      if first.Err? && !isolate then Step(verses, Some(first.error))
      else
        var next := if first.Ok? then first.value else verses;
        var r := InsertAll(surahs, next, items[1..], isolate);
        InsertAllStep(surahs, verses, next, items, r);
        r
  }

  /** One turn of the loop: what the first item did, composed with the rest of the loop. */
  lemma InsertAllStep(surahs: seq<Surah>, verses: seq<Verse>, next: seq<Verse>, items: seq<Item>, r: Step)
    requires |items| > 0
    requires next == verses || InsertItem(surahs, verses, items[0]) == Ok(next)
    requires next == verses ==> Settled(surahs, verses, items[0]) || InsertItem(surahs, verses, items[0]).Err?
    requires Appends(next, r.verses) && (Keyed(next) ==> Keyed(r.verses))
    requires r.error.None? ==> forall i :: 0 <= i < |items[1..]| ==> Settled(surahs, r.verses, items[1..][i])
    requires forall k :: |next| <= k < |r.verses| ==> FromItems(r.verses[k], items[1..])
    ensures Appends(verses, r.verses)
    ensures Keyed(verses) ==> Keyed(r.verses)
    ensures r.error.None? ==> forall i :: 0 <= i < |items| ==> Settled(surahs, r.verses, items[i])
    ensures forall k :: |verses| <= k < |r.verses| ==> FromItems(r.verses[k], items)
  {
    var it := items[0];
    assert Appends(verses, next);
    StepKeepsKeyed(verses, next, it, surahs);
    StepFromItems(verses, next, items, r.verses, surahs);
    if r.error.None? {
      assert Settled(surahs, next, it);
      SettledAppends(surahs, next, r.verses, it);
      forall i | 0 <= i < |items| ensures Settled(surahs, r.verses, items[i]) {
        if i > 0 {
          assert items[i] == items[1..][i - 1];
        }
      }
    }
  }

  lemma StepKeepsKeyed(verses: seq<Verse>, next: seq<Verse>, it: Item, surahs: seq<Surah>)
    requires next == verses || InsertItem(surahs, verses, it) == Ok(next)
    ensures Keyed(verses) ==> Keyed(next)
  {
    if Keyed(verses) && next != verses {
      InsertKeepsKeyed(verses, next[|verses|]);
    }
  }

  lemma StepFromItems(verses: seq<Verse>, next: seq<Verse>, items: seq<Item>, after: seq<Verse>, surahs: seq<Surah>)
    requires |items| > 0
    requires next == verses || InsertItem(surahs, verses, items[0]) == Ok(next)
    requires Appends(next, after)
    requires forall k :: |next| <= k < |after| ==> FromItems(after[k], items[1..])
    ensures forall k :: |verses| <= k < |after| ==> FromItems(after[k], items)
  {
    var it := items[0];
    forall k | |verses| <= k < |after| ensures FromItems(after[k], items) {
      if k < |next| {
        assert next != verses && k == |verses|;
        assert after[k] == next[k];
        assert next[k].arabicText == items[0].arabic && next[k].uniqueKey == VerseKey(it.surah, it.verse);
      } else {
        var i :| 0 <= i < |items[1..]| && after[k].arabicText == items[1..][i].arabic &&
          after[k].uniqueKey == VerseKey(items[1..][i].surah, items[1..][i].verse);
        assert items[1..][i] == items[i + 1];
      }
    }
  }

  /** The tail's items are the list's items. */
  lemma TailItems(items: seq<Item>)
    requires |items| > 0
    ensures forall i :: 0 <= i < |items[1..]| ==> items[1..][i] == items[i + 1]
  {
  }

  /** Appending rows keeps an item settled. */
  lemma SettledAppends(surahs: seq<Surah>, a: seq<Verse>, b: seq<Verse>, it: Item)
    requires Appends(a, b) && Settled(surahs, a, it)
    ensures Settled(surahs, b, it)
  {
    match SurahWithNumber(surahs, it.surah)
    case None =>
    case Some(s) =>
      if VerseAt(a, s.id, it.verse).Some? {
        var i :| 0 <= i < |a| && a[i].surahId == s.id && a[i].verseNumber == it.verse;
        assert b[i] == a[i];
      } else {
        var i :| 0 <= i < |a| && a[i].uniqueKey == VerseKey(it.surah, it.verse);
        assert b[i] == a[i];
      }
  }

  /** A settled item inserts nothing. */
  lemma SettledInsertsNothing(surahs: seq<Surah>, verses: seq<Verse>, it: Item)
    requires Settled(surahs, verses, it)
    ensures InsertItem(surahs, verses, it) != Ok(verses) ==> InsertItem(surahs, verses, it).Err?
  {
    match SurahWithNumber(surahs, it.surah)
    case None =>
    case Some(s) =>
      if VerseAt(verses, s.id, it.verse).None? {
        var row := ItemRow(verses, s.id, it);
        var i :| 0 <= i < |verses| && verses[i].uniqueKey == VerseKey(it.surah, it.verse);
        assert !Fits(verses, row);
      }
  }

  /** Once every item is settled, running the loop again leaves the table as it is. */
  lemma {:induction false} RerunInsertsNothing(surahs: seq<Surah>, verses: seq<Verse>, items: seq<Item>, isolate: bool)
    requires forall i :: 0 <= i < |items| ==> Settled(surahs, verses, items[i])
    ensures InsertAll(surahs, verses, items, isolate).verses == verses
    decreases |items|
  {
    if |items| > 0 {
      SettledInsertsNothing(surahs, verses, items[0]);
      TailItems(items);
      RerunInsertsNothing(surahs, verses, items[1..], isolate);
    }
  }

  /** `scripts/fix-remaining-verses.ts`: a failed insert aborts with exit 1. */
  function RunRemaining(db: Db): (r: Finish)
    ensures r.db.surahs == db.surahs && Appends(db.verses, r.db.verses)
    ensures r.exitCode in {0, 1}
    ensures r.exitCode == 0 ==> forall i :: 0 <= i < |Remaining| ==> Settled(db.surahs, r.db.verses, Remaining[i])
  {
    var st := InsertAll(db.surahs, db.verses, Remaining, false);
    Finish(Db(db.surahs, st.verses), if st.error.Some? then 1 else 0)
  }

  /** `scripts/fix-verse-numbering.ts`: failures are caught per item; the script always ends with exit 0. */
  function RunRenumbering(db: Db): (r: Finish)
    ensures r.db.surahs == db.surahs && Appends(db.verses, r.db.verses)
    ensures r.exitCode == 0
    ensures forall i :: 0 <= i < |Renumbered| ==> Settled(db.surahs, r.db.verses, Renumbered[i])
  {
    var st := InsertAll(db.surahs, db.verses, Renumbered, true);
    Finish(Db(db.surahs, st.verses), 0)
  }

  /** Both scripts are idempotent: running one again after it succeeded adds no row. */
  lemma RunsIdempotent(db: Db)
    ensures RunRemaining(db).exitCode == 0 ==> RunRemaining(RunRemaining(db).db).db == RunRemaining(db).db
    ensures RunRenumbering(RunRenumbering(db).db).db == RunRenumbering(db).db
  {
    var a := RunRemaining(db).db;
    if RunRemaining(db).exitCode == 0 {
      RerunInsertsNothing(db.surahs, a.verses, Remaining, false);
    }
    var b := RunRenumbering(db).db;
    RerunInsertsNothing(db.surahs, b.verses, Renumbered, true);
  }

}

=== FILE: floatingheader.dfy ===
/**
 * `client/src/components/layout/FloatingHeader.tsx`: a header that slides in
 * when the reader scrolls back up somewhere down the page and hides when
 * they scroll down or come near the top.
 *
 * The scroll offset is an integer number of pixels; the browser's
 * fractional offsets are left out.
 */
module FloatingHeader {
  /** The component state: whether the header shows, and the offset of the last scroll event. */
  datatype State = State(visible: bool, last: int)

  /** Hidden, as if at the very top. */
  const Init: State := State(false, 0)

  /** Upward scrolls further down than this show the header. */
  const ShowBelow: int := 100

  /** Offsets at or above this hide the header. */
  const HideAbove: int := 50

  /**
   * The scroll handler: show when moving up and past 100 pixels; hide when
   * moving down or within 50 pixels of the top; otherwise keep the
   * visibility. The offset is remembered either way.
   */
  function OnScroll(st: State, y: int): (r: State)
    ensures r.last == y
    ensures y < st.last && y > ShowBelow ==> r.visible
    ensures y > st.last ==> !r.visible
    ensures y <= HideAbove ==> !r.visible
    ensures HideAbove < y <= ShowBelow && y <= st.last ==> r.visible == st.visible
    ensures y == st.last && y > HideAbove ==> r.visible == st.visible
  {
    var visible :=
      if y < st.last && y > ShowBelow then true
      else if y > st.last || y <= HideAbove then false
      else st.visible;
    State(visible, y)
  }

  /** The header never shows near the top. */
  predicate Inv(st: State) {
    st.visible ==> st.last > HideAbove
  }

  /** One scroll event keeps the invariant. */
  lemma OnScrollKeepsInv(st: State, y: int)
    requires Inv(st)
    ensures Inv(OnScroll(st, y))
  {
  }

  /** The state after a run of scroll events, oldest first. */
  function ScrollAll(st: State, ys: seq<int>): (r: State)
    ensures |ys| == 0 ==> r == st
    ensures |ys| > 0 ==> r.last == ys[|ys| - 1]
    decreases |ys|
  {
    if |ys| == 0 then st else ScrollAll(OnScroll(st, ys[0]), ys[1..])
  }

  /** The last event of a run decides from the state before it. */
  lemma {:induction false} ScrollAllSnoc(st: State, ys: seq<int>, y: int)
    ensures ScrollAll(st, ys + [y]) == OnScroll(ScrollAll(st, ys), y)
    decreases |ys|
  {
    if |ys| == 0 {
      assert ys + [y] == [y];
      assert [y][1..] == [];
    } else {
      assert (ys + [y])[1..] == ys[1..] + [y];
      ScrollAllSnoc(OnScroll(st, ys[0]), ys[1..], y);
    }
  }

  /** Any run of scroll events keeps the invariant. */
  lemma {:induction false} ScrollAllKeepsInv(st: State, ys: seq<int>)
    requires Inv(st)
    ensures Inv(ScrollAll(st, ys))
    decreases |ys|
  {
    if |ys| > 0 {
      OnScrollKeepsInv(st, ys[0]);
      ScrollAllKeepsInv(OnScroll(st, ys[0]), ys[1..]);
    }
  }

  /**
   * From the initial state, the header shows only after at least one event,
   * the last of which lies more than 50 pixels down and was not a move
   * further down the page.
   */
  lemma ShownOnlyAfterUpwardScroll(ys: seq<int>)
    ensures ScrollAll(Init, ys).visible ==>
      |ys| > 0 && ys[|ys| - 1] > HideAbove &&
      ys[|ys| - 1] <= ScrollAll(Init, ys[..|ys| - 1]).last
  {
    if |ys| > 0 {
      var front, y := ys[..|ys| - 1], ys[|ys| - 1];
      assert ys == front + [y];
      ScrollAllSnoc(Init, front, y);
      ScrollAllKeepsInv(Init, ys);
    }
  }
}

=== FILE: fonts.dfy ===
/**
 * The font and number helpers of `client/src/lib/fonts.ts`: size classes for
 * Arabic and Tajik text, Arabic-Indic verse numbers and `surah:verse` keys.
 */
module Fonts {
  import opened Wrappers
  import opened Text
  import opened Schema

  const ArabicBaseClass: string := "font-arabic arabic-text"

  /** `getArabicFontClass(size = 'md')`; a missing size is `'md'`, an unknown one gets the base class only. */
  function ArabicFontClass(size: Option<string>): (r: string)
    ensures StartsWith(r, ArabicBaseClass)
    ensures r == ArabicBaseClass <==> size.Some? && size.value != "sm" && size.value != "md" && size.value != "lg"
  {
    var s := size.GetOr("md");
    if s == "sm" then ArabicBaseClass + " text-xl leading-loose"
    else if s == "md" then ArabicBaseClass + " text-2xl leading-loose"
    else if s == "lg" then ArabicBaseClass + " text-3xl leading-loose"
    else ArabicBaseClass
  }

  /** `getTajikFontClass(size = 'md')`; an unknown size falls back to the `'md'` class. */
  function TajikFontClass(size: Option<string>): (r: string)
    ensures r in {"text-sm", "text-base", "text-lg"}
  {
    var s := size.GetOr("md");
    if s == "sm" then "text-sm"
    else if s == "md" then "text-base"
    else if s == "lg" then "text-lg"
    else "text-base"
  }

  predicate IsSize(s: string) {
    s == "sm" || s == "md" || s == "lg"
  }

  /** Each of the three sizes gets its own class in both scripts, and the default is the medium one. */
  lemma FontClassesSeparateSizes(a: string, b: string)
    requires IsSize(a) && IsSize(b) && a != b
    ensures ArabicFontClass(Some(a)) != ArabicFontClass(Some(b))
    ensures TajikFontClass(Some(a)) != TajikFontClass(Some(b))
    ensures ArabicFontClass(None) == ArabicFontClass(Some("md"))
    ensures TajikFontClass(None) == TajikFontClass(Some("md"))
  {
    assert ArabicFontClass(Some(a))[|ArabicBaseClass| + 6] != ArabicFontClass(Some(b))[|ArabicBaseClass| + 6];
  }

  /** The Arabic-Indic numeral for decimal digit `d` (U+0660 to U+0669). */
  function ArabicDigit(d: nat): (c: char)
    requires d < 10
    ensures '\U{0660}' <= c <= '\U{0669}'
  {
    (0x0660 + d) as char
  }

  predicate IsArabicDigit(c: char) {
    '\U{0660}' <= c <= '\U{0669}'
  }

  /**
   * `arabicNumerals[parseInt(d)]` as `join('')` writes it: a digit becomes its
   * numeral, anything else (`parseInt` gives `NaN`, the lookup `undefined`)
   * becomes the empty string.
   */
  function NumeralFor(c: char): string {
    if IsDigit(c) then [ArabicDigit(DigitValue(c))] else ""
  }

  function MapNumerals(t: string): (r: string)
    ensures forall i :: 0 <= i < |r| ==> IsArabicDigit(r[i])
    ensures AllDigits(t) ==> |r| == |t| && forall i :: 0 <= i < |r| ==> r[i] == ArabicDigit(DigitValue(t[i]))
    decreases |t|
  {
    if |t| == 0 then "" else MapNumerals(t[..|t| - 1]) + NumeralFor(t[|t| - 1])
  }

  /** `formatArabicNumber`: the decimal numeral of `num` written digit by digit in Arabic-Indic numerals. */
  function FormatArabicNumber(num: int): (r: string)
    ensures forall i :: 0 <= i < |r| ==> IsArabicDigit(r[i])
    ensures num >= 0 ==> (|r| == |NatToString(num)| &&
      forall i :: 0 <= i < |r| ==> r[i] == ArabicDigit(DigitValue(NatToString(num)[i])))
  {
    MapNumerals(IntToString(num))
  }

  /** The value of a run of Arabic-Indic numerals: the reading `formatArabicNumber` is checked against. */
  function ArabicValue(r: string): int
    requires forall i :: 0 <= i < |r| ==> IsArabicDigit(r[i])
  {
    if |r| == 0 then 0 else 10 * ArabicValue(r[..|r| - 1]) + (r[|r| - 1] as int - 0x0660)
  }

  lemma {:induction false} ArabicValueOfMap(t: string)
    requires AllDigits(t)
    ensures ArabicValue(MapNumerals(t)) == DecimalValue(t)
    decreases |t|
  {
    if |t| > 0 {
      var init := t[..|t| - 1];
      ArabicValueOfMap(init);
      var r := MapNumerals(t);
      assert r == MapNumerals(init) + [ArabicDigit(DigitValue(t[|t| - 1]))];
      assert r[..|r| - 1] == MapNumerals(init);
    }
  }

  /** Reading the numerals back gives the number: formatting loses nothing on non-negative integers. */
  lemma ArabicNumberRoundTrip(n: nat)
    ensures ArabicValue(FormatArabicNumber(n)) == n
  {
    ArabicValueOfMap(NatToString(n));
  }

  /** Distinct non-negative integers are formatted differently. */
  lemma FormatArabicNumberInjective(a: nat, b: nat)
    requires FormatArabicNumber(a) == FormatArabicNumber(b)
    ensures a == b
  {
    ArabicNumberRoundTrip(a);
    ArabicNumberRoundTrip(b);
  }

  /** The minus sign of a negative number maps to nothing, so `-n` and `n` look the same. */
  lemma FormatArabicNumberDropsSign(n: nat)
    requires n > 0
    ensures FormatArabicNumber(0 - n) == FormatArabicNumber(n)
  {
    var t := NatToString(n);
    assert IntToString(0 - n) == "-" + t;
    MapNumeralsSkipsSign(t);
  }

  lemma {:induction false} MapNumeralsSkipsSign(t: string)
    ensures MapNumerals("-" + t) == MapNumerals(t)
    decreases |t|
  {
    if |t| > 0 {
      var init := t[..|t| - 1];
      assert ("-" + t)[..|t|] == "-" + init;
      assert ("-" + t)[|t|] == t[|t| - 1];
      MapNumeralsSkipsSign(init);
    }
  }

  /** `formatVerseKey`: the template `${surahNumber}:${verseNumber}`. */
  function FormatVerseKey(surahNumber: int, verseNumber: int): (r: string)
    ensures Split(r, ':') == [IntToString(surahNumber), IntToString(verseNumber)]
    ensures IsVerseRef(r) <==> surahNumber >= 0 && verseNumber >= 0
  {
    var r := VerseKey(surahNumber, verseNumber);
    NoColonInNumeral(surahNumber);
    NoColonInNumeral(verseNumber);
    assert r == Join([IntToString(surahNumber), IntToString(verseNumber)], [':']);
    SplitJoin([IntToString(surahNumber), IntToString(verseNumber)], ':');
    VerseKeyIsVerseRef(surahNumber, verseNumber);
    r
  }

  /** Both halves of a formatted key parse back to the numbers it was made from. */
  lemma FormatVerseKeyParses(surahNumber: int, verseNumber: int)
    ensures var parts := Split(FormatVerseKey(surahNumber, verseNumber), ':');
      ParseInt(parts[0]) == Int(surahNumber) && ParseInt(parts[1]) == Int(verseNumber)
  {
    ParseIntOfIntToString(surahNumber, true);
    ParseIntOfIntToString(verseNumber, true);
  }
}

=== FILE: importdata.dfy ===
/**
 * `scripts/import-data.ts`: the first import of the corpus. It seeds five
 * surahs, maps surah numbers to ids, pulls the Arabic and the Tajik verse
 * tuples out of the two SQL dumps into maps keyed `sura:aya`, joins them,
 * and inserts the joined verses fifty at a time, ignoring rows whose key is
 * already stored.
 *
 * The dump files are the parameters `arabicData` and `tajikData`; whether
 * `DATABASE_URL` is set is `hasUrl`; whether the insert of metadata entry
 * `i` goes through is the oracle `seedOk(i)`, and whether the insert of
 * verse batch `i` does is `ok(i)`; a statement that only the outer `catch`
 * handles is named by `Halt`. A `SERIAL` id is taken as one above the
 * largest stored id.
 */
module ImportData {
  import opened Wrappers
  import opened Text
  import opened Seqs
  import opened Schema
  import opened SqlTuples
  import opened Corpus
  import Rebuild

  /** One entry of the built-in surah metadata. */
  datatype Meta = Meta(number: int, nameArabic: string, nameTajik: string, nameEnglish: string, revelationType: string, versesCount: int)

  /** The five surahs the script seeds. */
  const Metadata: seq<Meta> := [
    Meta(1, "الفاتحة", "Фотиҳа", "Al-Fatihah", "Meccan", 7),
    Meta(2, "البقرة", "Бақара", "Al-Baqarah", "Medinan", 286),
    Meta(3, "آل عمران", "Оли Имрон", "Aal-Imran", "Medinan", 200),
    Meta(4, "النساء", "Нисо", "An-Nisa", "Medinan", 176),
    Meta(5, "المائدة", "Моида", "Al-Ma'idah", "Medinan", 120)
  ]

  /** The next `SERIAL` surah id: above every stored id. */
  function NextSurahId(surahs: seq<Surah>): (r: int)
    ensures forall i :: 0 <= i < |surahs| ==> surahs[i].id < r
    decreases |surahs|
  {
    if |surahs| == 0 then 1
    else
      var r := NextSurahId(surahs[1..]);
      assert forall i :: 0 < i < |surahs| ==> surahs[i] == surahs[1..][i - 1];
      if surahs[0].id < r then r else surahs[0].id + 1
  }

  predicate HasNumber(surahs: seq<Surah>, n: int) {
    exists i :: 0 <= i < |surahs| && surahs[i].number == n
  }

  /** The `number` column is unique. */
  predicate NumbersUnique(surahs: seq<Surah>) {
    forall i, j :: 0 <= i < j < |surahs| ==> surahs[i].number != surahs[j].number
  }

  /** The row seeded from a metadata entry. */
  predicate FromMeta(s: Surah, m: Meta) {
    s.number == m.number && s.nameArabic == m.nameArabic && s.nameTajik == m.nameTajik &&
    s.nameEnglish == m.nameEnglish && s.revelationType == m.revelationType &&
    s.versesCount == m.versesCount && s.description.None?
  }

  /** `insert(surahs).values(m).onConflictDoNothing()`: added unless the number is taken. */
  function SeedOne(surahs: seq<Surah>, m: Meta): seq<Surah> {
    if HasNumber(surahs, m.number) then surahs
    else surahs + [Surah(NextSurahId(surahs), m.number, m.nameArabic, m.nameTajik, m.nameEnglish, m.revelationType, m.versesCount, None)]
  }

  /** `s` is the row of a metadata entry whose insert went through. */
  predicate Seeded(s: Surah, metas: seq<Meta>, ok: nat -> bool, from: nat) {
    exists i :: 0 <= i < |metas| && ok(from + i) && FromMeta(s, metas[i])
  }

  /**
   * The seeding loop, where the insert of `metas[i]` goes through iff
   * `ok(from + i)` and one that throws is logged and skipped: rows are only
   * appended, the number of every entry whose insert went through is present
   * afterwards, each new row is such an entry, and the numbers stay unique.
   */
  function SeedSurahs(surahs: seq<Surah>, metas: seq<Meta>, ok: nat -> bool, from: nat): (r: seq<Surah>)
    ensures |surahs| <= |r| && r[..|surahs|] == surahs
    ensures forall i :: 0 <= i < |metas| && ok(from + i) ==> HasNumber(r, metas[i].number)
    ensures forall k :: |surahs| <= k < |r| ==> Seeded(r[k], metas, ok, from)
    ensures NumbersUnique(surahs) ==> NumbersUnique(r)
    ensures (forall m :: m in metas ==> HasNumber(surahs, m.number)) ==> r == surahs
    decreases |metas|
  {
    if |metas| == 0 then surahs
    else
      var next := if ok(from) then SeedOne(surahs, metas[0]) else surahs;
      var r := SeedSurahs(next, metas[1..], ok, from + 1);
      SeedStep(surahs, metas, ok, from, next, r);
      r
  }

  lemma SeedStep(surahs: seq<Surah>, metas: seq<Meta>, ok: nat -> bool, from: nat, next: seq<Surah>, r: seq<Surah>)
    requires |metas| > 0 && next == (if ok(from) then SeedOne(surahs, metas[0]) else surahs)
    requires |next| <= |r| && r[..|next|] == next
    requires forall i :: 0 <= i < |metas[1..]| && ok(from + 1 + i) ==> HasNumber(r, metas[1..][i].number)
    requires forall k :: |next| <= k < |r| ==> Seeded(r[k], metas[1..], ok, from + 1)
    requires NumbersUnique(next) ==> NumbersUnique(r)
    requires (forall m :: m in metas[1..] ==> HasNumber(next, m.number)) ==> r == next
    ensures |surahs| <= |r| && r[..|surahs|] == surahs
    ensures forall i :: 0 <= i < |metas| && ok(from + i) ==> HasNumber(r, metas[i].number)
    ensures forall k :: |surahs| <= k < |r| ==> Seeded(r[k], metas, ok, from)
    ensures NumbersUnique(surahs) ==> NumbersUnique(r)
    ensures (forall m :: m in metas ==> HasNumber(surahs, m.number)) ==> r == surahs
  {
    assert r[..|surahs|] == next[..|surahs|];
    SeedStepNumbers(surahs, metas, ok, from, next, r);
    SeedStepRows(surahs, metas, ok, from, next, r);
    if (forall m :: m in metas ==> HasNumber(surahs, m.number)) {
      assert next == surahs;
      assert forall m :: m in metas[1..] ==> m in metas;
    }
  }

  lemma SeedStepNumbers(surahs: seq<Surah>, metas: seq<Meta>, ok: nat -> bool, from: nat, next: seq<Surah>, r: seq<Surah>)
    requires |metas| > 0 && next == (if ok(from) then SeedOne(surahs, metas[0]) else surahs)
    requires |next| <= |r| && r[..|next|] == next
    requires forall i :: 0 <= i < |metas[1..]| && ok(from + 1 + i) ==> HasNumber(r, metas[1..][i].number)
    ensures forall i :: 0 <= i < |metas| && ok(from + i) ==> HasNumber(r, metas[i].number)
  {
    forall i | 0 <= i < |metas| && ok(from + i)
      ensures HasNumber(r, metas[i].number)
    {
      if i == 0 {
        var j :| 0 <= j < |next| && next[j].number == metas[0].number;
        assert r[j] == next[j];
      } else {
        assert metas[i] == metas[1..][i - 1] && from + i == from + 1 + (i - 1);
      }
    }
  }

  lemma SeedStepRows(surahs: seq<Surah>, metas: seq<Meta>, ok: nat -> bool, from: nat, next: seq<Surah>, r: seq<Surah>)
    requires |metas| > 0 && next == (if ok(from) then SeedOne(surahs, metas[0]) else surahs)
    requires |next| <= |r| && r[..|next|] == next
    requires forall k :: |next| <= k < |r| ==> Seeded(r[k], metas[1..], ok, from + 1)
    ensures forall k :: |surahs| <= k < |r| ==> Seeded(r[k], metas, ok, from)
  {
    forall k | |surahs| <= k < |r|
      ensures Seeded(r[k], metas, ok, from)
    {
      if k < |next| {
        assert r[k] == next[k] && FromMeta(next[k], metas[0]);
        assert 0 < |metas| && ok(from + 0) && FromMeta(r[k], metas[0]);
      } else {
        var j :| 0 <= j < |metas[1..]| && ok(from + 1 + j) && FromMeta(r[k], metas[1..][j]);
        assert metas[1..][j] == metas[j + 1] && from + 1 + j == from + (j + 1);
      }
    }
  }

  /** An entry of a JavaScript `Map<string, string>`; a map is its entries in insertion order. */
  datatype Entry = Entry(key: string, text: string)

  predicate HasKey(m: seq<Entry>, k: string) {
    exists i :: 0 <= i < |m| && m[i].key == k
  }

  predicate UniqueKeys(m: seq<Entry>) {
    forall i, j :: 0 <= i < j < |m| ==> m[i].key != m[j].key
  }

  /** The position of the first entry under a key. */
  function KeyIndex(m: seq<Entry>, k: string): (r: Option<nat>)
    ensures r.None? <==> !HasKey(m, k)
    ensures r.Some? ==> r.value < |m| && m[r.value].key == k
    decreases |m|
  {
    if |m| == 0 then None
    else
      var init := m[..|m| - 1];
      assert forall i :: 0 <= i < |init| ==> init[i] == m[i];
      match KeyIndex(init, k)
      case Some(i) => Some(i)
      case None => if m[|m| - 1].key == k then Some(|m| - 1) else None
  }

  /** `map.get(k)`. */
  function Get(m: seq<Entry>, k: string): (r: Option<string>)
    ensures r.None? <==> !HasKey(m, k)
    ensures r.Some? ==> exists i :: 0 <= i < |m| && m[i] == Entry(k, r.value)
  {
    match KeyIndex(m, k)
    case Some(i) => Some(m[i].text)
    case None => None
  }

  /** With unique keys, the entry stored under a key is what `get` returns. */
  lemma GetAt(m: seq<Entry>, i: int)
    requires UniqueKeys(m) && 0 <= i < |m|
    ensures Get(m, m[i].key) == Some(m[i].text)
  {
    var j := KeyIndex(m, m[i].key).value;
    assert j == i;
  }

  /**
   * `map.set(k, v)`: a key already present keeps its place and takes the new
   * value; a new key goes last; nothing else changes.
   */
  function Put(m: seq<Entry>, k: string, v: string): (r: seq<Entry>)
    ensures |r| == if HasKey(m, k) then |m| else |m| + 1
    ensures forall i :: 0 <= i < |m| ==> r[i].key == m[i].key
    ensures forall i :: 0 <= i < |m| && m[i].key != k ==> r[i] == m[i]
    ensures !HasKey(m, k) ==> r[|m|] == Entry(k, v)
    ensures forall x :: HasKey(r, x) <==> HasKey(m, x) || x == k
    ensures UniqueKeys(m) ==> UniqueKeys(r)
  {
    match KeyIndex(m, k)
    case Some(i) =>
      var r := m[i := Entry(k, v)];
      assert forall x :: HasKey(r, x) ==> HasKey(m, x) by {
        forall x | HasKey(r, x)
          ensures HasKey(m, x)
        {
          var j :| 0 <= j < |r| && r[j].key == x;
          assert m[j].key == x;
        }
      }
      r
    case None =>
      var r := m + [Entry(k, v)];
      assert r[|m|].key == k;
      assert forall x :: HasKey(r, x) ==> HasKey(m, x) || x == k by {
        forall x | HasKey(r, x)
          ensures HasKey(m, x) || x == k
        {
          var j :| 0 <= j < |r| && r[j].key == x;
          if j < |m| {
            assert m[j].key == x;
          }
        }
      }
      r
  }

  /** After `set(k, v)`, `get(k)` is `v` and every other key reads as before. */
  lemma PutGet(m: seq<Entry>, k: string, v: string, x: string)
    requires UniqueKeys(m)
    ensures Get(Put(m, k, v), x) == if x == k then Some(v) else Get(m, x)
  {
    var r := Put(m, k, v);
    if HasKey(r, x) {
      var j :| 0 <= j < |r| && r[j].key == x;
      GetAt(r, j);
      if x != k {
        assert j < |m| && r[j] == m[j];
        GetAt(m, j);
      } else if HasKey(m, k) {
        var i := KeyIndex(m, k).value;
        assert r[i] == Entry(k, v);
        assert i == j;
      }
    }
  }

  /** `${sura}:${aya}`, from the captured digit strings. */
  function KeyOf(row: Row): string {
    row.sura + ":" + row.aya
  }

  /** Some row has the key. */
  predicate KeyRead(rows: seq<Row>, x: string) {
    exists i :: 0 <= i < |rows| && KeyOf(rows[i]) == x
  }

  /**
   * The extraction loop: every match sets its key, so a later duplicate
   * overwrites the text of an earlier one in place.
   */
  function Extract(rows: seq<Row>): (m: seq<Entry>)
    ensures UniqueKeys(m) && |m| <= |rows|
    ensures forall x :: HasKey(m, x) <==> KeyRead(rows, x)
    ensures (forall row :: row in rows ==> Matched(row)) ==> forall i :: 0 <= i < |m| ==> SuraAyaKey(m[i].key)
    decreases |rows|
  {
    if |rows| == 0 then []
    else
      var init, last := rows[..|rows| - 1], rows[|rows| - 1];
      var m := Put(Extract(init), KeyOf(last), last.text);
      ExtractStep(rows, Extract(init), m);
      assert (forall row :: row in rows ==> Matched(row)) ==> forall i :: 0 <= i < |m| ==> SuraAyaKey(m[i].key) by {
        if forall row :: row in rows ==> Matched(row) {
          KeysWellFormed(rows, m);
        }
      }
      m
  }

  lemma ExtractStep(rows: seq<Row>, before: seq<Entry>, m: seq<Entry>)
    requires |rows| > 0
    requires forall x :: HasKey(before, x) <==> KeyRead(rows[..|rows| - 1], x)
    requires forall x :: HasKey(m, x) <==> HasKey(before, x) || x == KeyOf(rows[|rows| - 1])
    ensures forall x :: HasKey(m, x) <==> KeyRead(rows, x)
  {
    var init := rows[..|rows| - 1];
    forall x
      ensures KeyRead(rows, x) <==> KeyRead(init, x) || x == KeyOf(rows[|rows| - 1])
    {
      if KeyRead(rows, x) && x != KeyOf(rows[|rows| - 1]) {
        var i :| 0 <= i < |rows| && KeyOf(rows[i]) == x;
        assert init[i] == rows[i];
      }
      if KeyRead(init, x) {
        var i :| 0 <= i < |init| && KeyOf(init[i]) == x;
        assert rows[i] == init[i];
      }
    }
  }

  /** No later row shares the key of row `i`. */
  predicate LastWithKey(rows: seq<Row>, i: int) {
    0 <= i < |rows| && forall j :: i < j < |rows| ==> KeyOf(rows[j]) != KeyOf(rows[i])
  }

  /** The map holds, for each key, the text of the last row with that key. */
  lemma {:induction false} ExtractLastWins(rows: seq<Row>, i: int)
    requires LastWithKey(rows, i)
    ensures Get(Extract(rows), KeyOf(rows[i])) == Some(rows[i].text)
    decreases |rows|
  {
    var init, last := rows[..|rows| - 1], rows[|rows| - 1];
    PutGet(Extract(init), KeyOf(last), last.text, KeyOf(rows[i]));
    if i < |rows| - 1 {
      assert init[i] == rows[i];
      assert LastWithKey(init, i) by {
        forall j | i < j < |init|
          ensures KeyOf(init[j]) != KeyOf(init[i])
        {
          assert init[j] == rows[j];
        }
      }
      ExtractLastWins(init, i);
    }
  }

  /** A key of the form `digits:digits`, as every extracted key is. */
  predicate SuraAyaKey(k: string) {
    var p := Split(k, ':');
    |p| == 2 && |p[0]| > 0 && AllDigits(p[0]) && |p[1]| > 0 && AllDigits(p[1])
  }

  /** `key.split(':')` gives back the two captured digit runs. */
  lemma KeyOfSplits(row: Row)
    requires Matched(row)
    ensures Split(KeyOf(row), ':') == [row.sura, row.aya]
    ensures SuraAyaKey(KeyOf(row))
  {
    assert ':' !in row.sura && ':' !in row.aya by {
      assert forall c :: c in row.sura ==> IsDigit(c) by {
        forall c | c in row.sura
          ensures IsDigit(c)
        {
          var i :| 0 <= i < |row.sura| && row.sura[i] == c;
        }
      }
      assert forall c :: c in row.aya ==> IsDigit(c) by {
        forall c | c in row.aya
          ensures IsDigit(c)
        {
          var i :| 0 <= i < |row.aya| && row.aya[i] == c;
        }
      }
    }
    assert [row.sura, row.aya][1..] == [row.aya];
    assert Join([row.sura, row.aya], [':']) == KeyOf(row);
    SplitJoin([row.sura, row.aya], ':');
  }

  /** Every key read from matched rows has the `sura:aya` form. */
  lemma KeysWellFormed(rows: seq<Row>, m: seq<Entry>)
    requires forall row :: row in rows ==> Matched(row)
    requires forall x :: HasKey(m, x) <==> KeyRead(rows, x)
    ensures forall i :: 0 <= i < |m| ==> SuraAyaKey(m[i].key)
  {
    forall i | 0 <= i < |m|
      ensures SuraAyaKey(m[i].key)
    {
      assert HasKey(m, m[i].key);
      var j :| 0 <= j < |rows| && KeyOf(rows[j]) == m[i].key;
      KeyOfSplits(rows[j]);
    }
  }

  /** `parseInt(suraStr)` of a well-formed key. */
  function SuraOf(k: string): int
    requires SuraAyaKey(k)
  {
    ParseIntOfDigits(Split(k, ':')[0], true);
    ParseInt(Split(k, ':')[0]).value
  }

  /** `parseInt(ayaStr)` of a well-formed key. */
  function AyaOf(k: string): int
    requires SuraAyaKey(k)
  {
    ParseIntOfDigits(Split(k, ':')[1], true);
    ParseInt(Split(k, ':')[1]).value
  }

  /** The placeholder audio URL, written from the parsed numbers. */
  function AudioUrl(sura: int, aya: int): string {
    "https://verse.audio/" + IntToString(sura) + "_" + IntToString(aya) + ".mp3"
  }

  /** A verse object as the loop builds it; the table gives it an id on insert. */
  datatype Built = Built(surahId: int, verseNumber: int, arabic: string, tajik: string, audioUrl: string, key: string)

  /** The verse passes both skips: its surah number maps to a truthy id and a Tajik text exists. */
  predicate Joinable(k: string, tajik: seq<Entry>, ids: map<int, int>)
    requires SuraAyaKey(k)
  {
    Rebuild.HasId(ids, SuraOf(k)) && Get(tajik, k).Some?
  }

  /** `b` is the verse built for an Arabic entry and its Tajik partner. */
  predicate JoinedFrom(b: Built, arabic: seq<Entry>, tajik: seq<Entry>, ids: map<int, int>) {
    SuraAyaKey(b.key) && Joinable(b.key, tajik, ids) &&
    Entry(b.key, b.arabic) in arabic &&
    Get(tajik, b.key) == Some(b.tajik) &&
    b.surahId == ids[SuraOf(b.key)] && b.verseNumber == AyaOf(b.key) &&
    b.audioUrl == AudioUrl(SuraOf(b.key), AyaOf(b.key))
  }

  /**
   * The loop over the Arabic map, in map order: an entry yields a verse
   * exactly when it passes both skips, and the verse joins the two texts.
   */
  function BuildAll(arabic: seq<Entry>, tajik: seq<Entry>, ids: map<int, int>): (r: seq<Built>)
    requires forall i :: 0 <= i < |arabic| ==> SuraAyaKey(arabic[i].key)
    ensures |r| <= |arabic|
    ensures forall b :: b in r ==> JoinedFrom(b, arabic, tajik, ids)
    ensures forall i :: 0 <= i < |arabic| && Joinable(arabic[i].key, tajik, ids) ==>
      exists b :: b in r && b.key == arabic[i].key && b.arabic == arabic[i].text
    decreases |arabic|
  {
    if |arabic| == 0 then []
    else
      var e := arabic[0];
      var rest := BuildAll(arabic[1..], tajik, ids);
      forall b | b in rest
        ensures JoinedFrom(b, arabic, tajik, ids)
      {
        JoinedFromTail(b, arabic, tajik, ids);
      }
      forall i | 0 < i < |arabic| && Joinable(arabic[i].key, tajik, ids)
        ensures exists b :: b in rest && b.key == arabic[i].key && b.arabic == arabic[i].text
      {
        assert arabic[i] == arabic[1..][i - 1];
      }
      if Joinable(e.key, tajik, ids) then
        var b := Built(ids[SuraOf(e.key)], AyaOf(e.key), e.text, Get(tajik, e.key).value,
                       AudioUrl(SuraOf(e.key), AyaOf(e.key)), e.key);
        assert JoinedFrom(b, arabic, tajik, ids) by {
          assert Entry(b.key, b.arabic) == arabic[0];
        }
        assert b == ([b] + rest)[0];
        [b] + rest
      else rest
  }

  lemma JoinedFromTail(b: Built, arabic: seq<Entry>, tajik: seq<Entry>, ids: map<int, int>)
    requires |arabic| > 0 && JoinedFrom(b, arabic[1..], tajik, ids)
    ensures JoinedFrom(b, arabic, tajik, ids)
  {
    var j :| 0 <= j < |arabic[1..]| && arabic[1..][j] == Entry(b.key, b.arabic);
    assert arabic[j + 1] == Entry(b.key, b.arabic);
  }

  const BatchSize: nat := 50

  /** The loop's buffer: push each verse, flush when it holds 50, flush what is left at the end. */
  function Flushes<T>(rows: seq<T>, pending: seq<T>): seq<seq<T>>
    decreases |rows|
  {
    if |rows| == 0 then (if |pending| > 0 then [pending] else [])
    else
      var next := pending + [rows[0]];
      if |next| >= BatchSize then [next] + Flushes(rows[1..], [])
      else Flushes(rows[1..], next)
  }

  /**
   * The flushed batches are the fixed-size slicing of the verses: they
   * partition them in order, each holds at most 50, and only the last may
   * hold fewer.
   */
  lemma {:induction false} FlushesAreChunks<T>(rows: seq<T>, pending: seq<T>)
    requires |pending| < BatchSize
    ensures Flushes(rows, pending) == Chunks(pending + rows, BatchSize)
    decreases |rows|
  {
    if |rows| == 0 {
      assert pending + rows == pending;
    } else {
      var next := pending + [rows[0]];
      assert next + rows[1..] == pending + rows;
      if |next| >= BatchSize {
        FlushesAreChunks(rows[1..], []);
        assert [] + rows[1..] == rows[1..];
        var s := pending + rows;
        if |rows[1..]| > 0 {
          assert s[..BatchSize] == next && s[BatchSize..] == rows[1..];
        } else {
          assert s == next;
        }
      } else {
        FlushesAreChunks(rows[1..], next);
      }
    }
  }

  /** The row the table stores for a built verse, under the id it was given. */
  function ToRow(id: int, b: Built): Verse {
    Verse(id, b.surahId, b.verseNumber, b.arabic, b.tajik, None, None, Some(b.audioUrl), b.key)
  }

  predicate KeyStored(verses: seq<Verse>, k: string) {
    exists i :: 0 <= i < |verses| && verses[i].uniqueKey == k
  }

  /** Every verse of the pool has its key stored. */
  predicate AllStored(verses: seq<Verse>, pool: seq<Built>) {
    forall b :: b in pool ==> KeyStored(verses, b.key)
  }

  /** Each row `r` holds beyond the rows of `verses` is the row of a verse of the pool. */
  predicate RowsFrom(verses: seq<Verse>, r: seq<Verse>, pool: seq<Built>) {
    forall i :: |verses| <= i < |r| ==> FromPool(r[i], pool)
  }

  /** The row is the row of some verse of the pool, under its own id. */
  predicate FromPool(v: Verse, pool: seq<Built>) {
    exists b :: b in pool && v == ToRow(v.id, b)
  }

  /** `insert(verses).values(batch).onConflictDoNothing()`: each row in turn is added unless its key is taken. */
  function InsertBatch(verses: seq<Verse>, batch: seq<Built>): (r: seq<Verse>)
    ensures Appends(verses, r)
    ensures Keyed(verses) ==> Keyed(r)
    ensures AllStored(r, batch)
    ensures RowsFrom(verses, r, batch)
    ensures AllStored(verses, batch) ==> r == verses
    decreases |batch|
  {
    if |batch| == 0 then verses
    else
      var b := batch[0];
      var next := if KeyStored(verses, b.key) then verses else verses + [ToRow(NextVerseId(verses), b)];
      var r := InsertBatch(next, batch[1..]);
      InsertBatchStep(verses, batch, next, r);
      r
  }

  lemma InsertBatchStep(verses: seq<Verse>, batch: seq<Built>, next: seq<Verse>, r: seq<Verse>)
    requires |batch| > 0
    requires next == if KeyStored(verses, batch[0].key) then verses else verses + [ToRow(NextVerseId(verses), batch[0])]
    requires Appends(next, r) && (Keyed(next) ==> Keyed(r))
    requires AllStored(r, batch[1..])
    requires RowsFrom(next, r, batch[1..])
    requires AllStored(next, batch[1..]) ==> r == next
    ensures Appends(verses, r)
    ensures Keyed(verses) ==> Keyed(r)
    ensures AllStored(r, batch)
    ensures RowsFrom(verses, r, batch)
    ensures AllStored(verses, batch) ==> r == verses
  {
    assert r[..|verses|] == next[..|verses|];
    assert KeyStored(r, batch[0].key) by {
      var i :| 0 <= i < |next| && next[i].uniqueKey == batch[0].key;
      assert r[i] == next[i];
    }
    forall b | b in batch
      ensures KeyStored(r, b.key)
    {
      if b != batch[0] {
        assert b in batch[1..];
      }
    }
    assert RowsFrom(verses, next, [batch[0]]) by {
      if |next| > |verses| {
        assert next[|verses|] == ToRow(next[|verses|].id, batch[0]);
      }
    }
    assert Appends(verses, next);
    RowsFromTrans(verses, next, r, [batch[0]], batch[1..]);
    assert [batch[0]] + batch[1..] == batch;
    if Keyed(verses) && !KeyStored(verses, batch[0].key) {
      assert Keyed(next);
    }
    if AllStored(verses, batch) {
      assert next == verses;
      assert forall b :: b in batch[1..] ==> b in batch;
    }
  }

  /** Every verse of the batches whose insert went through has its key stored. */
  predicate BatchesStored(verses: seq<Verse>, batches: seq<seq<Built>>, ok: nat -> bool, from: nat) {
    forall i, b :: 0 <= i < |batches| && ok(from + i) && b in batches[i] ==> KeyStored(verses, b.key)
  }

  /** The batch loop; a batch whose insert throws is logged and leaves the table as it was. */
  function InsertBatches(verses: seq<Verse>, batches: seq<seq<Built>>, ok: nat -> bool, from: nat): (r: seq<Verse>)
    ensures Appends(verses, r)
    ensures Keyed(verses) ==> Keyed(r)
    ensures BatchesStored(r, batches, ok, from)
    ensures RowsFrom(verses, r, Flatten(batches))
    ensures AllStored(verses, Flatten(batches)) ==> r == verses
    decreases |batches|
  {
    if |batches| == 0 then verses
    else
      var next := if ok(from) then InsertBatch(verses, batches[0]) else verses;
      var r := InsertBatches(next, batches[1..], ok, from + 1);
      InsertBatchesStep(verses, batches, ok, from, next, r);
      r
  }

  lemma InsertBatchesStep(verses: seq<Verse>, batches: seq<seq<Built>>, ok: nat -> bool, from: nat, next: seq<Verse>, r: seq<Verse>)
    requires |batches| > 0
    requires next == if ok(from) then InsertBatch(verses, batches[0]) else verses
    requires Appends(next, r) && (Keyed(next) ==> Keyed(r))
    requires BatchesStored(r, batches[1..], ok, from + 1)
    requires RowsFrom(next, r, Flatten(batches[1..]))
    requires AllStored(next, Flatten(batches[1..])) ==> r == next
    ensures Appends(verses, r)
    ensures Keyed(verses) ==> Keyed(r)
    ensures BatchesStored(r, batches, ok, from)
    ensures RowsFrom(verses, r, Flatten(batches))
    ensures AllStored(verses, Flatten(batches)) ==> r == verses
  {
    var head, rest := batches[0], Flatten(batches[1..]);
    assert Flatten(batches) == head + rest;
    assert Appends(verses, next) && RowsFrom(verses, next, head);
    assert AllStored(verses, head) ==> next == verses;
    BatchesStoredStep(batches, ok, from, next, r);
    RowsFromTrans(verses, next, r, head, rest);
    AllStoredSplit(verses, head, rest);
  }

  /** The first batch's keys, stored before the later batches run, stay stored. */
  lemma BatchesStoredStep(batches: seq<seq<Built>>, ok: nat -> bool, from: nat, next: seq<Verse>, r: seq<Verse>)
    requires |batches| > 0
    requires ok(from) ==> AllStored(next, batches[0])
    requires Appends(next, r)
    requires BatchesStored(r, batches[1..], ok, from + 1)
    ensures BatchesStored(r, batches, ok, from)
  {
    forall i, b | 0 <= i < |batches| && ok(from + i) && b in batches[i]
      ensures KeyStored(r, b.key)
    {
      if i == 0 {
        assert ok(from) && b in batches[0];
        assert KeyStored(next, b.key);
        var j :| 0 <= j < |next| && next[j].uniqueKey == b.key;
        assert r[j] == r[..|next|][j];
      } else {
        assert batches[i] == batches[1..][i - 1];
        assert from + i == (from + 1) + (i - 1);
      }
    }
  }

  /** New rows drawn from `head` and then from `rest` are all drawn from `head + rest`. */
  lemma RowsFromTrans(verses: seq<Verse>, next: seq<Verse>, r: seq<Verse>, head: seq<Built>, rest: seq<Built>)
    requires Appends(verses, next) && Appends(next, r)
    requires RowsFrom(verses, next, head) && RowsFrom(next, r, rest)
    ensures Appends(verses, r)
    ensures RowsFrom(verses, r, head + rest)
  {
    assert r[..|next|] == next && next[..|verses|] == verses;
    assert r[..|verses|] == r[..|next|][..|verses|];
    forall i | |verses| <= i < |r|
      ensures FromPool(r[i], head + rest)
    {
      if i < |next| {
        assert r[i] == r[..|next|][i];
        assert FromPool(next[i], head);
        var b :| b in head && next[i] == ToRow(next[i].id, b);
        assert b in head + rest;
      } else {
        assert FromPool(r[i], rest);
        var b :| b in rest && r[i] == ToRow(r[i].id, b);
        assert b in head + rest;
      }
    }
  }

  /** All of `head + rest` stored means all of each part stored. */
  lemma AllStoredSplit(verses: seq<Verse>, head: seq<Built>, rest: seq<Built>)
    ensures AllStored(verses, head + rest) ==> AllStored(verses, head) && AllStored(verses, rest)
  {
    if AllStored(verses, head + rest) {
      forall b | b in head ensures KeyStored(verses, b.key) {
        assert b in head + rest;
      }
      forall b | b in rest ensures KeyStored(verses, b.key) {
        assert b in head + rest;
      }
    }
  }

  /** The count the loop reports never exceeds the verses it batched, and equals it when no insert throws. */
  lemma {:induction false} SumSelectedBound<T>(batches: seq<seq<T>>, ok: nat -> bool, from: nat)
    ensures SumSelected(batches, ok, from) <= |Flatten(batches)|
    ensures (forall i :: from <= i < from + |batches| ==> ok(i)) ==> SumSelected(batches, ok, from) == |Flatten(batches)|
    decreases |batches|
  {
    if |batches| > 0 {
      SumSelectedBound(batches[1..], ok, from + 1);
    }
  }

  /** The statement heads of the two dumps, up to `VALUES`. */
  const ArabicHeader: string := "INSERT INTO `quran_text` (`index`, `sura`, `aya`, `text`) VALUES"
  const TajikHeader: string := "INSERT INTO `tg_ayati` (`index`, `sura`, `aya`, `text`) VALUES"

  function ArabicRows(data: string): seq<Row> {
    Scan(data, Statement(ArabicHeader))
  }

  function TajikRows(data: string): seq<Row> {
    Scan(data, Statement(TajikHeader))
  }

  /** The maps the two extraction loops build. */
  function ArabicMap(data: string): seq<Entry> {
    Extract(ArabicRows(data))
  }

  function TajikMap(data: string): seq<Entry> {
    Extract(TajikRows(data))
  }

  /** The verses the loop builds against the surah table `seeded` that it reads after seeding. */
  function Accepted(seeded: seq<Surah>, arabicData: string, tajikData: string): seq<Built> {
    BuildAll(ArabicMap(arabicData), TajikMap(tajikData), Rebuild.SurahIds(seeded))
  }

  /**
   * The verse loop with its final flush: rows are only appended, the table
   * constraints hold, each new row is one of the built verses, every built
   * verse is stored when no insert throws, and nothing changes when every
   * built verse is already stored.
   */
  function ImportVerses(verses: seq<Verse>, built: seq<Built>, ok: nat -> bool): (r: seq<Verse>)
    ensures Appends(verses, r) && (Keyed(verses) ==> Keyed(r))
    ensures RowsFrom(verses, r, built)
    ensures (forall i :: ok(i)) ==> AllStored(r, built)
    ensures AllStored(verses, built) ==> r == verses
  {
    var batches := Flushes(built, []);
    FlushesAreChunks(built, []);
    assert [] + built == built;
    var r := InsertBatches(verses, batches, ok, 0);
    assert (forall i :: ok(i)) ==> AllStored(r, built) by {
      if forall i :: ok(i) {
        forall b | b in built
          ensures KeyStored(r, b.key)
        {
          FlattenMember(batches, b);
        }
      }
    }
    r
  }

  /** The reported count: at most the number of built verses, and all of them when no insert throws. */
  function Processed(built: seq<Built>, ok: nat -> bool): (n: nat)
    ensures n <= |built|
    ensures (forall i :: ok(i)) ==> n == |built|
  {
    var batches := Flushes(built, []);
    FlushesAreChunks(built, []);
    assert [] + built == built;
    SumSelectedBound(batches, ok, 0);
    SumSelected(batches, ok, 0)
  }

  /** An element of the concatenation lies in one of the batches. */
  lemma {:induction false} FlattenMember<T>(batches: seq<seq<T>>, x: T)
    requires x in Flatten(batches)
    ensures exists i :: 0 <= i < |batches| && x in batches[i]
    decreases |batches|
  {
    assert Flatten(batches) == batches[0] + Flatten(batches[1..]);
    if x !in batches[0] {
      FlattenMember(batches[1..], x);
      var i :| 0 <= i < |batches[1..]| && x in batches[1..][i];
      assert batches[i + 1] == batches[1..][i];
    }
  }

  /**
   * The script's end: the tables, the exit status, whether it got as far as
   * the closing `Verses import completed` log line, and that line's two
   * numbers (both 0 when it was not reached).
   */
  datatype Outcome = Outcome(db: Db, exitCode: int, completed: bool, processed: int, total: int)

  /**
   * Whether the outer `try` runs to its end, or which statement throws an
   * exception that only the outer `catch` handles: the schema DDL, the
   * select of the surah table, or reading one of the two dump files.
   */
  datatype Halt = Finishes | SchemaThrows | SelectThrows | ReadThrows

  /** No insert of a metadata entry went through. */
  predicate NoneSeeded(metas: seq<Meta>, seedOk: nat -> bool) {
    forall i :: 0 <= i < |metas| ==> !seedOk(i)
  }

  /**
   * The whole script with the metadata list `metas`. Without `DATABASE_URL`
   * it exits 1 untouched. The insert of `metas[i]` goes through iff
   * `seedOk(i)`, and batch
   * `i` of verses iff `ok(i)`; `halt` says whether an uncaught statement
   * throws, which the outer `catch` logs before the script ends with status
   * 0. The exit on an empty surah table fires only when that table was empty
   * and every metadata insert threw.
   */
  function RunWith(metas: seq<Meta>, hasUrl: bool, db: Db, arabicData: string, tajikData: string,
               seedOk: nat -> bool, halt: Halt, ok: nat -> bool): (r: Outcome)
    ensures !hasUrl ==> r == Outcome(db, 1, false, 0, 0)
    ensures hasUrl && halt.SchemaThrows? ==> r == Outcome(db, 0, false, 0, 0)
    ensures r.exitCode == 0 || r.exitCode == 1
    ensures r.exitCode == 1 <==>
      (!hasUrl || (!halt.SchemaThrows? && !halt.SelectThrows? && |db.surahs| == 0 && NoneSeeded(metas, seedOk)))
    ensures |db.surahs| <= |r.db.surahs| && r.db.surahs[..|db.surahs|] == db.surahs
    ensures hasUrl && !halt.SchemaThrows? ==>
      forall i :: 0 <= i < |metas| && seedOk(i) ==> HasNumber(r.db.surahs, metas[i].number)
    ensures forall k :: |db.surahs| <= k < |r.db.surahs| ==> Seeded(r.db.surahs[k], metas, seedOk, 0)
    ensures r.completed <==> hasUrl && halt.Finishes? && r.exitCode == 0
    ensures !r.completed ==> r.db.verses == db.verses && r.processed == 0 && r.total == 0
    ensures Appends(db.verses, r.db.verses) && (Keyed(db.verses) ==> Keyed(r.db.verses))
    ensures RowsFrom(db.verses, r.db.verses, Accepted(r.db.surahs, arabicData, tajikData))
    ensures 0 <= r.processed <= r.total
    ensures r.completed ==> r.total == |ArabicMap(arabicData)|
    ensures r.completed && (forall i :: ok(i)) ==>
      r.processed == |Accepted(r.db.surahs, arabicData, tajikData)| &&
      AllStored(r.db.verses, Accepted(r.db.surahs, arabicData, tajikData))
  {
    if !hasUrl then Outcome(db, 1, false, 0, 0)
    else if halt.SchemaThrows? then Outcome(db, 0, false, 0, 0)
    else
      var seeded := SeedSurahs(db.surahs, metas, seedOk, 0);
      SeededEmpty(db.surahs, metas, seedOk, seeded);
      AfterSeeding(db, seeded, arabicData, tajikData, halt, ok)
  }

  /**
   * The script as written, with its five metadata entries: when no surah
   * insert throws and the schema is in place, surahs 1 to 5 are present
   * afterwards, so the exit on an empty mapping does not fire.
   */
  function Run(hasUrl: bool, db: Db, arabicData: string, tajikData: string,
               seedOk: nat -> bool, halt: Halt, ok: nat -> bool): (r: Outcome)
    ensures hasUrl && !halt.SchemaThrows? && (forall i :: seedOk(i)) ==>
      r.exitCode == 0 && forall n :: 1 <= n <= 5 ==> HasNumber(r.db.surahs, n)
  {
    MetadataNumbers(Metadata);
    RunSeedsOneToFive(Metadata, hasUrl, db, arabicData, tajikData, seedOk, halt, ok);
    RunWith(Metadata, hasUrl, db, arabicData, tajikData, seedOk, halt, ok)
  }

  /** With entries numbered 1 to 5, a run in which no surah insert throws leaves surahs 1 to 5 in the table. */
  lemma RunSeedsOneToFive(metas: seq<Meta>, hasUrl: bool, db: Db, arabicData: string, tajikData: string,
                          seedOk: nat -> bool, halt: Halt, ok: nat -> bool)
    requires |metas| == 5 && forall i :: 0 <= i < |metas| ==> metas[i].number == i + 1
    ensures var r := RunWith(metas, hasUrl, db, arabicData, tajikData, seedOk, halt, ok);
      hasUrl && !halt.SchemaThrows? && (forall i :: seedOk(i)) ==>
      r.exitCode == 0 && forall n :: 1 <= n <= 5 ==> HasNumber(r.db.surahs, n)
  {
    var r := RunWith(metas, hasUrl, db, arabicData, tajikData, seedOk, halt, ok);
    if hasUrl && !halt.SchemaThrows? && (forall i :: seedOk(i)) {
      OneToFiveSeeded(metas, seedOk, r.db.surahs);
    }
  }

  /** Entries numbered 1 to 5 whose inserts all went through leave surahs 1 to 5 in the table. */
  lemma OneToFiveSeeded(metas: seq<Meta>, seedOk: nat -> bool, surahs: seq<Surah>)
    requires |metas| == 5 && forall i :: 0 <= i < |metas| ==> metas[i].number == i + 1
    requires forall i :: seedOk(i)
    requires forall i :: 0 <= i < |metas| && seedOk(i) ==> HasNumber(surahs, metas[i].number)
    ensures !NoneSeeded(metas, seedOk)
    ensures forall n :: 1 <= n <= 5 ==> HasNumber(surahs, n)
  {
    assert seedOk(0);
    forall n | 1 <= n <= 5
      ensures HasNumber(surahs, n)
    {
      assert seedOk(n - 1) && metas[n - 1].number == n;
    }
  }

  /** The metadata list numbers its entries 1 to 5 in order. */
  lemma MetadataNumbers(metas: seq<Meta>)
    requires metas == Metadata
    ensures |metas| == 5 && forall i :: 0 <= i < |metas| ==> metas[i].number == i + 1
  {
  }

  /**
   * The script from the select of the surah table on, with `seeded` the table
   * that seeding left: the exit on an empty mapping, the reading of the dumps,
   * and the verse loop.
   */
  function AfterSeeding(db: Db, seeded: seq<Surah>, arabicData: string, tajikData: string, halt: Halt, ok: nat -> bool): (r: Outcome)
    requires !halt.SchemaThrows?
    ensures r.db.surahs == seeded
    ensures halt.SelectThrows? ==> r == Outcome(Db(seeded, db.verses), 0, false, 0, 0)
    ensures r.exitCode == 0 || r.exitCode == 1
    ensures r.exitCode == 1 <==> !halt.SelectThrows? && |seeded| == 0
    ensures r.completed <==> halt.Finishes? && r.exitCode == 0
    ensures !r.completed ==> r.db.verses == db.verses && r.processed == 0 && r.total == 0
    ensures Appends(db.verses, r.db.verses) && (Keyed(db.verses) ==> Keyed(r.db.verses))
    ensures RowsFrom(db.verses, r.db.verses, Accepted(seeded, arabicData, tajikData))
    ensures 0 <= r.processed <= r.total
    ensures r.completed ==> r.total == |ArabicMap(arabicData)|
    ensures r.completed && (forall i :: ok(i)) ==>
      r.processed == |Accepted(seeded, arabicData, tajikData)| &&
      AllStored(r.db.verses, Accepted(seeded, arabicData, tajikData))
  {
    var untouched := Db(seeded, db.verses);
    Untouched(db.verses, Accepted(seeded, arabicData, tajikData));
    if halt.SelectThrows? then Outcome(untouched, 0, false, 0, 0)
    else
      var ids := Rebuild.SurahIds(seeded);
      assert |seeded| > 0 ==> seeded[0].number in ids;
      if |ids| == 0 then Outcome(untouched, 1, false, 0, 0)
      else if halt.ReadThrows? then Outcome(untouched, 0, false, 0, 0)
      else
        var built := Accepted(seeded, arabicData, tajikData);
        Outcome(Db(seeded, ImportVerses(db.verses, built, ok)), 0, true, Processed(built, ok), |ArabicMap(arabicData)|)
  }

  /** A verse table left as it was keeps the verse loop's guarantees. */
  lemma Untouched(verses: seq<Verse>, built: seq<Built>)
    ensures Appends(verses, verses) && (Keyed(verses) ==> Keyed(verses)) && RowsFrom(verses, verses, built)
  {
    assert verses[..|verses|] == verses;
  }

  /** The seeding loop from entry 0: the table is empty exactly when it was and no insert went through. */
  lemma SeededEmpty(surahs: seq<Surah>, metas: seq<Meta>, seedOk: nat -> bool, seeded: seq<Surah>)
    requires seeded == SeedSurahs(surahs, metas, seedOk, 0)
    ensures |seeded| == 0 <==> |surahs| == 0 && NoneSeeded(metas, seedOk)
    ensures forall i :: 0 <= i < |metas| && seedOk(i) ==> HasNumber(seeded, metas[i].number)
  {
    forall i | 0 <= i < |metas| && seedOk(i)
      ensures HasNumber(seeded, metas[i].number)
    {
      assert seedOk(0 + i);
    }
    if |surahs| == 0 && |seeded| > 0 {
      assert Seeded(seeded[0], metas, seedOk, 0);
      var i :| 0 <= i < |metas| && seedOk(0 + i) && FromMeta(seeded[0], metas[i]);
      assert seedOk(i);
    }
    if !NoneSeeded(metas, seedOk) {
      var i :| 0 <= i < |metas| && seedOk(i);
      assert HasNumber(seeded, metas[i].number);
    }
  }

  /**
   * Running the script again over the same dumps, after a first run in which
   * nothing threw, stores nothing new, yet reports the same count: the count
   * is of verses sent, not of rows added.
   */
  lemma RerunAddsNothing(metas: seq<Meta>, db: Db, arabicData: string, tajikData: string, seedOk: nat -> bool, ok: nat -> bool)
    requires |metas| > 0
    requires forall i :: seedOk(i)
    requires forall i :: ok(i)
    ensures var first := RunWith(metas, true, db, arabicData, tajikData, seedOk, Finishes, ok);
      var second := RunWith(metas, true, first.db, arabicData, tajikData, seedOk, Finishes, ok);
      first.completed && second.db == first.db && second.processed == first.processed
  {
    var first := RunWith(metas, true, db, arabicData, tajikData, seedOk, Finishes, ok);
    assert !NoneSeeded(metas, seedOk) by { assert seedOk(0); }
    var seeded := SeedSurahs(db.surahs, metas, seedOk, 0);
    RunWithUrl(metas, db, arabicData, tajikData, seedOk, ok);
    SeededEmpty(db.surahs, metas, seedOk, seeded);
    SeedingSettles(seeded, metas, seedOk);
    RunWithUrl(metas, first.db, arabicData, tajikData, seedOk, ok);
    var built := Accepted(seeded, arabicData, tajikData);
    assert ImportVerses(first.db.verses, built, ok) == first.db.verses;
  }

  /** What a run that reaches its end leaves behind, step by step. */
  lemma RunWithUrl(metas: seq<Meta>, db: Db, arabicData: string, tajikData: string, seedOk: nat -> bool, ok: nat -> bool)
    requires !(|db.surahs| == 0 && NoneSeeded(metas, seedOk))
    ensures var seeded := SeedSurahs(db.surahs, metas, seedOk, 0);
      var built := Accepted(seeded, arabicData, tajikData);
      RunWith(metas, true, db, arabicData, tajikData, seedOk, Finishes, ok)
        == Outcome(Db(seeded, ImportVerses(db.verses, built, ok)), 0, true, Processed(built, ok), |ArabicMap(arabicData)|)
  {
    var seeded := SeedSurahs(db.surahs, metas, seedOk, 0);
    SeededEmpty(db.surahs, metas, seedOk, seeded);
    assert seeded[0].number in Rebuild.SurahIds(seeded);
  }

  /** Seeding a table that already holds every metadata number changes nothing. */
  lemma SeedingSettles(surahs: seq<Surah>, metas: seq<Meta>, seedOk: nat -> bool)
    requires forall i :: 0 <= i < |metas| ==> HasNumber(surahs, metas[i].number)
    ensures SeedSurahs(surahs, metas, seedOk, 0) == surahs
  {
    forall m | m in metas
      ensures HasNumber(surahs, m.number)
    {
      var i :| 0 <= i < |metas| && metas[i] == m;
    }
  }

  /** A dump written one single-tuple statement per line. */
  function StatementLines(header: string, rows: seq<Row>): string
    decreases |rows|
  {
    if |rows| == 0 then "" else header + "\n" + Render(rows[0]) + (";\n" + StatementLines(header, rows[1..]))
  }

  /** The statement pattern reads back exactly the tuples of such a dump, in order. */
  lemma {:induction false} ScanStatementLines(header: string, rows: seq<Row>)
    requires |header| > 0 && header[0] == 'I'
    requires forall row :: row in rows ==> Matched(row)
    ensures Scan(StatementLines(header, rows), Statement(header)) == rows
    decreases |rows|
  {
    if |rows| > 0 {
      var tail := StatementLines(header, rows[1..]);
      var s := header + "\n" + Render(rows[0]) + (";\n" + tail);
      assert StatementLines(header, rows) == s;
      assert AllSpace("\n");
      StatementRender(header, "\n", rows[0], ";\n" + tail);
      ScanHead(s, Statement(header), Match(rows[0], ";\n" + tail));
      SkipSeparator(header, tail);
      ScanStatementLines(header, rows[1..]);
      assert [rows[0]] + rows[1..] == rows;
    }
  }

  /** A match at the start is the first row of the scan, which then resumes after it. */
  lemma ScanHead(s: string, pat: Pattern, m: Match)
    requires MatchAt(s, pat) == Some(m)
    ensures Scan(s, pat) == [m.row] + Scan(m.rest, pat)
  {
  }

  /** The `;` and line break between two statements match nothing. */
  lemma SkipSeparator(header: string, tail: string)
    requires |header| > 0 && header[0] == 'I'
    ensures Scan(";\n" + tail, Statement(header)) == Scan(tail, Statement(header))
  {
    assert !StartsWith(";\n" + tail, header);
    assert (";\n" + tail)[1..] == "\n" + tail;
    assert !StartsWith("\n" + tail, header);
    assert ("\n" + tail)[1..] == tail;
  }

  /** The numbers of a tuple's key are the values of its captured digits. */
  lemma KeyNumbers(row: Row)
    requires Matched(row)
    ensures SuraAyaKey(KeyOf(row))
    ensures SuraOf(KeyOf(row)) == DecimalValue(row.sura) && AyaOf(KeyOf(row)) == DecimalValue(row.aya)
  {
    KeyOfSplits(row);
    ParseIntOfDigits(row.sura, true);
    ParseIntOfDigits(row.aya, true);
  }

  /** Row `i` is the last row with key `k`, and its text is `t`. */
  predicate LastText(rows: seq<Row>, k: string, t: string) {
    exists i :: 0 <= i < |rows| && LastWithKey(rows, i) && KeyOf(rows[i]) == k && rows[i].text == t
  }

  /** What `get` returns is the text of the last row with the key. */
  lemma GetIsLastText(rows: seq<Row>, k: string)
    requires Get(Extract(rows), k).Some?
    ensures LastText(rows, k, Get(Extract(rows), k).value)
  {
    var i := LastOccurrence(rows, k);
    ExtractLastWins(rows, i);
  }

  /** The last row with a key that some row has. */
  lemma LastOccurrence(rows: seq<Row>, k: string) returns (i: int)
    requires KeyRead(rows, k)
    ensures LastWithKey(rows, i) && KeyOf(rows[i]) == k
  {
    i :| 0 <= i < |rows| && KeyOf(rows[i]) == k;
    var j := i + 1;
    while j < |rows|
      invariant i < j <= |rows| && KeyOf(rows[i]) == k
      invariant forall t :: i < t < j ==> KeyOf(rows[t]) != k
      decreases |rows| - j
    {
      if KeyOf(rows[j]) == k {
        i := j;
      }
      j := j + 1;
    }
  }

  /**
   * The loop builds a verse for key `k` exactly when `k` is an Arabic key
   * whose surah maps to a truthy id and which has a Tajik text.
   */
  lemma BuildAllExact(arabic: seq<Entry>, tajik: seq<Entry>, ids: map<int, int>, k: string)
    requires forall i :: 0 <= i < |arabic| ==> SuraAyaKey(arabic[i].key)
    requires SuraAyaKey(k)
    ensures (exists b :: b in BuildAll(arabic, tajik, ids) && b.key == k) <==> HasKey(arabic, k) && Joinable(k, tajik, ids)
  {
    var r := BuildAll(arabic, tajik, ids);
    if exists b :: b in r && b.key == k {
      var b :| b in r && b.key == k;
      assert JoinedFrom(b, arabic, tajik, ids);
      var i :| 0 <= i < |arabic| && arabic[i] == Entry(b.key, b.arabic);
      assert arabic[i].key == k;
    }
    if HasKey(arabic, k) && Joinable(k, tajik, ids) {
      var i :| 0 <= i < |arabic| && arabic[i].key == k;
      assert Joinable(arabic[i].key, tajik, ids);
    }
  }

  /** The same, for the verses the script builds from the two dumps. */
  lemma JoinExact(seeded: seq<Surah>, arabicData: string, tajikData: string, k: string)
    requires SuraAyaKey(k)
    ensures (exists b :: b in Accepted(seeded, arabicData, tajikData) && b.key == k) <==>
      HasKey(ArabicMap(arabicData), k) && Joinable(k, TajikMap(tajikData), Rebuild.SurahIds(seeded))
  {
    BuildAllExact(ArabicMap(arabicData), TajikMap(tajikData), Rebuild.SurahIds(seeded), k);
  }

  /**
   * The join over the raw tuples: every built verse carries the text of the
   * last Arabic and of the last Tajik tuple with its key, its surah's id,
   * the verse number of its key, and the audio URL of the two numbers.
   */
  lemma BuiltFromRows(seeded: seq<Surah>, arabicData: string, tajikData: string, b: Built)
    requires b in Accepted(seeded, arabicData, tajikData)
    ensures LastText(ArabicRows(arabicData), b.key, b.arabic)
    ensures LastText(TajikRows(tajikData), b.key, b.tajik)
    ensures SuraAyaKey(b.key) && SuraOf(b.key) in Rebuild.SurahIds(seeded) &&
      b.surahId == Rebuild.SurahIds(seeded)[SuraOf(b.key)] && b.surahId != 0 &&
      b.verseNumber == AyaOf(b.key) && b.audioUrl == AudioUrl(SuraOf(b.key), AyaOf(b.key))
  {
    BuiltFromExtracts(ArabicRows(arabicData), TajikRows(tajikData), Rebuild.SurahIds(seeded), b);
  }

  lemma BuiltFromExtracts(rowsA: seq<Row>, rowsT: seq<Row>, ids: map<int, int>, b: Built)
    requires forall row :: row in rowsA ==> Matched(row)
    requires b in BuildAll(Extract(rowsA), Extract(rowsT), ids)
    ensures LastText(rowsA, b.key, b.arabic) && LastText(rowsT, b.key, b.tajik)
    ensures SuraAyaKey(b.key) && Rebuild.HasId(ids, SuraOf(b.key)) && b.surahId == ids[SuraOf(b.key)]
    ensures b.verseNumber == AyaOf(b.key) && b.audioUrl == AudioUrl(SuraOf(b.key), AyaOf(b.key))
  {
    var A, T := Extract(rowsA), Extract(rowsT);
    assert JoinedFrom(b, A, T, ids);
    var i :| 0 <= i < |A| && A[i] == Entry(b.key, b.arabic);
    GetAt(A, i);
    GetIsLastText(rowsA, b.key);
    GetIsLastText(rowsT, b.key);
  }

  /** A tuple whose surah number maps to a truthy id. */
  predicate MappedRow(ids: map<int, int>, row: Row) {
    Matched(row) && Rebuild.HasId(ids, DecimalValue(row.sura))
  }

  /**
   * Conversely, a key whose last Arabic and last Tajik tuples are `a` and `t`
   * and whose surah number maps to a truthy id yields a built verse with
   * both texts and the tuple's verse number.
   */
  lemma JoinOfRows(rowsA: seq<Row>, rowsT: seq<Row>, ids: map<int, int>, ia: int, it: int)
    requires forall row :: row in rowsA ==> Matched(row)
    requires LastWithKey(rowsA, ia) && LastWithKey(rowsT, it) && KeyOf(rowsA[ia]) == KeyOf(rowsT[it])
    requires MappedRow(ids, rowsA[ia])
    ensures exists b :: (b in BuildAll(Extract(rowsA), Extract(rowsT), ids) &&
        b.key == KeyOf(rowsA[ia]) && b.arabic == rowsA[ia].text &&
        b.tajik == rowsT[it].text && b.verseNumber == DecimalValue(rowsA[ia].aya))
  {
    var a, t := rowsA[ia], rowsT[it];
    var A, T := Extract(rowsA), Extract(rowsT);
    ExtractLastWins(rowsA, ia);
    ExtractLastWins(rowsT, it);
    KeyNumbers(a);
    var k := KeyOf(a);
    assert Joinable(k, T, ids);
    var b := BuiltFor(A, T, ids, k);
    assert b.tajik == t.text && b.verseNumber == DecimalValue(a.aya);
  }

  /** The same, for the verses the script builds from the two dumps. */
  lemma JoinOfDumps(seeded: seq<Surah>, arabicData: string, tajikData: string, ia: int, it: int)
    requires LastWithKey(ArabicRows(arabicData), ia) && LastWithKey(TajikRows(tajikData), it)
    requires KeyOf(ArabicRows(arabicData)[ia]) == KeyOf(TajikRows(tajikData)[it])
    requires MappedRow(Rebuild.SurahIds(seeded), ArabicRows(arabicData)[ia])
    ensures exists b :: (b in Accepted(seeded, arabicData, tajikData) &&
      b.key == KeyOf(ArabicRows(arabicData)[ia]) && b.arabic == ArabicRows(arabicData)[ia].text &&
      b.tajik == TajikRows(tajikData)[it].text && b.verseNumber == DecimalValue(ArabicRows(arabicData)[ia].aya))
  {
    JoinOfRows(ArabicRows(arabicData), TajikRows(tajikData), Rebuild.SurahIds(seeded), ia, it);
  }

  /** The verse built for a joinable Arabic key. */
  lemma BuiltFor(arabic: seq<Entry>, tajik: seq<Entry>, ids: map<int, int>, k: string) returns (b: Built)
    requires forall i :: 0 <= i < |arabic| ==> SuraAyaKey(arabic[i].key)
    requires UniqueKeys(arabic) && Get(arabic, k).Some? && SuraAyaKey(k) && Joinable(k, tajik, ids)
    ensures b in BuildAll(arabic, tajik, ids) && b.key == k && b.arabic == Get(arabic, k).value
    ensures Get(tajik, k) == Some(b.tajik) && b.verseNumber == AyaOf(k)
  {
    var j :| 0 <= j < |arabic| && arabic[j] == Entry(k, Get(arabic, k).value);
    var r := BuildAll(arabic, tajik, ids);
    assert Joinable(arabic[j].key, tajik, ids);
    assert exists c :: c in r && c.key == arabic[j].key && c.arabic == arabic[j].text;
    b :| b in r && b.key == arabic[j].key && b.arabic == arabic[j].text;
    assert JoinedFrom(b, arabic, tajik, ids);
  }
}

=== FILE: importwords.dfy ===
/**
 * `import-words.cjs`: loads the words of `quran_words.json` into the
 * `word_analysis` table in slices of 100. Each word is looked up by its verse
 * key; a known (verse, position) pair has its text and transliteration
 * overwritten, an unknown one gets a new row. Every word counts as a success
 * or as an error.
 *
 * The parsed file is the parameter `words`, in the shape the word extractor
 * writes; the clock is `now`; whether a database call for word `i` of the
 * whole list throws is the oracle `ok(i)`.
 */
module ImportWords {
  import opened Wrappers
  import opened Text
  import opened Seqs
  import opened Schema
  import QuranWords
  import WordService

  type Word = QuranWords.WordRecord
  type WordDb = WordService.WordDb

  const BatchSize: nat := 100

  /** The row belongs to the (verse, position) pair. */
  predicate AtPair(row: WordRow, verseId: int, position: int) {
    row.verseId == verseId && row.wordPosition == position
  }

  predicate PairStored(rows: seq<WordRow>, verseId: int, position: int) {
    exists i :: 0 <= i < |rows| && AtPair(rows[i], verseId, position)
  }

  /** `b` keeps the rows of `a` in place with their (verse, position) pairs, possibly adding rows after them. */
  predicate KeepsPairs(a: seq<WordRow>, b: seq<WordRow>) {
    |a| <= |b| && forall i :: 0 <= i < |a| ==> b[i].id == a[i].id && b[i].verseId == a[i].verseId && b[i].wordPosition == a[i].wordPosition
  }

  /** The verse a word belongs to: the first whose key is `surah:verse`. */
  function VerseOf(db: WordDb, w: Word): Option<Verse> {
    WordService.VerseAt(db, w.surah, w.verse)
  }

  /** `update(wordAnalysis).set({ word_text, transliteration })` on every row of the pair. */
  function SetText(rows: seq<WordRow>, verseId: int, position: int, text: string, transliteration: string): (r: seq<WordRow>)
    ensures |r| == |rows|
    ensures forall i :: 0 <= i < |rows| && !AtPair(rows[i], verseId, position) ==> r[i] == rows[i]
    ensures forall i :: 0 <= i < |rows| && AtPair(rows[i], verseId, position) ==>
      r[i] == rows[i].(wordText := text, transliteration := Some(transliteration))
  {
    seq(|rows|, i requires 0 <= i < |rows| =>
      if AtPair(rows[i], verseId, position) then rows[i].(wordText := text, transliteration := Some(transliteration)) else rows[i])
  }

  /** Every row of the pair carries the word's text and transliteration. */
  predicate Carries(rows: seq<WordRow>, verseId: int, w: Word) {
    forall i :: 0 <= i < |rows| && AtPair(rows[i], verseId, w.position) ==>
      rows[i].wordText == w.arabic && rows[i].transliteration == Some(w.transliteration)
  }

  /**
   * One pass of the per-word loop; the flag says whether it counted as a
   * success. It succeeds exactly when the verse is found and no call throws.
   * Then the pair is stored and all its rows carry the word; other pairs'
   * rows, and the ids, translations, roots, parts of speech and creation
   * times of existing rows, are untouched; a row is added only when the pair
   * was new, with no translation, root or part of speech. A failure changes
   * nothing.
   */
  function ImportWord(db: WordDb, w: Word, ok: bool, now: int): (r: (WordDb, bool))
    ensures r.0.verses == db.verses
    ensures r.1 <==> ok && VerseOf(db, w).Some?
    ensures !r.1 ==> r.0 == db
    ensures KeepsPairs(db.words, r.0.words)
    ensures forall i :: 0 <= i < |db.words| ==>
      r.0.words[i] == db.words[i].(wordText := r.0.words[i].wordText, transliteration := r.0.words[i].transliteration)
    ensures r.1 ==> PairStored(r.0.words, VerseOf(db, w).value.id, w.position) && Carries(r.0.words, VerseOf(db, w).value.id, w)
    ensures r.1 ==> forall i :: 0 <= i < |db.words| && !AtPair(db.words[i], VerseOf(db, w).value.id, w.position) ==> r.0.words[i] == db.words[i]
    ensures r.1 && PairStored(db.words, VerseOf(db, w).value.id, w.position) ==> |r.0.words| == |db.words|
    ensures r.1 && !PairStored(db.words, VerseOf(db, w).value.id, w.position) ==>
      r.0.words == db.words + [WordRow(db.nextWordId, VerseOf(db, w).value.id, w.position, w.arabic, Some(w.transliteration), None, None, None, now)]
  {
    match VerseOf(db, w)
    case None => (db, false)
    case Some(v) =>
      if !ok then (db, false)
      else if PairStored(db.words, v.id, w.position) then (UpdatePair(db, v.id, w), true)
      else (AddPair(db, v.id, w, now), true)
  }

  /** The update branch: only the rows of the pair change, and only in text and transliteration. */
  function UpdatePair(db: WordDb, verseId: int, w: Word): (r: WordDb)
    requires PairStored(db.words, verseId, w.position)
    ensures r.verses == db.verses && r.nextWordId == db.nextWordId && |r.words| == |db.words|
    ensures KeepsPairs(db.words, r.words)
    ensures forall i :: 0 <= i < |db.words| ==>
      r.words[i] == db.words[i].(wordText := r.words[i].wordText, transliteration := r.words[i].transliteration)
    ensures forall i :: 0 <= i < |db.words| && !AtPair(db.words[i], verseId, w.position) ==> r.words[i] == db.words[i]
    ensures PairStored(r.words, verseId, w.position) && Carries(r.words, verseId, w)
  {
    var rows := SetText(db.words, verseId, w.position, w.arabic, w.transliteration);
    assert PairStored(rows, verseId, w.position) by {
      var i :| 0 <= i < |db.words| && AtPair(db.words[i], verseId, w.position);
      assert AtPair(rows[i], verseId, w.position);
    }
    db.(words := rows)
  }

  /** The insert branch: one new row for the pair, after every existing row. */
  function AddPair(db: WordDb, verseId: int, w: Word, now: int): (r: WordDb)
    requires !PairStored(db.words, verseId, w.position)
    ensures r.verses == db.verses
    ensures |r.words| == |db.words| + 1 && r.words[..|db.words|] == db.words
    ensures r.words[|db.words|] == WordRow(db.nextWordId, verseId, w.position, w.arabic, Some(w.transliteration), None, None, None, now)
    ensures PairStored(r.words, verseId, w.position) && Carries(r.words, verseId, w)
  {
    var row := WordRow(db.nextWordId, verseId, w.position, w.arabic, Some(w.transliteration), None, None, None, now);
    var rows := db.words + [row];
    assert AtPair(rows[|db.words|], verseId, w.position);
    assert rows[..|db.words|] == db.words;
    db.(words := rows, nextWordId := db.nextWordId + 1)
  }

  /** Rows carrying a pair keep carrying it. */
  lemma KeepsPairsStored(a: seq<WordRow>, b: seq<WordRow>, verseId: int, position: int)
    requires KeepsPairs(a, b) && PairStored(a, verseId, position)
    ensures PairStored(b, verseId, position)
  {
    var i :| 0 <= i < |a| && AtPair(a[i], verseId, position);
    assert AtPair(b[i], verseId, position);
  }

  /** The per-batch counters. */
  datatype Counts = Counts(success: nat, error: nat)

  /** Whether word `w` finds its verse and its calls go through. */
  predicate Lands(verses: seq<Verse>, w: Word, ok: bool) {
    ok && VerseOf(WordService.WordDb(verses, [], 0), w).Some?
  }

  /** The number of elements, the first having global index `from`, that `hit` accepts. */
  function CountHits<T>(s: seq<T>, hit: (T, nat) -> bool, from: nat): nat
    decreases |s|
  {
    if |s| == 0 then 0
    else (if hit(s[0], from) then 1 else 0) + CountHits(s[1..], hit, from + 1)
  }

  /** The number of words, from global index `from` on, that land. */
  function Landing(verses: seq<Verse>, words: seq<Word>, ok: nat -> bool, from: nat): nat {
    CountHits(words, (w: Word, i: nat) => Lands(verses, w, ok(i)), from)
  }

  /** The verse lookup reads only the verse table. */
  lemma VerseOfVerses(db: WordDb, w: Word)
    ensures VerseOf(db, w) == VerseOf(WordService.WordDb(db.verses, [], 0), w)
  {
  }

  /** Every word of the list that finds its verse has its pair stored. */
  predicate AllPairsStored(db: WordDb, words: seq<Word>) {
    forall w :: w in words && VerseOf(db, w).Some? ==> PairStored(db.words, VerseOf(db, w).value.id, w.position)
  }

  /**
   * `importBatch`: success and error counts add up to the batch size, the
   * successes are the words that land, the verse table is untouched, rows
   * keep their pairs, and a batch whose every pair is already stored adds no
   * row. When no call throws, every pair of the batch is stored afterwards.
   */
  function ImportBatch(db: WordDb, batch: seq<Word>, ok: nat -> bool, from: nat, now: int): (r: (WordDb, Counts))
    ensures r.1.success + r.1.error == |batch|
    ensures r.1.success == Landing(db.verses, batch, ok, from)
    ensures r.0.verses == db.verses
    ensures KeepsPairs(db.words, r.0.words)
    ensures AllPairsStored(db, batch) ==> |r.0.words| == |db.words|
    ensures (forall i :: from <= i < from + |batch| ==> ok(i)) ==> AllPairsStored(r.0, batch)
    decreases |batch|
  {
    if |batch| == 0 then (db, Counts(0, 0))
    else
      var (next, landed) := ImportWord(db, batch[0], ok(from), now);
      var (final, counts) := ImportBatch(next, batch[1..], ok, from + 1, now);
      VerseOfVerses(db, batch[0]);
      assert landed <==> Lands(db.verses, batch[0], ok(from));
      assert Landing(db.verses, batch, ok, from) == (if landed then 1 else 0) + Landing(next.verses, batch[1..], ok, from + 1);
      ImportBatchStep(db, batch, ok, from, now, next, landed, final);
      (final, Counts(counts.success + (if landed then 1 else 0), counts.error + (if landed then 0 else 1)))
  }

  lemma ImportBatchStep(db: WordDb, batch: seq<Word>, ok: nat -> bool, from: nat, now: int, next: WordDb, landed: bool, final: WordDb)
    requires |batch| > 0 && (next, landed) == ImportWord(db, batch[0], ok(from), now)
    requires final.verses == next.verses && KeepsPairs(next.words, final.words)
    requires AllPairsStored(next, batch[1..]) ==> |final.words| == |next.words|
    requires (forall i :: from + 1 <= i < from + 1 + |batch[1..]| ==> ok(i)) ==> AllPairsStored(final, batch[1..])
    ensures final.verses == db.verses
    ensures KeepsPairs(db.words, final.words)
    ensures AllPairsStored(db, batch) ==> |final.words| == |db.words|
    ensures (forall i :: from <= i < from + |batch| ==> ok(i)) ==> AllPairsStored(final, batch)
  {
    assert forall w :: w in batch[1..] ==> w in batch;
    assert forall w :: VerseOf(next, w) == VerseOf(db, w) by {
      forall w
        ensures VerseOf(next, w) == VerseOf(db, w)
      {
        VerseOfVerses(next, w);
        VerseOfVerses(db, w);
      }
    }
    if AllPairsStored(db, batch) {
      assert AllPairsStored(next, batch[1..]) by {
        forall w | w in batch[1..] && VerseOf(next, w).Some?
          ensures PairStored(next.words, VerseOf(next, w).value.id, w.position)
        {
          KeepsPairsStored(db.words, next.words, VerseOf(db, w).value.id, w.position);
        }
      }
    }
    if forall i :: from <= i < from + |batch| ==> ok(i) {
      assert ok(from);
      forall w | w in batch && VerseOf(final, w).Some?
        ensures PairStored(final.words, VerseOf(final, w).value.id, w.position)
      {
        if w == batch[0] {
          KeepsPairsStored(next.words, final.words, VerseOf(db, w).value.id, w.position);
        } else {
          assert w in batch[1..];
        }
      }
    }
  }

  /** The totals of the closing log line. */
  datatype Totals = Totals(db: WordDb, success: nat, error: nat)

  /** The loop over the batches, word `from` being the first of the first batch. */
  function ImportBatches(db: WordDb, batches: seq<seq<Word>>, ok: nat -> bool, from: nat, now: int): (r: Totals)
    ensures r.success + r.error == |Flatten(batches)|
    ensures r.success == Landing(db.verses, Flatten(batches), ok, from)
    ensures r.db.verses == db.verses
    ensures KeepsPairs(db.words, r.db.words)
    ensures AllPairsStored(db, Flatten(batches)) ==> |r.db.words| == |db.words|
    ensures (forall i :: from <= i < from + |Flatten(batches)| ==> ok(i)) ==> AllPairsStored(r.db, Flatten(batches))
    ensures KeepsMissed(db, r.db.words, Flatten(batches))
    ensures (forall i :: from <= i < from + |Flatten(batches)| ==> ok(i)) ==> CarriesLast(db, r.db.words, Flatten(batches))
    decreases |batches|
  {
    if |batches| == 0 then Totals(db, 0, 0)
    else
      var (next, counts) := ImportBatch(db, batches[0], ok, from, now);
      var rest := ImportBatches(next, batches[1..], ok, from + |batches[0]|, now);
      ImportBatchesStep(db, batches, ok, from, next, counts, rest);
      BatchKeepsAll(db, batches[0], ok, from, now);
      BatchCarriesLastIf(db, batches[0], ok, from, now);
      ImportBatchesCarry(db, batches, ok, from, next, rest.db);
      Totals(rest.db, counts.success + rest.success, counts.error + rest.error)
  }

  lemma ImportBatchesStep(db: WordDb, batches: seq<seq<Word>>, ok: nat -> bool, from: nat, next: WordDb, counts: Counts, rest: Totals)
    requires |batches| > 0
    requires counts.success + counts.error == |batches[0]|
    requires counts.success == Landing(db.verses, batches[0], ok, from)
    requires next.verses == db.verses && KeepsPairs(db.words, next.words)
    requires AllPairsStored(db, batches[0]) ==> |next.words| == |db.words|
    requires (forall i :: from <= i < from + |batches[0]| ==> ok(i)) ==> AllPairsStored(next, batches[0])
    requires rest.success + rest.error == |Flatten(batches[1..])|
    requires rest.success == Landing(next.verses, Flatten(batches[1..]), ok, from + |batches[0]|)
    requires rest.db.verses == next.verses && KeepsPairs(next.words, rest.db.words)
    requires AllPairsStored(next, Flatten(batches[1..])) ==> |rest.db.words| == |next.words|
    requires (forall i :: from + |batches[0]| <= i < from + |batches[0]| + |Flatten(batches[1..])| ==> ok(i)) ==>
      AllPairsStored(rest.db, Flatten(batches[1..]))
    ensures counts.success + rest.success + counts.error + rest.error == |Flatten(batches)|
    ensures counts.success + rest.success == Landing(db.verses, Flatten(batches), ok, from)
    ensures rest.db.verses == db.verses
    ensures KeepsPairs(db.words, rest.db.words)
    ensures AllPairsStored(db, Flatten(batches)) ==> |rest.db.words| == |db.words|
    ensures (forall i :: from <= i < from + |Flatten(batches)| ==> ok(i)) ==> AllPairsStored(rest.db, Flatten(batches))
  {
    var head, tail := batches[0], Flatten(batches[1..]);
    assert Flatten(batches) == head + tail;
    LandingAppend(db.verses, head, tail, ok, from);
    PairsAcross(db, next, rest.db, head, tail, ok, from);
  }

  /** The text facts of the first batch and of the rest combine into those of all the batches. */
  lemma ImportBatchesCarry(db: WordDb, batches: seq<seq<Word>>, ok: nat -> bool, from: nat, next: WordDb, last: WordDb)
    requires |batches| > 0 && next.verses == db.verses
    requires KeepsMissed(db, next.words, batches[0])
    requires (forall i :: from <= i < from + |batches[0]| ==> ok(i)) ==> CarriesLast(db, next.words, batches[0])
    requires KeepsMissed(next, last.words, Flatten(batches[1..]))
    requires (forall i :: from + |batches[0]| <= i < from + |batches[0]| + |Flatten(batches[1..])| ==> ok(i)) ==>
      CarriesLast(next, last.words, Flatten(batches[1..]))
    ensures KeepsMissed(db, last.words, Flatten(batches))
    ensures (forall i :: from <= i < from + |Flatten(batches)| ==> ok(i)) ==> CarriesLast(db, last.words, Flatten(batches))
  {
    var head, tail := batches[0], Flatten(batches[1..]);
    assert Flatten(batches) == head + tail;
    SameVerses(db, next);
    forall verseId, x | Carries(db.words, verseId, x) && Misses(db, head + tail, verseId, x.position)
      ensures Carries(last.words, verseId, x)
    {
      MissesSplit(db, head, tail, verseId, x.position);
    }
    if forall i :: from <= i < from + |head + tail| ==> ok(i) {
      assert forall i :: from <= i < from + |head| ==> ok(i);
      CarriesLastJoin(db, next, last.words, head, tail);
    }
  }

  /** The pair facts of two consecutive stretches of words combine. */
  lemma PairsAcross(db: WordDb, next: WordDb, last: WordDb, head: seq<Word>, tail: seq<Word>, ok: nat -> bool, from: nat)
    requires next.verses == db.verses && KeepsPairs(db.words, next.words)
    requires AllPairsStored(db, head) ==> |next.words| == |db.words|
    requires (forall i :: from <= i < from + |head| ==> ok(i)) ==> AllPairsStored(next, head)
    requires last.verses == next.verses && KeepsPairs(next.words, last.words)
    requires AllPairsStored(next, tail) ==> |last.words| == |next.words|
    requires (forall i :: from + |head| <= i < from + |head| + |tail| ==> ok(i)) ==> AllPairsStored(last, tail)
    ensures KeepsPairs(db.words, last.words)
    ensures AllPairsStored(db, head + tail) ==> |last.words| == |db.words|
    ensures (forall i :: from <= i < from + |head + tail| ==> ok(i)) ==> AllPairsStored(last, head + tail)
  {
    KeepsPairsTrans(db.words, next.words, last.words);
    if AllPairsStored(db, head + tail) {
      StoredParts(db, next, head, tail);
    }
    if forall i :: from <= i < from + |head + tail| ==> ok(i) {
      assert forall i :: from <= i < from + |head| ==> ok(i);
      StoredWhole(db, next, last, head, tail);
    }
  }

  lemma KeepsPairsTrans(a: seq<WordRow>, b: seq<WordRow>, c: seq<WordRow>)
    requires KeepsPairs(a, b) && KeepsPairs(b, c)
    ensures KeepsPairs(a, c)
  {
  }

  /** Two states over the same verse table find the same verses. */
  lemma SameVerses(a: WordDb, b: WordDb)
    requires a.verses == b.verses
    ensures forall w :: VerseOf(a, w) == VerseOf(b, w)
  {
    forall w
      ensures VerseOf(a, w) == VerseOf(b, w)
    {
      VerseOfVerses(a, w);
      VerseOfVerses(b, w);
    }
  }

  lemma StoredParts(db: WordDb, next: WordDb, head: seq<Word>, tail: seq<Word>)
    requires db.verses == next.verses && KeepsPairs(db.words, next.words)
    requires AllPairsStored(db, head + tail)
    ensures AllPairsStored(db, head) && AllPairsStored(next, tail)
  {
    SameVerses(db, next);
    forall w | w in tail && VerseOf(next, w).Some?
      ensures PairStored(next.words, VerseOf(next, w).value.id, w.position)
    {
      assert w in head + tail;
      KeepsPairsStored(db.words, next.words, VerseOf(db, w).value.id, w.position);
    }
    forall w | w in head && VerseOf(db, w).Some?
      ensures PairStored(db.words, VerseOf(db, w).value.id, w.position)
    {
      assert w in head + tail;
    }
  }

  lemma StoredWhole(db: WordDb, next: WordDb, last: WordDb, head: seq<Word>, tail: seq<Word>)
    requires db.verses == next.verses == last.verses && KeepsPairs(next.words, last.words)
    requires AllPairsStored(next, head) && AllPairsStored(last, tail)
    ensures AllPairsStored(last, head + tail)
  {
    SameVerses(next, last);
    forall w | w in head + tail && VerseOf(last, w).Some?
      ensures PairStored(last.words, VerseOf(last, w).value.id, w.position)
    {
      if w in head {
        KeepsPairsStored(next.words, last.words, VerseOf(next, w).value.id, w.position);
      }
    }
  }

  /** Counting the hits of a concatenation. */
  lemma {:induction false} CountHitsAppend<T>(a: seq<T>, b: seq<T>, hit: (T, nat) -> bool, from: nat)
    ensures CountHits(a + b, hit, from) == CountHits(a, hit, from) + CountHits(b, hit, from + |a|)
    decreases |a|
  {
    if |a| == 0 {
      assert a + b == b;
    } else {
      assert (a + b)[0] == a[0] && (a + b)[1..] == a[1..] + b;
      CountHitsAppend(a[1..], b, hit, from + 1);
    }
  }

  /** Counting the landing words of a concatenation. */
  lemma LandingAppend(verses: seq<Verse>, a: seq<Word>, b: seq<Word>, ok: nat -> bool, from: nat)
    ensures Landing(verses, a + b, ok, from) == Landing(verses, a, ok, from) + Landing(verses, b, ok, from + |a|)
  {
    CountHitsAppend(a, b, (w: Word, i: nat) => Lands(verses, w, ok(i)), from);
  }


  /** Two words that find their verses and fall on the same (verse, position) pair. */
  predicate SamePair(db: WordDb, a: Word, b: Word) {
    VerseOf(db, a).Some? && VerseOf(db, b).Some? &&
    VerseOf(db, a).value.id == VerseOf(db, b).value.id && a.position == b.position
  }

  /** Word `j` finds its verse and no later word of the list falls on its pair. */
  predicate LastOfPair(db: WordDb, words: seq<Word>, j: int) {
    0 <= j < |words| && VerseOf(db, words[j]).Some? &&
    forall k :: j < k < |words| ==> !SamePair(db, words[j], words[k])
  }

  /** The rows of every pair the list falls on carry the last word that falls on it. */
  predicate CarriesLast(db: WordDb, rows: seq<WordRow>, words: seq<Word>) {
    forall j :: 0 <= j < |words| && LastOfPair(db, words, j) ==> Carries(rows, VerseOf(db, words[j]).value.id, words[j])
  }

  /** No word of the list falls on the pair. */
  predicate Misses(db: WordDb, words: seq<Word>, verseId: int, position: int) {
    forall k :: 0 <= k < |words| && VerseOf(db, words[k]).Some? ==>
      !(VerseOf(db, words[k]).value.id == verseId && words[k].position == position)
  }

  /** The rows of every pair the list misses still carry what they carried in `db`. */
  ghost predicate KeepsMissed(db: WordDb, rows: seq<WordRow>, words: seq<Word>) {
    forall verseId, x :: Carries(db.words, verseId, x) && Misses(db, words, verseId, x.position) ==> Carries(rows, verseId, x)
  }

  /** A word on another pair leaves the rows of this pair as they were. */
  lemma ImportWordKeeps(db: WordDb, w: Word, ok: bool, now: int, verseId: int, x: Word)
    requires Carries(db.words, verseId, x)
    requires Misses(db, [w], verseId, x.position)
    ensures Carries(ImportWord(db, w, ok, now).0.words, verseId, x)
  {
    var (r, landed) := ImportWord(db, w, ok, now);
    if landed {
      assert VerseOf(db, [w][0]).Some?;
      forall i | 0 <= i < |r.words| && AtPair(r.words[i], verseId, x.position)
        ensures r.words[i].wordText == x.arabic && r.words[i].transliteration == Some(x.transliteration)
      {
        if i < |db.words| {
          assert AtPair(db.words[i], verseId, x.position);
          assert r.words[i] == db.words[i];
        }
      }
    }
  }

  /** A batch none of whose words falls on the pair leaves the pair's rows as they were. */
  lemma {:induction false} BatchKeeps(db: WordDb, batch: seq<Word>, ok: nat -> bool, from: nat, now: int, verseId: int, x: Word)
    requires Carries(db.words, verseId, x) && Misses(db, batch, verseId, x.position)
    ensures Carries(ImportBatch(db, batch, ok, from, now).0.words, verseId, x)
    decreases |batch|
  {
    if |batch| > 0 {
      var (next, landed) := ImportWord(db, batch[0], ok(from), now);
      assert Misses(db, [batch[0]], verseId, x.position) by {
        assert [batch[0]][0] == batch[0];
      }
      ImportWordKeeps(db, batch[0], ok(from), now, verseId, x);
      SameVerses(db, next);
      assert Misses(next, batch[1..], verseId, x.position) by {
        forall k | 0 <= k < |batch[1..]|
          ensures batch[1..][k] == batch[k + 1]
        {
        }
      }
      BatchKeeps(next, batch[1..], ok, from + 1, now, verseId, x);
    }
  }

  /** `BatchKeeps` for every pair at once. */
  lemma BatchKeepsAll(db: WordDb, batch: seq<Word>, ok: nat -> bool, from: nat, now: int)
    ensures KeepsMissed(db, ImportBatch(db, batch, ok, from, now).0.words, batch)
  {
    forall verseId, x | Carries(db.words, verseId, x) && Misses(db, batch, verseId, x.position)
      ensures Carries(ImportBatch(db, batch, ok, from, now).0.words, verseId, x)
    {
      BatchKeeps(db, batch, ok, from, now, verseId, x);
    }
  }

  /** `BatchCarriesLast` with the absence of throws as a hypothesis. */
  lemma BatchCarriesLastIf(db: WordDb, batch: seq<Word>, ok: nat -> bool, from: nat, now: int)
    ensures (forall i :: from <= i < from + |batch| ==> ok(i)) ==> CarriesLast(db, ImportBatch(db, batch, ok, from, now).0.words, batch)
  {
    if forall i :: from <= i < from + |batch| ==> ok(i) {
      BatchCarriesLast(db, batch, ok, from, now);
    }
  }

  /**
   * When no call of the batch throws, the rows of every pair the batch falls
   * on carry the last of its words on that pair.
   */
  lemma {:induction false} BatchCarriesLast(db: WordDb, batch: seq<Word>, ok: nat -> bool, from: nat, now: int)
    requires forall i :: from <= i < from + |batch| ==> ok(i)
    ensures CarriesLast(db, ImportBatch(db, batch, ok, from, now).0.words, batch)
    decreases |batch|
  {
    if |batch| > 0 {
      var (next, landed) := ImportWord(db, batch[0], ok(from), now);
      var final := ImportBatch(next, batch[1..], ok, from + 1, now).0;
      assert ImportBatch(db, batch, ok, from, now).0 == final;
      BatchCarriesLast(next, batch[1..], ok, from + 1, now);
      SameVerses(db, next);
      forall j | LastOfPair(db, batch, j)
        ensures Carries(final.words, VerseOf(db, batch[j]).value.id, batch[j])
      {
        if j == 0 {
          assert ok(from);
          var v := VerseOf(db, batch[0]).value;
          assert Misses(next, batch[1..], v.id, batch[0].position) by {
            forall k | 0 <= k < |batch[1..]| && VerseOf(next, batch[1..][k]).Some?
              ensures !(VerseOf(next, batch[1..][k]).value.id == v.id && batch[1..][k].position == batch[0].position)
            {
              assert batch[1..][k] == batch[k + 1] && !SamePair(db, batch[0], batch[k + 1]);
            }
          }
          BatchKeeps(next, batch[1..], ok, from + 1, now, v.id, batch[0]);
        } else {
          assert batch[j] == batch[1..][j - 1];
          assert LastOfPair(next, batch[1..], j - 1) by {
            forall k | j - 1 < k < |batch[1..]|
              ensures !SamePair(next, batch[1..][j - 1], batch[1..][k])
            {
              assert batch[1..][k] == batch[k + 1] && !SamePair(db, batch[j], batch[k + 1]);
            }
          }
        }
      }
    }
  }

  /** Missing a pair over a concatenation is missing it over both parts. */
  lemma MissesSplit(db: WordDb, head: seq<Word>, tail: seq<Word>, verseId: int, position: int)
    requires Misses(db, head + tail, verseId, position)
    ensures Misses(db, head, verseId, position) && Misses(db, tail, verseId, position)
  {
    forall k | 0 <= k < |head| ensures (head + tail)[k] == head[k] { }
    forall k | 0 <= k < |tail| ensures (head + tail)[|head| + k] == tail[k] { }
  }

  /** The last words of a concatenation are carried when each part's are and the second part keeps what it misses. */
  lemma CarriesLastJoin(db: WordDb, next: WordDb, last: seq<WordRow>, head: seq<Word>, tail: seq<Word>)
    requires db.verses == next.verses
    requires CarriesLast(db, next.words, head) && CarriesLast(next, last, tail)
    requires forall verseId, x :: Carries(next.words, verseId, x) && Misses(next, tail, verseId, x.position) ==> Carries(last, verseId, x)
    ensures CarriesLast(db, last, head + tail)
  {
    forall j | 0 <= j < |head + tail| && LastOfPair(db, head + tail, j)
      ensures Carries(last, VerseOf(db, (head + tail)[j]).value.id, (head + tail)[j])
    {
      LastOfPairSplit(db, next, head, tail, j);
      SameVerses(db, next);
    }
  }

  /** Where the last word on a pair lies in a concatenation. */
  lemma LastOfPairSplit(db: WordDb, next: WordDb, head: seq<Word>, tail: seq<Word>, j: int)
    requires db.verses == next.verses
    requires LastOfPair(db, head + tail, j)
    ensures j < |head| ==> (
      (head + tail)[j] == head[j] && LastOfPair(db, head, j) &&
      Misses(next, tail, VerseOf(db, head[j]).value.id, head[j].position))
    ensures j >= |head| ==> (head + tail)[j] == tail[j - |head|] && LastOfPair(next, tail, j - |head|)
  {
    SameVerses(db, next);
    var s := head + tail;
    if j < |head| {
      forall k | j < k < |head| ensures !SamePair(db, head[j], head[k]) {
        assert s[k] == head[k];
      }
      forall k | 0 <= k < |tail| && VerseOf(next, tail[k]).Some?
        ensures !(VerseOf(next, tail[k]).value.id == VerseOf(db, head[j]).value.id && tail[k].position == head[j].position)
      {
        assert s[|head| + k] == tail[k] && !SamePair(db, s[j], s[|head| + k]);
      }
    } else {
      forall k | j - |head| < k < |tail| ensures !SamePair(next, tail[j - |head|], tail[k]) {
        assert s[|head| + k] == tail[k] && !SamePair(db, s[j], s[|head| + k]);
      }
    }
  }

  /**
   * `importWords`: the words are sliced into batches of 100 and imported in
   * order. The totals add up to the number of words, the successes are the
   * words that land, the verse table is untouched and no row loses its
   * pair; when no call throws, every word that finds its verse has its pair
   * stored, and the rows of each pair carry the last word on that pair.
   */
  function Run(db: WordDb, words: seq<Word>, ok: nat -> bool, now: int): (r: Totals)
    ensures r.success + r.error == |words|
    ensures r.success == Landing(db.verses, words, ok, 0)
    ensures r.db.verses == db.verses
    ensures KeepsPairs(db.words, r.db.words)
    ensures (forall i :: ok(i)) ==> AllPairsStored(r.db, words)
    ensures (forall i :: ok(i)) ==> CarriesLast(db, r.db.words, words)
  {
    ImportBatches(db, Chunks(words, BatchSize), ok, 0, now)
  }

  /**
   * After a run in which no call threw, a second run over the same words
   * adds no row: every pair it meets is already stored, so it only
   * overwrites texts.
   */
  lemma RerunAddsNoRow(db: WordDb, words: seq<Word>, ok: nat -> bool, now: int)
    requires forall i :: ok(i)
    ensures var first := Run(db, words, ok, now);
      |Run(first.db, words, ok, now).db.words| == |first.db.words|
  {
  }
}

=== FILE: jsonstring.dfy ===
/**
 * The hand-written JSON string escaping of the Java extractors, and the
 * string-body decoding of section 7 of RFC 8259 that it is meant to invert.
 */
module JsonString {
  import opened Wrappers
  import opened Text

  const Backspace: char := '\U{0008}'
  const FormFeed: char := '\U{000C}'

  /** Java `String.replace(target, replacement)` for a one-character target: every occurrence, left to right. */
  function ReplaceAll(s: string, c: char, rep: string): (r: string)
    ensures c !in s ==> r == s
    ensures c !in rep ==> c !in r
    decreases |s|
  {
    if |s| == 0 then []
    else (if s[0] == c then rep else [s[0]]) + ReplaceAll(s[1..], c, rep)
  }

  lemma {:induction false} ReplaceAllAppend(a: string, b: string, c: char, rep: string)
    ensures ReplaceAll(a + b, c, rep) == ReplaceAll(a, c, rep) + ReplaceAll(b, c, rep)
    decreases |a|
  {
    if |a| == 0 {
      assert a + b == b;
    } else {
      assert (a + b)[0] == a[0];
      assert (a + b)[1..] == a[1..] + b;
      ReplaceAllAppend(a[1..], b, c, rep);
    }
  }

  /** The seven characters `escape` rewrites. */
  predicate IsEscaped(c: char) {
    c == '\\' || c == '"' || c == Backspace || c == FormFeed || c == '\n' || c == '\r' || c == '\t'
  }

  /**
   * `QuranWordExtractor.escape`: seven successive `replace` passes, backslash
   * first. A string holding none of the seven characters comes back unchanged.
   */
  function Escape(s: string): (r: string)
    ensures (forall i :: 0 <= i < |s| ==> !IsEscaped(s[i])) ==> r == s
  {
    var s1 := ReplaceAll(s, '\\', "\\\\");
    var s2 := ReplaceAll(s1, '"', "\\\"");
    var s3 := ReplaceAll(s2, Backspace, "\\b");
    var s4 := ReplaceAll(s3, FormFeed, "\\f");
    var s5 := ReplaceAll(s4, '\n', "\\n");
    var s6 := ReplaceAll(s5, '\r', "\\r");
    ReplaceAll(s6, '\t', "\\t")
  }

  /** The two-character escape of section 7 of RFC 8259 for one character, or the character itself. */
  function EscapeChar(c: char): string {
    if c == '\\' then "\\\\"
    else if c == '"' then "\\\""
    else if c == Backspace then "\\b"
    else if c == FormFeed then "\\f"
    else if c == '\n' then "\\n"
    else if c == '\r' then "\\r"
    else if c == '\t' then "\\t"
    else [c]
  }

  /** Character-by-character escaping: the reference `Escape` is compared against. */
  function EscapeEach(s: string): string
    decreases |s|
  {
    if |s| == 0 then [] else EscapeChar(s[0]) + EscapeEach(s[1..])
  }

  lemma EscapeAppend(a: string, b: string)
    ensures Escape(a + b) == Escape(a) + Escape(b)
  {
    var a1, b1 := ReplaceAll(a, '\\', "\\\\"), ReplaceAll(b, '\\', "\\\\");
    ReplaceAllAppend(a, b, '\\', "\\\\");
    var a2, b2 := ReplaceAll(a1, '"', "\\\""), ReplaceAll(b1, '"', "\\\"");
    ReplaceAllAppend(a1, b1, '"', "\\\"");
    var a3, b3 := ReplaceAll(a2, Backspace, "\\b"), ReplaceAll(b2, Backspace, "\\b");
    ReplaceAllAppend(a2, b2, Backspace, "\\b");
    var a4, b4 := ReplaceAll(a3, FormFeed, "\\f"), ReplaceAll(b3, FormFeed, "\\f");
    ReplaceAllAppend(a3, b3, FormFeed, "\\f");
    var a5, b5 := ReplaceAll(a4, '\n', "\\n"), ReplaceAll(b4, '\n', "\\n");
    ReplaceAllAppend(a4, b4, '\n', "\\n");
    var a6, b6 := ReplaceAll(a5, '\r', "\\r"), ReplaceAll(b5, '\r', "\\r");
    ReplaceAllAppend(a5, b5, '\r', "\\r");
    ReplaceAllAppend(a6, b6, '\t', "\\t");
  }

  lemma ReplaceAllOne(c: char, target: char, rep: string)
    ensures ReplaceAll([c], target, rep) == if c == target then rep else [c]
  {
    assert [c][1..] == [];
  }

  /** The last six passes leave alone a string holding none of their targets. */
  lemma LaterPassesKeep(t: string)
    requires forall i :: 0 <= i < |t| ==> t[i] != '"' && t[i] != Backspace && t[i] != FormFeed && t[i] != '\n' && t[i] != '\r' && t[i] != '\t'
    ensures ReplaceAll(ReplaceAll(ReplaceAll(ReplaceAll(ReplaceAll(ReplaceAll(t, '"', "\\\""), Backspace, "\\b"), FormFeed, "\\f"), '\n', "\\n"), '\r', "\\r"), '\t', "\\t") == t
  {
  }

  lemma EscapeOne(c: char)
    ensures Escape([c]) == EscapeChar(c)
  {
    ReplaceAllOne(c, '\\', "\\\\");
    if c == '\\' {
      LaterPassesKeep("\\\\");
    } else if c == '"' {
      EscapeOneQuote();
    } else {
      ReplaceAllOne(c, '"', "\\\"");
      EscapeOneControl(c);
    }
  }

  lemma EscapeOneQuote()
    ensures Escape(['"']) == EscapeChar('"')
  {
    ReplaceAllOne('"', '\\', "\\\\");
    ReplaceAllOne('"', '"', "\\\"");
    var t := "\\\"";
    ReplaceAllKeepsPair(t, Backspace, "\\b");
    ReplaceAllKeepsPair(t, FormFeed, "\\f");
    ReplaceAllKeepsPair(t, '\n', "\\n");
    ReplaceAllKeepsPair(t, '\r', "\\r");
    ReplaceAllKeepsPair(t, '\t', "\\t");
  }

  /** The last five passes on a character the first two left alone. */
  lemma EscapeOneControl(c: char)
    requires c != '\\' && c != '"'
    ensures ReplaceAll(ReplaceAll(ReplaceAll(ReplaceAll(ReplaceAll([c], Backspace, "\\b"), FormFeed, "\\f"), '\n', "\\n"), '\r', "\\r"), '\t', "\\t") == EscapeChar(c)
  {
    ReplaceAllOne(c, Backspace, "\\b");
    if c == Backspace {
      LastFourKeep("\\b");
    } else {
      ReplaceAllOne(c, FormFeed, "\\f");
      if c == FormFeed {
        LastFourKeep("\\f");
      } else {
        ReplaceAllOne(c, '\n', "\\n");
        if c == '\n' {
          LastFourKeep("\\n");
        } else {
          ReplaceAllOne(c, '\r', "\\r");
          ReplaceAllOne(c, '\t', "\\t");
          if c == '\r' {
            LastFourKeep("\\r");
          }
        }
      }
    }
  }

  /** The form feed, newline, return and tab passes leave alone a two-character escape. */
  lemma LastFourKeep(t: string)
    requires |t| == 2 && t[0] == '\\' && 'a' <= t[1] <= 'z'
    ensures ReplaceAll(t, FormFeed, "\\f") == t
    ensures ReplaceAll(t, '\n', "\\n") == t
    ensures ReplaceAll(t, '\r', "\\r") == t
    ensures ReplaceAll(t, '\t', "\\t") == t
  {
    ReplaceAllKeepsPair(t, FormFeed, "\\f");
    ReplaceAllKeepsPair(t, '\n', "\\n");
    ReplaceAllKeepsPair(t, '\r', "\\r");
    ReplaceAllKeepsPair(t, '\t', "\\t");
  }

  lemma ReplaceAllKeepsPair(t: string, c: char, rep: string)
    requires |t| == 2 && t[0] != c && t[1] != c
    ensures ReplaceAll(t, c, rep) == t
  {
    assert t[1..] == [t[1]];
    ReplaceAllOne(t[1], c, rep);
    assert t == [t[0]] + t[1..];
  }

  /** Because backslash is replaced first, the seven passes never re-escape each other's output. */
  lemma {:induction false} EscapeIsPerChar(s: string)
    ensures Escape(s) == EscapeEach(s)
    decreases |s|
  {
    if |s| == 0 {
    } else {
      assert s == [s[0]] + s[1..];
      EscapeAppend([s[0]], s[1..]);
      EscapeOne(s[0]);
      EscapeIsPerChar(s[1..]);
    }
  }

  function Prepend(c: char, rest: Option<string>): Option<string> {
    match rest
    case None => None
    case Some(t) => Some([c] + t)
  }

  /** The character a two-character escape `\x` stands for. */
  function UnescapeChar(x: char): Option<char> {
    if x == '"' then Some('"')
    else if x == '\\' then Some('\\')
    else if x == '/' then Some('/')
    else if x == 'b' then Some(Backspace)
    else if x == 'f' then Some(FormFeed)
    else if x == 'n' then Some('\n')
    else if x == 'r' then Some('\r')
    else if x == 't' then Some('\t')
    else None
  }

  /**
   * Decoding the characters between the quotes of a JSON string, section 7 of
   * RFC 8259: an unescaped quote or control character is an error, `\x`
   * escapes and `\uXXXX` escapes of non-surrogate code points are decoded.
   */
  function Decode(s: string): (r: Option<string>)
    ensures r.Some? ==> |r.value| <= |s|
    ensures r.Some? && |s| > 0 ==> |r.value| > 0
    decreases |s|
  {
    if |s| == 0 then Some([])
    else if s[0] == '"' || s[0] < ' ' then None
    else if s[0] != '\\' then Prepend(s[0], Decode(s[1..]))
    else if |s| < 2 then None
    else if s[1] == 'u' then
      if |s| >= 6 && IsHexDigit(s[2]) && IsHexDigit(s[3]) && IsHexDigit(s[4]) && IsHexDigit(s[5]) then
        var v := 4096 * DigitValue(s[2]) + 256 * DigitValue(s[3]) + 16 * DigitValue(s[4]) + DigitValue(s[5]);
        if 0xD800 <= v < 0xE000 then None else Prepend(v as char, Decode(s[6..]))
      else None
    else
      match UnescapeChar(s[1])
      case None => None
      case Some(c) => Prepend(c, Decode(s[2..]))
  }

  /** Control characters other than the five with a two-character escape. */
  predicate IsBareControl(c: char) {
    c < ' ' && !IsEscaped(c)
  }

  lemma DecodeEscapeChar(c: char, t: string)
    requires !IsBareControl(c)
    ensures Decode(EscapeChar(c) + t) == Prepend(c, Decode(t))
  {
    var e := EscapeChar(c);
    if IsEscaped(c) {
      assert |e| == 2 && e[0] == '\\';
      assert (e + t)[0] == '\\' && (e + t)[1] == e[1];
      assert (e + t)[2..] == t;
    } else {
      assert e == [c];
      assert ([c] + t)[1..] == t;
    }
  }

  lemma {:induction false} DecodeEscapeEach(s: string)
    requires forall i :: 0 <= i < |s| ==> !IsBareControl(s[i])
    ensures Decode(EscapeEach(s)) == Some(s)
    decreases |s|
  {
    if |s| > 0 {
      DecodeEscapeEach(s[1..]);
      DecodeEscapeChar(s[0], EscapeEach(s[1..]));
      assert [s[0]] + s[1..] == s;
    }
  }

  /**
   * Round trip: decoding the escaped text gives back the input, for every
   * input without a control character outside the five `escape` handles.
   */
  lemma EscapeRoundTrip(s: string)
    requires forall i :: 0 <= i < |s| ==> !IsBareControl(s[i])
    ensures Decode(Escape(s)) == Some(s)
  {
    EscapeIsPerChar(s);
    DecodeEscapeEach(s);
  }

  /**
   * Any other control character passes through `escape` unchanged, and the
   * result is then no longer a valid JSON string body.
   */
  lemma EscapeKeepsBareControl(s: string, i: nat)
    requires i < |s| && IsBareControl(s[i])
    ensures s[i] in Escape(s)
    ensures Decode(Escape(s)) == None
  {
    EscapeIsPerChar(s);
    DecodeRejectsBareControl(s, i);
  }

  lemma {:induction false} DecodeRejectsBareControl(s: string, i: nat)
    requires i < |s| && IsBareControl(s[i])
    ensures s[i] in EscapeEach(s)
    ensures Decode(EscapeEach(s)) == None
    decreases |s|
  {
    var e := EscapeChar(s[0]);
    var rest := EscapeEach(s[1..]);
    assert EscapeEach(s) == e + rest;
    if i == 0 {
      assert e == [s[0]];
      assert (e + rest)[0] == s[0];
    } else {
      DecodeRejectsBareControl(s[1..], i - 1);
      assert s[1..][i - 1] == s[i];
      if IsBareControl(s[0]) {
        assert (e + rest)[0] == s[0];
      } else {
        DecodeEscapeChar(s[0], rest);
      }
    }
  }

  /** Escaping never shortens a string, and lengthens every string that holds one of the seven characters. */
  lemma {:induction false} EscapeLength(s: string)
    ensures |Escape(s)| >= |s|
    ensures (exists i :: 0 <= i < |s| && IsEscaped(s[i])) ==> |Escape(s)| > |s|
  {
    EscapeIsPerChar(s);
    EscapeEachLength(s);
  }

  lemma {:induction false} EscapeEachLength(s: string)
    ensures |EscapeEach(s)| >= |s|
    ensures (exists i :: 0 <= i < |s| && IsEscaped(s[i])) ==> |EscapeEach(s)| > |s|
    decreases |s|
  {
    if |s| > 0 {
      EscapeEachLength(s[1..]);
      if exists i :: 0 <= i < |s| && IsEscaped(s[i]) {
        var i :| 0 <= i < |s| && IsEscaped(s[i]);
        if i > 0 {
          assert s[1..][i - 1] == s[i];
        }
      }
    }
  }
}

=== FILE: markers.dfy ===
/**
 * The bismillah as the different parts of the program spell it. The Arabic
 * comes in two spellings that differ by one tatweel (U+0640) before the
 * superscript alif of ar-rahman: the rebuild script, the surah page and the
 * banner use the spelling with it, the bismillah-fixing script the one
 * without. The Tajik rendering comes with and without a closing `!`.
 */
module Markers {
  import opened Text

  /** With a tatweel: `scripts/rebuild-quran-data.ts`, the surah page and the banner component. */
  const Tatweeled: string := "\U{0628}\U{0650}\U{0633}\U{0652}\U{0645}\U{0650} \U{0627}\U{0644}\U{0644}\U{064E}\U{0651}\U{0647}\U{0650} \U{0627}\U{0644}\U{0631}\U{064E}\U{0651}\U{062D}\U{0652}\U{0645}\U{064E}\U{0640}\U{0670}\U{0646}\U{0650} \U{0627}\U{0644}\U{0631}\U{064E}\U{0651}\U{062D}\U{0650}\U{064A}\U{0645}\U{0650}"

  /** Without a tatweel: `scripts/fix-all-bismillah.ts`. */
  const Plain: string := "\U{0628}\U{0650}\U{0633}\U{0652}\U{0645}\U{0650} \U{0627}\U{0644}\U{0644}\U{064E}\U{0651}\U{0647}\U{0650} \U{0627}\U{0644}\U{0631}\U{064E}\U{0651}\U{062D}\U{0652}\U{0645}\U{064E}\U{0670}\U{0646}\U{0650} \U{0627}\U{0644}\U{0631}\U{064E}\U{0651}\U{062D}\U{0650}\U{064A}\U{0645}\U{0650}"

  /** The Tajik bismillah: the prefix the fixing script looks for, and the banner's translation line. */
  const Tajik: string := "\U{0411}\U{0430} \U{043D}\U{043E}\U{043C}\U{0438} \U{0425}\U{0443}\U{0434}\U{043E}\U{0432}\U{0430}\U{043D}\U{0434}\U{0438} \U{0431}\U{0430}\U{0445}\U{0448}\U{043E}\U{044F}\U{043D}\U{0434}\U{0430}\U{0438} \U{043C}\U{0435}\U{04B3}\U{0440}\U{0443}\U{0431}\U{043E}\U{043D}"

  /** The Tajik text the fixing script stores for the first verse of Al-Fatiha. */
  const TajikExclaimed: string := Tajik + "!"

  /**
   * The two Arabic spellings are told apart by the tatweel: neither starts
   * with the other, so a text one script strips is never recognised by the
   * other's prefix test because of the other spelling.
   */
  lemma SpellingsDiffer()
    ensures |Plain| + 1 == |Tatweeled|
    ensures !StartsWith(Tatweeled, Plain) && !StartsWith(Plain, Tatweeled)
    ensures forall s :: StartsWith(s, Tatweeled) ==> !StartsWith(s, Plain)
  {
    assert Tatweeled[24] == '\U{0640}' != Plain[24];
    forall s | StartsWith(s, Tatweeled)
      ensures !StartsWith(s, Plain)
    {
      assert s[24] == Tatweeled[24];
    }
  }
}

=== FILE: memstorage.dfy ===
/**
 * `MemStorage` of `server/storage.ts`: five JavaScript `Map`s keyed by id, kept
 * here as sequences in insertion order, and one id counter per map.
 */
module MemStorage {
  import opened Wrappers
  import opened Text
  import opened Seqs
  import opened Schema

  datatype Store = Store(
    users: seq<User>,
    surahs: seq<Surah>,
    verses: seq<Verse>,
    bookmarks: seq<Bookmark>,
    searches: seq<SearchEntry>,
    nextUserId: int,
    nextSurahId: int,
    nextVerseId: int,
    nextBookmarkId: int,
    nextSearchId: int)

  /** The result of a `create…`/`add…` call: the new store and the stored record. */
  datatype Created<T> = Created(store: Store, record: T)

  /** The result of `deleteBookmark`: the new store and whether a bookmark was removed. */
  datatype Deleted = Deleted(store: Store, removed: bool)

  /** A bookmark paired with the verse it points to; `None` when the verse is missing. */
  datatype BookmarkWithVerse = BookmarkWithVerse(bookmark: Bookmark, verse: Option<Verse>)

  function UserId(u: User): int { u.id }
  function SurahId(s: Surah): int { s.id }
  function VerseId(v: Verse): int { v.id }
  function BookmarkId(b: Bookmark): int { b.id }
  function SearchId(e: SearchEntry): int { e.id }
  function SurahNumber(s: Surah): int { s.number }
  function VerseNumber(v: Verse): int { v.verseNumber }
  /** Sorting on the negated timestamp orders entries newest first. */
  function Recency(e: SearchEntry): int { 0 - e.createdAt }

  /** Ids along a table strictly increase, start at 1 and stay below the table's counter. */
  predicate IdsBelow<T>(t: seq<T>, id: T -> int, next: int) {
    (forall i, j :: 0 <= i < j < |t| ==> id(t[i]) < id(t[j])) &&
    (forall i :: 0 <= i < |t| ==> 1 <= id(t[i]) < next)
  }

  /** The invariant every reachable store keeps: each map's keys come from its own counter. */
  predicate Valid(st: Store) {
    st.nextUserId >= 1 && st.nextSurahId >= 1 && st.nextVerseId >= 1 && st.nextBookmarkId >= 1 && st.nextSearchId >= 1 &&
    IdsBelow(st.users, UserId, st.nextUserId) &&
    IdsBelow(st.surahs, SurahId, st.nextSurahId) &&
    IdsBelow(st.verses, VerseId, st.nextVerseId) &&
    IdsBelow(st.bookmarks, BookmarkId, st.nextBookmarkId) &&
    IdsBelow(st.searches, SearchId, st.nextSearchId)
  }

  lemma IdsBelowSnoc<T>(t: seq<T>, id: T -> int, next: int, x: T)
    requires IdsBelow(t, id, next) && id(x) == next && next >= 1
    ensures IdsBelow(t + [x], id, next + 1)
  {
  }

  lemma IdsBelowCons<T>(x: T, rest: seq<T>, id: T -> int, next: int)
    requires IdsBelow(rest, id, next) && 1 <= id(x) < next
    requires forall j :: 0 <= j < |rest| ==> id(x) < id(rest[j])
    ensures IdsBelow([x] + rest, id, next)
  {
    var r := [x] + rest;
    forall i, j | 0 <= i < j < |r|
      ensures id(r[i]) < id(r[j])
    {
      assert r[j] == rest[j - 1];
      if i > 0 {
        assert r[i] == rest[i - 1];
      }
    }
  }

  lemma {:induction false} IdsBelowFilter<T(!new)>(t: seq<T>, id: T -> int, next: int, p: T -> bool)
    requires IdsBelow(t, id, next)
    ensures IdsBelow(Filter(t, p), id, next)
    decreases |t|
  {
    if |t| > 0 {
      var rest := Filter(t[1..], p);
      assert IdsBelow(t[1..], id, next);
      IdsBelowFilter(t[1..], id, next, p);
      if p(t[0]) {
        forall j | 0 <= j < |rest|
          ensures id(t[0]) < id(rest[j])
        {
          assert rest[j] in t[1..];
          var k :| 0 <= k < |t[1..]| && t[1..][k] == rest[j];
          assert t[k + 1] == rest[j];
        }
        IdsBelowCons(t[0], rest, id, next);
      }
    }
  }

  /** Finding by id in a table whose ids strictly increase: appending a record with a larger id changes no earlier lookup. */
  lemma FindByIdSnoc<T>(t: seq<T>, id: T -> int, next: int, x: T, key: int)
    requires IdsBelow(t, id, next) && id(x) == next
    ensures Find(t + [x], (y: T) => id(y) == key) == if key == next then Some(x) else Find(t, (y: T) => id(y) == key)
  {
    var p := (y: T) => id(y) == key;
    FindAppend(t, [x], p);
    assert [x][1..] == [];
  }

  // Seed texts of `initializeData`.
  const FatihaArabic: string := "الفاتحة"
  const FatihaTajik: string := "Фотиҳа"
  const BaqaraArabic: string := "البقرة"
  const BaqaraTajik: string := "Бақара"
  const Baqara1Arabic: string := "الٓمٓ"
  const Baqara1Tajik: string := "Алиф. Лом. Мим."
  const Baqara2Arabic: string := "ذَٰلِكَ الْكِتَابُ لَا رَيْبَ ۛ فِيهِ ۛ هُدًى لِّلْمُتَّقِينَ"
  const Baqara2Tajik: string := "Ин китоб, ки дар он ҳеҷ шакке нест, роҳнамои парҳезгорон аст."
  const Baqara3Arabic: string := "الَّذِينَ يُؤْمِنُونَ بِالْغَيْبِ وَيُقِيمُونَ الصَّلَاةَ وَمِمَّا رَزَقْنَاهُمْ يُنفِقُونَ"
  const Baqara3Tajik: string := "Касоне, ки ба ғайб имон меоваранд ва намоз мехонанд ва аз он чи рӯзияшон додаем, инфоқ мекунанд."
  const Baqara4Arabic: string := "وَالَّذِينَ يُؤْمِنُونَ بِمَا أُنزِلَ إِلَيْكَ وَمَا أُنزِلَ مِن قَبْلِكَ وَبِالْآخِرَةِ هُمْ يُوقِنُونَ"
  const Baqara4Tajik: string := "Ва касоне, ки ба он чи бар ту нозил шуда ва ба он чи пеш аз ту нозил шуда имон меоваранд ва ба охират яқин доранд."
  const Baqara5Arabic: string := "أُولَٰئِكَ عَلَىٰ هُدًى مِّن رَّبِّهِمْ ۖ وَأُولَٰئِكَ هُمُ الْمُفْلِحُونَ"
  const Baqara5Tajik: string := "Онҳо бар ҳидояте аз парвардигорашон ҳастанд ва онҳо растагоронанд."

  /** The state after the constructor and `initializeData`. */
  function Init(now: int): (st: Store)
    ensures Valid(st)
    ensures |st.surahs| == 2 && |st.verses| == 5 && |st.users| == 1 && |st.bookmarks| == 1 && |st.searches| == 0
  {
    var fatiha := Surah(1, 1, FatihaArabic, FatihaTajik, "Al-Fatihah", "Meccan", 7, None);
    var baqara := Surah(2, 2, BaqaraArabic, BaqaraTajik, "Al-Baqarah", "Medinan", 286, None);
    var verses := [
      Verse(1, 2, 1, Baqara1Arabic, Baqara1Tajik, Some(1), Some(1), Some("https://verse.audio/2_1.mp3"), "2:1"),
      Verse(2, 2, 2, Baqara2Arabic, Baqara2Tajik, Some(1), Some(1), Some("https://verse.audio/2_2.mp3"), "2:2"),
      Verse(3, 2, 3, Baqara3Arabic, Baqara3Tajik, Some(1), Some(1), Some("https://verse.audio/2_3.mp3"), "2:3"),
      Verse(4, 2, 4, Baqara4Arabic, Baqara4Tajik, Some(1), Some(1), Some("https://verse.audio/2_4.mp3"), "2:4"),
      Verse(5, 2, 5, Baqara5Arabic, Baqara5Tajik, Some(1), Some(1), Some("https://verse.audio/2_5.mp3"), "2:5")
    ];
    assert forall i :: 0 <= i < |verses| ==> VerseId(verses[i]) == i + 1;
    assert IdsBelow(verses, VerseId, 6);
    assert IdsBelow([fatiha, baqara], SurahId, 3);
    Store([User(1, "user123", "password123")], [fatiha, baqara], verses, [Bookmark(1, 1, 4, now)], [], 2, 3, 6, 2, 1)
  }

  /** `users.get(id)` */
  function GetUser(st: Store, id: int): Option<User> {
    Find(st.users, (u: User) => UserId(u) == id)
  }

  /** `getUserByUsername`: the first user, in insertion order, with that name. */
  function GetUserByUsername(st: Store, username: string): (r: Option<User>)
    ensures r.Some? ==> r.value in st.users && r.value.username == username
    ensures r.None? <==> forall u :: u in st.users ==> u.username != username
    ensures r.Some? ==> exists i :: 0 <= i < |st.users| && st.users[i] == r.value && forall j :: 0 <= j < i ==> st.users[j].username != username
  {
    Find(st.users, (u: User) => u.username == username)
  }

  /** `createUser`: the new user takes the current counter as id, and the counter advances. */
  function CreateUser(st: Store, username: string, password: string): (r: Created<User>)
    ensures r.record.id == st.nextUserId && r.record.username == username && r.record.password == password
    ensures r.store == st.(users := st.users + [r.record], nextUserId := st.nextUserId + 1)
    ensures Valid(st) ==> Valid(r.store)
    ensures Valid(st) ==> forall u :: u in st.users ==> u.id < r.record.id
    ensures Valid(st) ==> GetUser(r.store, r.record.id) == Some(r.record)
    ensures Valid(st) ==> forall id :: id != r.record.id ==> GetUser(r.store, id) == GetUser(st, id)
  {
    var user := User(st.nextUserId, username, password);
    var st' := st.(users := st.users + [user], nextUserId := st.nextUserId + 1);
    if Valid(st) then
      AppendUser(st, user);
      Created(st', user)
    else
      Created(st', user)
  }

  /** Appending a user that carries the counter keeps the store valid, and looking it up by id finds it and nothing else moves. */
  lemma AppendUser(st: Store, user: User)
    requires Valid(st) && user.id == st.nextUserId
    ensures var st' := st.(users := st.users + [user], nextUserId := st.nextUserId + 1);
      Valid(st') && (forall x :: x in st.users ==> x.id < user.id) &&
      forall id :: GetUser(st', id) == if id == user.id then Some(user) else GetUser(st, id)
  {
    var st' := st.(users := st.users + [user], nextUserId := st.nextUserId + 1);
    IdsBelowSnoc(st.users, UserId, st.nextUserId, user);
    forall id
      ensures GetUser(st', id) == if id == user.id then Some(user) else GetUser(st, id)
    {
      FindByIdSnoc(st.users, UserId, st.nextUserId, user, id);
    }
  }

  /** `getAllSurahs`: every stored surah, ordered by ascending number. */
  function GetAllSurahs(st: Store): (r: seq<Surah>)
    ensures multiset(r) == multiset(st.surahs)
    ensures forall i, j :: 0 <= i < j < |r| ==> r[i].number <= r[j].number
  {
    SortBySorted(st.surahs, SurahNumber);
    SortBy(st.surahs, SurahNumber)
  }

  /** `surahs.get(id)` */
  function GetSurah(st: Store, id: int): Option<Surah> {
    Find(st.surahs, (s: Surah) => SurahId(s) == id)
  }

  /** `getSurahByNumber`: the first surah, in insertion order, with that number. */
  function GetSurahByNumber(st: Store, number: int): (r: Option<Surah>)
    ensures r.Some? ==> r.value in st.surahs && r.value.number == number
    ensures r.None? <==> forall s :: s in st.surahs ==> s.number != number
    ensures r.Some? ==> exists i :: 0 <= i < |st.surahs| && st.surahs[i] == r.value && forall j :: 0 <= j < i ==> st.surahs[j].number != number
  {
    Find(st.surahs, (s: Surah) => s.number == number)
  }

  /** `verses.get(id)` */
  function GetVerse(st: Store, id: int): Option<Verse> {
    Find(st.verses, (v: Verse) => VerseId(v) == id)
  }

  /** `getVersesBySurah`: exactly the verses of that surah id, each as often as stored, ordered by verse number. */
  function GetVersesBySurah(st: Store, surahId: int): (r: seq<Verse>)
    ensures forall v :: v in r <==> v in st.verses && v.surahId == surahId
    ensures forall v :: multiset(r)[v] == if v.surahId == surahId then multiset(st.verses)[v] else 0
    ensures forall i, j :: 0 <= i < j < |r| ==> r[i].verseNumber <= r[j].verseNumber
    ensures forall n :: WithKey(r, VerseNumber, n) == WithKey(Filter(st.verses, (v: Verse) => v.surahId == surahId), VerseNumber, n)
  {
    var own := Filter(st.verses, (v: Verse) => v.surahId == surahId);
    SortBySorted(own, VerseNumber);
    forall n
      ensures WithKey(SortBy(own, VerseNumber), VerseNumber, n) == WithKey(own, VerseNumber, n)
    {
      SortByStable(own, VerseNumber, n);
    }
    SortBy(own, VerseNumber)
  }

  /** `getVerseByKey`: the first verse with that unique key. */
  function GetVerseByKey(st: Store, key: string): (r: Option<Verse>)
    ensures r.Some? ==> r.value in st.verses && r.value.uniqueKey == key
    ensures r.None? <==> forall v :: v in st.verses ==> v.uniqueKey != key
    ensures r.Some? ==> exists i :: 0 <= i < |st.verses| && st.verses[i] == r.value && forall j :: 0 <= j < i ==> st.verses[j].uniqueKey != key
  {
    Find(st.verses, (v: Verse) => v.uniqueKey == key)
  }

  /** The surah filter of `searchVerses`: it applies only when `surahId` is truthy. */
  predicate SurahFilterPasses(surahId: Option<Num>, v: Verse) {
    surahId.None? || !surahId.value.Truthy() || v.surahId == surahId.value.value
  }

  /** The `filter` callback of `searchVerses`, branch by branch; `lower` stands for `toLowerCase`. */
  predicate SearchMatches(v: Verse, query: string, language: string, surahId: Option<Num>, lower: string -> string) {
    if surahId.Some? && surahId.value.Truthy() && v.surahId != surahId.value.value then false
    else if IsVerseRef(query) then v.uniqueKey == query
    else if (language == "arabic" || language == "both") && Contains(v.arabicText, query) then true
    else if (language == "tajik" || language == "both") && Contains(lower(v.tajikText), lower(query)) then true
    else false
  }

  /**
   * `searchVerses(query, language = 'both', surahId)`: a reference query
   * selects by unique key in every language; any other query matches Arabic
   * text case-sensitively and Tajik text after lower-casing both sides.
   */
  function SearchVerses(st: Store, query: string, language: Option<string>, surahId: Option<Num>, lower: string -> string): (r: seq<Verse>)
    ensures IsSubsequence(r, st.verses)
    ensures forall v :: v in r ==> v in st.verses && SurahFilterPasses(surahId, v)
    ensures IsVerseRef(query) ==>
      forall v :: v in r <==> v in st.verses && SurahFilterPasses(surahId, v) && v.uniqueKey == query
    ensures !IsVerseRef(query) ==>
      var lang := language.GetOr("both");
      forall v :: v in r <==> (v in st.verses && SurahFilterPasses(surahId, v) &&
        (((lang == "arabic" || lang == "both") && Contains(v.arabicText, query)) ||
         ((lang == "tajik" || lang == "both") && Contains(lower(v.tajikText), lower(query)))))
  {
    Filter(st.verses, (v: Verse) => SearchMatches(v, query, language.GetOr("both"), surahId, lower))
  }

  /** The bookmarks of one user, in insertion order. */
  function UserBookmarks(st: Store, userId: int): (r: seq<Bookmark>)
    ensures IsSubsequence(r, st.bookmarks)
    ensures forall b :: b in r <==> b in st.bookmarks && b.userId == userId
  {
    Filter(st.bookmarks, (b: Bookmark) => b.userId == userId)
  }

  /** `getBookmarksByUser`: each of the user's bookmarks, in order, with the verse its `verse_id` names. */
  function GetBookmarksByUser(st: Store, userId: int): (r: seq<BookmarkWithVerse>)
    ensures |r| == |UserBookmarks(st, userId)|
    ensures forall i :: 0 <= i < |r| ==> r[i].bookmark == UserBookmarks(st, userId)[i]
    ensures forall i :: 0 <= i < |r| ==> r[i].bookmark.userId == userId
    ensures forall i :: 0 <= i < |r| ==> r[i].verse == GetVerse(st, r[i].bookmark.verseId)
  {
    var own := UserBookmarks(st, userId);
    seq(|own|, i requires 0 <= i < |own| => BookmarkWithVerse(own[i], GetVerse(st, own[i].verseId)))
  }

  /** `bookmarks.get(id)` */
  function GetBookmark(st: Store, id: int): Option<Bookmark> {
    Find(st.bookmarks, (b: Bookmark) => BookmarkId(b) == id)
  }

  /** `createBookmark`: the bookmark takes the current counter as id and `now` as its creation time. */
  function CreateBookmark(st: Store, userId: int, verseId: int, now: int): (r: Created<Bookmark>)
    ensures r.record == Bookmark(st.nextBookmarkId, userId, verseId, now)
    ensures r.store == st.(bookmarks := st.bookmarks + [r.record], nextBookmarkId := st.nextBookmarkId + 1)
    ensures Valid(st) ==> Valid(r.store)
    ensures Valid(st) ==> forall b :: b in st.bookmarks ==> b.id < r.record.id
    ensures Valid(st) ==> GetBookmark(r.store, r.record.id) == Some(r.record)
    ensures Valid(st) ==> forall id :: id != r.record.id ==> GetBookmark(r.store, id) == GetBookmark(st, id)
  {
    var b := Bookmark(st.nextBookmarkId, userId, verseId, now);
    var st' := st.(bookmarks := st.bookmarks + [b], nextBookmarkId := st.nextBookmarkId + 1);
    if Valid(st) then
      AppendBookmark(st, b);
      Created(st', b)
    else
      Created(st', b)
  }

  /** Appending a bookmark that carries the counter keeps the store valid, and looking it up by id finds it and nothing else moves. */
  lemma AppendBookmark(st: Store, b: Bookmark)
    requires Valid(st) && b.id == st.nextBookmarkId
    ensures var st' := st.(bookmarks := st.bookmarks + [b], nextBookmarkId := st.nextBookmarkId + 1);
      Valid(st') && (forall x :: x in st.bookmarks ==> x.id < b.id) &&
      forall id :: GetBookmark(st', id) == if id == b.id then Some(b) else GetBookmark(st, id)
  {
    var st' := st.(bookmarks := st.bookmarks + [b], nextBookmarkId := st.nextBookmarkId + 1);
    IdsBelowSnoc(st.bookmarks, BookmarkId, st.nextBookmarkId, b);
    forall id
      ensures GetBookmark(st', id) == if id == b.id then Some(b) else GetBookmark(st, id)
    {
      FindByIdSnoc(st.bookmarks, BookmarkId, st.nextBookmarkId, b, id);
    }
  }

  /** `deleteBookmark` (`Map.prototype.delete`): true iff a bookmark had that id; it is gone afterwards and nothing else changes. */
  function DeleteBookmark(st: Store, id: int): (r: Deleted)
    ensures r.removed <==> exists i :: 0 <= i < |st.bookmarks| && st.bookmarks[i].id == id
    ensures forall b :: b in r.store.bookmarks <==> b in st.bookmarks && b.id != id
    ensures IsSubsequence(r.store.bookmarks, st.bookmarks)
    ensures r.store == st.(bookmarks := r.store.bookmarks)
    ensures Valid(st) ==> Valid(r.store)
  {
    var kept := Filter(st.bookmarks, (b: Bookmark) => b.id != id);
    var removed := Find(st.bookmarks, (b: Bookmark) => b.id == id).Some?;
    if Valid(st) then
      IdsBelowFilter(st.bookmarks, BookmarkId, st.nextBookmarkId, (b: Bookmark) => b.id != id);
      Deleted(st.(bookmarks := kept), removed)
    else
      Deleted(st.(bookmarks := kept), removed)
  }

  /** `searchQueries.get(id)` */
  function GetSearchEntry(st: Store, id: int): Option<SearchEntry> {
    Find(st.searches, (e: SearchEntry) => SearchId(e) == id)
  }

  /** `addSearchHistory`: the entry takes the current counter as id and `now` as its creation time. */
  function AddSearchHistory(st: Store, userId: Num, query: string, now: int): (r: Created<SearchEntry>)
    ensures r.record == SearchEntry(st.nextSearchId, userId, query, now)
    ensures r.store == st.(searches := st.searches + [r.record], nextSearchId := st.nextSearchId + 1)
    ensures Valid(st) ==> Valid(r.store)
    ensures Valid(st) ==> forall e :: e in st.searches ==> e.id < r.record.id
    ensures Valid(st) ==> GetSearchEntry(r.store, r.record.id) == Some(r.record)
    ensures Valid(st) ==> forall id :: id != r.record.id ==> GetSearchEntry(r.store, id) == GetSearchEntry(st, id)
  {
    var e := SearchEntry(st.nextSearchId, userId, query, now);
    var st' := st.(searches := st.searches + [e], nextSearchId := st.nextSearchId + 1);
    if Valid(st) then
      AppendSearch(st, e);
      Created(st', e)
    else
      Created(st', e)
  }

  /** Appending a search entry that carries the counter keeps the store valid, and looking it up by id finds it and nothing else moves. */
  lemma AppendSearch(st: Store, e: SearchEntry)
    requires Valid(st) && e.id == st.nextSearchId
    ensures var st' := st.(searches := st.searches + [e], nextSearchId := st.nextSearchId + 1);
      Valid(st') && (forall x :: x in st.searches ==> x.id < e.id) &&
      forall id :: GetSearchEntry(st', id) == if id == e.id then Some(e) else GetSearchEntry(st, id)
  {
    var st' := st.(searches := st.searches + [e], nextSearchId := st.nextSearchId + 1);
    IdsBelowSnoc(st.searches, SearchId, st.nextSearchId, e);
    forall id
      ensures GetSearchEntry(st', id) == if id == e.id then Some(e) else GetSearchEntry(st, id)
    {
      FindByIdSnoc(st.searches, SearchId, st.nextSearchId, e, id);
    }
  }

  /**
   * `getSearchHistoryByUser`: that user's entries, newest first; entries with
   * equal timestamps keep their insertion order (the sort is stable).
   */
  function GetSearchHistoryByUser(st: Store, userId: int): (r: seq<SearchEntry>)
    ensures forall e :: multiset(r)[e] == if e.userId == Int(userId) then multiset(st.searches)[e] else 0
    ensures forall e :: e in r <==> e in st.searches && e.userId == Int(userId)
    ensures forall i, j :: 0 <= i < j < |r| ==> r[i].createdAt >= r[j].createdAt
    ensures forall t :: WithKey(r, Recency, t) == WithKey(Filter(st.searches, (e: SearchEntry) => e.userId == Int(userId)), Recency, t)
  {
    var own := Filter(st.searches, (e: SearchEntry) => e.userId == Int(userId));
    SortBySorted(own, Recency);
    assert forall t :: WithKey(SortBy(own, Recency), Recency, t) == WithKey(own, Recency, t) by {
      forall t {
        SortByStable(own, Recency, t);
      }
    }
    SortBy(own, Recency)
  }
}

=== FILE: missingverses.dfy ===
/**
 * `scripts/fix-missing-verses.ts`: for every surah with fewer stored verses
 * than its `verses_count`, insert each missing verse number whose text the
 * dump `quran-simple.sql` holds.
 *
 * The dump is read line by line with a hand-written parser. As written it
 * takes the first parenthesised group of an `INSERT` line, which is the column
 * list of a Tanzil dump statement; `Run` uses the group after `VALUES`
 * instead, and `RunAsWritten` keeps the parser as it is.
 */
module FixMissingVerses {
  import opened Wrappers
  import opened Text
  import opened Seqs
  import opened Schema
  import opened SqlTuples
  import opened Corpus

  /** A parsed `QuranVerse`: the `parseInt` results may be NaN. */
  datatype ParsedVerse = ParsedVerse(index: Num, sura: Num, aya: Num, text: string)

  /** Where `\)` closes a group opened just before `s`: the first `)`, unless a line terminator comes first. */
  function GroupEnd(s: string): (r: Option<nat>)
    ensures r.Some? ==> r.value < |s| && s[r.value] == ')'
    ensures r.Some? ==> forall i :: 0 <= i < r.value ==> s[i] != ')' && !IsLineTerminator(s[i])
    ensures r.None? ==> forall i :: 0 <= i < |s| && s[i] == ')' ==> exists j :: 0 <= j < i && IsLineTerminator(s[j])
    decreases |s|
  {
    if |s| == 0 then None
    else if s[0] == ')' then Some(0)
    else if IsLineTerminator(s[0]) then None
    else
      match GroupEnd(s[1..])
      case None =>
        assert forall i :: 1 <= i < |s| ==> s[i] == s[1..][i - 1];
        None
      case Some(e) => Some(e + 1)
  }

  /** `s.match(/\((.*?)\)/g)[0].slice(1, -1)`: what the first match holds between its parentheses. */
  function FirstGroup(s: string): (r: Option<string>)
    ensures r.Some? ==> ')' !in r.value && forall i :: 0 <= i < |r.value| ==> !IsLineTerminator(r.value[i])
    ensures r.Some? ==> '(' in s
    decreases |s|
  {
    if |s| == 0 then None
    else if s[0] == '(' then
      match GroupEnd(s[1..])
      case Some(e) => Some(s[1..][..e])
      case None => FirstGroup(s[1..])
    else
      var r := FirstGroup(s[1..]);
      assert r.Some? ==> '(' in s[1..];
      r
  }

  /** The first group is the one opened by the first `(` when it closes on the same line. */
  lemma {:induction false} FirstGroupOf(pre: string, content: string, post: string)
    requires '(' !in pre && ')' !in content
    requires forall i :: 0 <= i < |content| ==> !IsLineTerminator(content[i])
    ensures FirstGroup(pre + ("(" + (content + (")" + post)))) == Some(content)
    decreases |pre|
  {
    var s := pre + ("(" + (content + (")" + post)));
    if |pre| == 0 {
      assert s == "(" + (content + (")" + post));
      GroupEndOf(content, post);
      assert s[1..] == content + (")" + post);
    } else {
      assert s[1..] == pre[1..] + ("(" + (content + (")" + post)));
      FirstGroupOf(pre[1..], content, post);
    }
  }

  lemma {:induction false} GroupEndOf(content: string, post: string)
    requires ')' !in content
    requires forall i :: 0 <= i < |content| ==> !IsLineTerminator(content[i])
    ensures GroupEnd(content + (")" + post)) == Some(|content|)
    decreases |content|
  {
    var s := content + (")" + post);
    if |content| > 0 {
      assert s[1..] == content[1..] + (")" + post);
      GroupEndOf(content[1..], post);
    }
  }

  /** JavaScript `s.substring(start, end)`: both ends clamped to the string, and swapped when reversed. */
  function Substring(s: string, start: int, end: int): (r: string)
    ensures |r| <= |s|
  {
    var a := if start < 0 then 0 else if start > |s| then |s| else start;
    var b := if end < 0 then 0 else if end > |s| then |s| else end;
    if a <= b then s[a..b] else s[b..a]
  }

  /** `s.replace(/''/g, "'")`: each doubled quote, taken left to right without overlap, becomes one. */
  function UnescapeQuotes(s: string): (r: string)
    ensures |r| <= |s|
    decreases |s|
  {
    if |s| >= 2 && s[0] == '\'' && s[1] == '\'' then "'" + UnescapeQuotes(s[2..])
    else if |s| == 0 then ""
    else [s[0]] + UnescapeQuotes(s[1..])
  }

  /** How SQL writes a quote inside a string literal: doubled. */
  function EscapeQuotes(s: string): (r: string)
    ensures |r| >= |s|
    decreases |s|
  {
    if |s| == 0 then "" else if s[0] == '\'' then "''" + EscapeQuotes(s[1..]) else [s[0]] + EscapeQuotes(s[1..])
  }

  /** Unescaping undoes the SQL escaping of every text. */
  lemma {:induction false} UnescapeEscape(s: string)
    ensures UnescapeQuotes(EscapeQuotes(s)) == s
    decreases |s|
  {
    if |s| > 0 {
      UnescapeEscape(s[1..]);
      var e := EscapeQuotes(s);
      if s[0] == '\'' {
        assert e[2..] == EscapeQuotes(s[1..]);
      } else {
        assert e[1..] == EscapeQuotes(s[1..]);
      }
      assert s == [s[0]] + s[1..];
    }
  }

  /** A text without quotes is left as it is. */
  lemma {:induction false} UnescapePlain(s: string)
    requires '\'' !in s
    ensures UnescapeQuotes(s) == s
    decreases |s|
  {
    if |s| > 0 {
      assert '\'' !in s[1..];
      UnescapePlain(s[1..]);
    }
  }

  /** The text field: trimmed, and when it is quoted at both ends the quotes go and doubled quotes are undone. */
  function TextField(part: string): (r: string)
    ensures !(StartsWith(Trim(part), "'") && EndsWith(Trim(part), "'")) ==> r == Trim(part)
  {
    var t := Trim(part);
    if StartsWith(t, "'") && EndsWith(t, "'") then UnescapeQuotes(Substring(t, 1, |t| - 1)) else t
  }

  /** A lone quote is both the opening and the closing one: `substring(1, 0)` swaps to `substring(0, 1)` and keeps it. */
  lemma LoneQuote()
    ensures TextField("'") == "'"
  {
    assert Trim("'") == "'";
    assert Substring("'", 1, 0) == "'";
  }

  /** The fields of a group: at least four pieces split on `,`, numbers read with `parseInt(…, 10)`. */
  function ReadGroup(content: string): (r: Option<ParsedVerse>)
    ensures r.Some? <==> |Split(content, ',')| >= 4
    ensures r.Some? ==> r.value.sura == ParseInt10(Trim(Split(content, ',')[1])) && r.value.aya == ParseInt10(Trim(Split(content, ',')[2]))
  {
    var parts := Split(content, ',');
    if |parts| < 4 then None
    else
      Some(ParsedVerse(ParseInt10(Trim(parts[0])), ParseInt10(Trim(parts[1])), ParseInt10(Trim(parts[2])), TextField(parts[3])))
  }

  /** The parser as written: an `INSERT INTO` line yields the fields of its first group. */
  function ParseLineAsWritten(line: string): (r: Option<ParsedVerse>)
    ensures r.Some? ==> StartsWith(line, "INSERT INTO") && FirstGroup(line).Some?
  {
    if !StartsWith(line, "INSERT INTO") then None
    else
      match FirstGroup(line)
      case None => None
      case Some(content) => ReadGroup(content)
  }

  /** The suffix after the first occurrence of `key`. */
  function After(s: string, key: string): (r: Option<string>)
    ensures r.Some? ==> |r.value| <= |s| && EndsWith(s, key + r.value)
    ensures r.Some? <==> Contains(s, key)
    decreases |s|
  {
    if StartsWith(s, key) then
      assert s == key + s[|key|..];
      Some(s[|key|..])
    else if |s| == 0 then None
    else
      var r := After(s[1..], key);
      assert r.Some? ==> s[|s| - |key + r.value|..] == s[1..][|s[1..]| - |key + r.value|..];
      r
  }

  /** The parser as intended: the fields of the first group after `VALUES`. */
  function ParseLine(line: string): (r: Option<ParsedVerse>)
    ensures r.Some? ==> StartsWith(line, "INSERT INTO") && Contains(line, "VALUES")
  {
    if !StartsWith(line, "INSERT INTO") then None
    else
      match After(line, "VALUES")
      case None => None
      case Some(rest) =>
        match FirstGroup(rest)
        case None => None
        case Some(content) => ReadGroup(content)
  }

  /** The verses of the lines, in file order; a line yields at most one. */
  function ParseLines(lines: seq<string>, parse: string -> Option<ParsedVerse>): (r: seq<ParsedVerse>)
    ensures |r| <= |lines|
    ensures forall k :: 0 <= k < |lines| && parse(lines[k]).Some? ==> parse(lines[k]).value in r
    ensures forall v :: v in r ==> exists k :: 0 <= k < |lines| && parse(lines[k]) == Some(v)
    decreases |lines|
  {
    if |lines| == 0 then []
    else
      var rest := ParseLines(lines[1..], parse);
      assert forall k :: 1 <= k < |lines| ==> lines[k] == lines[1..][k - 1];
      match parse(lines[0])
      case None => rest
      case Some(v) => [v] + rest
  }

  /** `parseQuranSimpleSql`: `split('\n')`, then each line. */
  function ParseFile(content: string, parse: string -> Option<ParsedVerse>): seq<ParsedVerse> {
    ParseLines(Split(content, '\n'), parse)
  }

  /** Whether no text field can cut or end the group early. */
  predicate PlainText(text: string) {
    Quotable(text) && ',' !in text && ')' !in text && '\'' !in text
  }

  /** The pieces of a tuple's group between its commas. */
  function TupleFields(row: Row): seq<string> {
    [row.index, " " + row.sura, " " + row.aya, " " + ("'" + row.text + "'")]
  }

  /** A rendered tuple is its fields joined by commas, in parentheses. */
  lemma RenderIsGroup(row: Row)
    ensures Render(row) == "(" + Join(TupleFields(row), ",") + ")"
  {
    JoinFour(row.index, " " + row.sura, " " + row.aya, " " + ("'" + row.text + "'"), ",");
    assert ", " == "," + " ";
    assert ", '" == "," + " " + "'";
    assert "')" == "'" + ")";
  }

  /** No comma, closing parenthesis or line terminator in a field of a plain tuple. */
  lemma TupleFieldsPlain(row: Row)
    requires Matched(row) && PlainText(row.text)
    ensures forall i :: 0 <= i < |TupleFields(row)| ==> Plain(TupleFields(row)[i])
  {
    var f := TupleFields(row);
    DigitsPlain(row.index);
    DigitsPlain(row.sura);
    DigitsPlain(row.aya);
    forall k | 0 <= k < |row.text|
      ensures row.text[k] != ',' && row.text[k] != ')' && !IsLineTerminator(row.text[k])
    {
      assert row.text[k] in row.text;
    }
    PlainSpaced(row.sura);
    PlainSpaced(row.aya);
    assert Plain("'" + row.text + "'") by {
      var q := "'" + row.text + "'";
      forall k | 0 <= k < |q|
        ensures q[k] != ',' && q[k] != ')' && !IsLineTerminator(q[k])
      {
        if 0 < k < |q| - 1 {
          assert q[k] == row.text[k - 1];
        }
      }
    }
    PlainSpaced("'" + row.text + "'");
  }

  /** Free of `,`, `)` and line terminators. */
  predicate Plain(s: string) {
    forall k :: 0 <= k < |s| ==> s[k] != ',' && s[k] != ')' && !IsLineTerminator(s[k])
  }

  lemma DigitsPlain(d: string)
    requires AllDigits(d)
    ensures Plain(d)
  {
  }

  lemma PlainSpaced(s: string)
    requires Plain(s)
    ensures Plain(" " + s)
  {
    forall k | 0 < k < |" " + s|
      ensures (" " + s)[k] == s[k - 1]
    {
    }
  }

  /** Joining plain strings by commas leaves no `)` and no line terminator. */
  lemma {:induction false} JoinPlain(parts: seq<string>)
    requires forall i :: 0 <= i < |parts| ==> Plain(parts[i])
    ensures ')' !in Join(parts, ",")
    ensures forall k :: 0 <= k < |Join(parts, ",")| ==> !IsLineTerminator(Join(parts, ",")[k])
    decreases |parts|
  {
    if |parts| == 1 {
      assert Plain(parts[0]);
    } else if |parts| > 1 {
      JoinPlain(parts[1..]);
      var rest := Join(parts[1..], ",");
      var j := Join(parts, ",");
      assert j == parts[0] + "," + rest;
      assert Plain(parts[0]);
      forall k | 0 <= k < |j|
        ensures j[k] != ')' && !IsLineTerminator(j[k])
      {
        if k < |parts[0]| {
          assert j[k] == parts[0][k];
        } else if k > |parts[0]| {
          assert j[k] == rest[k - |parts[0]| - 1];
        }
      }
    }
  }

  /** The quoted field gives back a text without quotes. */
  lemma QuotedField(text: string)
    requires '\'' !in text
    ensures TextField(" " + ("'" + text + "'")) == text
  {
    QuotedTrim(text);
    UnescapePlain(text);
  }

  /** A spaced quoted text trims to itself, quoted at both ends, with the text between the quotes. */
  lemma QuotedTrim(text: string)
    ensures var q := "'" + text + "'";
      Trim(" " + q) == q && StartsWith(q, "'") && EndsWith(q, "'") && Substring(q, 1, |q| - 1) == text
  {
    var q := "'" + text + "'";
    TrimSpaced(q);
    assert q[0] == '\'' && q[|q| - 1] == '\'';
    TrimSolid(q);
    assert q[1..|q| - 1] == text;
  }

  /** A spaced field of digits reads as its value. */
  lemma DigitField(d: string, spaced: bool)
    requires |d| > 0 && AllDigits(d)
    ensures ParseInt10(Trim((if spaced then " " else "") + d)) == Int(DecimalValue(d))
  {
    assert !IsJsSpace(d[0]) && !IsJsSpace(d[|d| - 1]);
    TrimSolid(d);
    if spaced {
      TrimSpaced(d);
    } else {
      assert "" + d == d;
    }
    ParseIntOfDigits(d, false);
  }

  /** Four plain pieces joined by commas split back into the same four fields. */
  lemma ReadFourFields(f: seq<string>)
    requires |f| == 4 && forall i :: 0 <= i < |f| ==> Plain(f[i])
    ensures ReadGroup(Join(f, ",")) ==
      Some(ParsedVerse(ParseInt10(Trim(f[0])), ParseInt10(Trim(f[1])), ParseInt10(Trim(f[2])), TextField(f[3])))
  {
    PlainNoComma(f);
    SplitJoin(f, ',');
  }

  /** The group of a plain tuple reads back as the tuple. */
  lemma ReadTupleGroup(row: Row)
    requires Matched(row) && PlainText(row.text)
    ensures ReadGroup(Join(TupleFields(row), ",")) ==
      Some(ParsedVerse(Int(DecimalValue(row.index)), Int(DecimalValue(row.sura)), Int(DecimalValue(row.aya)), row.text))
  {
    TupleFieldsPlain(row);
    ReadFourFields(TupleFields(row));
    DigitField(row.index, false);
    assert "" + row.index == row.index;
    DigitField(row.sura, true);
    DigitField(row.aya, true);
    QuotedField(row.text);
  }

  lemma PlainNoComma(f: seq<string>)
    requires forall i :: 0 <= i < |f| ==> Plain(f[i])
    ensures forall i :: 0 <= i < |f| ==> ',' !in f[i]
  {
    forall i | 0 <= i < |f|
      ensures ',' !in f[i]
    {
      assert Plain(f[i]);
    }
  }

  /** The head of a dump statement before `VALUES`. */
  const StatementHead: string := InsertHeader + Columns + " "

  lemma OneRender(row: Row)
    ensures Join(Renders([row]), ", ") == Render(row)
  {
    assert Renders([row]) == [Render(row)];
  }

  lemma HeadShape(x: string)
    ensures InsertHeader + (Columns + (" VALUES " + x)) == StatementHead + ("VALUES " + x)
  {
    assert " VALUES " + x == " " + ("VALUES " + x);
  }

  lemma StatementHeadShape(rest: string)
    ensures StartsWith(StatementHead + rest, "INSERT INTO") && 'V' !in StatementHead
  {
    var tail := " `quran_text` ";
    assert InsertHeader == "INSERT INTO" + tail;
    assert StatementHead + rest == "INSERT INTO" + (tail + Columns + " " + rest);
    assert forall i :: 0 <= i < |InsertHeader| ==> InsertHeader[i] != 'V';
    assert forall i :: 0 <= i < |Columns| ==> Columns[i] != 'V';
  }

  lemma DropValues(x: string)
    ensures ("VALUES " + x)[|"VALUES"|..] == " " + x
  {
    assert "VALUES " == "VALUES" + " ";
  }

  /** The intended parser reads a one-tuple dump statement back as the tuple. */
  lemma ParseDumpLine(row: Row)
    requires Matched(row) && PlainText(row.text)
    ensures ParseLine(DumpStatement([row])) ==
      Some(ParsedVerse(Int(DecimalValue(row.index)), Int(DecimalValue(row.sura)), Int(DecimalValue(row.aya)), row.text))
  {
    var x := Render(row) + ";";
    var line := DumpStatement([row]);
    OneRender(row);
    HeadShape(x);
    assert line == StatementHead + ("VALUES " + x);
    StatementHeadShape("VALUES " + x);
    AfterSkips(StatementHead, "VALUES " + x, "VALUES");
    DropValues(x);
    ValuesGroup(row);
    ReadTupleGroup(row);
  }

  lemma ValuesGroup(row: Row)
    requires Matched(row) && PlainText(row.text)
    ensures FirstGroup(" " + (Render(row) + ";")) == Some(Join(TupleFields(row), ","))
  {
    var content := Join(TupleFields(row), ",");
    RenderIsGroup(row);
    TupleFieldsPlain(row);
    JoinPlain(TupleFields(row));
    assert " " + (Render(row) + ";") == " " + ("(" + (content + (")" + ";")));
    FirstGroupOf(" ", content, ";");
  }

  lemma {:induction false} AfterSkips(head: string, rest: string, key: string)
    requires StartsWith(rest, key) && |key| > 0 && key[0] !in head
    ensures After(head + rest, key) == Some(rest[|key|..])
    decreases |head|
  {
    if |head| > 0 {
      assert (head + rest)[0] == head[0] != key[0];
      assert (head + rest)[1..] == head[1..] + rest;
      assert key[0] !in head[1..];
      AfterSkips(head[1..], rest, key);
    } else {
      assert head + rest == rest;
    }
  }

  /** The column names, between the commas of the column list. */
  const ColumnFields: seq<string> := ["`index`", " `sura`", " `aya`", " `text`"]

  lemma ColumnsIsGroup()
    ensures Columns == "(" + Join(ColumnFields, ",") + ")"
  {
    JoinFour("`index`", " `sura`", " `aya`", " `text`", ",");
    var a := "`index`" + "," + " `sura`";
    assert a == "`index`, `sura`";
    var b := a + "," + " `aya`";
    assert b == "`index`, `sura`, `aya`";
    var c := b + "," + " `text`";
    assert c == "`index`, `sura`, `aya`, `text`";
  }

  /** The parser as written reads the column list of the same line: every number is NaN. */
  lemma ParseDumpLineAsWritten(row: Row)
    ensures ParseLineAsWritten(DumpStatement([row])) == Some(ParsedVerse(NaN, NaN, NaN, "`text`"))
  {
    DumpGroupAsWritten(row);
    ColumnFieldsPlain();
    ColumnNames();
    NamesRead(DumpStatement([row]), Join(ColumnFields, ","), ColumnFields);
  }

  /** The first group of a dump statement is its column list. */
  lemma DumpGroupAsWritten(row: Row)
    ensures StartsWith(DumpStatement([row]), "INSERT INTO")
    ensures FirstGroup(DumpStatement([row])) == Some(Join(ColumnFields, ","))
  {
    var content := Join(ColumnFields, ",");
    var post := " VALUES " + (Render(row) + ";");
    OneRender(row);
    ColumnsIsGroup();
    assert DumpStatement([row]) == InsertHeader + ("(" + (content + (")" + post)));
    HeaderHasNoGroup();
    StartsWithAppend(InsertHeader, "(" + (content + (")" + post)), "INSERT INTO");
    ColumnFieldsPlain();
    JoinPlain(ColumnFields);
    FirstGroupOf(InsertHeader, content, post);
  }

  /** An `INSERT INTO` line whose first group holds four pieces that are no numbers reads as NaNs. */
  lemma NamesRead(line: string, content: string, f: seq<string>)
    requires StartsWith(line, "INSERT INTO") && FirstGroup(line) == Some(content) && content == Join(f, ",")
    requires |f| == 4 && forall i :: 0 <= i < |f| ==> Plain(f[i])
    requires ParseInt10(Trim(f[0])) == NaN && ParseInt10(Trim(f[1])) == NaN && ParseInt10(Trim(f[2])) == NaN
    ensures ParseLineAsWritten(line) == Some(ParsedVerse(NaN, NaN, NaN, TextField(f[3])))
  {
    assert ParseLineAsWritten(line) == ReadGroup(content);
    ReadFourFields(f);
  }

  lemma HeaderHasNoGroup()
    ensures StartsWith(InsertHeader, "INSERT INTO") && '(' !in InsertHeader
  {
    assert forall i :: 0 <= i < |InsertHeader| ==> InsertHeader[i] != '(';
  }

  /** No column name reads as a number; the last one is kept as it stands. */
  lemma ColumnNames()
    ensures ParseInt10(Trim(ColumnFields[0])) == NaN && ParseInt10(Trim(ColumnFields[1])) == NaN
    ensures ParseInt10(Trim(ColumnFields[2])) == NaN && TextField(ColumnFields[3]) == "`text`"
  {
    IndexColumn();
    SuraColumn();
    AyaColumn();
    TextColumn();
  }

  lemma IndexColumn()
    ensures ParseInt10(Trim(ColumnFields[0])) == NaN
  {
    Backquoted(ColumnFields[0], "`index`");
  }

  lemma SuraColumn()
    ensures ParseInt10(Trim(ColumnFields[1])) == NaN
  {
    Backquoted(ColumnFields[1], "`sura`");
  }

  lemma AyaColumn()
    ensures ParseInt10(Trim(ColumnFields[2])) == NaN
  {
    Backquoted(ColumnFields[2], "`aya`");
  }

  lemma TextColumn()
    ensures TextField(ColumnFields[3]) == "`text`"
  {
    Backquoted(ColumnFields[3], "`text`");
  }

  lemma ColumnFieldsPlain()
    ensures forall i :: 0 <= i < |ColumnFields| ==> Plain(ColumnFields[i])
  {
    forall i | 0 <= i < |ColumnFields|
      ensures Plain(ColumnFields[i])
    {
      var c := ColumnFields[i];
      assert forall k :: 0 <= k < |c| ==> c[k] != ',' && c[k] != ')' && !IsLineTerminator(c[k]);
    }
  }

  /** A column name in backquotes, with or without a space before it, trims to the backquoted name and is no number. */
  lemma Backquoted(field: string, b: string)
    requires |b| > 2 && b[0] == '`' && b[|b| - 1] == '`'
    requires field == b || field == " " + b
    ensures ParseInt10(Trim(field)) == NaN && TextField(field) == b
  {
    TrimSolid(b);
    if field != b {
      TrimSpaced(b);
    }
    ParseIntOfNonNumeral(b, false);
  }

  /** `allVerses.find(v => v.sura === number && v.aya === n)`. */
  function Original(all: seq<ParsedVerse>, number: int, n: int): (r: Option<ParsedVerse>)
    ensures r.None? <==> forall i :: 0 <= i < |all| ==> !(all[i].sura == Int(number) && all[i].aya == Int(n))
    ensures r.Some? ==> r.value in all && r.value.sura == Int(number) && r.value.aya == Int(n)
  {
    Find(all, (v: ParsedVerse) => v.sura == Int(number) && v.aya == Int(n))
  }

  /** A row the repair added to surah `s`: keyed `s:n`, with the Arabic text of verse `n` in the dump and no translation. */
  predicate Restored(v: Verse, all: seq<ParsedVerse>, s: Surah) {
    v.surahId == s.id && v.uniqueKey == VerseKey(s.number, v.verseNumber) && v.tajikText == "" &&
    Original(all, s.number, v.verseNumber).Some? && v.arabicText == Original(all, s.number, v.verseNumber).value.text
  }

  /** Every row of `after` past the rows of `before` was restored from the dump. */
  predicate AllRestored(before: seq<Verse>, after: seq<Verse>, all: seq<ParsedVerse>, s: Surah) {
    forall i :: |before| <= i < |after| ==> Restored(after[i], all, s)
  }

  /** The inner loop over the missing numbers of one surah; an insert that throws ends the script. */
  function FillSurah(verses: seq<Verse>, all: seq<ParsedVerse>, s: Surah, missing: seq<int>): (r: Step)
    ensures Appends(verses, r.verses) && AllRestored(verses, r.verses, all, s)
    ensures Keyed(verses) ==> Keyed(r.verses)
    ensures r.error.None? ==> forall n :: n in missing && Original(all, s.number, n).Some? ==> n in Numbers(r.verses, s.id)
    decreases |missing|
  {
    if |missing| == 0 then Step(verses, None)
    else
      var n := missing[0];
      match Original(all, s.number, n)
      case None =>
        var r := FillSurah(verses, all, s, missing[1..]);
        assert forall m :: m in missing ==> m == n || m in missing[1..];
        r
      case Some(original) =>
        var row := NewVerse(NextVerseId(verses), s.id, n, original.text, VerseKey(s.number, n));
        match InsertVerse(verses, row)
        case Err(e) => Step(verses, Some(e))
        case Ok(next) =>
          assert next == verses + [row] && Restored(row, all, s);
          assert Keyed(verses) ==> Keyed(next) by {
            if Keyed(verses) {
              InsertKeepsKeyed(verses, row);
            }
          }
          var r := FillSurah(next, all, s, missing[1..]);
          FillStep(verses, row, r.verses, all, s);
          NumberOf(r.verses, |verses|);
          assert forall m :: m in missing ==> m == n || m in missing[1..];
          r
  }

  /** One accepted insert followed by the rest of the loop. */
  lemma FillStep(verses: seq<Verse>, row: Verse, after: seq<Verse>, all: seq<ParsedVerse>, s: Surah)
    requires Restored(row, all, s) && Appends(verses + [row], after) && AllRestored(verses + [row], after, all, s)
    ensures Appends(verses, after) && AllRestored(verses, after, all, s)
    ensures |verses| < |after| && after[|verses|] == row
  {
    var next := verses + [row];
    assert after[..|verses|] == next[..|verses|];
    assert after[|verses|] == next[|verses|];
    forall i | |verses| <= i < |after|
      ensures Restored(after[i], all, s)
    {
      if i > |verses| {
        assert |next| <= i;
      }
    }
  }

  /** Every stored row counts among the numbers of its surah. */
  lemma NumberOf(verses: seq<Verse>, k: int)
    requires 0 <= k < |verses|
    ensures verses[k].verseNumber in Numbers(verses, verses[k].surahId)
  {
    assert verses[k] in verses;
  }

  /**
   * The loop over the short surahs. `actual` is the count taken before any
   * insert; the missing numbers are read from the table as it is when the
   * surah's turn comes.
   */
  function FillAll(verses: seq<Verse>, actual: seq<Verse>, all: seq<ParsedVerse>, surahs: seq<Surah>): (r: Step)
    ensures Appends(verses, r.verses)
    ensures Keyed(verses) ==> Keyed(r.verses)
    ensures r.error.None? ==> forall s, n ::
      (s in surahs && s.versesCount > Count(actual, s.id) && 1 <= n <= s.versesCount && Original(all, s.number, n).Some?) ==>
        n in Numbers(r.verses, s.id)
    ensures RestoredFor(verses, r.verses, all, surahs)
    decreases |surahs|
  {
    if |surahs| == 0 then Step(verses, None)
    else
      var s := surahs[0];
      var first :=
        if s.versesCount > Count(actual, s.id) then FillSurah(verses, all, s, MissingNumbers(s.versesCount, Numbers(verses, s.id)))
        else Step(verses, None);
      if first.error.Some? then
        RestoredCompose(verses, first.verses, first.verses, all, surahs);
        first
      else
        var r := FillAll(first.verses, actual, all, surahs[1..]);
        FillAllStep(verses, first.verses, r, actual, all, surahs);
        r
  }

  /** The first surah's fill followed by the loop over the others. */
  lemma FillAllStep(verses: seq<Verse>, first: seq<Verse>, r: Step, actual: seq<Verse>, all: seq<ParsedVerse>, surahs: seq<Surah>)
    requires |surahs| > 0
    requires Appends(verses, first) && (Keyed(verses) ==> Keyed(first)) && AllRestored(verses, first, all, surahs[0])
    requires surahs[0].versesCount > Count(actual, surahs[0].id) ==>
      forall n :: (n in MissingNumbers(surahs[0].versesCount, Numbers(verses, surahs[0].id)) &&
        Original(all, surahs[0].number, n).Some?) ==> n in Numbers(first, surahs[0].id)
    requires Appends(first, r.verses) && (Keyed(first) ==> Keyed(r.verses))
    requires r.error.None? ==> forall s, n ::
      (s in surahs[1..] && s.versesCount > Count(actual, s.id) && 1 <= n <= s.versesCount && Original(all, s.number, n).Some?) ==>
        n in Numbers(r.verses, s.id)
    requires RestoredFor(first, r.verses, all, surahs[1..])
    ensures Appends(verses, r.verses)
    ensures Keyed(verses) ==> Keyed(r.verses)
    ensures r.error.None? ==> forall s, n ::
      (s in surahs && s.versesCount > Count(actual, s.id) && 1 <= n <= s.versesCount && Original(all, s.number, n).Some?) ==>
        n in Numbers(r.verses, s.id)
    ensures RestoredFor(verses, r.verses, all, surahs)
  {
    var s := surahs[0];
    assert r.verses[..|verses|] == first[..|verses|];
    AppendsKeepsNumbers(first, r.verses, s.id);
    AppendsKeepsNumbers(verses, first, s.id);
    assert forall t :: t in surahs ==> t == s || t in surahs[1..];
    RestoredCompose(verses, first, r.verses, all, surahs);
  }

  /** Every row of `after` past the rows of `before` was restored for one of `surahs`. */
  predicate RestoredFor(before: seq<Verse>, after: seq<Verse>, all: seq<ParsedVerse>, surahs: seq<Surah>) {
    forall i :: |before| <= i < |after| ==> RestoredForOne(after[i], all, surahs)
  }

  predicate RestoredForOne(v: Verse, all: seq<ParsedVerse>, surahs: seq<Surah>) {
    exists s :: s in surahs && Restored(v, all, s)
  }

  /** Rows restored for the first surah, then rows restored for later ones. */
  lemma RestoredCompose(verses: seq<Verse>, first: seq<Verse>, after: seq<Verse>, all: seq<ParsedVerse>, surahs: seq<Surah>)
    requires |surahs| > 0 && Appends(first, after)
    requires AllRestored(verses, first, all, surahs[0])
    requires RestoredFor(first, after, all, surahs[1..])
    ensures RestoredFor(verses, after, all, surahs)
  {
    forall i | |verses| <= i < |after| ensures RestoredForOne(after[i], all, surahs) {
      if i < |first| {
        assert after[i] == after[..|first|][i] == first[i];
        assert Restored(first[i], all, surahs[0]);
        assert surahs[0] in surahs && Restored(after[i], all, surahs[0]);
      } else {
        assert RestoredForOne(after[i], all, surahs[1..]);
        var t :| t in surahs[1..] && Restored(after[i], all, t);
        var j :| 0 <= j < |surahs[1..]| && surahs[1..][j] == t;
        assert surahs[j + 1] == t;
        assert t in surahs && Restored(after[i], all, t);
      }
    }
  }

  /**
   * The script with a given line parser. An unreadable dump ends it with
   * exit 1 before anything is written; a failing insert ends it with exit 1
   * and the rows inserted so far; otherwise it exits 0.
   */
  function Repair(db: Db, file: Option<string>, parse: string -> Option<ParsedVerse>): (r: Finish)
    ensures file.None? ==> r == Finish(db, 1)
    ensures r.db.surahs == db.surahs && Appends(db.verses, r.db.verses)
    ensures Keyed(db.verses) ==> Keyed(r.db.verses)
    ensures r.exitCode == 0 || r.exitCode == 1
    ensures r.exitCode == 0 ==> file.Some? && forall s, n ::
      (s in db.surahs && s.versesCount > Count(db.verses, s.id) && 1 <= n <= s.versesCount &&
       Original(ParseFile(file.value, parse), s.number, n).Some?) ==>
        n in Numbers(r.db.verses, s.id)
  {
    match file
    case None => Finish(db, 1)
    case Some(content) =>
      var all := ParseFile(content, parse);
      var short := Short(db);
      var step := FillAll(db.verses, db.verses, all, short);
      Finish(Db(db.surahs, step.verses), if step.error.None? then 0 else 1)
  }

  /** The script as intended, reading the tuple after `VALUES`. */
  function Run(db: Db, file: Option<string>): (r: Finish)
    ensures r.db.surahs == db.surahs && Appends(db.verses, r.db.verses)
    ensures r.exitCode == 0 ==> file.Some? && forall s, n ::
      (s in db.surahs && s.versesCount > Count(db.verses, s.id) && 1 <= n <= s.versesCount &&
       Original(ParseFile(file.value, ParseLine), s.number, n).Some?) ==>
        n in Numbers(r.db.verses, s.id)
  {
    Repair(db, file, ParseLine)
  }

  /** The script as written, reading the first group of each `INSERT` line. */
  function RunAsWritten(db: Db, file: Option<string>): (r: Finish)
    ensures r.db.surahs == db.surahs && Appends(db.verses, r.db.verses)
  {
    Repair(db, file, ParseLineAsWritten)
  }

  /** With nothing to find, the loops insert nothing. */
  lemma {:induction false} FillAllFindsNothing(verses: seq<Verse>, actual: seq<Verse>, all: seq<ParsedVerse>, surahs: seq<Surah>)
    requires forall v :: v in all ==> v.sura.NaN?
    ensures FillAll(verses, actual, all, surahs) == Step(verses, None)
    decreases |surahs|
  {
    if |surahs| > 0 {
      var s := surahs[0];
      if s.versesCount > Count(actual, s.id) {
        FillSurahFindsNothing(verses, all, s, MissingNumbers(s.versesCount, Numbers(verses, s.id)));
      }
      FillAllFindsNothing(verses, actual, all, surahs[1..]);
    }
  }

  lemma {:induction false} FillSurahFindsNothing(verses: seq<Verse>, all: seq<ParsedVerse>, s: Surah, missing: seq<int>)
    requires forall v :: v in all ==> v.sura.NaN?
    ensures FillSurah(verses, all, s, missing) == Step(verses, None)
    decreases |missing|
  {
    if |missing| > 0 {
      assert Original(all, s.number, missing[0]).None?;
      FillSurahFindsNothing(verses, all, s, missing[1..]);
    }
  }

  /** A dump of plain one-tuple statements, with other lines that are no `INSERT` statements. */
  predicate Dump(rows: seq<Row>, other: seq<string>) {
    (forall i :: 0 <= i < |rows| ==> Matched(rows[i]) && PlainText(rows[i].text)) &&
    (forall j :: 0 <= j < |other| ==> '\n' !in other[j] && !StartsWith(other[j], "INSERT INTO"))
  }

  function DumpFile(rows: seq<Row>, other: seq<string>): string {
    Join(DumpLines(rows) + other, "\n")
  }

  /**
   * A dump whose `INSERT` lines are one-tuple Tanzil statements: the parser
   * as written finds no verse number in it, and the script changes nothing
   * and still exits 0.
   */
  lemma AsWrittenInsertsNothing(db: Db, rows: seq<Row>, other: seq<string>)
    requires |rows| > 0 && Dump(rows, other)
    ensures RunAsWritten(db, Some(DumpFile(rows, other))) == Finish(db, 0)
  {
    var all := ParseFile(DumpFile(rows, other), ParseLineAsWritten);
    AsWrittenFindsNoSura(rows, other);
    FillAllFindsNothing(db.verses, db.verses, all, Short(db));
  }

  /** Every verse the parser as written takes from such a dump has NaN for its surah. */
  lemma AsWrittenFindsNoSura(rows: seq<Row>, other: seq<string>)
    requires |rows| > 0 && Dump(rows, other)
    ensures forall v :: v in ParseFile(DumpFile(rows, other), ParseLineAsWritten) ==> v.sura.NaN?
  {
    var lines := DumpLines(rows) + other;
    DumpFileLines(rows, other);
    forall v | v in ParseLines(lines, ParseLineAsWritten)
      ensures v.sura.NaN?
    {
      var k :| 0 <= k < |lines| && ParseLineAsWritten(lines[k]) == Some(v);
      AsWrittenLine(rows, other, k);
    }
  }

  /** Each line of such a dump reads, as written, as nothing or as a verse with NaN for its surah. */
  lemma AsWrittenLine(rows: seq<Row>, other: seq<string>, k: int)
    requires Dump(rows, other) && 0 <= k < |rows| + |other|
    ensures var p := ParseLineAsWritten((DumpLines(rows) + other)[k]); p.None? || p.value.sura.NaN?
  {
    if k < |rows| {
      assert (DumpLines(rows) + other)[k] == DumpStatement([rows[k]]);
      ParseDumpLineAsWritten(rows[k]);
    } else {
      assert (DumpLines(rows) + other)[k] == other[k - |rows|];
    }
  }

  /** The intended parser reads each one-tuple statement of the same dump. */
  lemma IntendedReadsEveryTuple(rows: seq<Row>, other: seq<string>, k: int)
    requires Dump(rows, other) && 0 <= k < |rows|
    ensures ParsedVerse(Int(DecimalValue(rows[k].index)), Int(DecimalValue(rows[k].sura)), Int(DecimalValue(rows[k].aya)), rows[k].text)
      in ParseFile(DumpFile(rows, other), ParseLine)
  {
    var lines := DumpLines(rows) + other;
    DumpFileLines(rows, other);
    assert lines[k] == DumpStatement([rows[k]]);
    ParseDumpLine(rows[k]);
  }

  /** One dump statement per tuple. */
  function DumpLines(rows: seq<Row>): (r: seq<string>)
    ensures |r| == |rows| && forall k :: 0 <= k < |rows| ==> r[k] == DumpStatement([rows[k]])
  {
    seq(|rows|, k requires 0 <= k < |rows| => DumpStatement([rows[k]]))
  }

  /** Splitting the joined file on line breaks gives its lines back. */
  lemma DumpFileLines(rows: seq<Row>, other: seq<string>)
    requires Dump(rows, other)
    ensures |DumpLines(rows) + other| > 0 ==> Split(DumpFile(rows, other), '\n') == DumpLines(rows) + other
  {
    var lines := DumpLines(rows) + other;
    forall i | 0 <= i < |lines|
      ensures '\n' !in lines[i]
    {
      if i < |rows| {
        DumpStatementOneLine(rows[i]);
      } else {
        assert lines[i] == other[i - |rows|];
      }
    }
    if |lines| > 0 {
      SplitJoin(lines, '\n');
    }
  }

  lemma DumpStatementOneLine(row: Row)
    requires Matched(row)
    ensures '\n' !in DumpStatement([row])
  {
    OneRender(row);
    RenderOneLine(row);
    assert '\n' !in InsertHeader && '\n' !in Columns && '\n' !in " VALUES " && '\n' !in ";";
  }

  lemma RenderOneLine(row: Row)
    requires Matched(row)
    ensures '\n' !in Render(row)
  {
    NoBreak(row.index);
    NoBreak(row.sura);
    NoBreak(row.aya);
    NoBreak(row.text);
  }

  /** A string of digits or a quotable text holds no line break. */
  lemma NoBreak(s: string)
    requires AllDigits(s) || Quotable(s)
    ensures '\n' !in s
  {
    forall k | 0 <= k < |s|
      ensures s[k] != '\n'
    {
      if AllDigits(s) {
        assert IsDigit(s[k]);
      } else {
        assert !IsLineTerminator(s[k]);
      }
    }
  }
}

=== FILE: quranwords.dfy ===
/**
 * `QuranWordExtractor.java`: writes every word of surahs 1..max, as the
 * JQuranTree document hands them out, to `quran_words.json` as a
 * pretty-printed JSON array whose strings go through `escape`.
 */
module QuranWords {
  import opened Wrappers
  import opened Text
  import opened JsonString
  import opened Console

  /** A JQuranTree token: its number within the verse, its Arabic text and its Buckwalter transliteration. */
  datatype Token = Token(number: int, arabic: string, buckwalter: string)

  datatype QVerse = QVerse(number: int, tokens: seq<Token>)

  /** The JQuranTree document: chapter `n` is `chapters[n - 1]`, 114 of them. */
  datatype Document = Document(chapters: seq<seq<QVerse>>)

  predicate IsQuran(doc: Document) {
    |doc.chapters| == 114
  }

  /** One written object: the surah being visited, the verse number and the token. */
  datatype WordRecord = WordRecord(surah: int, verse: int, position: int, arabic: string, transliteration: string)

  function VerseWords(surah: int, v: QVerse): seq<WordRecord> {
    seq(|v.tokens|, i requires 0 <= i < |v.tokens| =>
      WordRecord(surah, v.number, v.tokens[i].number, v.tokens[i].arabic, v.tokens[i].buckwalter))
  }

  /** The words of one chapter: verses in order, tokens in order within each verse. */
  function ChapterWords(surah: int, verses: seq<QVerse>): (r: seq<WordRecord>)
    ensures forall k :: 0 <= k < |r| ==> r[k].surah == surah
    decreases |verses|
  {
    if |verses| == 0 then [] else VerseWords(surah, verses[0]) + ChapterWords(surah, verses[1..])
  }

  /** The three nested loops: chapters 1..max ascending, then verses, then tokens. */
  function Words(doc: Document, max: nat): (r: seq<WordRecord>)
    requires max <= |doc.chapters|
    ensures forall k :: 0 <= k < |r| ==> 1 <= r[k].surah <= max
    ensures forall j, k :: 0 <= j < k < |r| ==> r[j].surah <= r[k].surah
  {
    if max == 0 then []
    else
      var before := Words(doc, max - 1);
      var last := ChapterWords(max, doc.chapters[max - 1]);
      assert forall k :: |before| <= k < |before + last| ==> (before + last)[k] == last[k - |before|];
      before + last
  }

  /**
   * Visiting more chapters only appends: the words of surahs 1..n are a prefix
   * of the words of surahs 1..max, so chapter n's words sit between the
   * prefixes for n - 1 and n.
   */
  lemma {:induction false} WordsPrefix(doc: Document, n: nat, max: nat)
    requires n <= max <= |doc.chapters|
    ensures |Words(doc, n)| <= |Words(doc, max)|
    ensures Words(doc, max)[..|Words(doc, n)|] == Words(doc, n)
    decreases max
  {
    if n < max {
      WordsPrefix(doc, n, max - 1);
      var before := Words(doc, max - 1);
      assert Words(doc, max) == before + ChapterWords(max, doc.chapters[max - 1]);
      assert Words(doc, max)[..|before|] == before;
    }
  }

  const OpenSurah: string := "  {\n    \"surah_number\": "
  const OpenVerse: string := ",\n    \"verse_number\": "
  const OpenPosition: string := ",\n    \"word_position\": "
  const OpenArabic: string := ",\n    \"arabic\": \""
  const OpenTransliteration: string := "\",\n    \"transliteration\": \""
  const CloseObject: string := "\"\n  }"

  /** The lines written for one word, without the separating `,\n`. */
  function ObjectText(w: WordRecord): string {
    OpenSurah + ObjectFields(w) + CloseObject
  }

  function ObjectFields(w: WordRecord): string {
    IntToString(w.surah) + OpenVerse + IntToString(w.verse) + OpenPosition + IntToString(w.position) +
    OpenArabic + Escape(w.arabic) + OpenTransliteration + Escape(w.transliteration)
  }

  function Objects(words: seq<WordRecord>, render: WordRecord -> string): seq<string> {
    seq(|words|, i requires 0 <= i < |words| => render(words[i]))
  }

  /** The file as a JSON array: the objects joined by `,\n` between `[\n` and `\n]\n`. */
  function ArrayText(words: seq<WordRecord>): string {
    "[\n" + Join(Objects(words, ObjectText), ",\n") + "\n]\n"
  }

  /**
   * The writer loop: a separator before every object except the first,
   * tracked by the `firstWord` flag. It writes exactly the joined array.
   */
  method WriteArray(words: seq<WordRecord>, render: WordRecord -> string) returns (out: string)
    ensures out == "[\n" + Join(Objects(words, render), ",\n") + "\n]\n"
  {
    out := "[\n";
    var firstWord := true;
    var i := 0;
    while i < |words|
      invariant 0 <= i <= |words|
      invariant firstWord <==> i == 0
      invariant out == "[\n" + Join(Objects(words[..i], render), ",\n")
    {
      ObjectsSnoc(words, i, render);
      if !firstWord {
        out := out + ",\n";
        JoinSnoc(Objects(words[..i], render), render(words[i]), ",\n");
      } else {
        assert Objects(words[..i + 1], render) == [render(words[i])];
      }
      out := out + render(words[i]);
      firstWord := false;
      i := i + 1;
    }
    assert words[..i] == words;
    out := out + "\n]\n";
  }

  lemma ObjectsSnoc(words: seq<WordRecord>, i: nat, render: WordRecord -> string)
    requires i < |words|
    ensures Objects(words[..i + 1], render) == Objects(words[..i], render) + [render(words[i])]
  {
    var a, b := Objects(words[..i + 1], render), Objects(words[..i], render) + [render(words[i])];
    assert |a| == |b|;
    forall k | 0 <= k < |a|
      ensures a[k] == b[k]
    {
      assert words[..i + 1][k] == words[k];
    }
  }

  lemma ObjectTextEnds(w: WordRecord)
    ensures StartsWith(ObjectText(w), OpenSurah)
    ensures EndsWith(ObjectText(w), CloseObject)
  {
    Framed(OpenSurah, ObjectFields(w), CloseObject);
  }

  lemma Framed(head: string, middle: string, tail: string)
    ensures StartsWith(head + middle + tail, head) && EndsWith(head + middle + tail, tail)
  {
    var o := head + middle + tail;
    assert o[..|head|] == head;
    assert o[|o| - |tail|..] == tail;
  }

  lemma {:induction false} JoinEnds(parts: seq<string>, sep: string)
    requires |parts| > 0
    ensures StartsWith(Join(parts, sep), parts[0])
    ensures EndsWith(Join(parts, sep), parts[|parts| - 1])
    decreases |parts|
  {
    if |parts| > 1 {
      JoinEnds(parts[1..], sep);
      var rest := Join(parts[1..], sep);
      var j := Join(parts, sep);
      assert j == parts[0] + sep + rest;
      assert j[..|parts[0]|] == parts[0];
      assert j[|j| - |parts[|parts| - 1]|..] == rest[|rest| - |parts[|parts| - 1]|..];
    }
  }

  /**
   * No leading or trailing comma: the array opens with the first object right
   * after `[\n` and closes with the last object right before `\n]\n`; with no
   * words it is `[\n\n]\n`.
   */
  lemma ArrayShape(words: seq<WordRecord>)
    ensures |words| == 0 ==> ArrayText(words) == "[\n\n]\n"
    ensures |words| > 0 ==> StartsWith(ArrayText(words), "[\n" + OpenSurah)
    ensures |words| > 0 ==> EndsWith(ArrayText(words), CloseObject + "\n]\n")
  {
    if |words| == 0 {
      assert Objects(words, ObjectText) == [];
    } else {
      FilledArrayShape(words);
    }
  }

  lemma FilledArrayShape(words: seq<WordRecord>)
    requires |words| > 0
    ensures StartsWith(ArrayText(words), "[\n" + OpenSurah)
    ensures EndsWith(ArrayText(words), CloseObject + "\n]\n")
  {
    var objs := Objects(words, ObjectText);
    ObjectTextEnds(words[0]);
    ObjectTextEnds(words[|words| - 1]);
    JoinedShape(objs);
  }

  lemma JoinedShape(objs: seq<string>)
    requires |objs| > 0
    requires StartsWith(objs[0], OpenSurah) && EndsWith(objs[|objs| - 1], CloseObject)
    ensures StartsWith("[\n" + Join(objs, ",\n") + "\n]\n", "[\n" + OpenSurah)
    ensures EndsWith("[\n" + Join(objs, ",\n") + "\n]\n", CloseObject + "\n]\n")
  {
    JoinEnds(objs, ",\n");
    var j := Join(objs, ",\n");
    JoinEndsWith(j, objs[0], objs[|objs| - 1], OpenSurah, CloseObject);
    Enclosed("[\n", j, "\n]\n", OpenSurah, CloseObject);
  }

  lemma Enclosed(open: string, j: string, close: string, head: string, tail: string)
    requires StartsWith(j, head) && EndsWith(j, tail)
    ensures StartsWith(open + j + close, open + head) && EndsWith(open + j + close, tail + close)
  {
    var a := open + j + close;
    assert a[..|open| + |head|] == open + j[..|head|];
    assert a[|a| - |close| - |tail|..] == j[|j| - |tail|..] + close;
  }

  lemma JoinEndsWith(j: string, first: string, last: string, head: string, tail: string)
    requires StartsWith(j, first) && EndsWith(j, last)
    requires StartsWith(first, head) && EndsWith(last, tail)
    ensures StartsWith(j, head) && EndsWith(j, tail)
  {
    assert j[..|head|] == first[..|head|];
    assert j[|j| - |tail|..] == last[|last| - |tail|..];
  }

  const Usage: string := "Usage: java QuranWordExtractor <max_surah_number>"
  const RangeError: string := "Invalid surah number. Must be between 1 and 114."
  const Done: string := "Extraction complete. Data saved to quran_words.json"

  /** The progress lines `Processing Surah n: n` for chapters 1..max. */
  function Progress(max: nat): string {
    if max == 0 then "" else Progress(max - 1) + "Processing Surah " + IntToString(max) + ": " + IntToString(max) + "\n"
  }

  /** The console run and the file written, if any. */
  datatype Extraction = Extraction(run: Outcome, file: Option<string>)

  /**
   * How the file I/O and the library calls inside the `try` go: all of them
   * succeed; `new FileWriter` throws an `IOException`; or, after the progress
   * lines of `chapters` chapters, a write or `close` throws an `IOException`,
   * or some other call throws `thrown` with the stack frames `frames`. The
   * writer is buffered and never closed on those paths, so of the text written
   * so far the file keeps its first `kept` characters.
   */
  datatype IoFate =
    | Completes
    | OpenFails(message: string)
    | WriteFails(chapters: nat, kept: nat, message: string)
    | OtherFails(chapters: nat, kept: nat, thrown: Thrown, frames: string)

  /** The first `kept` characters of `s`, or all of it. */
  function Cut(s: string, kept: nat): (r: string)
    ensures r <= s && |r| == (if kept < |s| then kept else |s|)
  {
    if kept < |s| then s[..kept] else s
  }

  /** The progress lines of the chapters begun before the failure. */
  function ProgressUpTo(chapters: nat, n: nat): string {
    Progress(if chapters < n then chapters else n)
  }

  const WriteError: string := "Error writing to file: "

  /**
   * `main`: a missing argument prints the usage and exits 1; a number outside
   * 1..114 prints an error and exits 1; a malformed number is reported on
   * standard error and the program ends normally; otherwise the file holds the
   * words of surahs 1..n, unless `io` says an exception cut the run short: it
   * is reported on standard error, the program still ends normally, and the
   * file, if it was opened, holds a prefix of that text.
   */
  method Run(args: seq<string>, doc: Document, io: IoFate) returns (r: Extraction)
    requires IsQuran(doc)
    ensures |args| == 0 ==> r == Extraction(OutLine(Usage, 1), None)
    ensures |args| > 0 && JavaParseInt(args[0]).None? ==>
      r == Extraction(ErrLine("Error: Invalid number format: " + NumberFormatMessage(args[0]), 0), None)
    ensures |args| > 0 && JavaParseInt(args[0]).Some? && !(1 <= JavaParseInt(args[0]).value <= 114) ==>
      r == Extraction(OutLine(RangeError, 1), None)
    ensures r.run.exitCode == 1 <==> |args| == 0 || (JavaParseInt(args[0]).Some? && !(1 <= JavaParseInt(args[0]).value <= 114))
    ensures r.file.Some? <==> |args| > 0 && JavaParseInt(args[0]).Some? && 1 <= JavaParseInt(args[0]).value <= 114 && !io.OpenFails?
    ensures r.file.Some? ==> r.file.value <= ArrayText(Words(doc, JavaParseInt(args[0]).value))
    ensures r.file.Some? && io.Completes? ==> (
      var n := JavaParseInt(args[0]).value;
      r.file.value == ArrayText(Words(doc, n)) &&
      r.run == Outcome(Progress(n) + Done + "\n", "", 0))
    ensures |args| > 0 && JavaParseInt(args[0]).Some? && 1 <= JavaParseInt(args[0]).value <= 114 && io.OpenFails? ==>
      r == Extraction(ErrLine(WriteError + io.message, 0), None)
    ensures r.file.Some? && io.WriteFails? ==> (
      var n := JavaParseInt(args[0]).value;
      r == Extraction(Outcome(ProgressUpTo(io.chapters, n), WriteError + io.message + "\n", 0),
        Some(Cut(ArrayText(Words(doc, n)), io.kept))))
    ensures r.file.Some? && io.OtherFails? ==> (
      var n := JavaParseInt(args[0]).value;
      r == Extraction(Outcome(ProgressUpTo(io.chapters, n), ReportText(io.thrown, io.frames), 0),
        Some(Cut(ArrayText(Words(doc, n)), io.kept))))
  {
    if |args| < 1 {
      return Extraction(OutLine(Usage, 1), None);
    }
    var parsed := JavaParseInt(args[0]);
    if parsed.None? {
      return Extraction(ErrLine("Error: Invalid number format: " + NumberFormatMessage(args[0]), 0), None);
    }
    var maxSurahNumber := parsed.value;
    if maxSurahNumber < 1 || maxSurahNumber > 114 {
      return Extraction(OutLine(RangeError, 1), None);
    }
    if io.OpenFails? {
      return Extraction(ErrLine(WriteError + io.message, 0), None);
    }
    var file := WriteArray(Words(doc, maxSurahNumber), ObjectText);
    match io
    case Completes =>
      r := Extraction(Outcome(Progress(maxSurahNumber) + Done + "\n", "", 0), Some(file));
    case WriteFails(chapters, kept, message) =>
      r := Extraction(Outcome(ProgressUpTo(chapters, maxSurahNumber), WriteError + message + "\n", 0), Some(Cut(file, kept)));
    case OtherFails(chapters, kept, thrown, frames) =>
      r := Extraction(Outcome(ProgressUpTo(chapters, maxSurahNumber), ReportText(thrown, frames), 0), Some(Cut(file, kept)));
  }
}

=== FILE: rebuild.dfy ===
/**
 * `scripts/rebuild-quran-data.ts`: read the verse tuples of the Tanzil dump
 * `quran-simple.sql`, then, ten surahs at a time, update the Arabic text of
 * every verse already stored and insert the ones that are missing. The first
 * verse of Al-Fatiha becomes the bismillah alone, and the bismillah is cut
 * from the front of the first verse of every other surah.
 *
 * `Run` is that transformation. As the script is written, it never gets to
 * perform it (see `RunAsWritten`).
 */
module Rebuild {
  import opened Wrappers
  import opened Text
  import opened Seqs
  import opened Schema
  import opened SqlTuples
  import opened Corpus
  import opened Markers


  /** A parsed `QuranVerse`; `parseInt` of a run of digits is its decimal value. */
  datatype QuranVerse = QuranVerse(index: int, sura: int, aya: int, text: string)

  function ToVerse(row: Row): QuranVerse
    requires Matched(row)
  {
    QuranVerse(DecimalValue(row.index), DecimalValue(row.sura), DecimalValue(row.aya), row.text)
  }

  function Verses(rows: seq<Row>): (r: seq<QuranVerse>)
    requires forall row :: row in rows ==> Matched(row)
    ensures |r| == |rows|
    ensures forall v :: v in r ==> v.index >= 0 && v.sura >= 0 && v.aya >= 0 && Quotable(v.text)
    decreases |rows|
  {
    if |rows| == 0 then []
    else
      assert rows[0] in rows;
      assert forall row :: row in rows[1..] ==> row in rows;
      [ToVerse(rows[0])] + Verses(rows[1..])
  }

  /** A line is searched only when it mentions `INSERT INTO` or `VALUES`. */
  predicate Considered(line: string) {
    Contains(line, "INSERT INTO") || Contains(line, "VALUES")
  }

  /** The verses the global tuple pattern finds on one line. */
  function LineVerses(line: string): (r: seq<QuranVerse>)
    ensures !Considered(line) ==> r == []
    ensures forall v :: v in r ==> v.index >= 0 && v.sura >= 0 && v.aya >= 0 && Quotable(v.text)
  {
    if !Considered(line) then []
    else
      Verses(Scan(line, Bare(AnySpace)))
  }

  /** `parseQuranSimpleSql`: the verses of every line, in file order. */
  function ParseLines(lines: seq<string>): (r: seq<QuranVerse>)
    ensures forall v :: v in r ==> v.index >= 0 && v.sura >= 0 && v.aya >= 0 && Quotable(v.text)
    decreases |lines|
  {
    if |lines| == 0 then [] else ParseLines(lines[..|lines| - 1]) + LineVerses(lines[|lines| - 1])
  }

  /** Every verse found on a line is among the parsed verses. */
  lemma {:induction false} LineVersesParsed(lines: seq<string>, k: int, v: QuranVerse)
    requires 0 <= k < |lines| && v in LineVerses(lines[k])
    ensures v in ParseLines(lines)
    decreases |lines|
  {
    if k < |lines| - 1 {
      var init := lines[..|lines| - 1];
      assert init[k] == lines[k];
      LineVersesParsed(init, k, v);
    }
  }

  /** A dump statement on one line is read back as exactly its tuples, in order. */
  lemma ReadsDumpLine(rows: seq<Row>)
    requires forall row :: row in rows ==> Matched(row)
    ensures LineVerses(DumpStatement(rows)) == Verses(rows)
  {
    assert StartsWith(DumpStatement(rows), "INSERT INTO");
    ScanDumpStatement(rows);
  }

  /** The batches `for (start = 1; start <= 114; start += 10)` with `end = min(start + 9, 114)`. */
  function BatchesFrom(start: int): (b: seq<(int, int)>)
    decreases 115 - start
  {
    if start > 114 then [] else [(start, Min(start + 9, 114))] + BatchesFrom(start + 10)
  }

  function Batches(): seq<(int, int)> {
    BatchesFrom(1)
  }

  function Min(a: int, b: int): int {
    if a <= b then a else b
  }

  lemma {:induction false} BatchesFromShape(k: nat)
    requires k <= 12
    ensures var b := BatchesFrom(1 + 10 * k);
      |b| == 12 - k && forall i :: 0 <= i < |b| ==> b[i] == (1 + 10 * (k + i), Min(10 + 10 * (k + i), 114))
    decreases 12 - k
  {
    if k < 12 {
      BatchesFromShape(k + 1);
      var b := BatchesFrom(1 + 10 * k);
      assert b == [(1 + 10 * k, Min(10 + 10 * k, 114))] + BatchesFrom(1 + 10 * (k + 1));
      forall i | 0 < i < 12 - k
        ensures b[i] == (1 + 10 * (k + i), Min(10 + 10 * (k + i), 114))
      {
        assert b[i] == BatchesFrom(1 + 10 * (k + 1))[i - 1];
      }
    }
  }

  /** Surah n lies within the batch. */
  predicate InBatch(b: (int, int), n: int) {
    b.0 <= n <= b.1
  }

  /** The index of the batch of surah n. */
  function BatchIndex(n: int): int {
    (n - 1) / 10
  }

  /**
   * The twelve batches partition the surah numbers 1..114: each spans at most
   * ten surahs, and surah n lies in batch (n - 1) / 10 and in no other.
   */
  lemma BatchesPartition()
    ensures |Batches()| == 12
    ensures forall i :: 0 <= i < 12 ==> 1 <= Batches()[i].0 <= Batches()[i].1 <= 114 && Batches()[i].1 - Batches()[i].0 < 10
    ensures forall n :: 1 <= n <= 114 ==> 0 <= BatchIndex(n) < 12 && InBatch(Batches()[BatchIndex(n)], n)
    ensures forall i, n :: 0 <= i < 12 && InBatch(Batches()[i], n) ==> 1 <= n <= 114
    ensures forall i, n :: 0 <= i < 12 && InBatch(Batches()[i], n) ==> i == BatchIndex(n)
  {
    BatchesFromShape(0);
    forall i, n | 0 <= i < 12 && InBatch(Batches()[i], n)
      ensures 1 <= n <= 114 && i == BatchIndex(n)
    {
      BatchSpan(i, n);
    }
  }

  lemma BatchSpan(i: int, n: int)
    requires 0 <= i < |Batches()| && InBatch(Batches()[i], n)
    ensures 1 <= n <= 114 && i == BatchIndex(n)
  {
    BatchesFromShape(0);
    assert Batches() == BatchesFrom(1 + 10 * 0);
    assert Batches()[i] == (1 + 10 * i, Min(10 + 10 * i, 114));
    DivTen(n - 1, i);
  }

  lemma DivTen(m: int, i: int)
    requires 10 * i <= m < 10 * i + 10
    ensures m / 10 == i
  {
    var q, r := m / 10, m % 10;
    assert m == 10 * q + r && 0 <= r < 10;
    assert 10 * (q - i) < 10 && 10 * (i - q) < 10;
  }

  /** `verses.filter(v => v.sura >= start && v.sura <= end)`. */
  function InRange(start: int, end: int): QuranVerse -> bool {
    (v: QuranVerse) => start <= v.sura <= end
  }

  function SuraIs(n: int): QuranVerse -> bool {
    (v: QuranVerse) => v.sura == n
  }

  /** The `Map<number, QuranVerse[]>` built by `versesBySurah`, as an association list. */
  type Groups = seq<(int, seq<QuranVerse>)>

  /** Set an empty list for a new surah number, then push the verse onto its list. */
  function Push(groups: Groups, v: QuranVerse): (r: Groups)
    decreases |groups|
  {
    if |groups| == 0 then [(v.sura, [v])]
    else if groups[0].0 == v.sura then [(v.sura, groups[0].1 + [v])] + groups[1..]
    else [groups[0]] + Push(groups[1..], v)
  }

  /** `versesBySurah.get(n) || []`. */
  function Lookup(groups: Groups, n: int): seq<QuranVerse>
    decreases |groups|
  {
    if |groups| == 0 then [] else if groups[0].0 == n then groups[0].1 else Lookup(groups[1..], n)
  }

  function Group(vs: seq<QuranVerse>): Groups
    decreases |vs|
  {
    if |vs| == 0 then [] else Push(Group(vs[..|vs| - 1]), vs[|vs| - 1])
  }

  lemma {:induction false} LookupPush(groups: Groups, v: QuranVerse, n: int)
    ensures Lookup(Push(groups, v), n) == Lookup(groups, n) + (if v.sura == n then [v] else [])
    decreases |groups|
  {
    if |groups| > 0 && groups[0].0 != v.sura {
      LookupPush(groups[1..], v, n);
    }
  }

  /** The list grouped under surah n is exactly that surah's verses, in input order. */
  lemma {:induction false} GroupIsFilter(vs: seq<QuranVerse>, n: int)
    ensures Lookup(Group(vs), n) == Filter(vs, SuraIs(n))
    decreases |vs|
  {
    if |vs| > 0 {
      var init, last := vs[..|vs| - 1], vs[|vs| - 1];
      GroupIsFilter(init, n);
      LookupPush(Group(init), last, n);
      FilterSnoc(vs, n);
    }
  }

  lemma FilterSnoc(vs: seq<QuranVerse>, n: int)
    requires |vs| > 0
    ensures Filter(vs, SuraIs(n)) == Filter(vs[..|vs| - 1], SuraIs(n)) + (if vs[|vs| - 1].sura == n then [vs[|vs| - 1]] else [])
  {
    var init, last := vs[..|vs| - 1], vs[|vs| - 1];
    assert vs == init + [last];
    FilterAppend(init, [last], SuraIs(n));
    assert Filter([last], SuraIs(n)) == if last.sura == n then [last] else [];
  }

  /**
   * The Arabic text stored for a verse: the first verse of Al-Fatiha is the
   * bismillah; the first verse of another surah loses a leading bismillah
   * and the white space after it; every other verse is kept as it is.
   */
  function StoredText(surahNumber: int, v: QuranVerse): (r: string)
    ensures v.aya != 1 ==> r == v.text
    ensures v.aya == 1 && surahNumber == 1 ==> r == Tatweeled
    ensures v.aya == 1 && surahNumber != 1 ==> (|r| < |v.text| <==> StartsWith(v.text, Tatweeled))
    ensures v.aya == 1 && surahNumber != 1 && StartsWith(v.text, Tatweeled) ==> r == Trim(v.text[|Tatweeled|..])
  {
    if v.aya != 1 then v.text
    else if surahNumber == 1 then Tatweeled
    else if StartsWith(v.text, Tatweeled) then Trim(v.text[|Tatweeled|..])
    else v.text
  }

  /** Two rows that differ at most in their Arabic text. */
  predicate SameBut(a: Verse, b: Verse) {
    a.(arabicText := b.arabicText) == b
  }

  /** `b` is `a` with some Arabic texts rewritten and rows appended. */
  predicate Extends(a: seq<Verse>, b: seq<Verse>) {
    |a| <= |b| && forall i :: 0 <= i < |a| ==> SameBut(a[i], b[i])
  }

  lemma ExtendsTrans(a: seq<Verse>, b: seq<Verse>, c: seq<Verse>)
    requires Extends(a, b) && Extends(b, c)
    ensures Extends(a, c)
  {
  }

  /** A verse found in a table is still found once the table is extended. */
  lemma ExtendsKeepsVerse(a: seq<Verse>, b: seq<Verse>, surahId: int, n: int)
    requires Extends(a, b) && VerseAt(a, surahId, n).Some?
    ensures VerseAt(b, surahId, n).Some?
  {
    var i :| 0 <= i < |a| && a[i] == VerseAt(a, surahId, n).value;
    assert SameBut(a[i], b[i]);
  }

  /** `update verses set arabic_text = text where id = id`. */
  function SetArabic(verses: seq<Verse>, id: int, text: string): (r: seq<Verse>)
    ensures |r| == |verses| && Extends(verses, r)
    ensures forall i :: 0 <= i < |verses| ==> r[i].arabicText == if verses[i].id == id then text else verses[i].arabicText
  {
    seq(|verses|, i requires 0 <= i < |verses| => if verses[i].id == id then verses[i].(arabicText := text) else verses[i])
  }

  /** The verse is stored in the surah with the given Arabic text. */
  predicate Stored(verses: seq<Verse>, surahId: int, n: int, text: string) {
    VerseAt(verses, surahId, n).Some? && VerseAt(verses, surahId, n).value.arabicText == text
  }

  /**
   * Update the stored verse or insert a new one. An existing row keeps
   * everything but its Arabic text; a new row gets the next id and the key
   * `surah:aya`, and the insert fails when that key is taken.
   */
  function Upsert(verses: seq<Verse>, surahId: int, surahNumber: int, v: QuranVerse): (r: Result<seq<Verse>, string>)
    ensures r.Ok? ==> Extends(verses, r.value) && Stored(r.value, surahId, v.aya, StoredText(surahNumber, v))
    ensures VerseAt(verses, surahId, v.aya).Some? ==> r.Ok? && |r.value| == |verses|
    ensures VerseAt(verses, surahId, v.aya).Some? ==>
      forall i :: 0 <= i < |verses| && verses[i].id != VerseAt(verses, surahId, v.aya).value.id ==> r.value[i] == verses[i]
    ensures VerseAt(verses, surahId, v.aya).None? ==> (
      r.Ok? <==> forall i :: 0 <= i < |verses| ==> verses[i].uniqueKey != VerseKey(surahNumber, v.aya))
    ensures VerseAt(verses, surahId, v.aya).None? && r.Ok? ==>
      r.value == verses + [NewVerse(NextVerseId(verses), surahId, v.aya, StoredText(surahNumber, v), VerseKey(surahNumber, v.aya))]
  {
    var text := StoredText(surahNumber, v);
    match VerseAt(verses, surahId, v.aya)
    case Some(existing) =>
      var r := SetArabic(verses, existing.id, text);
      UpdatedIsStored(verses, existing, surahId, v.aya, text);
      Ok(r)
    case None =>
      var row := NewVerse(NextVerseId(verses), surahId, v.aya, text, VerseKey(surahNumber, v.aya));
      NextIdInsert(verses, row);
      var r := InsertVerse(verses, row);
      if r.Ok? then
        InsertedIsStored(verses, row);
        r
      else r
  }

  lemma UpdatedIsStored(verses: seq<Verse>, existing: Verse, surahId: int, n: int, text: string)
    requires VerseAt(verses, surahId, n) == Some(existing)
    ensures Stored(SetArabic(verses, existing.id, text), surahId, n, text)
  {
    var r := SetArabic(verses, existing.id, text);
    var p := (v: Verse) => v.surahId == surahId && v.verseNumber == n;
    var k :| 0 <= k < |verses| && verses[k] == existing && p(verses[k]) && forall j :: 0 <= j < k ==> !p(verses[j]);
    assert forall j :: 0 <= j < |verses| ==> SameBut(verses[j], r[j]);
    FindFirstAt(verses, r, p, k);
    assert r[k].arabicText == text;
  }

  /** Two sequences that agree on `p` everywhere have their first `p` at the same place. */
  lemma FindFirstAt<T>(s: seq<T>, t: seq<T>, p: T -> bool, k: int)
    requires |s| == |t| && forall j :: 0 <= j < |s| ==> p(s[j]) == p(t[j])
    requires 0 <= k < |s| && p(s[k]) && forall j :: 0 <= j < k ==> !p(s[j])
    ensures Find(t, p) == Some(t[k])
  {
    assert p(t[k]);
    var i :| 0 <= i < |t| && t[i] == Find(t, p).value && p(t[i]) && forall j :: 0 <= j < i ==> !p(t[j]);
    assert i == k;
  }

  lemma InsertedIsStored(verses: seq<Verse>, row: Verse)
    requires VerseAt(verses, row.surahId, row.verseNumber).None? && InsertVerse(verses, row).Ok?
    ensures Stored(InsertVerse(verses, row).value, row.surahId, row.verseNumber, row.arabicText)
  {
    var r := InsertVerse(verses, row).value;
    var p := (v: Verse) => v.surahId == row.surahId && v.verseNumber == row.verseNumber;
    assert r == verses + [row];
    FindAppend(verses, [row], p);
  }

  /** An upsert keeps both table constraints. */
  lemma UpsertKeepsKeyed(verses: seq<Verse>, surahId: int, surahNumber: int, v: QuranVerse)
    requires Keyed(verses) && Upsert(verses, surahId, surahNumber, v).Ok?
    ensures Keyed(Upsert(verses, surahId, surahNumber, v).value)
  {
    var r := Upsert(verses, surahId, surahNumber, v).value;
    if VerseAt(verses, surahId, v.aya).None? {
      var row := NewVerse(NextVerseId(verses), surahId, v.aya, StoredText(surahNumber, v), VerseKey(surahNumber, v.aya));
      InsertKeepsKeyed(verses, row);
    } else {
      assert forall i :: 0 <= i < |verses| ==> SameBut(verses[i], r[i]);
    }
  }

  /** `for (const verse of surahVerses)`: the first failing write ends the run. */
  function UpsertAll(verses: seq<Verse>, surahId: int, surahNumber: int, group: seq<QuranVerse>): (r: Step)
    ensures Extends(verses, r.verses)
    ensures Keyed(verses) ==> Keyed(r.verses)
    ensures r.error.None? ==> forall v :: v in group ==> VerseAt(r.verses, surahId, v.aya).Some?
    decreases |group|
  {
    if |group| == 0 then Step(verses, None)
    else
      match Upsert(verses, surahId, surahNumber, group[0])
      case Err(e) => Step(verses, Some(e))
      case Ok(next) =>
        assert Keyed(verses) ==> Keyed(next) by {
          if Keyed(verses) {
            UpsertKeepsKeyed(verses, surahId, surahNumber, group[0]);
          }
        }
        var r := UpsertAll(next, surahId, surahNumber, group[1..]);
        ExtendsTrans(verses, next, r.verses);
        assert r.error.None? ==> forall v :: v in group ==> VerseAt(r.verses, surahId, v.aya).Some? by {
          if r.error.None? {
            ExtendsKeepsVerse(next, r.verses, surahId, group[0].aya);
            assert forall v :: v in group ==> v == group[0] || v in group[1..];
          }
        }
        r
  }

  /** `map.set(surah.number, surah.id)` over the table, in row order. */
  function SurahIds(surahs: seq<Surah>): (r: map<int, int>)
    ensures forall n :: n in r <==> exists i :: 0 <= i < |surahs| && surahs[i].number == n
    decreases |surahs|
  {
    if |surahs| == 0 then map[]
    else
      var init, last := surahs[..|surahs| - 1], surahs[|surahs| - 1];
      assert forall i :: 0 <= i < |init| ==> init[i] == surahs[i];
      SurahIds(init)[last.number := last.id]
  }

  /** The row is the last with its number. */
  predicate LastWithNumber(surahs: seq<Surah>, i: int) {
    0 <= i < |surahs| && forall j :: i < j < |surahs| ==> surahs[j].number != surahs[i].number
  }

  /** A later row with the same number overwrites an earlier one: the last row's id wins. */
  lemma {:induction false} SurahIdsLastWins(surahs: seq<Surah>, i: int)
    requires LastWithNumber(surahs, i)
    ensures surahs[i].number in SurahIds(surahs) && SurahIds(surahs)[surahs[i].number] == surahs[i].id
    decreases |surahs|
  {
    var init, last := surahs[..|surahs| - 1], surahs[|surahs| - 1];
    if i < |surahs| - 1 {
      assert last.number != surahs[i].number;
      assert init[i] == surahs[i];
      SurahIdsLastWins(init, i);
    }
  }

  /** `!surahId`: no surah with that number, or the id 0. */
  predicate HasId(ids: map<int, int>, n: int) {
    n in ids && ids[n] != 0
  }

  /** The loop over surah numbers `n..end` of one batch. */
  function ProcessSurahs(verses: seq<Verse>, ids: map<int, int>, groups: Groups, n: int, end: int): (r: Step)
    ensures Extends(verses, r.verses)
    ensures Keyed(verses) ==> Keyed(r.verses)
    ensures r.error.None? ==> forall m, v :: n <= m <= end && HasId(ids, m) && v in Lookup(groups, m) ==>
      VerseAt(r.verses, ids[m], v.aya).Some?
    decreases end - n
  {
    if n > end then Step(verses, None)
    else
      var group := Lookup(groups, n);
      if |group| == 0 || !HasId(ids, n) then ProcessSurahs(verses, ids, groups, n + 1, end)
      else
        var first := UpsertAll(verses, ids[n], n, group);
        if first.error.Some? then first
        else
          var r := ProcessSurahs(first.verses, ids, groups, n + 1, end);
          ExtendsTrans(verses, first.verses, r.verses);
          assert r.error.None? ==> forall v :: v in group ==> VerseAt(r.verses, ids[n], v.aya).Some? by {
            if r.error.None? {
              forall v | v in group
                ensures VerseAt(r.verses, ids[n], v.aya).Some?
              {
                ExtendsKeepsVerse(first.verses, r.verses, ids[n], v.aya);
              }
            }
          }
          r
  }

  /** `processBatch`: group the batch's verses by surah and go through its surah numbers. */
  function ProcessBatch(verses: seq<Verse>, ids: map<int, int>, parsed: seq<QuranVerse>, batch: (int, int)): (r: Step)
    ensures Extends(verses, r.verses)
    ensures Keyed(verses) ==> Keyed(r.verses)
    ensures r.error.None? ==> forall v :: v in parsed && batch.0 <= v.sura <= batch.1 && HasId(ids, v.sura) ==>
      VerseAt(r.verses, ids[v.sura], v.aya).Some?
  {
    var inBatch := Filter(parsed, InRange(batch.0, batch.1));
    var r := ProcessSurahs(verses, ids, Group(inBatch), batch.0, batch.1);
    assert forall v :: v in parsed && batch.0 <= v.sura <= batch.1 ==> v in Lookup(Group(inBatch), v.sura) by {
      forall v | v in parsed && batch.0 <= v.sura <= batch.1
        ensures v in Lookup(Group(inBatch), v.sura)
      {
        GroupIsFilter(inBatch, v.sura);
      }
    }
    r
  }

  /** The batch loop of `rebuildQuranData`: an error in any batch ends the script. */
  function ProcessBatches(verses: seq<Verse>, ids: map<int, int>, parsed: seq<QuranVerse>, batches: seq<(int, int)>): (r: Step)
    ensures Extends(verses, r.verses)
    ensures Keyed(verses) ==> Keyed(r.verses)
    ensures r.error.None? ==> forall b, v :: b in batches && v in parsed && b.0 <= v.sura <= b.1 && HasId(ids, v.sura) ==>
      VerseAt(r.verses, ids[v.sura], v.aya).Some?
    decreases |batches|
  {
    if |batches| == 0 then Step(verses, None)
    else
      var first := ProcessBatch(verses, ids, parsed, batches[0]);
      if first.error.Some? then first
      else
        var r := ProcessBatches(first.verses, ids, parsed, batches[1..]);
        ExtendsTrans(verses, first.verses, r.verses);
        assert r.error.None? ==> forall v :: v in parsed && batches[0].0 <= v.sura <= batches[0].1 && HasId(ids, v.sura) ==>
          VerseAt(r.verses, ids[v.sura], v.aya).Some? by {
          if r.error.None? {
            forall v | v in parsed && batches[0].0 <= v.sura <= batches[0].1 && HasId(ids, v.sura)
              ensures VerseAt(r.verses, ids[v.sura], v.aya).Some?
            {
              ExtendsKeepsVerse(first.verses, r.verses, ids[v.sura], v.aya);
            }
          }
        }
        assert forall b :: b in batches ==> b == batches[0] || b in batches[1..];
        r
  }

  /** The parsed verse at `k` is the last one with its surah and verse number. */
  predicate LastOfKey(parsed: seq<QuranVerse>, k: int) {
    0 <= k < |parsed| && forall j :: k < j < |parsed| ==> !(parsed[j].sura == parsed[k].sura && parsed[j].aya == parsed[k].aya)
  }

  /** Within one surah's list, the entry at `i` is the last with its verse number. */
  predicate LastOfAya(group: seq<QuranVerse>, i: int) {
    0 <= i < |group| && forall j :: i < j < |group| ==> group[j].aya != group[i].aya
  }

  /** Some entry of the list has verse number `a`. */
  predicate HasAya(group: seq<QuranVerse>, a: int) {
    exists w :: w in group && w.aya == a
  }

  /** No two surah numbers of the map share an id. */
  predicate IdsDistinct(ids: map<int, int>) {
    forall m1, m2 :: m1 in ids && m2 in ids && m1 != m2 ==> ids[m1] != ids[m2]
  }

  /** The surah rows have distinct ids, as the primary key demands. */
  predicate DistinctIds(surahs: seq<Surah>) {
    forall i, j :: 0 <= i < j < |surahs| ==> surahs[i].id != surahs[j].id
  }

  /** Every id in the map is that of a row with the number. */
  lemma {:induction false} SurahIdsFrom(surahs: seq<Surah>, n: int)
    requires n in SurahIds(surahs)
    ensures exists i :: 0 <= i < |surahs| && surahs[i].number == n && surahs[i].id == SurahIds(surahs)[n]
    decreases |surahs|
  {
    var init, last := surahs[..|surahs| - 1], surahs[|surahs| - 1];
    if last.number != n {
      SurahIdsFrom(init, n);
      var i :| 0 <= i < |init| && init[i].number == n && init[i].id == SurahIds(init)[n];
      assert surahs[i] == init[i];
    }
  }

  /** Distinct surah rows give distinct ids to distinct numbers. */
  lemma SurahIdsDistinct(surahs: seq<Surah>)
    requires DistinctIds(surahs)
    ensures IdsDistinct(SurahIds(surahs))
  {
    var ids := SurahIds(surahs);
    forall m1, m2 | m1 in ids && m2 in ids && m1 != m2
      ensures ids[m1] != ids[m2]
    {
      SurahIdsFrom(surahs, m1);
      SurahIdsFrom(surahs, m2);
      var i1 :| 0 <= i1 < |surahs| && surahs[i1].number == m1 && surahs[i1].id == ids[m1];
      var i2 :| 0 <= i2 < |surahs| && surahs[i2].number == m2 && surahs[i2].id == ids[m2];
      assert i1 != i2;
    }
  }

  /** An upsert of another (surah, verse) pair leaves the Arabic text of this one as it was. */
  lemma UpsertKeepsOther(verses: seq<Verse>, surahId: int, surahNumber: int, v: QuranVerse, sid: int, a: int, text: string)
    requires Keyed(verses) && Upsert(verses, surahId, surahNumber, v).Ok?
    requires sid != surahId || a != v.aya
    requires Stored(verses, sid, a, text)
    ensures Stored(Upsert(verses, surahId, surahNumber, v).value, sid, a, text)
  {
    var r := Upsert(verses, surahId, surahNumber, v).value;
    var p := (x: Verse) => x.surahId == sid && x.verseNumber == a;
    var k :| 0 <= k < |verses| && verses[k] == VerseAt(verses, sid, a).value && p(verses[k]) && forall j :: 0 <= j < k ==> !p(verses[j]);
    if VerseAt(verses, surahId, v.aya).Some? {
      var e := VerseAt(verses, surahId, v.aya).value;
      var m :| 0 <= m < |verses| && verses[m] == e;
      assert k != m;
      assert verses[k].id != e.id;
      assert forall j :: 0 <= j < |verses| ==> SameBut(verses[j], r[j]);
      assert r[k] == verses[k];
      FindFirstAt(verses, r, p, k);
    } else {
      var row := NewVerse(NextVerseId(verses), surahId, v.aya, StoredText(surahNumber, v), VerseKey(surahNumber, v.aya));
      assert r == verses + [row];
      FindAppend(verses, [row], p);
    }
  }

  /** A successful run of the upserts is a successful first upsert followed by a successful run of the rest. */
  lemma UpsertAllUnfold(verses: seq<Verse>, surahId: int, surahNumber: int, group: seq<QuranVerse>)
    requires |group| > 0 && UpsertAll(verses, surahId, surahNumber, group).error.None?
    ensures Upsert(verses, surahId, surahNumber, group[0]).Ok?
    ensures var next := Upsert(verses, surahId, surahNumber, group[0]).value;
      UpsertAll(next, surahId, surahNumber, group[1..]).error.None? &&
      UpsertAll(verses, surahId, surahNumber, group).verses == UpsertAll(next, surahId, surahNumber, group[1..]).verses
  {
  }

  /** The upserts of one surah leave the text of every pair they do not write. */
  lemma {:induction false} UpsertAllKeeps(verses: seq<Verse>, surahId: int, surahNumber: int, group: seq<QuranVerse>, sid: int, a: int, text: string)
    requires Keyed(verses) && UpsertAll(verses, surahId, surahNumber, group).error.None?
    requires sid != surahId || !HasAya(group, a)
    requires Stored(verses, sid, a, text)
    ensures Stored(UpsertAll(verses, surahId, surahNumber, group).verses, sid, a, text)
    decreases |group|
  {
    if |group| > 0 {
      UpsertAllUnfold(verses, surahId, surahNumber, group);
      var next := Upsert(verses, surahId, surahNumber, group[0]).value;
      UpsertKeepsOther(verses, surahId, surahNumber, group[0], sid, a, text);
      UpsertKeepsKeyed(verses, surahId, surahNumber, group[0]);
      assert forall w :: w in group[1..] ==> w in group;
      UpsertAllKeeps(next, surahId, surahNumber, group[1..], sid, a, text);
    }
  }

  /** The last entry with its verse number is either the head, whose number the tail lacks, or the last in the tail. */
  lemma LastOfAyaTail(group: seq<QuranVerse>, i: int)
    requires LastOfAya(group, i)
    ensures i == 0 ==> !HasAya(group[1..], group[0].aya)
    ensures i > 0 ==> group[1..][i - 1] == group[i] && LastOfAya(group[1..], i - 1)
  {
    if i == 0 {
      forall w | w in group[1..]
        ensures w.aya != group[0].aya
      {
        var j :| 0 <= j < |group[1..]| && group[1..][j] == w;
        assert group[j + 1] == w;
      }
    }
  }

  /**
   * After the upserts of one surah that all succeed, each verse number holds
   * the stored text of the last entry with that number.
   */
  lemma {:induction false} UpsertAllStores(verses: seq<Verse>, surahId: int, surahNumber: int, group: seq<QuranVerse>, i: int)
    requires Keyed(verses) && UpsertAll(verses, surahId, surahNumber, group).error.None?
    requires LastOfAya(group, i)
    ensures Stored(UpsertAll(verses, surahId, surahNumber, group).verses, surahId, group[i].aya, StoredText(surahNumber, group[i]))
    decreases |group|
  {
    if i == 0 {
      UpsertAllStoresHead(verses, surahId, surahNumber, group);
    } else {
      UpsertAllStoresTail(verses, surahId, surahNumber, group, i);
      var next := Upsert(verses, surahId, surahNumber, group[0]).value;
      UpsertAllStores(next, surahId, surahNumber, group[1..], i - 1);
    }
  }

  /** When the last entry with its verse number is not the head, the lemma's premises hold again after the first upsert. */
  lemma UpsertAllStoresTail(verses: seq<Verse>, surahId: int, surahNumber: int, group: seq<QuranVerse>, i: int)
    requires Keyed(verses) && UpsertAll(verses, surahId, surahNumber, group).error.None?
    requires LastOfAya(group, i) && i > 0
    ensures Upsert(verses, surahId, surahNumber, group[0]).Ok?
    ensures var next := Upsert(verses, surahId, surahNumber, group[0]).value;
      Keyed(next) && UpsertAll(next, surahId, surahNumber, group[1..]).error.None? &&
      UpsertAll(verses, surahId, surahNumber, group).verses == UpsertAll(next, surahId, surahNumber, group[1..]).verses &&
      group[1..][i - 1] == group[i] && LastOfAya(group[1..], i - 1) &&
      (Stored(UpsertAll(next, surahId, surahNumber, group[1..]).verses, surahId, group[1..][i - 1].aya, StoredText(surahNumber, group[1..][i - 1])) ==>
       Stored(UpsertAll(verses, surahId, surahNumber, group).verses, surahId, group[i].aya, StoredText(surahNumber, group[i])))
  {
    UpsertAllUnfold(verses, surahId, surahNumber, group);
    UpsertKeepsKeyed(verses, surahId, surahNumber, group[0]);
    LastOfAyaTail(group, i);
  }

  /** The head's text survives the rest of the upserts when no later entry has its verse number. */
  lemma UpsertAllStoresHead(verses: seq<Verse>, surahId: int, surahNumber: int, group: seq<QuranVerse>)
    requires Keyed(verses) && UpsertAll(verses, surahId, surahNumber, group).error.None?
    requires LastOfAya(group, 0)
    ensures Stored(UpsertAll(verses, surahId, surahNumber, group).verses, surahId, group[0].aya, StoredText(surahNumber, group[0]))
  {
    UpsertAllUnfold(verses, surahId, surahNumber, group);
    var next := Upsert(verses, surahId, surahNumber, group[0]).value;
    UpsertKeepsKeyed(verses, surahId, surahNumber, group[0]);
    LastOfAyaTail(group, 0);
    UpsertAllKeeps(next, surahId, surahNumber, group[1..], surahId, group[0].aya, StoredText(surahNumber, group[0]));
  }

  /** The surahs `n..end` leave the text of every pair none of them writes. */
  lemma {:induction false} ProcessSurahsKeeps(verses: seq<Verse>, ids: map<int, int>, groups: Groups, n: int, end: int, sid: int, a: int, text: string)
    requires Keyed(verses) && ProcessSurahs(verses, ids, groups, n, end).error.None?
    requires forall m :: n <= m <= end && HasId(ids, m) ==> ids[m] != sid || !HasAya(Lookup(groups, m), a)
    requires Stored(verses, sid, a, text)
    ensures Stored(ProcessSurahs(verses, ids, groups, n, end).verses, sid, a, text)
    decreases end - n
  {
    if n <= end {
      var group := Lookup(groups, n);
      if |group| == 0 || !HasId(ids, n) {
        ProcessSurahsKeeps(verses, ids, groups, n + 1, end, sid, a, text);
      } else {
        var first := UpsertAll(verses, ids[n], n, group);
        UpsertAllKeeps(verses, ids[n], n, group, sid, a, text);
        ProcessSurahsKeeps(first.verses, ids, groups, n + 1, end, sid, a, text);
      }
    }
  }

  /** Surah `m` of `n..end` holds, for each verse number, the text of its last entry. */
  lemma {:induction false} ProcessSurahsStores(verses: seq<Verse>, ids: map<int, int>, groups: Groups, n: int, end: int, m: int, i: int)
    requires Keyed(verses) && ProcessSurahs(verses, ids, groups, n, end).error.None? && IdsDistinct(ids)
    requires n <= m <= end && HasId(ids, m) && LastOfAya(Lookup(groups, m), i)
    ensures Stored(ProcessSurahs(verses, ids, groups, n, end).verses, ids[m], Lookup(groups, m)[i].aya, StoredText(m, Lookup(groups, m)[i]))
    decreases end - n
  {
    var group := Lookup(groups, n);
    if n < m {
      if |group| == 0 || !HasId(ids, n) {
        ProcessSurahsStores(verses, ids, groups, n + 1, end, m, i);
      } else {
        var first := UpsertAll(verses, ids[n], n, group);
        ProcessSurahsStores(first.verses, ids, groups, n + 1, end, m, i);
      }
    } else {
      var first := UpsertAll(verses, ids[n], n, group);
      UpsertAllStores(verses, ids[n], n, group, i);
      forall m' | n + 1 <= m' <= end && HasId(ids, m')
        ensures ids[m'] != ids[m]
      {
      }
      ProcessSurahsKeeps(first.verses, ids, groups, n + 1, end, ids[m], group[i].aya, StoredText(m, group[i]));
    }
  }

  /** A batch leaves the text of every pair none of its verses writes. */
  lemma ProcessBatchKeeps(verses: seq<Verse>, ids: map<int, int>, parsed: seq<QuranVerse>, batch: (int, int), sid: int, a: int, text: string)
    requires Keyed(verses) && ProcessBatch(verses, ids, parsed, batch).error.None?
    requires forall w :: w in parsed && InBatch(batch, w.sura) && HasId(ids, w.sura) ==> ids[w.sura] != sid || w.aya != a
    requires Stored(verses, sid, a, text)
    ensures Stored(ProcessBatch(verses, ids, parsed, batch).verses, sid, a, text)
  {
    var inBatch := Filter(parsed, InRange(batch.0, batch.1));
    forall m | batch.0 <= m <= batch.1 && HasId(ids, m)
      ensures ids[m] != sid || !HasAya(Lookup(Group(inBatch), m), a)
    {
      GroupIsFilter(inBatch, m);
    }
    ProcessSurahsKeeps(verses, ids, Group(inBatch), batch.0, batch.1, sid, a, text);
  }

  /** Where the last parsed verse with a key sits in its surah's list. */
  lemma LastInGroup(parsed: seq<QuranVerse>, k: int) returns (i: int)
    requires LastOfKey(parsed, k)
    ensures LastOfAya(Filter(parsed, SuraIs(parsed[k].sura)), i) && Filter(parsed, SuraIs(parsed[k].sura))[i] == parsed[k]
  {
    var p := SuraIs(parsed[k].sura);
    FilterSplit(parsed, p, k);
    var g, before, after := Filter(parsed, p), Filter(parsed[..k], p), Filter(parsed[k + 1..], p);
    var upTo := before + [parsed[k]];
    assert g == upTo + after;
    i := |before|;
    assert |upTo| == i + 1 && upTo[i] == parsed[k];
    forall j | i < j < |g|
      ensures g[j].aya != g[i].aya
    {
      assert g[j] == after[j - (i + 1)];
      assert g[j] in parsed[k + 1..];
      var t :| 0 <= t < |parsed[k + 1..]| && parsed[k + 1..][t] == g[j];
      assert parsed[k + 1 + t] == g[j];
    }
  }

  /** A batch holding the surah of the last parsed verse with a key stores that verse's text. */
  lemma ProcessBatchStores(verses: seq<Verse>, ids: map<int, int>, parsed: seq<QuranVerse>, batch: (int, int), k: int)
    requires Keyed(verses) && ProcessBatch(verses, ids, parsed, batch).error.None? && IdsDistinct(ids)
    requires LastOfKey(parsed, k) && InBatch(batch, parsed[k].sura) && HasId(ids, parsed[k].sura)
    ensures Stored(ProcessBatch(verses, ids, parsed, batch).verses, ids[parsed[k].sura], parsed[k].aya, StoredText(parsed[k].sura, parsed[k]))
  {
    var v := parsed[k];
    var inBatch := Filter(parsed, InRange(batch.0, batch.1));
    GroupIsFilter(inBatch, v.sura);
    FilterNarrow(parsed, InRange(batch.0, batch.1), SuraIs(v.sura));
    var i := LastInGroup(parsed, k);
    ProcessSurahsStores(verses, ids, Group(inBatch), batch.0, batch.1, v.sura, i);
  }

  /** A successful run of the batches is a successful first batch followed by a successful run of the rest. */
  lemma ProcessBatchesUnfold(verses: seq<Verse>, ids: map<int, int>, parsed: seq<QuranVerse>, batches: seq<(int, int)>)
    requires |batches| > 0 && ProcessBatches(verses, ids, parsed, batches).error.None?
    ensures ProcessBatch(verses, ids, parsed, batches[0]).error.None?
    ensures var next := ProcessBatch(verses, ids, parsed, batches[0]).verses;
      ProcessBatches(next, ids, parsed, batches[1..]).error.None? &&
      ProcessBatches(verses, ids, parsed, batches).verses == ProcessBatches(next, ids, parsed, batches[1..]).verses
  {
  }

  /** The batches leave the text of every pair none of their verses writes. */
  lemma {:induction false} ProcessBatchesKeeps(verses: seq<Verse>, ids: map<int, int>, parsed: seq<QuranVerse>, batches: seq<(int, int)>, sid: int, a: int, text: string)
    requires Keyed(verses) && ProcessBatches(verses, ids, parsed, batches).error.None?
    requires forall b, w :: b in batches && w in parsed && InBatch(b, w.sura) && HasId(ids, w.sura) ==> ids[w.sura] != sid || w.aya != a
    requires Stored(verses, sid, a, text)
    ensures Stored(ProcessBatches(verses, ids, parsed, batches).verses, sid, a, text)
    decreases |batches|
  {
    if |batches| > 0 {
      ProcessBatchesUnfold(verses, ids, parsed, batches);
      var first := ProcessBatch(verses, ids, parsed, batches[0]);
      ProcessBatchKeeps(verses, ids, parsed, batches[0], sid, a, text);
      assert forall b :: b in batches[1..] ==> b in batches;
      ProcessBatchesKeeps(first.verses, ids, parsed, batches[1..], sid, a, text);
    }
  }

  /**
   * The batch of a surah is either the first, and then no later batch writes
   * the surah's pairs, or it is one of the later batches.
   */
  lemma LaterBatches(ids: map<int, int>, parsed: seq<QuranVerse>, batches: seq<(int, int)>, j: int, v: QuranVerse)
    requires IdsDistinct(ids) && HasId(ids, v.sura)
    requires 0 <= j < |batches| && InBatch(batches[j], v.sura)
    requires forall t :: j < t < |batches| ==> !InBatch(batches[t], v.sura)
    ensures j == 0 ==> forall b, w :: b in batches[1..] && w in parsed && InBatch(b, w.sura) && HasId(ids, w.sura) ==>
      ids[w.sura] != ids[v.sura] || w.aya != v.aya
    ensures j > 0 ==> InBatch(batches[1..][j - 1], v.sura) && forall t :: j - 1 < t < |batches[1..]| ==> !InBatch(batches[1..][t], v.sura)
  {
    if j == 0 {
      forall b, w | b in batches[1..] && w in parsed && InBatch(b, w.sura) && HasId(ids, w.sura)
        ensures ids[w.sura] != ids[v.sura] || w.aya != v.aya
      {
        var t :| 0 <= t < |batches[1..]| && batches[1..][t] == b;
        assert batches[t + 1] == b;
        assert w.sura != v.sura;
      }
    } else {
      assert batches[1..][j - 1] == batches[j];
      forall t | j - 1 < t < |batches[1..]|
        ensures !InBatch(batches[1..][t], v.sura)
      {
        assert batches[1..][t] == batches[t + 1];
      }
    }
  }

  /**
   * When the batches all succeed, the last parsed verse with a key whose
   * surah lies in exactly one batch has its stored text in the table.
   */
  lemma {:induction false} ProcessBatchesStores(verses: seq<Verse>, ids: map<int, int>, parsed: seq<QuranVerse>, batches: seq<(int, int)>, j: int, k: int)
    requires Keyed(verses) && ProcessBatches(verses, ids, parsed, batches).error.None? && IdsDistinct(ids)
    requires LastOfKey(parsed, k) && HasId(ids, parsed[k].sura)
    requires 0 <= j < |batches| && InBatch(batches[j], parsed[k].sura)
    requires forall t :: j < t < |batches| ==> !InBatch(batches[t], parsed[k].sura)
    ensures Stored(ProcessBatches(verses, ids, parsed, batches).verses, ids[parsed[k].sura], parsed[k].aya, StoredText(parsed[k].sura, parsed[k]))
    decreases |batches|
  {
    if j == 0 {
      ProcessBatchesStoresHead(verses, ids, parsed, batches, k);
    } else {
      var first := ProcessBatch(verses, ids, parsed, batches[0]).verses;
      ProcessBatchesStoresTail(verses, ids, parsed, batches, j, k);
      ProcessBatchesStores(first, ids, parsed, batches[1..], j - 1, k);
    }
  }

  /** When the surah's batch is a later one, the lemma's premises hold again after the first batch. */
  lemma ProcessBatchesStoresTail(verses: seq<Verse>, ids: map<int, int>, parsed: seq<QuranVerse>, batches: seq<(int, int)>, j: int, k: int)
    requires Keyed(verses) && ProcessBatches(verses, ids, parsed, batches).error.None? && IdsDistinct(ids)
    requires LastOfKey(parsed, k) && HasId(ids, parsed[k].sura)
    requires 0 < j < |batches| && InBatch(batches[j], parsed[k].sura)
    requires forall t :: j < t < |batches| ==> !InBatch(batches[t], parsed[k].sura)
    ensures var first := ProcessBatch(verses, ids, parsed, batches[0]).verses;
      Keyed(first) && ProcessBatches(first, ids, parsed, batches[1..]).error.None? &&
      ProcessBatches(verses, ids, parsed, batches).verses == ProcessBatches(first, ids, parsed, batches[1..]).verses &&
      InBatch(batches[1..][j - 1], parsed[k].sura) && forall t :: j - 1 < t < |batches[1..]| ==> !InBatch(batches[1..][t], parsed[k].sura)
  {
    ProcessBatchesUnfold(verses, ids, parsed, batches);
    LaterBatches(ids, parsed, batches, j, parsed[k]);
  }

  /** A verse written by the first batch keeps its text through the later batches, none of which holds its surah. */
  lemma ProcessBatchesStoresHead(verses: seq<Verse>, ids: map<int, int>, parsed: seq<QuranVerse>, batches: seq<(int, int)>, k: int)
    requires Keyed(verses) && ProcessBatches(verses, ids, parsed, batches).error.None? && IdsDistinct(ids)
    requires LastOfKey(parsed, k) && HasId(ids, parsed[k].sura)
    requires 0 < |batches| && InBatch(batches[0], parsed[k].sura)
    requires forall t :: 0 < t < |batches| ==> !InBatch(batches[t], parsed[k].sura)
    ensures Stored(ProcessBatches(verses, ids, parsed, batches).verses, ids[parsed[k].sura], parsed[k].aya, StoredText(parsed[k].sura, parsed[k]))
  {
    var v := parsed[k];
    ProcessBatchesUnfold(verses, ids, parsed, batches);
    var first := ProcessBatch(verses, ids, parsed, batches[0]);
    LaterBatches(ids, parsed, batches, 0, v);
    ProcessBatchStores(verses, ids, parsed, batches[0], k);
    ProcessBatchesKeeps(first.verses, ids, parsed, batches[1..], ids[v.sura], v.aya, StoredText(v.sura, v));
  }

  /**
   * A run of the twelve batches that succeeds stores, for every surah 1..114
   * with an id and every verse number, the text of the last parsed verse
   * with that key.
   */
  lemma BatchesStoreLast(verses: seq<Verse>, ids: map<int, int>, parsed: seq<QuranVerse>)
    requires Keyed(verses) && IdsDistinct(ids) && ProcessBatches(verses, ids, parsed, Batches()).error.None?
    ensures forall k :: LastOfKey(parsed, k) && 1 <= parsed[k].sura <= 114 && HasId(ids, parsed[k].sura) ==>
      Stored(ProcessBatches(verses, ids, parsed, Batches()).verses, ids[parsed[k].sura], parsed[k].aya, StoredText(parsed[k].sura, parsed[k]))
  {
    BatchesPartition();
    forall k | LastOfKey(parsed, k) && 1 <= parsed[k].sura <= 114 && HasId(ids, parsed[k].sura)
      ensures Stored(ProcessBatches(verses, ids, parsed, Batches()).verses, ids[parsed[k].sura], parsed[k].aya, StoredText(parsed[k].sura, parsed[k]))
    {
      ProcessBatchesStores(verses, ids, parsed, Batches(), BatchIndex(parsed[k].sura), k);
    }
  }

  /**
   * The rebuild as intended. Surahs are untouched; stored verses change only
   * in their Arabic text; both constraints are kept; and a run that exits 0
   * has stored every parsed verse of a surah 1..114 that has an id.
   */
  function Run(db: Db, lines: seq<string>): (r: Finish)
    ensures r.db.surahs == db.surahs && Extends(db.verses, r.db.verses)
    ensures Keyed(db.verses) ==> Keyed(r.db.verses)
    ensures r.exitCode == 0 || r.exitCode == 1
    ensures r.exitCode == 0 ==> forall v :: v in ParseLines(lines) && 1 <= v.sura <= 114 && HasId(SurahIds(db.surahs), v.sura) ==>
      VerseAt(r.db.verses, SurahIds(db.surahs)[v.sura], v.aya).Some?
    ensures r.exitCode == 0 && Keyed(db.verses) && DistinctIds(db.surahs) ==>
      var parsed, ids := ParseLines(lines), SurahIds(db.surahs);
      forall k :: LastOfKey(parsed, k) && 1 <= parsed[k].sura <= 114 && HasId(ids, parsed[k].sura) ==>
        Stored(r.db.verses, ids[parsed[k].sura], parsed[k].aya, StoredText(parsed[k].sura, parsed[k]))
  {
    var ids := SurahIds(db.surahs);
    var parsed := ParseLines(lines);
    var step := ProcessBatches(db.verses, ids, parsed, Batches());
    BatchesPartition();
    assert forall v :: v in parsed && 1 <= v.sura <= 114 ==> exists b :: b in Batches() && b.0 <= v.sura <= b.1 by {
      forall v | v in parsed && 1 <= v.sura <= 114
        ensures exists b :: b in Batches() && b.0 <= v.sura <= b.1
      {
        assert Batches()[BatchIndex(v.sura)] in Batches();
      }
    }
    if step.error.None? && Keyed(db.verses) && DistinctIds(db.surahs) then
      SurahIdsDistinct(db.surahs);
      BatchesStoreLast(db.verses, ids, parsed);
      Finish(Db(db.surahs, step.verses), 0)
    else
      Finish(Db(db.surahs, step.verses), if step.error.None? then 0 else 1)
  }

  /**
   * The script as written. Its imports rename the tables to `versesTable` and
   * `surahsTable`, yet `getSurahIdsMap`, the existence check, the count and
   * `getNextVerseId` still name `surahs` and `verses`. The first call of
   * `processBatch` therefore throws a `ReferenceError` before any write, the
   * error is rethrown, and the process exits with 1 and the tables as they were.
   */
  function RunAsWritten(db: Db, lines: seq<string>): (r: Finish)
    ensures r.db == db && r.exitCode == 1
  {
    Finish(db, 1)
  }

  /**
   * The difference: a parsed verse missing from the tables is stored by a
   * run of the intended script that succeeds, and is still missing after the
   * script as written.
   */
  lemma AsWrittenStoresNothing(db: Db, lines: seq<string>, v: QuranVerse)
    requires v in ParseLines(lines) && 1 <= v.sura <= 114 && HasId(SurahIds(db.surahs), v.sura)
    requires VerseAt(db.verses, SurahIds(db.surahs)[v.sura], v.aya).None?
    requires Run(db, lines).exitCode == 0
    ensures VerseAt(Run(db, lines).db.verses, SurahIds(db.surahs)[v.sura], v.aya).Some?
    ensures VerseAt(RunAsWritten(db, lines).db.verses, SurahIds(db.surahs)[v.sura], v.aya).None?
  {
  }
}

=== FILE: routes.dfy ===
/**
 * The `/api` handlers of `server/routes.ts`: how each request's parameters
 * decide the status code and which storage call answers it.
 */
module Routes {
  import opened Wrappers
  import opened Text
  import opened Seqs
  import opened Schema
  import opened MemStorage
  import Json

  /** An HTTP reply: a JSON body with its status, a `{ message }` error, or an empty 204. */
  datatype Reply<T> = Body(status: int, body: T) | Message(status: int, message: string) | NoContent
  {
    function Status(): int {
      match this
      case Body(s, _) => s
      case Message(s, _) => s
      case NoContent => 204
    }
  }

  /** A handler's reply together with the store it leaves behind. */
  datatype Handled<T> = Handled(store: Store, reply: Reply<T>)

  /** `GET /surahs`: all surahs by ascending number. */
  function ListSurahs(st: Store): (r: Reply<seq<Surah>>)
    ensures r.Body? && r.status == 200
    ensures multiset(r.body) == multiset(st.surahs)
    ensures forall i, j :: 0 <= i < j < |r.body| ==> r.body[i].number <= r.body[j].number
  {
    Body(200, GetAllSurahs(st))
  }

  /** `GET /surahs/:number` */
  function GetSurahRoute(st: Store, number: string): (r: Reply<Surah>)
    ensures r.Status() == 400 <==> ParseInt(number).NaN?
    ensures r.Status() == 400 ==> r == Message(400, "Invalid surah number")
    ensures r.Status() == 404 <==> ParseInt(number).Int? && forall s :: s in st.surahs ==> s.number != ParseInt(number).value
    ensures r.Status() == 404 ==> r == Message(404, "Surah not found")
    ensures r.Status() == 200 <==> r.Body?
    ensures r.Body? ==> r.status == 200 && r.body in st.surahs && r.body.number == ParseInt(number).value
  {
    match ParseInt(number)
    case NaN => Message(400, "Invalid surah number")
    case Int(n) =>
      match GetSurahByNumber(st, n)
      case None => Message(404, "Surah not found")
      case Some(s) => Body(200, s)
  }

  /** `GET /surahs/:number/verses`: the same checks, then the verses of the surah found. */
  function GetSurahVersesRoute(st: Store, number: string): (r: Reply<seq<Verse>>)
    ensures r.Status() == 400 <==> ParseInt(number).NaN?
    ensures r.Status() == 400 ==> r == Message(400, "Invalid surah number")
    ensures r.Status() == 404 <==> ParseInt(number).Int? && forall s :: s in st.surahs ==> s.number != ParseInt(number).value
    ensures r.Status() == 404 ==> r == Message(404, "Surah not found")
    ensures r.Status() == 200 <==> r.Body?
    ensures r.Body? ==> (r.status == 200 &&
      exists s :: s in st.surahs && s.number == ParseInt(number).value && r.body == GetVersesBySurah(st, s.id))
  {
    match ParseInt(number)
    case NaN => Message(400, "Invalid surah number")
    case Int(n) =>
      match GetSurahByNumber(st, n)
      case None => Message(404, "Surah not found")
      case Some(s) => Body(200, GetVersesBySurah(st, s.id))
  }

  /** `GET /verses/:key` */
  function GetVerseRoute(st: Store, key: string): (r: Reply<Verse>)
    ensures r.Status() == 400 <==> !IsVerseRef(key)
    ensures r.Status() == 400 ==> r == Message(400, "Invalid verse key format. Should be surah:verse (e.g., 2:255)")
    ensures r.Status() == 404 <==> IsVerseRef(key) && forall v :: v in st.verses ==> v.uniqueKey != key
    ensures r.Status() == 404 ==> r == Message(404, "Verse not found")
    ensures r.Status() == 200 <==> r.Body?
    ensures r.Body? ==> r.status == 200 && r.body in st.verses && r.body.uniqueKey == key
  {
    if !IsVerseRef(key) then Message(400, "Invalid verse key format. Should be surah:verse (e.g., 2:255)")
    else
      match GetVerseByKey(st, key)
      case None => Message(404, "Verse not found")
      case Some(v) => Body(200, v)
  }

  /** A query-string value is truthy when present and non-empty. */
  predicate Truthy(p: Option<string>) {
    p.Some? && p.value != ""
  }

  /** `req.query.surah ? parseInt(req.query.surah) : undefined` */
  function SurahParam(surah: Option<string>): Option<Num> {
    if Truthy(surah) then Some(ParseInt(surah.value)) else None
  }

  /** `parseInt(req.query.userId)`: a missing parameter is the string `"undefined"`, which parses to `NaN`. */
  function UserIdParam(userId: Option<string>): (r: Num)
    ensures userId.None? ==> r.NaN?
  {
    ParseIntOfNonNumeral("undefined", true);
    ParseInt(userId.GetOr("undefined"))
  }

  /**
   * `GET /search`: a missing or empty `q` is refused and nothing is recorded;
   * otherwise the search runs, and exactly one history entry is added when a
   * `userId` parameter is given.
   */
  function SearchRoute(st: Store, q: Option<string>, language: Option<string>, surah: Option<string>,
                       userId: Option<string>, lower: string -> string, now: int): (r: Handled<seq<Verse>>)
    ensures !Truthy(q) ==> r.reply == Message(400, "Search query is required") && r.store == st
    ensures Truthy(q) ==> (r.reply.Body? && r.reply.status == 200 &&
      r.reply.body == SearchVerses(st, q.value, language, SurahParam(surah), lower))
    ensures Truthy(q) && !Truthy(userId) ==> r.store == st
    ensures Truthy(q) && Truthy(userId) ==>
      r.store.searches == st.searches + [SearchEntry(st.nextSearchId, ParseInt(userId.value), q.value, now)] &&
      r.store == st.(searches := r.store.searches, nextSearchId := st.nextSearchId + 1)
    ensures Valid(st) ==> Valid(r.store)
  {
    if !Truthy(q) then Handled(st, Message(400, "Search query is required"))
    else
      var results := SearchVerses(st, q.value, language, SurahParam(surah), lower);
      if Truthy(userId) then
        var added := AddSearchHistory(st, ParseInt(userId.value), q.value, now);
        Handled(added.store, Body(200, results))
      else
        Handled(st, Body(200, results))
  }

  /** `GET /bookmarks` */
  function GetBookmarksRoute(st: Store, userId: Option<string>): (r: Reply<seq<BookmarkWithVerse>>)
    ensures r.Status() == 400 <==> UserIdParam(userId).NaN?
    ensures r.Status() == 400 ==> r == Message(400, "Invalid user ID")
    ensures r.Status() == 200 <==> r.Body?
    ensures r.Body? ==> r.status == 200 && r.body == GetBookmarksByUser(st, UserIdParam(userId).value)
  {
    match UserIdParam(userId)
    case NaN => Message(400, "Invalid user ID")
    case Int(u) => Body(200, GetBookmarksByUser(st, u))
  }

  /** `insertBookmarkSchema.parse(body)`: an object whose `user_id` and `verse_id` are numbers. */
  predicate ValidBookmarkBody(body: Json.Value) {
    body.Obj? &&
    "user_id" in body.fields && body.fields["user_id"].Number? &&
    "verse_id" in body.fields && body.fields["verse_id"].Number?
  }

  /** `POST /bookmarks` */
  function PostBookmarkRoute(st: Store, body: Json.Value, now: int): (r: Handled<Bookmark>)
    ensures !ValidBookmarkBody(body) ==> r.reply == Message(400, "Invalid bookmark data") && r.store == st
    ensures ValidBookmarkBody(body) ==> (r.reply.Body? && r.reply.status == 201 &&
      r.reply.body == Bookmark(st.nextBookmarkId, body.fields["user_id"].n, body.fields["verse_id"].n, now) &&
      r.store.bookmarks == st.bookmarks + [r.reply.body])
    ensures Valid(st) ==> Valid(r.store)
  {
    if !ValidBookmarkBody(body) then Handled(st, Message(400, "Invalid bookmark data"))
    else
      var created := CreateBookmark(st, body.fields["user_id"].n, body.fields["verse_id"].n, now);
      Handled(created.store, Body(201, created.record))
  }

  /** `DELETE /bookmarks/:id` */
  function DeleteBookmarkRoute(st: Store, id: string): (r: Handled<()>)
    ensures r.reply.Status() == 400 <==> ParseInt(id).NaN?
    ensures r.reply.Status() == 400 ==> r.reply == Message(400, "Invalid bookmark ID")
    ensures r.reply.Status() == 204 <==>
      (ParseInt(id).Int? && exists i :: 0 <= i < |st.bookmarks| && st.bookmarks[i].id == ParseInt(id).value)
    ensures r.reply.Status() == 404 ==> r.reply == Message(404, "Bookmark not found")
    ensures r.reply.Status() in {204, 400, 404}
    ensures r.reply.Status() != 204 ==> r.store == st
    ensures r.reply.Status() == 204 ==>
      r.store == st.(bookmarks := r.store.bookmarks) &&
      forall b :: b in r.store.bookmarks <==> b in st.bookmarks && b.id != ParseInt(id).value
    ensures Valid(st) ==> Valid(r.store)
  {
    match ParseInt(id)
    case NaN => Handled(st, Message(400, "Invalid bookmark ID"))
    case Int(n) => DeleteBookmarkById(st, n)
  }

  /** The route once the id has parsed: 204 with the bookmark gone, or 404 with the store untouched. */
  function DeleteBookmarkById(st: Store, n: int): (r: Handled<()>)
    ensures r.reply.Status() == 204 <==> exists i :: 0 <= i < |st.bookmarks| && st.bookmarks[i].id == n
    ensures r.reply.Status() != 204 ==> r.reply == Message(404, "Bookmark not found") && r.store == st
    ensures r.reply.Status() == 204 ==>
      r.store == st.(bookmarks := r.store.bookmarks) &&
      forall b :: b in r.store.bookmarks <==> b in st.bookmarks && b.id != n
    ensures Valid(st) ==> Valid(r.store)
  {
    var d := DeleteBookmark(st, n);
    if d.removed then Handled(d.store, NoContent)
    else Handled(st, Message(404, "Bookmark not found"))
  }

  /** `GET /search-history` */
  function GetSearchHistoryRoute(st: Store, userId: Option<string>): (r: Reply<seq<SearchEntry>>)
    ensures r.Status() == 400 <==> UserIdParam(userId).NaN?
    ensures r.Status() == 400 ==> r == Message(400, "Invalid user ID")
    ensures r.Status() == 200 <==> r.Body?
    ensures r.Body? ==> r.status == 200 && r.body == GetSearchHistoryByUser(st, UserIdParam(userId).value)
  {
    match UserIdParam(userId)
    case NaN => Message(400, "Invalid user ID")
    case Int(u) => Body(200, GetSearchHistoryByUser(st, u))
  }

  /** Every stored verse is reachable through its own key. */
  lemma VerseKeyRouteFindsVerse(st: Store, v: Verse)
    requires v in st.verses && IsVerseRef(v.uniqueKey)
    ensures GetVerseRoute(st, v.uniqueKey).Status() == 200
  {
  }

  /**
   * Posting a bookmark and deleting it again by the id the reply carries
   * answers 204 and leaves the original bookmarks in place.
   */
  lemma PostThenDeleteBookmark(st: Store, body: Json.Value, now: int)
    requires Valid(st) && ValidBookmarkBody(body)
    ensures var posted := PostBookmarkRoute(st, body, now);
      var deleted := DeleteBookmarkRoute(posted.store, IntToString(posted.reply.body.id));
      deleted.reply == NoContent && deleted.store.bookmarks == st.bookmarks
  {
    var posted := PostBookmarkRoute(st, body, now);
    var b := posted.reply.body;
    var st' := posted.store;
    assert st'.bookmarks == st.bookmarks + [b];
    ParseIntOfIntToString(b.id, true);
    var p := (x: Bookmark) => x.id != b.id;
    assert forall i :: 0 <= i < |st.bookmarks| ==> p(st.bookmarks[i]);
    FilterAll(st.bookmarks, p);
    FilterAppend(st.bookmarks, [b], p);
    assert Filter([b], p) == [];
    var d := DeleteBookmark(st', b.id);
    assert st'.bookmarks[|st.bookmarks|].id == b.id;
    assert d.removed;
    assert d.store.bookmarks == Filter(st'.bookmarks, p);
  }
}

=== FILE: schema.dfy ===
/**
 * The records of the relational schema shared by the server, the client and
 * the corpus scripts (`shared/schema.ts`), with nullable columns as `Option`.
 * Timestamps are integers on an abstract clock.
 */
module Schema {
  import opened Wrappers
  import opened Text

  datatype User = User(id: int, username: string, password: string)

  datatype Surah = Surah(
    id: int,
    number: int,
    nameArabic: string,
    nameTajik: string,
    nameEnglish: string,
    revelationType: string,
    versesCount: int,
    description: Option<string>)

  datatype Verse = Verse(
    id: int,
    surahId: int,
    verseNumber: int,
    arabicText: string,
    tajikText: string,
    page: Option<int>,
    juz: Option<int>,
    audioUrl: Option<string>,
    uniqueKey: string)

  datatype Bookmark = Bookmark(id: int, userId: int, verseId: int, createdAt: int)

  /** A search-history row; `userId` is whatever `parseInt` made of the query parameter, `NaN` included. */
  datatype SearchEntry = SearchEntry(id: int, userId: Num, query: string, createdAt: int)

  /** A row of the `word_analysis` table the word service and the word importer write. */
  datatype WordRow = WordRow(
    id: int,
    verseId: int,
    wordPosition: int,
    wordText: string,
    transliteration: Option<string>,
    translation: Option<string>,
    root: Option<string>,
    partOfSpeech: Option<string>,
    createdAt: int)

  /** The `surah:verse` key every verse carries, e.g. `2:255`. */
  function VerseKey(surah: int, verse: int): string {
    IntToString(surah) + ":" + IntToString(verse)
  }

  /** The pattern `^\d+:\d+$`: two non-empty runs of ASCII digits around one colon. */
  predicate IsVerseRef(s: string) {
    exists i :: 0 < i < |s| - 1 && s[i] == ':' && AllDigits(s[..i]) && AllDigits(s[i + 1..])
  }

  /** A verse key matches the reference pattern exactly when both numbers are non-negative. */
  lemma VerseKeyIsVerseRef(surah: int, verse: int)
    ensures IsVerseRef(VerseKey(surah, verse)) <==> surah >= 0 && verse >= 0
  {
    var a, b := IntToString(surah), IntToString(verse);
    var s := VerseKey(surah, verse);
    assert s[..|a|] == a && s[|a| + 1..] == b;
    if surah >= 0 && verse >= 0 {
      assert s[|a|] == ':';
    }
  }
}

/** JSON values as a request body or a serialised object holds them; numbers are integers. */
module Json {
  datatype Value =
    | Null
    | Bool(b: bool)
    | Number(n: int)
    | Str(s: string)
    | Arr(items: seq<Value>)
    | Obj(fields: map<string, Value>)
}

=== FILE: seqs.dfy ===
/**
 * Sequence operations the program leans on: `Array.prototype.filter`, the
 * stable `Array.prototype.sort` with a numeric key comparator, and slicing a
 * list into fixed-size batches.
 */
module Seqs {
  import opened Wrappers

  /** `a` is an order-preserving subsequence of `b`. */
  predicate IsSubsequence<T(==)>(a: seq<T>, b: seq<T>)
    decreases |b|
  {
    |a| == 0 || (|b| > 0 && ((a[0] == b[0] && IsSubsequence(a[1..], b[1..])) || IsSubsequence(a, b[1..])))
  }

  lemma {:induction false} SubsequenceOfSelf<T>(s: seq<T>)
    ensures IsSubsequence(s, s)
    decreases |s|
  {
    if |s| > 0 {
      SubsequenceOfSelf(s[1..]);
    }
  }

  /** `s.filter(p)`: the elements satisfying `p`, each as often as in `s`, in their original order. */
  function Filter<T(==,!new)>(s: seq<T>, p: T -> bool): (r: seq<T>)
    ensures |r| <= |s|
    ensures forall x :: x in r <==> x in s && p(x)
    ensures forall x :: multiset(r)[x] == if p(x) then multiset(s)[x] else 0
    ensures IsSubsequence(r, s)
    decreases |s|
  {
    if |s| == 0 then []
    else
      var rest := Filter(s[1..], p);
      assert s == [s[0]] + s[1..];
      if p(s[0]) then
        assert ([s[0]] + rest)[1..] == rest;
        [s[0]] + rest
      else rest
  }

  lemma {:induction false} FilterAppend<T(!new)>(a: seq<T>, b: seq<T>, p: T -> bool)
    ensures Filter(a + b, p) == Filter(a, p) + Filter(b, p)
    decreases |a|
  {
    if |a| > 0 {
      var ab := a + b;
      assert ab[0] == a[0] && ab[1..] == a[1..] + b;
      FilterAppend(a[1..], b, p);
      var head := if p(a[0]) then [a[0]] else [];
      assert Filter(ab, p) == head + Filter(a[1..] + b, p);
      assert Filter(a, p) == head + Filter(a[1..], p);
    } else {
      assert a + b == b;
    }
  }

  /** Filtering with a predicate every element satisfies changes nothing. */
  lemma {:induction false} FilterAll<T(!new)>(s: seq<T>, p: T -> bool)
    requires forall i :: 0 <= i < |s| ==> p(s[i])
    ensures Filter(s, p) == s
    decreases |s|
  {
    if |s| > 0 {
      FilterAll(s[1..], p);
      assert [s[0]] + s[1..] == s;
    }
  }

  /** How often `x` occurs in the filtered sequence, as one fact about `x`. */
  lemma FilterCount<T(!new)>(s: seq<T>, p: T -> bool, x: T)
    ensures multiset(Filter(s, p))[x] == if p(x) then multiset(s)[x] else 0
  {
  }

  /** Filtering twice, the second time with a narrower predicate, is filtering once with it. */
  lemma {:induction false} FilterNarrow<T(!new)>(s: seq<T>, p: T -> bool, q: T -> bool)
    requires forall x :: q(x) ==> p(x)
    ensures Filter(Filter(s, p), q) == Filter(s, q)
    decreases |s|
  {
    if |s| > 0 {
      FilterNarrow(s[1..], p, q);
      if p(s[0]) {
        assert Filter(s, p) == [s[0]] + Filter(s[1..], p);
        assert ([s[0]] + Filter(s[1..], p))[1..] == Filter(s[1..], p);
      }
    }
  }

  /** An element kept by the filter sits between the kept elements before it and those after it. */
  lemma FilterSplit<T(!new)>(s: seq<T>, p: T -> bool, k: int)
    requires 0 <= k < |s| && p(s[k])
    ensures Filter(s, p) == Filter(s[..k], p) + [s[k]] + Filter(s[k + 1..], p)
  {
    SplitAround(s, k);
    FilterAroundOne(s[..k], s[k], s[k + 1..], p);
  }

  /** A sequence is its part before `k`, its element at `k` and its part after. */
  lemma SplitAround<T>(s: seq<T>, k: int)
    requires 0 <= k < |s|
    ensures s == s[..k] + [s[k]] + s[k + 1..]
  {
  }

  /** A kept element splits the filter of a concatenation around it. */
  lemma FilterAroundOne<T(!new)>(a: seq<T>, x: T, b: seq<T>, p: T -> bool)
    requires p(x)
    ensures Filter(a + [x] + b, p) == Filter(a, p) + [x] + Filter(b, p)
  {
    FilterAppend(a + [x], b, p);
    FilterAppend(a, [x], p);
    FilterAll([x], p);
  }

  /** No two positions of `s` share a key. */
  predicate DistinctBy<T>(s: seq<T>, key: T -> int) {
    forall i, j :: 0 <= i < j < |s| ==> key(s[i]) != key(s[j])
  }

  /** Filtering keeps keys distinct. */
  lemma {:induction false} FilterDistinct<T(!new)>(s: seq<T>, p: T -> bool, key: T -> int)
    requires DistinctBy(s, key)
    ensures DistinctBy(Filter(s, p), key)
    decreases |s|
  {
    if |s| > 0 {
      var tail := s[1..];
      assert DistinctBy(tail, key) by {
        forall i, j | 0 <= i < j < |tail| ensures key(tail[i]) != key(tail[j]) {
          assert tail[i] == s[i + 1] && tail[j] == s[j + 1];
        }
      }
      FilterDistinct(tail, p, key);
      var rest := Filter(tail, p);
      if p(s[0]) {
        assert Filter(s, p) == [s[0]] + rest;
        forall x | x in rest ensures key(x) != key(s[0]) {
          var m :| 0 <= m < |tail| && tail[m] == x;
          assert tail[m] == s[m + 1];
        }
        ConsDistinct(s[0], rest, key);
      } else {
        assert Filter(s, p) == rest;
      }
    }
  }

  lemma ConsDistinct<T>(x: T, s: seq<T>, key: T -> int)
    requires DistinctBy(s, key) && forall y :: y in s ==> key(y) != key(x)
    ensures DistinctBy([x] + s, key)
  {
    var r := [x] + s;
    forall i, j | 0 <= i < j < |r| ensures key(r[i]) != key(r[j]) {
      assert r[j] == s[j - 1];
      if i > 0 {
        assert r[i] == s[i - 1];
      }
    }
  }

  /** Keys are non-decreasing along `s`. */
  predicate SortedBy<T>(s: seq<T>, key: T -> int) {
    forall i, j :: 0 <= i < j < |s| ==> key(s[i]) <= key(s[j])
  }

  /** The elements of `s` whose key is `k`, in order. */
  function WithKey<T>(s: seq<T>, key: T -> int, k: int): seq<T>
    decreases |s|
  {
    if |s| == 0 then []
    else (if key(s[0]) == k then [s[0]] else []) + WithKey(s[1..], key, k)
  }

  lemma WithKeyAppend<T>(a: seq<T>, b: seq<T>, key: T -> int, k: int)
    ensures WithKey(a + b, key, k) == WithKey(a, key, k) + WithKey(b, key, k)
    decreases |a|
  {
    if |a| > 0 {
      assert (a + b)[1..] == a[1..] + b;
      WithKeyAppend(a[1..], b, key, k);
    } else {
      assert a + b == b;
    }
  }

  lemma WithKeyAbove<T>(s: seq<T>, key: T -> int, k: int)
    requires forall i :: 0 <= i < |s| ==> key(s[i]) > k
    ensures WithKey(s, key, k) == []
    decreases |s|
  {
    if |s| > 0 {
      WithKeyAbove(s[1..], key, k);
    }
  }

  /** Insert `x` after every element whose key is at most `key(x)`. */
  function InsertSorted<T>(x: T, s: seq<T>, key: T -> int): (r: seq<T>)
    ensures |r| == |s| + 1
    ensures multiset(r) == multiset(s) + multiset{x}
    decreases |s|
  {
    if |s| == 0 then [x]
    else if key(x) < key(s[0]) then [x] + s
    else
      assert s == [s[0]] + s[1..];
      [s[0]] + InsertSorted(x, s[1..], key)
  }

  lemma {:induction false} InsertSortedSorted<T>(x: T, s: seq<T>, key: T -> int)
    requires SortedBy(s, key)
    ensures SortedBy(InsertSorted(x, s, key), key)
    decreases |s|
  {
    if |s| > 0 && key(x) >= key(s[0]) {
      var rest := InsertSorted(x, s[1..], key);
      InsertSortedSorted(x, s[1..], key);
      forall j | 0 <= j < |rest|
        ensures key(s[0]) <= key(rest[j])
      {
        assert rest[j] in multiset(s[1..]) + multiset{x};
        if rest[j] != x {
          var m :| 0 <= m < |s[1..]| && s[1..][m] == rest[j];
          assert s[1..][m] == s[m + 1];
        }
      }
    }
  }

  lemma WithKeyCons<T>(x: T, s: seq<T>, key: T -> int, k: int)
    ensures WithKey([x] + s, key, k) == (if key(x) == k then [x] else []) + WithKey(s, key, k)
  {
    assert ([x] + s)[0] == x && ([x] + s)[1..] == s;
  }

  lemma {:induction false} InsertSortedWithKey<T>(x: T, s: seq<T>, key: T -> int, k: int)
    requires SortedBy(s, key)
    ensures WithKey(InsertSorted(x, s, key), key, k) == WithKey(s, key, k) + (if key(x) == k then [x] else [])
    decreases |s|
  {
    if |s| == 0 {
      WithKeyCons(x, [], key, k);
      assert [x] + [] == [x];
    } else if key(x) < key(s[0]) {
      InsertFirstWithKey(x, s, key, k);
    } else {
      InsertSortedWithKey(x, s[1..], key, k);
      InsertLaterWithKey(x, s, key, k);
    }
  }

  lemma InsertFirstWithKey<T>(x: T, s: seq<T>, key: T -> int, k: int)
    requires SortedBy(s, key) && |s| > 0 && key(x) < key(s[0])
    ensures WithKey(InsertSorted(x, s, key), key, k) == WithKey(s, key, k) + (if key(x) == k then [x] else [])
  {
    WithKeyCons(x, s, key, k);
    if key(x) == k {
      WithKeyAbove(s, key, k);
    }
  }

  lemma InsertLaterWithKey<T>(x: T, s: seq<T>, key: T -> int, k: int)
    requires |s| > 0 && key(x) >= key(s[0])
    requires WithKey(InsertSorted(x, s[1..], key), key, k) == WithKey(s[1..], key, k) + (if key(x) == k then [x] else [])
    ensures WithKey(InsertSorted(x, s, key), key, k) == WithKey(s, key, k) + (if key(x) == k then [x] else [])
  {
    InsertSortedAfter(x, s, key);
    ConsWithKey(s[0], InsertSorted(x, s[1..], key), s[1..], key, k, if key(x) == k then [x] else []);
    assert [s[0]] + s[1..] == s;
  }

  lemma InsertSortedAfter<T>(x: T, s: seq<T>, key: T -> int)
    requires |s| > 0 && key(x) >= key(s[0])
    ensures InsertSorted(x, s, key) == [s[0]] + InsertSorted(x, s[1..], key)
  {
  }

  /** Putting the same element in front of two sequences keeps what their `k`-elements have in common. */
  lemma ConsWithKey<T>(a: T, s: seq<T>, t: seq<T>, key: T -> int, k: int, tail: seq<T>)
    requires WithKey(s, key, k) == WithKey(t, key, k) + tail
    ensures WithKey([a] + s, key, k) == WithKey([a] + t, key, k) + tail
  {
    WithKeyCons(a, s, key, k);
    WithKeyCons(a, t, key, k);
  }

  /** The stable sort `s.sort((a, b) => key(a) - key(b))` as an insertion sort. */
  function SortBy<T>(s: seq<T>, key: T -> int): (r: seq<T>)
    ensures multiset(r) == multiset(s)
    ensures |r| == |s|
    decreases |s|
  {
    if |s| == 0 then []
    else
      assert s == s[..|s| - 1] + [s[|s| - 1]];
      InsertSorted(s[|s| - 1], SortBy(s[..|s| - 1], key), key)
  }

  /** The sorted result is ordered by key. */
  lemma {:induction false} SortBySorted<T>(s: seq<T>, key: T -> int)
    ensures SortedBy(SortBy(s, key), key)
    decreases |s|
  {
    if |s| > 0 {
      SortBySorted(s[..|s| - 1], key);
      InsertSortedSorted(s[|s| - 1], SortBy(s[..|s| - 1], key), key);
    }
  }

  /** Stability: for every key, the elements carrying it keep their relative order. */
  lemma {:induction false} SortByStable<T>(s: seq<T>, key: T -> int, k: int)
    ensures WithKey(SortBy(s, key), key, k) == WithKey(s, key, k)
    decreases |s|
  {
    if |s| > 0 {
      SortByStable(s[..|s| - 1], key, k);
      SortBySnocWithKey(s, key, k);
      WithKeySnoc(s, key, k);
    }
  }

  /** Sorting `s` adds its last element, if it carries key `k`, after the sorted front's elements with that key. */
  lemma SortBySnocWithKey<T>(s: seq<T>, key: T -> int, k: int)
    requires |s| > 0
    ensures WithKey(SortBy(s, key), key, k) ==
      WithKey(SortBy(s[..|s| - 1], key), key, k) + (if key(s[|s| - 1]) == k then [s[|s| - 1]] else [])
  {
    var init, last := s[..|s| - 1], s[|s| - 1];
    SortBySnoc(s, key);
    SortBySorted(init, key);
    InsertSortedWithKey(last, SortBy(init, key), key, k);
  }

  lemma WithKeySnoc<T>(s: seq<T>, key: T -> int, k: int)
    requires |s| > 0
    ensures WithKey(s, key, k) == WithKey(s[..|s| - 1], key, k) + (if key(s[|s| - 1]) == k then [s[|s| - 1]] else [])
  {
    var init, last := s[..|s| - 1], s[|s| - 1];
    assert s == init + [last];
    WithKeyAppend(init, [last], key, k);
    WithKeyCons(last, [], key, k);
    assert [last] + [] == [last];
  }

  lemma SortBySnoc<T>(s: seq<T>, key: T -> int)
    requires |s| > 0
    ensures SortBy(s, key) == InsertSorted(s[|s| - 1], SortBy(s[..|s| - 1], key), key)
  {
  }

  /** Stability for every key at once, together with sortedness. */
  lemma SortByStableAll<T>(s: seq<T>, key: T -> int)
    ensures SortedBy(SortBy(s, key), key)
    ensures forall k :: WithKey(SortBy(s, key), key, k) == WithKey(s, key, k)
  {
    SortBySorted(s, key);
    forall k
      ensures WithKey(SortBy(s, key), key, k) == WithKey(s, key, k)
    {
      SortByStable(s, key, k);
    }
  }

  lemma {:induction false} InsertSortedAtEnd<T>(x: T, s: seq<T>, key: T -> int)
    requires forall i :: 0 <= i < |s| ==> key(s[i]) <= key(x)
    ensures InsertSorted(x, s, key) == s + [x]
    decreases |s|
  {
    if |s| > 0 {
      InsertSortedAtEnd(x, s[1..], key);
      assert [s[0]] + (s[1..] + [x]) == s + [x];
    }
  }

  /** Sorting a sequence already ordered by key changes nothing. */
  lemma {:induction false} SortBySortedInput<T>(s: seq<T>, key: T -> int)
    requires SortedBy(s, key)
    ensures SortBy(s, key) == s
    decreases |s|
  {
    if |s| > 0 {
      var init, last := s[..|s| - 1], s[|s| - 1];
      SortBySortedInput(init, key);
      InsertSortedAtEnd(last, init, key);
      assert init + [last] == s;
    }
  }

  /** Concatenation of a sequence of batches. */
  function Flatten<T>(batches: seq<seq<T>>): seq<T>
    decreases |batches|
  {
    if |batches| == 0 then [] else batches[0] + Flatten(batches[1..])
  }

  lemma FlattenSnoc<T>(batches: seq<seq<T>>, last: seq<T>)
    ensures Flatten(batches + [last]) == Flatten(batches) + last
    decreases |batches|
  {
    if |batches| > 0 {
      assert (batches + [last])[1..] == batches[1..] + [last];
      FlattenSnoc(batches[1..], last);
    } else {
      assert batches + [last] == [last];
    }
  }

  /**
   * `for (i = 0; i < s.length; i += n) batches.push(s.slice(i, i + n))`:
   * the batches partition `s` in order, and only the last may be short.
   */
  function Chunks<T>(s: seq<T>, n: nat): (r: seq<seq<T>>)
    requires n > 0
    ensures Flatten(r) == s
    ensures forall i :: 0 <= i < |r| ==> 0 < |r[i]| <= n
    ensures forall i :: 0 <= i < |r| - 1 ==> |r[i]| == n
    decreases |s|
  {
    if |s| == 0 then []
    else if |s| <= n then [s]
    else
      var rest := Chunks(s[n..], n);
      assert ([s[..n]] + rest)[1..] == rest;
      assert s == s[..n] + s[n..];
      [s[..n]] + rest
  }

  /** The sum of the lengths of the batches whose flag is set. */
  function SumSelected<T>(batches: seq<seq<T>>, ok: nat -> bool, from: nat): nat
    decreases |batches|
  {
    if |batches| == 0 then 0
    else (if ok(from) then |batches[0]| else 0) + SumSelected(batches[1..], ok, from + 1)
  }

  /** `s.find(p)`: the first element satisfying `p`, or nothing when none does. */
  function Find<T>(s: seq<T>, p: T -> bool): (r: Option<T>)
    ensures r.None? <==> forall i :: 0 <= i < |s| ==> !p(s[i])
    ensures r.Some? ==> exists i :: 0 <= i < |s| && s[i] == r.value && p(s[i]) && forall j :: 0 <= j < i ==> !p(s[j])
    decreases |s|
  {
    if |s| == 0 then None
    else if p(s[0]) then Some(s[0])
    else
      var r := Find(s[1..], p);
      assert r.Some? ==> exists i :: 0 <= i < |s| && s[i] == r.value && p(s[i]) && forall j :: 0 <= j < i ==> !p(s[j]) by {
        if r.Some? {
          var k :| 0 <= k < |s[1..]| && s[1..][k] == r.value && p(s[1..][k]) && forall j :: 0 <= j < k ==> !p(s[1..][j]);
          forall j | 0 <= j < k + 1
            ensures !p(s[j])
          {
            if j > 0 {
              assert s[j] == s[1..][j - 1];
            }
          }
          assert s[k + 1] == s[1..][k];
        }
      }
      r
  }

  /** When exactly one position satisfies `p`, `Find` returns the element there. */
  lemma FindUnique<T>(s: seq<T>, p: T -> bool, i: nat)
    requires i < |s| && p(s[i])
    requires forall j :: 0 <= j < |s| && j != i ==> !p(s[j])
    ensures Find(s, p) == Some(s[i])
  {
  }

  lemma {:induction false} FindAppend<T>(s: seq<T>, t: seq<T>, p: T -> bool)
    ensures Find(s + t, p) == if Find(s, p).Some? then Find(s, p) else Find(t, p)
    decreases |s|
  {
    if |s| == 0 {
      assert s + t == t;
    } else {
      assert (s + t)[0] == s[0];
      assert (s + t)[1..] == s[1..] + t;
      FindAppend(s[1..], t, p);
    }
  }
}

=== FILE: sqltuples.dfy ===
/**
 * The regular expressions the corpus scripts use to pull verse tuples
 * `(index, sura, aya, 'text')` out of the Tanzil SQL dumps, run the way a
 * global JavaScript regex is run by `exec`: each match starts the search for
 * the next one just past its end, and a failed attempt moves on by one
 * character.
 */
module SqlTuples {
  import opened Wrappers
  import opened Text

  /** The four captures of one tuple, as matched text. */
  datatype Row = Row(index: string, sura: string, aya: string, text: string)

  /** A match: its captures and the text after its closing `)`. */
  datatype Match = Match(row: Row, rest: string)

  /** What may follow a comma: `\s*` in the rebuild pattern, exactly one space in the import pattern. */
  datatype Gap = AnySpace | OneSpace

  /** The two patterns: a bare tuple, or a whole `INSERT` statement header followed by `\s*` and a tuple. */
  datatype Pattern = Bare(gap: Gap) | Statement(header: string)

  /** The length of the run of `\s` characters at the start of `s`. */
  function SpaceRun(s: string): (n: nat)
    ensures n <= |s| && AllSpace(s[..n])
    ensures n < |s| ==> !IsJsSpace(s[n])
  {
    if |s| > 0 && IsJsSpace(s[0]) then
      var n := 1 + SpaceRun(s[1..]);
      assert s[..n] == [s[0]] + s[1..][..n - 1];
      n
    else 0
  }

  /**
   * The gap after a comma, and what follows it. `\s*` is followed by a digit
   * or a quote, neither of which is white space, so the greedy run is the
   * only way it can match.
   */
  function SkipGap(s: string, gap: Gap): (r: Option<string>)
    ensures r.Some? ==> |r.value| <= |s| && r.value == s[|s| - |r.value|..] && AllSpace(s[..|s| - |r.value|])
  {
    match gap
    case AnySpace => var n := SpaceRun(s); Some(s[n..])
    case OneSpace => if |s| > 0 && s[0] == ' ' then Some(s[1..]) else None
  }

  /** `(\d+),` and the gap after it: the digits and what follows the gap. */
  function Field(s: string, gap: Gap): (r: Option<(string, string)>)
    ensures r.Some? ==> |r.value.0| > 0 && AllDigits(r.value.0) && |r.value.1| < |s|
    ensures r.Some? ==> StartsWith(s, r.value.0 + ",")
  {
    var n := DigitRun(s, 0);
    if n == 0 || n >= |s| || s[n] != ',' then None
    else
      match SkipGap(s[n + 1..], gap)
      case None => None
      case Some(rest) =>
        assert s[..n + 1] == s[..n] + ",";
        Some((s[..n], rest))
  }

  /** The text `'(.+?)'\)` captures: no line terminator, and no `')` after its first character. */
  predicate Quotable(t: string) {
    && |t| > 0
    && (forall i :: 0 <= i < |t| ==> !IsLineTerminator(t[i]))
    && (forall i :: 0 < i < |t| ==> !ClosesAt(t, i))
  }

  /** `')` starts at index `i`. */
  predicate ClosesAt(s: string, i: nat) {
    i + 1 < |s| && s[i] == '\'' && s[i + 1] == ')'
  }

  /**
   * Where the lazy `(.+?)'\)` stops when its text starts `s`: at the first
   * `')` after the first character, unless a line terminator or the end comes
   * first.
   */
  function QuoteEnd(s: string): (r: Option<nat>)
    ensures r.Some? ==> 0 < r.value && r.value + 2 <= |s| && s[r.value] == '\'' && s[r.value + 1] == ')'
    ensures r.Some? ==> Quotable(s[..r.value])
  {
    if |s| == 0 || IsLineTerminator(s[0]) then None
    else CloseQuote(s, 1)
  }

  function CloseQuote(s: string, j: nat): (r: Option<nat>)
    requires 0 < j <= |s| && forall i :: 0 <= i < j ==> !IsLineTerminator(s[i])
    requires forall i :: 0 < i < j ==> !ClosesAt(s, i)
    ensures r.Some? ==> j <= r.value && r.value + 2 <= |s| && s[r.value] == '\'' && s[r.value + 1] == ')'
    ensures r.Some? ==> Quotable(s[..r.value])
    decreases |s| - j
  {
    if j + 1 >= |s| then None
    else if ClosesAt(s, j) then
      PrefixQuotable(s, j);
      Some(j)
    else if IsLineTerminator(s[j]) then None
    else CloseQuote(s, j + 1)
  }

  lemma PrefixQuotable(s: string, e: nat)
    requires 0 < e <= |s|
    requires forall i :: 0 <= i < e ==> !IsLineTerminator(s[i])
    requires forall i :: 0 < i < e ==> !ClosesAt(s, i)
    ensures Quotable(s[..e])
  {
    forall i | 0 < i < e
      ensures !ClosesAt(s[..e], i)
    {
      assert !ClosesAt(s, i);
      assert s[..e][i] == s[i];
      if i + 1 < e {
        assert s[..e][i + 1] == s[i + 1];
      }
    }
  }

  /** One attempt of the tuple pattern at the start of `s`. */
  function TupleAt(s: string, gap: Gap): (r: Option<Match>)
    ensures r.Some? ==> |r.value.rest| < |s| && Matched(r.value.row)
  {
    if |s| == 0 || s[0] != '(' then None else Fields(s[1..], gap)
  }

  /** After `(`: the index and sura fields, then the rest. */
  function Fields(s: string, gap: Gap): (r: Option<Match>)
    ensures r.Some? ==> |r.value.rest| < |s| && Matched(r.value.row)
  {
    match Field(s, gap)
    case None => None
    case Some((index, s1)) =>
      match Field(s1, gap)
      case None => None
      case Some((sura, s2)) => AyaAndText(index, sura, s2, gap)
  }

  /** The aya field, then the quoted text and `)`. */
  function AyaAndText(index: string, sura: string, s: string, gap: Gap): (r: Option<Match>)
    requires |index| > 0 && AllDigits(index) && |sura| > 0 && AllDigits(sura)
    ensures r.Some? ==> |r.value.rest| < |s| && Matched(r.value.row)
  {
    match Field(s, gap)
    case None => None
    case Some((aya, s3)) => QuotedText(Row(index, sura, aya, ""), s3)
  }

  /** `'(.+?)'\)` completing a row whose three numbers are known. */
  function QuotedText(numbers: Row, s: string): (r: Option<Match>)
    requires |numbers.index| > 0 && AllDigits(numbers.index) && |numbers.sura| > 0 && AllDigits(numbers.sura)
    requires |numbers.aya| > 0 && AllDigits(numbers.aya)
    ensures r.Some? ==> |r.value.rest| < |s| && Matched(r.value.row)
  {
    if |s| == 0 || s[0] != '\'' then None
    else
      match QuoteEnd(s[1..])
      case None => None
      case Some(e) => Some(Match(numbers.(text := s[1..][..e]), s[1..][e + 2..]))
  }

  /** What a match can capture: three non-empty digit runs and a quotable text. */
  predicate Matched(row: Row) {
    |row.index| > 0 && AllDigits(row.index) && |row.sura| > 0 && AllDigits(row.sura) &&
    |row.aya| > 0 && AllDigits(row.aya) && Quotable(row.text)
  }

  /** One attempt of a pattern at the start of `s`. */
  function MatchAt(s: string, pat: Pattern): (r: Option<Match>)
    ensures r.Some? ==> |r.value.rest| < |s| && Matched(r.value.row)
  {
    match pat
    case Bare(gap) => TupleAt(s, gap)
    case Statement(header) =>
      if !StartsWith(s, header) then None
      else
        var after := s[|header|..];
        TupleAt(after[SpaceRun(after)..], OneSpace)
  }

  /** Every match of a global pattern, left to right and without overlap. */
  function Scan(s: string, pat: Pattern): (rows: seq<Row>)
    ensures forall row :: row in rows ==> Matched(row)
    decreases |s|
  {
    if |s| == 0 then []
    else
      match MatchAt(s, pat)
      case Some(m) =>
        [m.row] + Scan(m.rest, pat)
      case None => Scan(s[1..], pat)
  }

  /** A tuple as the dump writes it, one space after each comma. */
  function Render(row: Row): string {
    "(" + row.index + ", " + row.sura + ", " + row.aya + ", '" + row.text + "')"
  }

  /** A field of digits followed by `, ` is read back whole, up to the next non-space character. */
  lemma FieldOf(digits: string, post: string, gap: Gap)
    requires |digits| > 0 && AllDigits(digits)
    requires |post| > 0 && !IsJsSpace(post[0])
    ensures Field(digits + (", " + post), gap) == Some((digits, post))
  {
    var s := digits + (", " + post);
    DigitRunOf(s, digits);
    assert s[|digits|] == ',';
    assert s[..|digits|] == digits;
    assert s[|digits| + 1..] == " " + post;
    if gap == AnySpace {
      assert SpaceRun(post) == 0;
      assert SpaceRun(" " + post) == 1 by {
        assert (" " + post)[1..] == post;
      }
    } else {
      assert (" " + post)[1..] == post;
    }
  }

  lemma {:induction false} DigitRunOf(s: string, digits: string)
    requires |digits| < |s| && AllDigits(digits) && s[..|digits|] == digits && !IsDigit(s[|digits|])
    ensures DigitRun(s, 0) == |digits|
  {
    DigitRunFrom(s, 0, digits);
  }

  lemma {:induction false} CloseQuoteOf(s: string, j: nat, e: nat)
    requires 0 < j <= e && e + 2 <= |s| && s[e] == '\'' && s[e + 1] == ')'
    requires forall i :: 0 <= i < e ==> !IsLineTerminator(s[i])
    requires forall i :: 0 < i < e ==> !ClosesAt(s, i)
    ensures CloseQuote(s, j) == Some(e)
    decreases e - j
  {
    if j < e {
      CloseQuoteOf(s, j + 1, e);
    }
  }

  /** A quotable text followed by `')` ends where the text does. */
  lemma QuoteEndOf(text: string, rest: string)
    requires Quotable(text)
    ensures QuoteEnd(text + "')" + rest) == Some(|text|)
  {
    var s := text + "')" + rest;
    assert s[..|text|] == text;
    forall i | 0 < i < |text|
      ensures !ClosesAt(s, i)
    {
      assert s[i] == text[i];
      if i + 1 < |text| {
        assert s[i + 1] == text[i + 1];
        assert !ClosesAt(text, i);
      }
    }
    CloseQuoteOf(s, 1, |text|);
  }

  /**
   * A rendered tuple at the start of a text is matched whole, whatever
   * follows it: the captures are the row again and matching resumes right
   * after its `)`.
   */
  lemma TupleAtRender(row: Row, rest: string, gap: Gap)
    requires Matched(row)
    ensures TupleAt(Render(row) + rest, gap) == Some(Match(row, rest))
  {
    RenderThenIsRender(row, rest);
    TupleAtRenderThen(row, rest, gap);
  }

  lemma TupleAtRenderThen(row: Row, rest: string, gap: Gap)
    requires Matched(row)
    ensures TupleAt(RenderThen(row, rest), gap) == Some(Match(row, rest))
  {
    var s1 := row.sura + (", " + (row.aya + (", " + ("'" + (row.text + ("')" + rest))))));
    var s0 := row.index + (", " + s1);
    assert RenderThen(row, rest)[1..] == s0;
    FieldsOf(row, s1, rest, gap);
  }

  lemma FieldsOf(row: Row, s1: string, rest: string, gap: Gap)
    requires Matched(row)
    requires s1 == row.sura + (", " + (row.aya + (", " + ("'" + (row.text + ("')" + rest))))))
    ensures Fields(row.index + (", " + s1), gap) == Some(Match(row, rest))
  {
    var s2 := row.aya + (", " + ("'" + (row.text + ("')" + rest))));
    FieldOf(row.index, s1, gap);
    FieldOf(row.sura, s2, gap);
    AyaAndTextOf(row, rest, gap);
  }

  /** The rendered tuple followed by `rest`, nested to the right. */
  function RenderThen(row: Row, rest: string): string {
    "(" + (row.index + (", " + (row.sura + (", " + (row.aya + (", " + ("'" + (row.text + ("')" + rest)))))))))
  }

  lemma RenderThenIsRender(row: Row, rest: string)
    ensures Render(row) + rest == RenderThen(row, rest)
  {
  }

  lemma AyaAndTextOf(row: Row, rest: string, gap: Gap)
    requires Matched(row)
    ensures AyaAndText(row.index, row.sura, row.aya + (", " + ("'" + (row.text + ("')" + rest)))), gap) == Some(Match(row, rest))
  {
    FieldOf(row.aya, "'" + (row.text + ("')" + rest)), gap);
    QuotedTextOf(row, rest);
  }

  lemma QuotedTextOf(row: Row, rest: string)
    requires Matched(row)
    ensures QuotedText(row.(text := ""), "'" + (row.text + ("')" + rest))) == Some(Match(row, rest))
  {
    var s4 := row.text + ("')" + rest);
    assert ("'" + s4)[1..] == s4;
    assert s4 == row.text + "')" + rest;
    QuoteEndOf(row.text, rest);
    assert s4[..|row.text|] == row.text;
    assert s4[|row.text| + 2..] == rest;
  }

  /** A text holding no `(` yields no match and is skipped character by character. */
  lemma {:induction false} ScanSkips(sep: string, rest: string, gap: Gap)
    requires '(' !in sep
    ensures Scan(sep + rest, Bare(gap)) == Scan(rest, Bare(gap))
    decreases |sep|
  {
    if |sep| > 0 {
      SkipFirst(sep, rest, gap);
      ScanSkips(sep[1..], rest, gap);
    } else {
      assert sep + rest == rest;
    }
  }

  lemma SkipFirst(sep: string, rest: string, gap: Gap)
    requires |sep| > 0 && sep[0] != '('
    ensures Scan(sep + rest, Bare(gap)) == Scan(sep[1..] + rest, Bare(gap))
  {
    var s := sep + rest;
    assert s[0] == sep[0] && s[1..] == sep[1..] + rest;
    ScanStep(s, gap);
  }

  lemma ScanStep(s: string, gap: Gap)
    requires |s| > 0 && s[0] != '('
    ensures Scan(s, Bare(gap)) == Scan(s[1..], Bare(gap))
  {
    assert TupleAt(s, gap).None?;
  }

  /** A `(` not followed by a digit starts no tuple and is skipped. */
  lemma ScanParen(s: string, gap: Gap)
    requires |s| > 1 && s[0] == '(' && !IsDigit(s[1])
    ensures Scan(s, Bare(gap)) == Scan(s[1..], Bare(gap))
  {
    assert DigitRun(s[1..], 0) == 0;
    assert TupleAt(s, gap).None?;
  }

  /** The column list of the `quran_text` dump. */
  const Columns: string := "(`index`, `sura`, `aya`, `text`)"

  /** The head of a dump statement, up to its column list. */
  const InsertHeader: string := "INSERT INTO `quran_text` "

  /** A dump statement written on one line: head, column list, `VALUES` and the tuples. */
  function DumpStatement(rows: seq<Row>): string {
    InsertHeader + (Columns + (" VALUES " + (Join(Renders(rows), ", ") + ";")))
  }

  /** The tuple pattern finds exactly the tuples of a dump statement, in order. */
  lemma ScanDumpStatement(rows: seq<Row>)
    requires forall row :: row in rows ==> Matched(row)
    ensures Scan(DumpStatement(rows), Bare(AnySpace)) == rows
  {
    var values := Join(Renders(rows), ", ") + ";";
    SkipsPlain(InsertHeader, Columns + (" VALUES " + values));
    ScanSkipsColumns(" VALUES " + values, AnySpace);
    SkipsPlain(" VALUES ", values);
    ScanRendered(rows, ", ", ";", AnySpace);
  }

  lemma SkipsPlain(plain: string, rest: string)
    requires plain == InsertHeader || plain == " VALUES "
    ensures Scan(plain + rest, Bare(AnySpace)) == Scan(rest, Bare(AnySpace))
  {
    assert forall i :: 0 <= i < |plain| ==> plain[i] != '(';
    ScanSkips(plain, rest, AnySpace);
  }

  /** The column list holds no tuple: scanning goes on after it. */
  lemma ScanSkipsColumns(rest: string, gap: Gap)
    ensures Scan(Columns + rest, Bare(gap)) == Scan(rest, Bare(gap))
  {
    var s := Columns + rest;
    ColumnsShape(rest);
    ScanParen(s, gap);
    ScanSkips(Columns[1..], rest, gap);
  }

  lemma ColumnsShape(rest: string)
    ensures |Columns + rest| > 1 && (Columns + rest)[0] == '(' && !IsDigit((Columns + rest)[1])
    ensures (Columns + rest)[1..] == Columns[1..] + rest
    ensures '(' !in Columns[1..]
  {
    var c := Columns[1..];
    assert c == "`index`, `sura`, `aya`, `text`)";
    assert forall i :: 0 <= i < |c| ==> c[i] != '(';
  }

  function Renders(rows: seq<Row>): seq<string> {
    seq(|rows|, i requires 0 <= i < |rows| => Render(rows[i]))
  }

  /**
   * Rendered tuples separated by a text without `(` — the dump's `, ` — and
   * followed by a tail without `(` are read back as exactly those rows, in
   * order.
   */
  lemma {:induction false} ScanRendered(rows: seq<Row>, sep: string, tail: string, gap: Gap)
    requires forall row :: row in rows ==> Matched(row)
    requires '(' !in sep && '(' !in tail
    ensures Scan(Join(Renders(rows), sep) + tail, Bare(gap)) == rows
    decreases |rows|
  {
    if |rows| == 0 {
      assert Join(Renders(rows), sep) + tail == tail + "";
      ScanSkips(tail, "", gap);
    } else if |rows| == 1 {
      assert Join(Renders(rows), sep) + tail == Render(rows[0]) + (tail + "");
      ScanFirst(rows[0], tail + "", gap);
      ScanSkips(tail, "", gap);
    } else {
      var rest := Join(Renders(rows[1..]), sep) + tail;
      JoinRenders(rows, sep, tail);
      ScanFirst(rows[0], sep + rest, gap);
      ScanSkips(sep, rest, gap);
      ScanRendered(rows[1..], sep, tail, gap);
      assert rows == [rows[0]] + rows[1..];
    }
  }

  lemma JoinRenders(rows: seq<Row>, sep: string, tail: string)
    requires |rows| > 1
    ensures Join(Renders(rows), sep) + tail == Render(rows[0]) + (sep + (Join(Renders(rows[1..]), sep) + tail))
  {
    assert Renders(rows)[1..] == Renders(rows[1..]);
  }

  lemma ScanFirst(row: Row, rest: string, gap: Gap)
    requires Matched(row)
    ensures Scan(Render(row) + rest, Bare(gap)) == [row] + Scan(rest, Bare(gap))
  {
    TupleAtRender(row, rest, gap);
  }

  /** A statement header, white space and a rendered tuple are matched as that tuple. */
  lemma StatementRender(header: string, space: string, row: Row, rest: string)
    requires Matched(row) && AllSpace(space)
    ensures MatchAt(header + space + Render(row) + rest, Statement(header)) == Some(Match(row, rest))
  {
    var s := header + space + Render(row) + rest;
    assert s[..|header|] == header;
    var after := s[|header|..];
    assert after == space + (Render(row) + rest);
    SpaceRunOf(space, Render(row) + rest);
    assert after[|space|..] == Render(row) + rest;
    TupleAtRender(row, rest, OneSpace);
  }

  lemma {:induction false} SpaceRunOf(space: string, post: string)
    requires AllSpace(space) && |post| > 0 && post[0] == '('
    ensures SpaceRun(space + post) == |space|
    decreases |space|
  {
    if |space| > 0 {
      assert (space + post)[1..] == space[1..] + post;
      SpaceRunOf(space[1..], post);
    } else {
      assert space + post == post;
    }
  }
}

=== FILE: surahlist.dfy ===
/**
 * The surah list pages, `client/src/pages/home.tsx` and its successor
 * `home-new.tsx`: the search filter over the surah list, the button that
 * scrolls to the top or the bottom and flips its own direction, the stored
 * last-read position and the link that continues reading from it.
 *
 * `toLowerCase` is the parameter `lower`; `JSON.parse` of the stored position
 * is the parameter `parse`, `None` standing for a parse that throws.
 */
module SurahList {
  import opened Wrappers
  import opened Text
  import opened Seqs
  import opened Schema

  /** A surah is kept when the lower-cased term occurs in its lower-cased Tajik or English name or in its number. */
  predicate Matches(s: Surah, term: string, lower: string -> string) {
    Contains(lower(s.nameTajik), term) || Contains(lower(s.nameEnglish), term) || Contains(IntToString(s.number), term)
  }

  /**
   * The filter effect: an empty search term shows every surah; otherwise the
   * term is lower-cased once and the surahs matching it are kept, in order.
   */
  function FilterSurahs(surahs: seq<Surah>, searchTerm: string, lower: string -> string): (r: seq<Surah>)
    ensures searchTerm == "" ==> r == surahs
    ensures searchTerm != "" ==> forall s :: s in r <==> s in surahs && Matches(s, lower(searchTerm), lower)
    ensures forall s :: multiset(r)[s] == if searchTerm == "" || Matches(s, lower(searchTerm), lower) then multiset(surahs)[s] else 0
    ensures IsSubsequence(r, surahs)
  {
    if searchTerm == "" then
      SubsequenceOfSelf(surahs);
      surahs
    else Filter(surahs, (s: Surah) => Matches(s, lower(searchTerm), lower))
  }

  /**
   * Searching for a surah's own number keeps that surah (lower-casing leaves
   * digits alone), together with every surah whose number contains it.
   */
  lemma SearchByNumber(surahs: seq<Surah>, n: int, lower: string -> string)
    requires n >= 0 && lower(IntToString(n)) == IntToString(n)
    ensures forall s :: s in surahs && s.number == n ==> s in FilterSurahs(surahs, IntToString(n), lower)
  {
    forall s | s in surahs && s.number == n
      ensures Matches(s, IntToString(n), lower)
    {
      ContainsAt(IntToString(n), IntToString(n), 0);
    }
  }

  /** Which way the scroll button goes next. */
  datatype Direction = Top | Bottom

  /** Where the window scrolls to and the direction stored afterwards. */
  datatype Scroll = Scroll(targetY: int, stored: Direction)

  /**
   * `scrollToPosition(direction)`: scroll to the top (0) or to the page
   * height, and store the direction opposite to the one just taken.
   */
  function ScrollToPosition(direction: Direction, pageHeight: int): (r: Scroll)
    ensures r.stored != direction
    ensures r.targetY == 0 <==> direction == Top || pageHeight == 0
  {
    if direction == Top then Scroll(0, Bottom) else Scroll(pageHeight, Top)
  }

  /** The button calls `scrollToPosition(scrollDirection)` with the stored direction. */
  function Click(stored: Direction, pageHeight: int): Scroll {
    ScrollToPosition(stored, pageHeight)
  }

  /** Two clicks restore the stored direction, having visited the top and the bottom once each. */
  lemma ClickTwice(stored: Direction, pageHeight: int)
    ensures Click(Click(stored, pageHeight).stored, pageHeight).stored == stored
    ensures {Click(stored, pageHeight).targetY, Click(Click(stored, pageHeight).stored, pageHeight).targetY} == {0, pageHeight}
  {
  }

  /** The stored `LastReadSection`. */
  datatype LastRead = LastRead(surahNumber: int, surahName: string, verseNumber: int, verseKey: string)

  /** `/surah/{n}#verse-{key}` with the first `:` of the key turned into `-`. */
  function LastReadLink(lr: LastRead): string {
    "/surah/" + IntToString(lr.surahNumber) + "#verse-" + ReplaceFirst(lr.verseKey, ':', "-")
  }

  /** Only the first colon is replaced: a key `a:b` with no colon in `a` becomes `a-b`, whatever `b` holds. */
  lemma ReplaceFirstColon(a: string, b: string)
    requires ':' !in a
    ensures ReplaceFirst(a + ":" + b, ':', "-") == a + "-" + b
  {
    var s := a + ":" + b;
    assert s[|a|] == ':' && s[..|a|] == a && s[|a| + 1..] == b;
    assert ':' !in s[..|a|];
  }

  /** For a stored verse key `s:v` the link targets the anchor `verse-s-v` on the page of surah `n`. */
  lemma LastReadLinkOfKey(lr: LastRead, s: int, v: int)
    requires lr.verseKey == VerseKey(s, v)
    ensures LastReadLink(lr) == "/surah/" + IntToString(lr.surahNumber) + "#verse-" + IntToString(s) + "-" + IntToString(v)
  {
    NoColonInNumeral(s);
    ReplaceFirstColon(IntToString(s), IntToString(v));
  }

  /**
   * `home.tsx`: a stored position (a non-empty string) is parsed and shown;
   * a parse that throws is not caught, so the effect fails (`Err`).
   */
  function LoadLastRead(stored: Option<string>, parse: string -> Option<LastRead>): (r: Result<Option<LastRead>, string>)
    ensures (stored.None? || stored.value == "") ==> r == Ok(None)
    ensures r.Err? <==> stored.Some? && stored.value != "" && parse(stored.value).None?
    ensures r.Ok? && r.value.Some? ==> stored.Some? && parse(stored.value) == r.value
  {
    match stored
    case None => Ok(None)
    case Some(text) =>
      if text == "" then Ok(None)
      else
        match parse(text)
        case None => Err("SyntaxError")
        case Some(lr) => Ok(Some(lr))
  }

  /** `home-new.tsx`: the same, with the parse error caught and logged, leaving no last-read position. */
  function LoadLastReadGuarded(stored: Option<string>, parse: string -> Option<LastRead>): (r: Option<LastRead>)
    ensures r.Some? ==> stored.Some? && stored.value != "" && parse(stored.value) == r
    ensures stored.Some? && stored.value != "" && parse(stored.value).Some? ==> r == parse(stored.value)
  {
    match LoadLastRead(stored, parse)
    case Ok(lr) => lr
    case Err(_) => None
  }
}

=== FILE: surahpage.dfy ===
/**
 * `client/src/components/quran/Bismillah.tsx`: the banner shown above the
 * verses of a surah.
 */
module BismillahBanner {
  import opened Wrappers
  import opened Markers

  /** What the component renders: nothing, or the Arabic line with an optional translation line. */
  datatype Rendered = Nothing | Banner(arabic: string, translation: Option<string>)

  /**
   * Surahs 9 and 1 render nothing (At-Tawbah has no bismillah, and in
   * Al-Fatiha it is the first verse); every other surah renders the Arabic
   * line. `showTranslation` defaults to false and the translation appears
   * only when it is not false.
   */
  function Bismillah(surahNumber: int, showTranslation: Option<bool>): (r: Rendered)
    ensures r.Nothing? <==> surahNumber == 1 || surahNumber == 9
    ensures r.Banner? ==> r.arabic == Tatweeled
    ensures r.Banner? ==> (r.translation.Some? <==> showTranslation == Some(true))
    ensures r.Banner? && r.translation.Some? ==> r.translation.value == Tajik
  {
    if surahNumber == 9 then Nothing
    else if surahNumber == 1 then Nothing
    else
      var show := showTranslation.GetOr(false);
      Banner(Tatweeled, if show == false then None else Some(Tajik))
  }
}

/**
 * `client/src/pages/surah.tsx`: neighbouring surahs, the last-read record it
 * saves, when the bismillah banner is shown, what "play surah" plays, and
 * when the page counts as loading.
 */
module SurahPage {
  import opened Wrappers
  import opened Text
  import opened Schema
  import opened Markers
  import opened SurahList
  import opened BismillahBanner

  /** The previous surah: `n - 1` above surah 1, none otherwise. */
  function PreviousSurah(n: int): (r: Option<int>)
    ensures r.Some? <==> n > 1
    ensures r.Some? ==> r.value == n - 1
  {
    if n > 1 then Some(n - 1) else None
  }

  /** The next surah: `n + 1` below surah 114, none otherwise. */
  function NextSurah(n: int): (r: Option<int>)
    ensures r.Some? <==> n < 114
    ensures r.Some? ==> r.value == n + 1
  {
    if n < 114 then Some(n + 1) else None
  }

  /**
   * On a real surah page the neighbours stay within 1..114, exactly the two
   * ends lack one, and stepping back then forward returns to the page.
   */
  lemma NeighboursInRange(n: int)
    requires 1 <= n <= 114
    ensures PreviousSurah(n).Some? ==> 1 <= PreviousSurah(n).value <= 113 && NextSurah(PreviousSurah(n).value) == Some(n)
    ensures NextSurah(n).Some? ==> 2 <= NextSurah(n).value <= 114 && PreviousSurah(NextSurah(n).value) == Some(n)
    ensures PreviousSurah(n).None? <==> n == 1
    ensures NextSurah(n).None? <==> n == 114
  {
  }

  /**
   * The last-read record saved once the surah is loaded and the page number
   * is positive: always its first verse, keyed `n:1`, under the loaded
   * surah's own number.
   */
  function SavedLastRead(surah: Option<Surah>, surahNumber: int): (r: Option<LastRead>)
    ensures r.Some? <==> surah.Some? && surahNumber > 0
    ensures r.Some? ==> r.value.surahNumber == surah.value.number && r.value.surahName == surah.value.nameTajik
    ensures r.Some? ==> r.value.verseNumber == 1 && r.value.verseKey == VerseKey(surah.value.number, 1)
  {
    if surah.Some? && surahNumber > 0 then
      var s := surah.value;
      Some(LastRead(s.number, s.nameTajik, 1, VerseKey(s.number, 1)))
    else None
  }

  /** The saved record's link continues at the first verse of the same surah. */
  lemma SavedLinkTargetsFirstVerse(surah: Surah, surahNumber: int)
    requires surahNumber > 0
    ensures LastReadLink(SavedLastRead(Some(surah), surahNumber).value) ==
      "/surah/" + IntToString(surah.number) + "#verse-" + IntToString(surah.number) + "-1"
  {
    LastReadLinkOfKey(SavedLastRead(Some(surah), surahNumber).value, surah.number, 1);
  }

  /** A first verse that already carries the bismillah, spelt with the tatweel. */
  predicate OpensWithBismillah(v: Verse) {
    v.verseNumber == 1 && Contains(v.arabicText, Tatweeled)
  }

  /** The page's condition for the banner: a loaded surah, verses, and no first verse carrying the bismillah. */
  predicate BannerWanted(surah: Option<Surah>, verses: Option<seq<Verse>>) {
    surah.Some? && verses.Some? && |verses.value| > 0 && !(exists v :: v in verses.value && OpensWithBismillah(v))
  }

  /** What the page shows above the verses: the banner component's output when the page wants one. */
  function BannerShown(surah: Option<Surah>, verses: Option<seq<Verse>>): (r: Rendered)
    ensures r.Banner? <==> BannerWanted(surah, verses) && surah.value.number != 1 && surah.value.number != 9
    ensures r.Banner? ==> r.translation.None?
    ensures (exists v :: v in verses.GetOr([]) && OpensWithBismillah(v)) ==> r.Nothing?
  {
    if BannerWanted(surah, verses) then Bismillah(surah.value.number, Some(false)) else Nothing
  }

  /** What pressing "play surah" does. */
  datatype Play = PlayError(title: string, description: string) | PlayVerse(key: string, verseNumber: int)

  /** No verses: an error toast and nothing played; otherwise the first verse, by its key. */
  function PlaySurah(verses: Option<seq<Verse>>): (r: Play)
    ensures r.PlayError? <==> verses.None? || |verses.value| == 0
    ensures r.PlayVerse? ==> r.key == verses.value[0].uniqueKey && r.verseNumber == verses.value[0].verseNumber
  {
    if verses.None? || |verses.value| == 0 then PlayError("Play error", "No verses available to play")
    else PlayVerse(verses.value[0].uniqueKey, verses.value[0].verseNumber)
  }

  /** The page is loading while any of its three queries is. */
  predicate IsLoading(surahsLoading: bool, surahLoading: bool, versesLoading: bool) {
    surahsLoading || surahLoading || versesLoading
  }
}

/**
 * `client/src/components/layout/Header.tsx`: the previous/next surah buttons,
 * their disabled state, the verse picker and the anchor it scrolls to.
 */
module Header {
  import opened Wrappers
  import opened Text
  import opened Schema
  import SurahList
  import SurahPage

  /** The route of a surah page. */
  function SurahPath(n: int): string {
    "/surah/" + IntToString(n)
  }

  /** `goToPreviousSurah`: no navigation without a surah or at surah 1 and below. */
  function GoToPreviousSurah(current: Option<Surah>): Option<string> {
    if current.None? || current.value.number <= 1 then None else Some(SurahPath(current.value.number - 1))
  }

  /** `goToNextSurah`: no navigation without a surah or at surah 114 and above. */
  function GoToNextSurah(current: Option<Surah>): Option<string> {
    if current.None? || current.value.number >= 114 then None else Some(SurahPath(current.value.number + 1))
  }

  /** The `disabled` expressions of the previous and next buttons. */
  predicate PreviousDisabled(current: Option<Surah>) {
    current.None? || current.value.number <= 1
  }

  predicate NextDisabled(current: Option<Surah>) {
    current.None? || current.value.number >= 114
  }

  /**
   * A button is disabled exactly when pressing it would do nothing, and an
   * enabled button goes where the surah page's own neighbour computation
   * points; the number in the route reads back with `parseInt`.
   */
  lemma ButtonsMatchNavigation(current: Option<Surah>)
    ensures PreviousDisabled(current) <==> GoToPreviousSurah(current).None?
    ensures NextDisabled(current) <==> GoToNextSurah(current).None?
    ensures current.Some? ==> (GoToPreviousSurah(current).Some? <==> SurahPage.PreviousSurah(current.value.number).Some?)
    ensures current.Some? ==> (GoToNextSurah(current).Some? <==> SurahPage.NextSurah(current.value.number).Some?)
    ensures GoToPreviousSurah(current).Some? ==>
      GoToPreviousSurah(current).value == SurahPath(SurahPage.PreviousSurah(current.value.number).value) &&
      ParseInt(GoToPreviousSurah(current).value[|"/surah/"|..]) == Int(current.value.number - 1)
    ensures GoToNextSurah(current).Some? ==>
      GoToNextSurah(current).value == SurahPath(SurahPage.NextSurah(current.value.number).value) &&
      ParseInt(GoToNextSurah(current).value[|"/surah/"|..]) == Int(current.value.number + 1)
  {
    if current.Some? {
      SurahPathReadsBack(current.value.number - 1);
      SurahPathReadsBack(current.value.number + 1);
    }
  }

  /** The number in a surah route reads back with `parseInt`. */
  lemma SurahPathReadsBack(n: int)
    ensures ParseInt(SurahPath(n)[|"/surah/"|..]) == Int(n)
  {
    ParseIntOfIntToString(n, true);
    assert SurahPath(n)[|"/surah/"|..] == IntToString(n);
  }

  /** The verse picker offers `1..versesCount` in ascending order (nothing for a count of 0 or less). */
  function VerseOptions(versesCount: int): (r: seq<int>)
    ensures versesCount >= 0 ==> |r| == versesCount
    ensures versesCount <= 0 ==> r == []
    ensures forall k :: k in r <==> 1 <= k <= versesCount
    ensures forall i, j :: 0 <= i < j < |r| ==> r[i] < r[j]
  {
    var n := if versesCount < 0 then 0 else versesCount;
    var r := seq(n, i requires 0 <= i < n => i + 1);
    forall k | 1 <= k <= versesCount
      ensures k in r
    {
      assert r[k - 1] == k;
    }
    r
  }

  /** The verse picker is disabled while loading or when there is no verse count. */
  predicate VerseSelectDisabled(isLoading: bool, versesCount: int) {
    isLoading || versesCount == 0
  }

  /** The element id a verse selection scrolls to. */
  function VerseAnchor(surahNumber: int, value: string): string {
    "verse-" + IntToString(surahNumber) + "-" + value
  }

  /** `handleVerseChange`: nothing without a current surah, otherwise the anchor of the chosen verse. */
  function HandleVerseChange(current: Option<Surah>, value: string): (r: Option<string>)
    ensures r.None? <==> current.None?
    ensures r.Some? ==> r.value == VerseAnchor(current.value.number, value)
  {
    if current.None? then None else Some(VerseAnchor(current.value.number, value))
  }

  /** Each option of the picker targets a distinct anchor of the current surah. */
  lemma OptionAnchorsDistinct(current: Surah, versesCount: int, i: int, j: int)
    requires 0 <= i < j < |VerseOptions(versesCount)|
    ensures HandleVerseChange(Some(current), NatToString(VerseOptions(versesCount)[i])) !=
            HandleVerseChange(Some(current), NatToString(VerseOptions(versesCount)[j]))
  {
    var a, b := VerseOptions(versesCount)[i], VerseOptions(versesCount)[j];
    var p := "verse-" + IntToString(current.number) + "-";
    var x, y := NatToString(a), NatToString(b);
    assert (p + x)[|p|..] == x && (p + y)[|p|..] == y;
  }

  /** The element id a verse row carries: `verse-` and its key with the colon turned into a hyphen. */
  function VerseRowId(uniqueKey: string): string {
    "verse-" + ReplaceFirst(uniqueKey, ':', "-")
  }

  /**
   * Picking verse `v` in the header scrolls to the element id the row of the
   * verse with key `surah:v` carries.
   */
  lemma AnchorIsVerseRowId(current: Surah, v: nat)
    ensures HandleVerseChange(Some(current), NatToString(v)) == Some(VerseRowId(VerseKey(current.number, v)))
  {
    var b := NatToString(v);
    assert VerseKey(current.number, v) == IntToString(current.number) + ":" + b;
    NoColonInNumeral(current.number);
    AnchorOfKey(IntToString(current.number), b);
  }

  /** With a colon-free surah numeral `a`, the anchor `verse-a-b` is the row id of the key `a:b`. */
  lemma AnchorOfKey(a: string, b: string)
    requires ':' !in a
    ensures "verse-" + a + "-" + b == VerseRowId(a + ":" + b)
  {
    SurahList.ReplaceFirstColon(a, b);
    assert "verse-" + a + "-" + b == "verse-" + (a + "-" + b);
  }
}

=== FILE: tafsir.dfy ===
/**
 * `scripts/update-tafsir.ts`: reads `tafsirnur12.sql` one line at a time,
 * takes the verse key from `unique_key = '…'` and the commentary from
 * `SET tafsir = '…'`, and issues one `UPDATE verses SET tafsir = … WHERE
 * unique_key = …` per line, in batches of 50 lines.
 *
 * The file's content is the parameter `content`; whether the database call
 * for line `i` throws (the error is caught and logged) is the oracle `ok(i)`.
 * The result is the sequence of updates issued, in order.
 *
 * The commentary pattern `[^']+` stops at the first quote, so a text with an
 * escaped quote (`''`) is cut short, and the `''` replacement after it never
 * finds anything. `AsWritten` reads the commentary that way; `Corrected`
 * reads the whole SQL string literal, undoing every doubled quote.
 */
module UpdateTafsir {
  import opened Wrappers
  import opened Text
  import opened Seqs

  const BatchSize: nat := 50
  const Quote: char := '\''
  const KeyPrefix: string := "unique_key = '"
  const TafsirPrefix: string := "SET tafsir = '"

  /** Which reading of the commentary literal a run uses. */
  datatype Reading = AsWritten | Corrected

  /** One issued `UPDATE`: the verse key and the commentary stored under it. */
  datatype Update = Update(key: string, tafsir: string)

  // ---------------------------------------------------------------------
  // Lines and batches
  // ---------------------------------------------------------------------

  /** `line.trim().length > 0`. */
  predicate NonBlank(line: string) {
    |Trim(line)| > 0
  }

  /** `content.split('\n').filter(line => line.trim().length > 0)`: the non-blank lines, in order. */
  function Lines(content: string): (r: seq<string>)
    ensures forall i :: 0 <= i < |r| ==> NonBlank(r[i]) && '\n' !in r[i]
    ensures IsSubsequence(r, Split(content, '\n'))
  {
    var pieces := Split(content, '\n');
    var r := Filter(pieces, NonBlank);
    forall i | 0 <= i < |r|
      ensures NonBlank(r[i]) && '\n' !in r[i]
    {
      assert r[i] in r;
      var j :| 0 <= j < |pieces| && pieces[j] == r[i];
    }
    r
  }

  /** Lines joined by newlines come back as the non-blank ones among them. */
  lemma LinesOfJoin(ls: seq<string>)
    requires |ls| > 0
    requires forall i :: 0 <= i < |ls| ==> '\n' !in ls[i]
    ensures Lines(Join(ls, "\n")) == Filter(ls, NonBlank)
    ensures (forall i :: 0 <= i < |ls| ==> NonBlank(ls[i])) ==> Lines(Join(ls, "\n")) == ls
  {
    assert "\n" == ['\n'];
    SplitJoin(ls, '\n');
    if forall i :: 0 <= i < |ls| ==> NonBlank(ls[i]) {
      FilterAll(ls, NonBlank);
    }
  }

  /** `Math.ceil(n / 50)`. */
  function BatchCount(n: nat): (r: nat)
    ensures r * 50 >= n
    ensures r > 0 ==> (r - 1) * 50 < n
  {
    (n + 49) / 50
  }

  /** `updates.slice(start, end)` with `start = 50 i` and `end = Math.min(start + 50, n)`. */
  function BatchAt<T>(s: seq<T>, i: nat): (r: seq<T>)
    requires i < BatchCount(|s|)
    ensures 0 < |r| <= BatchSize
    ensures i + 1 < BatchCount(|s|) ==> |r| == BatchSize
    ensures i * 50 + |r| <= |s| && r == s[i * 50..i * 50 + |r|]
  {
    var start := i * 50;
    var end := if start + 50 < |s| then start + 50 else |s|;
    s[start..end]
  }

  /** The batches the outer loop walks through. */
  function Batches<T>(s: seq<T>): seq<seq<T>> {
    seq(BatchCount(|s|), i requires 0 <= i < BatchCount(|s|) => BatchAt(s, i))
  }

  /** The batches are the fixed-size slicing of the lines: they cover every line once, in order. */
  lemma {:induction false} BatchesAreChunks<T>(s: seq<T>)
    ensures Batches(s) == Chunks(s, BatchSize)
    ensures Flatten(Batches(s)) == s
    decreases |s|
  {
    if |s| > 50 {
      var rest := s[50..];
      BatchesAreChunks(rest);
      BatchesCons(s);
      assert Chunks(s, BatchSize) == [s[..50]] + Chunks(rest, BatchSize);
    } else if |s| > 0 {
      assert BatchCount(|s|) == 1;
      assert Batches(s)[0] == s;
      assert Batches(s) == [s];
    } else {
      assert Batches(s) == [];
    }
  }

  /** Past the first 50 lines, the batches are the first 50 lines and the batches of the rest. */
  lemma BatchesCons<T>(s: seq<T>)
    requires |s| > 50
    ensures Batches(s) == [s[..50]] + Batches(s[50..])
  {
    var rest := s[50..];
    var a, b := Batches(s), [s[..50]] + Batches(rest);
    assert BatchCount(|s|) == BatchCount(|rest|) + 1;
    assert |a| == |b|;
    assert a[0] == b[0];
    forall i | 1 <= i < |a|
      ensures a[i] == b[i]
    {
      assert a[i] == BatchAt(s, i) && b[i] == BatchAt(rest, i - 1);
      BatchAtShift(s, i);
    }
  }

  /** Batch i of the lines is batch i - 1 of the lines past the first 50. */
  lemma BatchAtShift<T>(s: seq<T>, i: nat)
    requires |s| > 50 && 1 <= i < BatchCount(|s|)
    ensures i - 1 < BatchCount(|s| - 50) && BatchAt(s, i) == BatchAt(s[50..], i - 1)
  {
    var rest := s[50..];
    var start, start' := i * 50, (i - 1) * 50;
    assert start == start' + 50;
    var end := if start + 50 < |s| then start + 50 else |s|;
    var end' := if start' + 50 < |rest| then start' + 50 else |rest|;
    assert end == end' + 50;
    assert BatchAt(s, i) == s[start..end];
    assert BatchAt(rest, i - 1) == rest[start'..end'];
    assert rest[start'..end'] == s[start..end];
  }

  // ---------------------------------------------------------------------
  // The two patterns
  // ---------------------------------------------------------------------

  /** The longest quote-free stretch at the start of `s`: what the greedy `[^']+` takes. */
  function QuoteFree(s: string): (r: string)
    ensures |r| <= |s| && r == s[..|r|]
    ensures Quote !in r
    ensures |r| < |s| ==> s[|r|] == Quote
    decreases |s|
  {
    if |s| == 0 || s[0] == Quote then "" else [s[0]] + QuoteFree(s[1..])
  }

  /** A quote-free text followed by a quote is exactly what the greedy run takes. */
  lemma {:induction false} QuoteFreeOf(c: string, rest: string)
    requires Quote !in c
    ensures QuoteFree(c + [Quote] + rest) == c
    decreases |c|
  {
    if |c| > 0 {
      assert (c + [Quote] + rest)[1..] == c[1..] + [Quote] + rest;
      QuoteFreeOf(c[1..], rest);
    }
  }

  /**
   * Reads an SQL string literal from just after its opening quote: a doubled
   * quote stands for one quote, a single quote closes the literal. Gives the
   * text and what follows the closing quote, or nothing when it never closes.
   */
  function ReadLiteral(s: string): (r: Option<(string, string)>)
    ensures r.Some? ==> |r.value.0| < |s| && |r.value.1| < |s|
    decreases |s|
  {
    if |s| == 0 then None
    else if s[0] == Quote && |s| > 1 && s[1] == Quote then
      match ReadLiteral(s[2..])
      case None => None
      case Some((t, rest)) => Some(([Quote] + t, rest))
    else if s[0] == Quote then Some(("", s[1..]))
    else
      match ReadLiteral(s[1..])
      case None => None
      case Some((t, rest)) => Some(([s[0]] + t, rest))
  }

  /** How a text is written inside an SQL string literal: every quote doubled. */
  function Escape(t: string): (r: string)
    ensures |r| >= |t|
    decreases |t|
  {
    if |t| == 0 then ""
    else (if t[0] == Quote then [Quote, Quote] else [t[0]]) + Escape(t[1..])
  }

  /** A text without quotes is written as it is. */
  lemma {:induction false} EscapeQuoteFree(t: string)
    requires Quote !in t
    ensures Escape(t) == t
    decreases |t|
  {
    if |t| > 0 {
      EscapeQuoteFree(t[1..]);
      assert [t[0]] + t[1..] == t;
    }
  }

  /** Reading a literal undoes escaping: the text comes back, and the reading stops at the closing quote. */
  lemma {:induction false} ReadEscaped(t: string, rest: string)
    requires |rest| == 0 || rest[0] != Quote
    ensures ReadLiteral(Escape(t) + [Quote] + rest) == Some((t, rest))
    decreases |t|
  {
    if |t| == 0 {
      assert Escape(t) + [Quote] + rest == [Quote] + rest;
      ReadClose(rest);
    } else {
      ReadEscaped(t[1..], rest);
      ReadEscapedStep(t, rest);
    }
  }

  lemma ReadEscapedStep(t: string, rest: string)
    requires |t| > 0
    requires ReadLiteral(Escape(t[1..]) + [Quote] + rest) == Some((t[1..], rest))
    ensures ReadLiteral(Escape(t) + [Quote] + rest) == Some((t, rest))
  {
    var tail := Escape(t[1..]) + [Quote] + rest;
    var head := if t[0] == Quote then [Quote, Quote] else [t[0]];
    var e := Escape(t[1..]);
    assert Escape(t) == head + e;
    assert (head + e) + [Quote] + rest == head + tail;
    ReadCons(t[0], tail);
    assert [t[0]] + t[1..] == t;
  }

  lemma ReadClose(rest: string)
    requires |rest| == 0 || rest[0] != Quote
    ensures ReadLiteral([Quote] + rest) == Some(("", rest))
  {
    assert ([Quote] + rest)[1..] == rest;
  }

  /** One text character read off the front of a literal. */
  lemma ReadCons(c: char, tail: string)
    requires ReadLiteral(tail).Some?
    ensures var s := (if c == Quote then [Quote, Quote] else [c]) + tail;
      ReadLiteral(s) == Some(([c] + ReadLiteral(tail).value.0, ReadLiteral(tail).value.1))
  {
    var s := (if c == Quote then [Quote, Quote] else [c]) + tail;
    if c == Quote {
      assert s[2..] == tail;
    } else {
      assert s[1..] == tail;
    }
  }

  /** An escaped text, up to its first quote, is the text's own quote-free start. */
  lemma {:induction false} QuoteFreeOfEscaped(t: string, rest: string)
    ensures QuoteFree(Escape(t) + [Quote] + rest) == QuoteFree(t)
    decreases |t|
  {
    var s := Escape(t) + [Quote] + rest;
    if |t| > 0 && t[0] != Quote {
      QuoteFreeOfEscaped(t[1..], rest);
      assert s == [t[0]] + (Escape(t[1..]) + [Quote] + rest);
      assert s[1..] == Escape(t[1..]) + [Quote] + rest;
    } else if |t| > 0 {
      assert s[0] == Quote;
    } else {
      assert s[0] == Quote;
    }
  }

  /** What a pattern `prefix` followed by a literal captures when the match starts at `p`. */
  function CaptureAt(mode: Reading, s: string, prefix: string, p: nat): (r: Option<string>)
    requires p <= |s|
    ensures r.Some? ==> |r.value| > 0 && StartsWith(s[p..], prefix)
    ensures mode == AsWritten && r.Some? ==> Quote !in r.value
  {
    if !StartsWith(s[p..], prefix) then None
    else
      var after := s[p + |prefix|..];
      match mode
      case AsWritten =>
        var run := QuoteFree(after);
        if |run| > 0 && |run| < |after| then Some(run) else None
      case Corrected =>
        match ReadLiteral(after)
        case Some((t, _)) => if |t| > 0 then Some(t) else None
        case None => None
  }

  /** The regular expression `prefix([^']+)'` matches at `p` with capture `c`. */
  predicate MatchAt(s: string, prefix: string, p: nat, c: string) {
    p + |prefix| + |c| < |s| && s[p..p + |prefix|] == prefix &&
    |c| > 0 && Quote !in c && s[p + |prefix|..p + |prefix| + |c|] == c && s[p + |prefix| + |c|] == Quote
  }

  /** The as-written capture at `p` is the regular expression's match there, and the only one. */
  lemma CaptureAtMatches(s: string, prefix: string, p: nat, c: string)
    requires p <= |s|
    ensures CaptureAt(AsWritten, s, prefix, p) == Some(c) <==> MatchAt(s, prefix, p, c)
  {
    if MatchAt(s, prefix, p, c) {
      var after := s[p + |prefix|..];
      assert after == c + [Quote] + s[p + |prefix| + |c| + 1..];
      QuoteFreeOf(c, s[p + |prefix| + |c| + 1..]);
      assert s[p..][..|prefix|] == prefix;
    }
    if CaptureAt(AsWritten, s, prefix, p) == Some(c) {
      var after := s[p + |prefix|..];
      assert s[p..][..|prefix|] == s[p..p + |prefix|];
      assert after[..|c|] == s[p + |prefix|..p + |prefix| + |c|];
    }
  }

  /** `s.match(pattern)` from position `p` on: the capture of the leftmost match, or nothing. */
  function CaptureFrom(mode: Reading, s: string, prefix: string, p: nat): (r: Option<string>)
    requires p <= |s|
    ensures r.None? <==> forall q :: p <= q <= |s| ==> CaptureAt(mode, s, prefix, q).None?
    ensures r.Some? ==> exists q :: (p <= q <= |s| && CaptureAt(mode, s, prefix, q) == r &&
      forall q' :: p <= q' < q ==> CaptureAt(mode, s, prefix, q').None?)
    ensures mode == AsWritten && r.Some? ==> Quote !in r.value
    decreases |s| - p
  {
    var here := CaptureAt(mode, s, prefix, p);
    if here.Some? || p == |s| then here
    else
      var r := CaptureFrom(mode, s, prefix, p + 1);
      assert r.Some? ==> exists q :: (p <= q <= |s| && CaptureAt(mode, s, prefix, q) == r &&
        forall q' :: p <= q' < q ==> CaptureAt(mode, s, prefix, q').None?) by {
        if r.Some? {
          var q :| p + 1 <= q <= |s| && CaptureAt(mode, s, prefix, q) == r &&
            forall q' :: p + 1 <= q' < q ==> CaptureAt(mode, s, prefix, q').None?;
          assert forall q' :: p <= q' < q ==> CaptureAt(mode, s, prefix, q').None?;
        }
      }
      r
  }

  function Capture(mode: Reading, s: string, prefix: string): Option<string> {
    CaptureFrom(mode, s, prefix, 0)
  }

  /** `s.replace(/''/, "'")`: the first doubled quote becomes a single one. */
  function ReplaceDoubledQuote(s: string): (r: string)
    ensures r == s <==> forall i :: 0 <= i < |s| - 1 ==> !(s[i] == Quote && s[i + 1] == Quote)
    ensures r != s ==> |r| == |s| - 1
    decreases |s|
  {
    if |s| < 2 then s
    else if s[0] == Quote && s[1] == Quote then
      assert |[Quote] + s[2..]| < |s|;
      [Quote] + s[2..]
    else
      var rest := ReplaceDoubledQuote(s[1..]);
      assert forall i :: 1 <= i < |s| - 1 ==> s[i] == s[1..][i - 1] && s[i + 1] == s[1..][i];
      assert rest == s[1..] ==> [s[0]] + rest == s;
      assert [s[0]] + rest == s ==> rest == s[1..] by {
        if [s[0]] + rest == s {
          assert rest == ([s[0]] + rest)[1..];
        }
      }
      [s[0]] + rest
  }

  /** The replacement never changes a quote-free capture. */
  lemma ReplaceQuoteFree(s: string)
    requires Quote !in s
    ensures ReplaceDoubledQuote(s) == s
  {
    assert forall i :: 0 <= i < |s| - 1 ==> s[i] != Quote;
  }

  /** The commentary a line yields: the capture, with the first doubled quote undone as written. */
  function Tafsir(mode: Reading, line: string): (r: Option<string>)
    ensures r.Some? <==> Capture(mode, line, TafsirPrefix).Some?
    ensures mode == AsWritten && r.Some? ==> Quote !in r.value
  {
    match Capture(mode, line, TafsirPrefix)
    case None => None
    case Some(t) =>
      if mode == AsWritten then
        ReplaceQuoteFree(t);
        Some(ReplaceDoubledQuote(t))
      else Some(t)
  }

  /** `if (keyMatch && tafsirMatch)`: a line yields an update exactly when both patterns match. */
  function Parse(mode: Reading, line: string): (r: Option<Update>)
    ensures r.Some? <==> Capture(AsWritten, line, KeyPrefix).Some? && Capture(mode, line, TafsirPrefix).Some?
    ensures r.Some? ==> |r.value.key| > 0 && Quote !in r.value.key && Some(r.value.tafsir) == Tafsir(mode, line)
  {
    match (Capture(AsWritten, line, KeyPrefix), Tafsir(mode, line))
    case (Some(k), Some(t)) =>
      var q :| 0 <= q <= |line| && CaptureAt(AsWritten, line, KeyPrefix, q) == Some(k);
      CaptureAtMatches(line, KeyPrefix, q, k);
      Some(Update(k, t))
    case _ => None
  }

  /** The leftmost match decides: no match before `p` and one at `p` make `p`'s capture the result. */
  lemma {:induction false} FirstMatch(mode: Reading, s: string, prefix: string, from: nat, p: nat)
    requires from <= p <= |s|
    requires forall q :: from <= q < p ==> CaptureAt(mode, s, prefix, q).None?
    requires CaptureAt(mode, s, prefix, p).Some?
    ensures CaptureFrom(mode, s, prefix, from) == CaptureAt(mode, s, prefix, p)
    decreases p - from
  {
    if from < p {
      assert CaptureAt(mode, s, prefix, from).None?;
      FirstMatch(mode, s, prefix, from + 1, p);
    }
  }

  /** A pattern starting with `S` cannot match inside a stretch free of `S`. */
  lemma NoMatchInside(mode: Reading, s: string, prefix: string, n: nat)
    requires n <= |s| && |prefix| > 0 && prefix[0] == 'S'
    requires 'S' !in s[..n]
    ensures forall q :: 0 <= q < n ==> CaptureAt(mode, s, prefix, q).None?
  {
    forall q | 0 <= q < n
      ensures CaptureAt(mode, s, prefix, q).None?
    {
      assert s[..n][q] == s[q];
      assert s[q..][0] == s[q];
    }
  }

  /** The capture of each reading where a commentary literal begins. */
  lemma CaptureOfLiteral(line: string, p: nat, t: string, rest: string)
    requires |t| > 0 && t[0] != Quote
    requires |rest| == 0 || rest[0] != Quote
    requires p + |TafsirPrefix| <= |line| && line[p..] == TafsirPrefix + (Escape(t) + [Quote] + rest)
    ensures CaptureAt(Corrected, line, TafsirPrefix, p) == Some(t)
    ensures CaptureAt(AsWritten, line, TafsirPrefix, p) == Some(QuoteFree(t))
  {
    var after := Escape(t) + [Quote] + rest;
    assert line[p..][..|TafsirPrefix|] == TafsirPrefix;
    assert line[p + |TafsirPrefix|..] == line[p..][|TafsirPrefix|..] == after;
    ReadEscaped(t, rest);
    QuoteFreeOfEscaped(t, rest);
    assert Escape(t)[0] == t[0];
    assert |QuoteFree(t)| > 0;
  }

  /** Both readings at the first match of a pattern starting with `S`, placed after a stretch free of `S`. */
  lemma LiteralAfter(mode: Reading, pre: string, prefix: string, t: string, rest: string)
    requires 'S' !in pre && |prefix| > 0 && prefix[0] == 'S'
    requires |t| > 0 && t[0] != Quote
    requires |rest| == 0 || rest[0] != Quote
    ensures var line := pre + (prefix + (Escape(t) + [Quote] + rest));
      Capture(mode, line, prefix) == Some(if mode == Corrected then t else QuoteFree(t))
  {
    var after := Escape(t) + [Quote] + rest;
    var line := pre + (prefix + after);
    var p := |pre|;
    assert line[..p] == pre;
    NoMatchInside(mode, line, prefix, p);
    CaptureAtLiteral(mode, line, p, prefix, t, rest);
    FirstMatch(mode, line, prefix, 0, p);
  }

  /** Both readings where the pattern is followed by a commentary literal. */
  lemma CaptureAtLiteral(mode: Reading, line: string, p: nat, prefix: string, t: string, rest: string)
    requires |t| > 0 && t[0] != Quote
    requires |rest| == 0 || rest[0] != Quote
    requires p <= |line| && line[p..] == prefix + (Escape(t) + [Quote] + rest)
    ensures CaptureAt(mode, line, prefix, p) == Some(if mode == Corrected then t else QuoteFree(t))
  {
    var after := Escape(t) + [Quote] + rest;
    assert line[p..][..|prefix|] == prefix;
    assert line[p + |prefix|..] == line[p..][|prefix|..] == after;
    if mode == Corrected {
      ReadEscaped(t, rest);
    } else {
      QuoteFreeOfEscaped(t, rest);
      assert Escape(t)[0] == t[0];
    }
  }

  /**
   * A commentary literal that starts the line's first `SET tafsir = '`: the
   * corrected reading gives the whole text back, the as-written one only
   * the text up to its first quote.
   */
  lemma TafsirOfLiteral(pre: string, t: string, rest: string, line: string)
    requires 'S' !in pre
    requires |t| > 0 && t[0] != Quote
    requires |rest| == 0 || rest[0] != Quote
    requires line == pre + (TafsirPrefix + (Escape(t) + [Quote] + rest))
    ensures Tafsir(Corrected, line) == Some(t) && Tafsir(AsWritten, line) == Some(QuoteFree(t))
    ensures Tafsir(AsWritten, line) == Tafsir(Corrected, line) <==> Quote !in t
  {
    TafsirOfLiteralBoth(pre, t, rest, line, Corrected);
    TafsirOfLiteralBoth(pre, t, rest, line, AsWritten);
    ReadingsAgree(line, t);
  }

  lemma TafsirOfLiteralBoth(pre: string, t: string, rest: string, line: string, mode: Reading)
    requires 'S' !in pre
    requires |t| > 0 && t[0] != Quote
    requires |rest| == 0 || rest[0] != Quote
    requires line == pre + (TafsirPrefix + (Escape(t) + [Quote] + rest))
    ensures Tafsir(mode, line) == Some(if mode == Corrected then t else QuoteFree(t))
  {
    LiteralAfter(mode, pre, TafsirPrefix, t, rest);
    assert Capture(mode, line, TafsirPrefix) == Some(if mode == Corrected then t else QuoteFree(t));
    if mode == AsWritten {
      ReplaceQuoteFree(QuoteFree(t));
    }
  }

  /** Once both readings are known, they agree exactly when the text has no quote. */
  lemma ReadingsAgree(line: string, t: string)
    requires Tafsir(Corrected, line) == Some(t) && Tafsir(AsWritten, line) == Some(QuoteFree(t))
    ensures Tafsir(AsWritten, line) == Tafsir(Corrected, line) <==> Quote !in t
  {
    QuoteFreeWhole(t);
  }

  /** The quote-free start of a text is all of it exactly when the text has no quote. */
  lemma QuoteFreeWhole(t: string)
    ensures QuoteFree(t) == t <==> Quote !in t
  {
  }

  /** A commentary with an escaped quote loses everything from the quote on, as written. */
  lemma AsWrittenCutsAtQuote()
    ensures var line := "UPDATE verses " + (TafsirPrefix + ("it''s" + [Quote] + " WHERE unique_key = '1:1';"));
      Tafsir(AsWritten, line) == Some("it") && Tafsir(Corrected, line) == Some("it's")
  {
    var t := "it's";
    EscapeItS();
    QuoteFreeItS();
    var pre, rest := "UPDATE verses ", " WHERE unique_key = '1:1';";
    assert 'S' !in pre;
    TafsirOfLiteral(pre, t, rest, pre + (TafsirPrefix + (Escape(t) + [Quote] + rest)));
  }

  lemma EscapeItS()
    ensures Escape("it's") == "it''s"
  {
    var t := "it's";
    assert t[1..] == "t's" && t[1..][1..] == "'s" && t[1..][1..][1..] == "s";
  }

  lemma QuoteFreeItS()
    ensures QuoteFree("it's") == "it"
  {
    var t := "it's";
    assert t[1..] == "t's" && t[1..][1..] == "'s";
  }

  // ---------------------------------------------------------------------
  // The run
  // ---------------------------------------------------------------------

  /** The parser a run uses. */
  function Parser(mode: Reading): string -> Option<Update> {
    line => Parse(mode, line)
  }

  /** Some line of `lines` parses to `u` and its call goes through. */
  predicate IssuedBy(parse: string -> Option<Update>, lines: seq<string>, ok: nat -> bool, u: Update) {
    exists i :: 0 <= i < |lines| && ok(i) && parse(lines[i]) == Some(u)
  }

  /** What one line issues: its update when it parses and its call goes through. */
  function LineUpdates(parse: string -> Option<Update>, line: string, goes: bool): seq<Update> {
    if goes && parse(line).Some? then [parse(line).value] else []
  }

  /**
   * The updates issued for `lines`, line `i` being the file's `i`-th
   * non-blank line, in the order of the lines: exactly the updates of the
   * lines that parse and whose calls go through.
   */
  function Issued(parse: string -> Option<Update>, lines: seq<string>, ok: nat -> bool): (r: seq<Update>)
    ensures |r| <= |lines|
    ensures forall u :: u in r <==> IssuedBy(parse, lines, ok, u)
    decreases |lines|
  {
    if |lines| == 0 then []
    else
      var n := |lines| - 1;
      var front := Issued(parse, lines[..n], ok);
      IssuedStep(parse, lines, ok, front);
      front + LineUpdates(parse, lines[n], ok(n))
  }

  lemma IssuedStep(parse: string -> Option<Update>, lines: seq<string>, ok: nat -> bool, front: seq<Update>)
    requires |lines| > 0
    requires forall u :: u in front <==> IssuedBy(parse, lines[..|lines| - 1], ok, u)
    ensures forall u :: u in front + LineUpdates(parse, lines[|lines| - 1], ok(|lines| - 1)) <==> IssuedBy(parse, lines, ok, u)
  {
    var n := |lines| - 1;
    forall u
      ensures u in front + LineUpdates(parse, lines[n], ok(n)) <==> IssuedBy(parse, lines, ok, u)
    {
      if IssuedBy(parse, lines, ok, u) {
        var i :| 0 <= i < |lines| && ok(i) && parse(lines[i]) == Some(u);
        if i < n {
          assert lines[..n][i] == lines[i];
        }
      }
      if u in front {
        var i :| 0 <= i < n && ok(i) && parse(lines[..n][i]) == Some(u);
        assert lines[..n][i] == lines[i];
      }
    }
  }

  /** Issuing for one more line appends that line's updates. */
  lemma IssuedPrefix(parse: string -> Option<Update>, lines: seq<string>, ok: nat -> bool, k: nat)
    requires k < |lines|
    ensures Issued(parse, lines[..k + 1], ok) == Issued(parse, lines[..k], ok) + LineUpdates(parse, lines[k], ok(k))
  {
    assert lines[..k + 1][..k] == lines[..k];
    assert lines[..k + 1][k] == lines[k];
  }

  /** The inner loop's step: line `k` adds its update to those issued for the lines before it. */
  lemma IssuedLine(parse: string -> Option<Update>, lines: seq<string>, ok: nat -> bool, k: nat, issued: seq<Update>)
    requires k < |lines| && issued == Issued(parse, lines[..k], ok)
    ensures parse(lines[k]).Some? && ok(k) ==> issued + [parse(lines[k]).value] == Issued(parse, lines[..k + 1], ok)
    ensures !(parse(lines[k]).Some? && ok(k)) ==> issued == Issued(parse, lines[..k + 1], ok)
  {
    IssuedPrefix(parse, lines, ok, k);
  }

  /** A run in which no call throws issues an update for every line that parses, and a line that does not parse issues none. */
  lemma IssuedAllParsed(parse: string -> Option<Update>, lines: seq<string>, ok: nat -> bool)
    requires forall i :: ok(i)
    ensures forall i :: 0 <= i < |lines| && parse(lines[i]).Some? ==> parse(lines[i]).value in Issued(parse, lines, ok)
  {
    forall i | 0 <= i < |lines| && parse(lines[i]).Some?
      ensures parse(lines[i]).value in Issued(parse, lines, ok)
    {
      assert IssuedBy(parse, lines, ok, parse(lines[i]).value);
    }
  }

  /**
   * `updateTafsir`: walks the batches of the non-blank lines and each batch's
   * lines in order. The updates are those of the whole line list, so the
   * batching decides nothing; the batch count is `ceil(n / 50)`.
   */
  method Run(mode: Reading, content: string, ok: nat -> bool) returns (issued: seq<Update>, batches: nat)
    ensures batches == BatchCount(|Lines(content)|) && batches == |Chunks(Lines(content), BatchSize)|
    ensures issued == Issued(Parser(mode), Lines(content), ok)
  {
    var updates := Lines(content);
    var parse := Parser(mode);
    batches := BatchCount(|updates|);
    BatchesAreChunks(updates);
    issued := [];
    var batchIndex := 0;
    var done := 0;
    while batchIndex < batches
      invariant 0 <= batchIndex <= batches
      invariant done == (if batchIndex * 50 < |updates| then batchIndex * 50 else |updates|)
      invariant issued == Issued(parse, updates[..done], ok)
    {
      BatchStartInside(|updates|, batchIndex);
      var start := batchIndex * BatchSize;
      var end := if start + BatchSize < |updates| then start + BatchSize else |updates|;
      issued := RunBatch(parse, updates, ok, start, end, issued);
      batchIndex := batchIndex + 1;
      done := end;
    }
    assert updates[..|updates|] == updates;
  }

  /** Every batch the loop visits starts inside the line list. */
  lemma BatchStartInside(n: nat, i: nat)
    requires i < BatchCount(n)
    ensures i * BatchSize < n
  {
    var r := BatchCount(n);
    assert i * 50 <= (r - 1) * 50;
  }

  /** The inner loop over one batch `updates[start..end]`, continuing the updates issued so far. */
  method RunBatch(parse: string -> Option<Update>, updates: seq<string>, ok: nat -> bool, start: nat, end: nat, before: seq<Update>)
    returns (issued: seq<Update>)
    requires start <= end <= |updates|
    requires before == Issued(parse, updates[..start], ok)
    ensures issued == Issued(parse, updates[..end], ok)
  {
    // `k` walks the positions of `updates[start..end]`, the batch's lines in order.
    issued := before;
    var k := start;
    while k < end
      invariant start <= k <= end
      invariant issued == Issued(parse, updates[..k], ok)
    {
      IssuedLine(parse, updates, ok, k, issued);
      var u := parse(updates[k]);
      if u.Some? && ok(k) {
        issued := issued + [u.value];
      }
      k := k + 1;
    }
  }
}

=== FILE: tajweed.dfy ===
/**
 * The tajweed markup rewriter of `client/src/lib/tajweed.ts`: the type table
 * and `parseTajweed`, which turns every `[t(:digits)?[content]` of the
 * Al Quran Cloud text into a `<tajweed …>` element.
 */
module Tajweed {
  import opened Wrappers
  import opened Text

  datatype TypeInfo = TypeInfo(cssClass: string, typeName: string, description: string)

  /** The `tajweedTypes` table. */
  function Lookup(key: char): Option<TypeInfo> {
    match key
    case 'h' => Some(TypeInfo("ham_wasl", "hamza-wasl", "Hamzat ul Wasl"))
    case 's' => Some(TypeInfo("slnt", "silent", "Silent"))
    case 'l' => Some(TypeInfo("slnt", "laam-shamsiyah", "Lam Shamsiyyah"))
    case 'n' => Some(TypeInfo("madda_normal", "madda-normal", "Normal Prolongation: 2 Vowels"))
    case 'p' => Some(TypeInfo("madda_permissible", "madda-permissible", "Permissible Prolongation: 2, 4, 6 Vowels"))
    case 'm' => Some(TypeInfo("madda_necessary", "madda-necessary", "Necessary Prolongation: 6 Vowels"))
    case 'q' => Some(TypeInfo("qlq", "qalaqah", "Qalqalah"))
    case 'o' => Some(TypeInfo("madda_obligatory", "madda-obligatory", "Obligatory Prolongation: 4-5 Vowels"))
    case 'c' => Some(TypeInfo("ikhf_shfw", "ikhafa-shafawi", "Ikhafa Shafawi - With Meem"))
    case 'f' => Some(TypeInfo("ikhf", "ikhafa", "Ikhafa"))
    case 'w' => Some(TypeInfo("idghm_shfw", "idgham-shafawi", "Idgham Shafawi - With Meem"))
    case 'i' => Some(TypeInfo("iqlb", "iqlab", "Iqlab"))
    case 'a' => Some(TypeInfo("idgh_ghn", "idgham-with-ghunnah", "Idgham - With Ghunnah"))
    case 'u' => Some(TypeInfo("idgh_w_ghn", "idgham-without-ghunnah", "Idgham - Without Ghunnah"))
    case 'd' => Some(TypeInfo("idgh_mus", "idgham-mutajanisayn", "Idgham - Mutajanisayn"))
    case 'b' => Some(TypeInfo("idgh_mut", "idgham-mutaqaribayn", "Idgham - Mutaqaribayn"))
    case 'g' => Some(TypeInfo("ghn", "ghunnah", "Ghunnah: 2 Vowels"))
    case _ => None
  }

  /** The alternation `(h|s|l|n|p|m|q|o|c|f|w|i|a|u|d|b|g)` of the markup pattern. */
  predicate IsTypeKey(c: char) {
    c in "hslnpmqocfwiaudbg"
  }

  /** The pattern's alternation lists exactly the table's keys, so the unknown-type fallback never runs. */
  lemma TableKeysAreAlternation(c: char)
    ensures Lookup(c).Some? <==> IsTypeKey(c)
  {
  }

  /** Silent and Lam Shamsiyyah share a CSS class but keep distinct `data-type` values. */
  lemma SilentAndLaamShareClass()
    ensures Lookup('s').value.cssClass == Lookup('l').value.cssClass == "slnt"
    ensures Lookup('s').value.typeName != Lookup('l').value.typeName
  {
  }

  /** A piece of the scanned text: one character outside markup, or one markup match. */
  datatype Segment = Plain(c: char) | Markup(key: char, id: Option<string>, content: string)

  /** The source text a segment covers. */
  function SegmentText(seg: Segment): string {
    match seg
    case Plain(c) => [c]
    case Markup(key, id, content) =>
      "[" + [key] + (if id.Some? then ":" + id.value else "") + "[" + content + "]"
  }

  function Unparse(segs: seq<Segment>): string
    decreases |segs|
  {
    if |segs| == 0 then "" else SegmentText(segs[0]) + Unparse(segs[1..])
  }

  predicate NoCloseOrTerminator(t: string) {
    forall k :: 0 <= k < |t| ==> t[k] != ']' && !IsLineTerminator(t[k])
  }

  /**
   * What a markup match can capture: a key of the alternation, an id of one or
   * more ASCII digits, and content `.*?` stopped at the first `]`, so it holds
   * neither `]` nor a line terminator.
   */
  predicate WellFormed(seg: Segment) {
    seg.Markup? ==>
      IsTypeKey(seg.key) &&
      (seg.id.Some? ==> |seg.id.value| > 0 && AllDigits(seg.id.value)) &&
      NoCloseOrTerminator(seg.content)
  }

  /** Where the lazy `(.*?)\]` stops: the first `]` at or after `q`, unless a line terminator or the end comes first. */
  function CloseBracket(s: string, q: nat): (r: Option<nat>)
    requires q <= |s|
    ensures r.Some? ==> q <= r.value < |s| && s[r.value] == ']' && NoCloseOrTerminator(s[q..r.value])
    ensures r.None? ==> forall j :: q <= j < |s| && s[j] == ']' ==> exists k :: q <= k < j && IsLineTerminator(s[k])
    decreases |s| - q
  {
    if q == |s| then None
    else if s[q] == ']' then Some(q)
    else if IsLineTerminator(s[q]) then None
    else
      var r := CloseBracket(s, q + 1);
      if r.Some? then
        assert s[q..r.value] == [s[q]] + s[q + 1..r.value];
        r
      else r
  }

  /** One markup match and the index just past its `]`. */
  datatype Found = Found(seg: Segment, end: nat)

  /** One attempt of the markup pattern at index `p`. */
  function MatchAt(s: string, p: nat): (r: Option<Found>)
    requires p <= |s|
    ensures r.Some? ==> p < r.value.end <= |s| && r.value.seg.Markup? && WellFormed(r.value.seg)
    ensures r.Some? ==> SegmentText(r.value.seg) == s[p..r.value.end]
  {
    if p + 2 >= |s| || s[p] != '[' || !IsTypeKey(s[p + 1]) then None
    else
      var n := if s[p + 2] == ':' then DigitRun(s, p + 3) else 0;
      var open: Option<nat> :=
        if s[p + 2] == '[' then Some(p + 3)
        else if s[p + 2] == ':' && n > 0 && p + 3 + n < |s| && s[p + 3 + n] == '[' then Some(p + 4 + n)
        else None;
      if open.None? then None
      else
        var id := if s[p + 2] == '[' then None else Some(s[p + 3..p + 3 + n]);
        match CloseBracket(s, open.value)
        case None => None
        case Some(close) =>
          var seg := Markup(s[p + 1], id, s[open.value..close]);
          MarkupSpan(s, p, n, id, open.value, close);
          Some(Found(seg, close + 1))
  }

  /** The text of a markup match is exactly the span from its `[` to its closing `]`. */
  lemma MarkupSpan(s: string, p: nat, n: nat, id: Option<string>, open: nat, close: nat)
    requires p + 2 < |s| && s[p] == '['
    requires id.None? ==> s[p + 2] == '[' && open == p + 3
    requires id.Some? ==> s[p + 2] == ':' && p + 3 + n < |s| && s[p + 3 + n] == '[' && open == p + 4 + n && id.value == s[p + 3..p + 3 + n]
    requires open <= close < |s| && s[close] == ']'
    ensures SegmentText(Markup(s[p + 1], id, s[open..close])) == s[p..close + 1]
  {
    var head := if id.Some? then ":" + id.value else "";
    assert s[p..open] == "[" + [s[p + 1]] + head + "[";
    assert s[p..close + 1] == s[p..open] + s[open..close] + "]";
  }

  /**
   * The global replace: scanning left to right, a match at the current index
   * is taken whole and scanning resumes after it; otherwise one character is
   * copied.
   */
  function Scan(s: string, p: nat): (segs: seq<Segment>)
    requires p <= |s|
    ensures forall i :: 0 <= i < |segs| ==> WellFormed(segs[i])
    decreases |s| - p
  {
    if p == |s| then []
    else
      match MatchAt(s, p)
      case Some(f) => [f.seg] + Scan(s, f.end)
      case None => [Plain(s[p])] + Scan(s, p + 1)
  }

  /** Matches do not overlap and the text between them is kept: the segments spell out the input again. */
  lemma {:induction false} ScanCoversInput(s: string, p: nat)
    requires p <= |s|
    ensures Unparse(Scan(s, p)) == s[p..]
    decreases |s| - p
  {
    if p < |s| {
      var head, next := ScanStep(s, p);
      ScanCoversInput(s, next);
      UnparseGlue(s, p, next, head, Scan(s, next));
    }
  }

  /** A segment spelling `s[p..next]` followed by segments spelling `s[next..]` spell `s[p..]`. */
  lemma UnparseGlue(s: string, p: nat, next: nat, head: Segment, rest: seq<Segment>)
    requires p < next <= |s| && SegmentText(head) == s[p..next] && Unparse(rest) == s[next..]
    ensures Unparse([head] + rest) == s[p..]
  {
    assert ([head] + rest)[1..] == rest;
    assert s[p..] == s[p..next] + s[next..];
  }

  /** One step of the scan: the segment taken at `p` covers exactly the text up to where scanning resumes. */
  lemma ScanStep(s: string, p: nat) returns (head: Segment, next: nat)
    requires p < |s|
    ensures p < next <= |s| && Scan(s, p) == [head] + Scan(s, next)
    ensures SegmentText(head) == s[p..next]
  {
    var m := MatchAt(s, p);
    head := if m.Some? then m.value.seg else Plain(s[p]);
    next := if m.Some? then m.value.end else p + 1;
  }

  /** A well-formed markup written out is recognised again as that single markup. */
  lemma MarkupRoundTrip(seg: Segment)
    requires seg.Markup? && WellFormed(seg)
    ensures Scan(SegmentText(seg), 0) == [seg]
  {
    var s := SegmentText(seg);
    MatchWholeMarkup(seg);
    assert Scan(s, |s|) == [];
    assert Scan(s, 0) == [seg] + Scan(s, |s|);
  }

  /** The markup pattern, tried at the start of a written-out markup, takes all of it. */
  lemma MatchWholeMarkup(seg: Segment)
    requires seg.Markup? && WellFormed(seg)
    ensures |SegmentText(seg)| > 0 && MatchAt(SegmentText(seg), 0) == Some(Found(seg, |SegmentText(seg)|))
  {
    if seg.id.Some? {
      MatchWholeMarkupWithId(seg);
    } else {
      MatchWholeMarkupPlain(seg);
    }
  }

  lemma MatchWholeMarkupPlain(seg: Segment)
    requires seg.Markup? && WellFormed(seg) && seg.id.None?
    ensures |SegmentText(seg)| > 0 && MatchAt(SegmentText(seg), 0) == Some(Found(seg, |SegmentText(seg)|))
  {
    var s := SegmentText(seg);
    assert s == "[" + [seg.key] + "[" + seg.content + "]";
    assert s[2] == '[';
    assert s[3..|s| - 1] == seg.content;
    CloseBracketAtEnd(s, 3);
    assert s[0..|s|] == s;
  }

  lemma MatchWholeMarkupWithId(seg: Segment)
    requires seg.Markup? && WellFormed(seg) && seg.id.Some?
    ensures |SegmentText(seg)| > 0 && MatchAt(SegmentText(seg), 0) == Some(Found(seg, |SegmentText(seg)|))
  {
    var s := SegmentText(seg);
    var n := |seg.id.value|;
    WithIdLayout(seg);
    DigitRunFrom(s, 3, seg.id.value);
    CloseBracketAtEnd(s, 4 + n);
    assert s[0..|s|] == s;
  }

  /** Where the parts of a markup with an id sit in its text. */
  lemma WithIdLayout(seg: Segment)
    requires seg.Markup? && seg.id.Some?
    ensures var s := SegmentText(seg); var n := |seg.id.value|;
      |s| == 5 + n + |seg.content| && s[0] == '[' && s[1] == seg.key && s[2] == ':' &&
      s[3..3 + n] == seg.id.value && s[3 + n] == '[' && s[4 + n..|s| - 1] == seg.content && s[|s| - 1] == ']'
  {
    var s := SegmentText(seg);
    assert s == "[" + [seg.key] + ":" + seg.id.value + "[" + seg.content + "]";
  }

  lemma {:induction false} CloseBracketAtEnd(s: string, q: nat)
    requires q < |s| && s[|s| - 1] == ']' && NoCloseOrTerminator(s[q..|s| - 1])
    ensures CloseBracket(s, q) == Some(|s| - 1)
    decreases |s| - q
  {
    if q < |s| - 1 {
      assert s[q] == s[q..|s| - 1][0];
      assert s[q + 1..|s| - 1] == s[q..|s| - 1][1..];
      CloseBracketAtEnd(s, q + 1);
    }
  }

  /** The element a markup match is replaced with; the unknown-type branch returns the content alone. */
  function Element(key: char, id: Option<string>, content: string): string {
    match Lookup(key)
    case None => content
    case Some(info) =>
      "<tajweed class=\"" + info.cssClass + "\" data-type=\"" + info.typeName +
      "\" data-description=\"" + info.description + "\" data-tajweed=\"" +
      (if id.Some? then ":" + id.value else "") + "\">" + content + "</tajweed>"
  }

  function Render(segs: seq<Segment>): string
    decreases |segs|
  {
    if |segs| == 0 then ""
    else
      (match segs[0]
       case Plain(c) => [c]
       case Markup(key, id, content) => Element(key, id, content)) + Render(segs[1..])
  }

  /** `parseTajweed` */
  function ParseTajweed(text: string): (r: string)
    ensures |text| == 0 ==> r == ""
    ensures '[' !in text ==> r == text
  {
    if |text| == 0 then ""
    else if '[' !in text then text
    else Render(Scan(text, 0))
  }

  /** The two early returns agree with the global replace, so `parseTajweed` is the replace on every input. */
  lemma ParseTajweedIsReplace(text: string)
    ensures ParseTajweed(text) == Render(Scan(text, 0))
  {
    if |text| > 0 && '[' !in text {
      NoMarkupRendersItself(text, 0);
    }
  }

  lemma {:induction false} NoMarkupRendersItself(s: string, p: nat)
    requires p <= |s| && forall k :: p <= k < |s| ==> s[k] != '['
    ensures Render(Scan(s, p)) == s[p..]
    decreases |s| - p
  {
    if p < |s| {
      assert MatchAt(s, p).None?;
      NoMarkupRendersItself(s, p + 1);
      assert s[p..] == [s[p]] + s[p + 1..];
    }
  }
}

=== FILE: text.dfy ===
/**
 * String and number primitives of the two host languages, written out so that
 * the rest of the model can use them: JavaScript `trim`, `includes`,
 * `split(' ')`, `parseInt` and number-to-string, and Java `Integer.parseInt`.
 * Strings are sequences of Unicode scalar values.
 */
module Text {
  import opened Wrappers

  /** ECMAScript LineTerminator: the characters a regular-expression `.` refuses. */
  predicate IsLineTerminator(c: char) {
    c == '\n' || c == '\r' || c == '\U{2028}' || c == '\U{2029}'
  }

  /** ECMAScript WhiteSpace or LineTerminator: what `trim` removes and `\s` matches. */
  predicate IsJsSpace(c: char) {
    || c == '\t' || c == '\U{000B}' || c == '\U{000C}' || c == ' ' || c == '\U{00A0}' || c == '\U{FEFF}'
    || c == '\U{1680}' || ('\U{2000}' <= c <= '\U{200A}') || c == '\U{202F}' || c == '\U{205F}'
    || c == '\U{3000}' || IsLineTerminator(c)
  }

  /** `String.prototype.trimStart`. */
  function TrimStart(s: string): (r: string)
    ensures |r| <= |s| && r == s[|s| - |r|..]
    ensures forall i :: 0 <= i < |s| - |r| ==> IsJsSpace(s[i])
    ensures |r| > 0 ==> !IsJsSpace(r[0])
  {
    if |s| > 0 && IsJsSpace(s[0]) then TrimStart(s[1..]) else s
  }

  /** `String.prototype.trimEnd`. */
  function TrimEnd(s: string): (r: string)
    ensures |r| <= |s| && r == s[..|r|]
    ensures forall i :: |r| <= i < |s| ==> IsJsSpace(s[i])
    ensures |r| > 0 ==> !IsJsSpace(r[|r| - 1])
  {
    if |s| > 0 && IsJsSpace(s[|s| - 1]) then TrimEnd(s[..|s| - 1]) else s
  }

  predicate AllSpace(s: string) {
    forall i :: 0 <= i < |s| ==> IsJsSpace(s[i])
  }

  /** `String.prototype.trim`: the result is empty exactly when every character is white space. */
  function Trim(s: string): (r: string)
    ensures |r| <= |s|
    ensures |r| > 0 ==> !IsJsSpace(r[0]) && !IsJsSpace(r[|r| - 1])
    ensures |r| == 0 <==> AllSpace(s)
  {
    TrimEnd(TrimStart(s))
  }

  /** A string that neither starts nor ends with white space is its own trim. */
  lemma TrimSolid(s: string)
    requires |s| > 0 && !IsJsSpace(s[0]) && !IsJsSpace(s[|s| - 1])
    ensures Trim(s) == s
  {
    assert TrimStart(s) == s;
  }

  /** A space in front makes no difference to the trim. */
  lemma TrimSpaced(s: string)
    ensures Trim(" " + s) == Trim(s)
  {
    assert (" " + s)[1..] == s;
  }

  predicate StartsWith(s: string, prefix: string) {
    |prefix| <= |s| && s[..|prefix|] == prefix
  }

  lemma StartsWithAppend(s: string, t: string, prefix: string)
    requires StartsWith(s, prefix)
    ensures StartsWith(s + t, prefix)
  {
    assert (s + t)[..|prefix|] == s[..|prefix|];
  }

  predicate EndsWith(s: string, suffix: string) {
    |suffix| <= |s| && s[|s| - |suffix|..] == suffix
  }

  /** `String.prototype.includes`. */
  predicate Contains(s: string, sub: string)
    decreases |s|
  {
    StartsWith(s, sub) || (|s| > 0 && Contains(s[1..], sub))
  }

  lemma {:induction false} ContainsAt(s: string, sub: string, i: nat)
    requires i + |sub| <= |s| && s[i..i + |sub|] == sub
    ensures Contains(s, sub)
    decreases i
  {
    if i > 0 {
      assert s[1..][i - 1..i - 1 + |sub|] == sub;
      ContainsAt(s[1..], sub, i - 1);
    }
  }

  lemma {:induction false} ContainsWitness(s: string, sub: string) returns (i: nat)
    requires Contains(s, sub)
    ensures i + |sub| <= |s| && s[i..i + |sub|] == sub
    decreases |s|
  {
    if StartsWith(s, sub) {
      i := 0;
    } else {
      var j := ContainsWitness(s[1..], sub);
      i := j + 1;
      assert s[i..i + |sub|] == s[1..][j..j + |sub|];
    }
  }

  /** First position of `c` in `s`, or none: `indexOf` on a one-character needle. */
  function IndexOf(s: string, c: char): (r: Option<nat>)
    ensures r.None? <==> c !in s
    ensures r.Some? ==> r.value < |s| && s[r.value] == c && c !in s[..r.value]
  {
    if |s| == 0 then None
    else if s[0] == c then Some(0)
    else
      match IndexOf(s[1..], c)
      case None => None
      case Some(i) =>
        assert s[..i + 1] == [s[0]] + s[1..][..i];
        Some(i + 1)
  }

  /** `s.replace(c, rep)` with a one-character string pattern: only the first occurrence changes. */
  function ReplaceFirst(s: string, c: char, rep: string): string {
    match IndexOf(s, c)
    case None => s
    case Some(i) => s[..i] + rep + s[i + 1..]
  }

  /** `parts.join(sep)`. */
  function Join(parts: seq<string>, sep: string): string
    decreases |parts|
  {
    if |parts| == 0 then ""
    else if |parts| == 1 then parts[0]
    else parts[0] + sep + Join(parts[1..], sep)
  }

  lemma JoinFour(a: string, b: string, c: string, d: string, sep: string)
    ensures Join([a, b, c, d], sep) == a + sep + b + sep + c + sep + d
  {
    assert [a, b, c, d][1..] == [b, c, d];
    assert [b, c, d][1..] == [c, d];
    assert [c, d][1..] == [d];
    assert Join([c, d], sep) == c + sep + d;
    assert Join([b, c, d], sep) == b + sep + (c + sep + d);
  }

  lemma JoinSnoc(parts: seq<string>, last: string, sep: string)
    requires |parts| > 0
    ensures Join(parts + [last], sep) == Join(parts, sep) + sep + last
    decreases |parts|
  {
    if |parts| == 1 {
      assert parts + [last] == [parts[0], last];
    } else {
      assert (parts + [last])[1..] == parts[1..] + [last];
      JoinSnoc(parts[1..], last, sep);
    }
  }

  /** `s.split(sep)` for a one-character separator: joining the pieces back gives `s`. */
  function Split(s: string, sep: char): (parts: seq<string>)
    ensures |parts| > 0
    ensures forall i :: 0 <= i < |parts| ==> sep !in parts[i]
    ensures Join(parts, [sep]) == s
    decreases |s|
  {
    if |s| == 0 then [""]
    else
      var rest := Split(s[1..], sep);
      if s[0] == sep then
        assert Join([""] + rest, [sep]) == [sep] + Join(rest, [sep]) by {
          assert ([""] + rest)[1..] == rest;
        }
        [""] + rest
      else
        var parts := [[s[0]] + rest[0]] + rest[1..];
        assert Join(parts, [sep]) == [s[0]] + Join(rest, [sep]) by {
          if |rest| > 1 {
            assert parts[1..] == rest[1..];
          }
        }
        assert forall i :: 0 < i < |parts| ==> parts[i] == rest[i];
        parts
  }

  /** Split inverts join: pieces free of the separator are exactly what splitting their join gives back. */
  lemma {:induction false} SplitJoin(parts: seq<string>, sep: char)
    requires |parts| > 0
    requires forall i :: 0 <= i < |parts| ==> sep !in parts[i]
    ensures Split(Join(parts, [sep]), sep) == parts
    decreases |Join(parts, [sep])|
  {
    var s := Join(parts, [sep]);
    if |parts| > 1 {
      assert s == parts[0] + [sep] + Join(parts[1..], [sep]);
    }
    if |s| == 0 {
      assert |parts| == 1;
    } else if |parts[0]| == 0 {
      assert |parts| > 1;
      assert s[0] == sep && s[1..] == Join(parts[1..], [sep]);
      SplitJoin(parts[1..], sep);
      assert [""] + parts[1..] == parts;
    } else {
      var t := parts[0][1..];
      var ps := [t] + parts[1..];
      assert s[0] == parts[0][0] != sep;
      assert forall i :: 0 <= i < |ps| ==> sep !in ps[i] by {
        forall i | 0 <= i < |ps|
          ensures sep !in ps[i]
        {
          if i == 0 {
            assert forall k :: 0 <= k < |t| ==> t[k] == parts[0][k + 1];
          } else {
            assert ps[i] == parts[i];
          }
        }
      }
      if |parts| > 1 {
        assert ps[1..] == parts[1..];
        assert Join(ps, [sep]) == t + [sep] + Join(parts[1..], [sep]);
      }
      assert s[1..] == Join(ps, [sep]);
      SplitJoin(ps, sep);
      assert [parts[0][0]] + t == parts[0];
      assert [[s[0]] + ps[0]] + ps[1..] == parts;
    }
  }

  predicate IsDigit(c: char) {
    '0' <= c <= '9'
  }

  predicate AllDigits(s: string) {
    forall i :: 0 <= i < |s| ==> IsDigit(s[i])
  }

  predicate IsHexDigit(c: char) {
    IsDigit(c) || 'a' <= c <= 'f' || 'A' <= c <= 'F'
  }

  predicate IsRadixDigit(c: char, hex: bool) {
    if hex then IsHexDigit(c) else IsDigit(c)
  }

  function DigitValue(c: char): (d: nat)
    requires IsHexDigit(c)
    ensures d < 16
    ensures IsDigit(c) ==> d < 10
  {
    if IsDigit(c) then c as int - '0' as int
    else if 'a' <= c <= 'f' then c as int - 'a' as int + 10
    else c as int - 'A' as int + 10
  }

  function DigitChar(d: nat): char
    requires d < 10
  {
    ('0' as int + d) as char
  }

  /** The length of the run of ASCII digits starting at `q`. */
  function DigitRun(s: string, q: nat): (n: nat)
    requires q <= |s|
    ensures q + n <= |s| && AllDigits(s[q..q + n])
    ensures q + n < |s| ==> !IsDigit(s[q + n])
    decreases |s| - q
  {
    if q < |s| && IsDigit(s[q]) then
      var n := 1 + DigitRun(s, q + 1);
      assert s[q..q + n] == [s[q]] + s[q + 1..q + n];
      n
    else 0
  }

  /** The run starting at `q` is exactly a given string of digits when a non-digit follows it. */
  lemma {:induction false} DigitRunFrom(s: string, q: nat, digits: string)
    requires q + |digits| < |s| && AllDigits(digits) && s[q..q + |digits|] == digits && !IsDigit(s[q + |digits|])
    ensures DigitRun(s, q) == |digits|
    decreases |digits|
  {
    if |digits| > 0 {
      assert s[q] == digits[0];
      assert s[q + 1..q + |digits|] == digits[1..];
      DigitRunFrom(s, q + 1, digits[1..]);
    }
  }

  /** The value of a run of decimal digits. */
  function DecimalValue(s: string): nat
    requires AllDigits(s)
  {
    if |s| == 0 then 0 else 10 * DecimalValue(s[..|s| - 1]) + DigitValue(s[|s| - 1])
  }

  /** The value of a run of hexadecimal digits. */
  function HexValue(s: string): nat
    requires forall i :: 0 <= i < |s| ==> IsHexDigit(s[i])
  {
    if |s| == 0 then 0 else 16 * HexValue(s[..|s| - 1]) + DigitValue(s[|s| - 1])
  }

  /** The decimal numeral of `n`, as `Number.prototype.toString` and `Integer.toString` write it. */
  function NatToString(n: nat): (r: string)
    ensures |r| > 0 && AllDigits(r)
    ensures r[0] == '0' ==> n == 0 && r == "0"
    ensures DecimalValue(r) == n
    decreases n
  {
    if n < 10 then [DigitChar(n)]
    else
      var p := NatToString(n / 10);
      var r := p + [DigitChar(n % 10)];
      assert r[..|r| - 1] == p;
      r
  }

  lemma NatToStringInjective(a: nat, b: nat)
    requires NatToString(a) == NatToString(b)
    ensures a == b
  {
  }

  /** Decimal numeral of an integer, with a leading `-` for negative values. */
  function IntToString(i: int): (r: string)
    ensures |r| > 0
    ensures r[0] == '-' <==> i < 0
    ensures i < 0 ==> |r| > 1 && AllDigits(r[1..]) && DecimalValue(r[1..]) == -i
    ensures i >= 0 ==> AllDigits(r) && DecimalValue(r) == i
  {
    if i < 0 then "-" + NatToString(-i) else NatToString(i)
  }

  /** A numeral holds no colon, so it can stand on either side of a `surah:verse` key. */
  lemma NoColonInNumeral(i: int)
    ensures ':' !in IntToString(i)
  {
    var s := IntToString(i);
    assert forall k :: 0 <= k < |s| ==> s[k] == '-' || IsDigit(s[k]) by {
      forall k | 0 <= k < |s|
        ensures s[k] == '-' || IsDigit(s[k])
      {
        if i < 0 && k > 0 {
          assert s[k] == s[1..][k - 1];
        }
      }
    }
  }

  /** The longest prefix of `s` made of digits of the given radix. */
  function LeadingDigits(s: string, hex: bool): (r: string)
    ensures |r| <= |s| && r == s[..|r|]
    ensures forall i :: 0 <= i < |r| ==> IsRadixDigit(r[i], hex)
    ensures |r| < |s| ==> !IsRadixDigit(s[|r|], hex)
  {
    if |s| > 0 && IsRadixDigit(s[0], hex) then [s[0]] + LeadingDigits(s[1..], hex) else ""
  }

  /** A JavaScript number as `parseInt` produces it: an integer or NaN. */
  datatype Num = Int(value: int) | NaN {
    /** JavaScript truthiness: NaN and 0 are falsy. */
    predicate Truthy() {
      Int? && value != 0
    }
  }

  /** `s` with leading white space and one optional sign removed. */
  function Unsigned(s: string): string {
    var t := TrimStart(s);
    if |t| > 0 && (t[0] == '-' || t[0] == '+') then t[1..] else t
  }

  predicate HasHexPrefix(u: string) {
    |u| >= 2 && u[0] == '0' && (u[1] == 'x' || u[1] == 'X')
  }

  /** The magnitude `parseInt` reads after the sign, or none when no digit follows. */
  function UnsignedValue(u: string, detectHex: bool): Option<nat> {
    var hex := detectHex && HasHexPrefix(u);
    var body := if hex then u[2..] else u;
    var digits := LeadingDigits(body, hex);
    if |digits| == 0 then None
    else Some(if hex then HexValue(digits) else DecimalValue(digits))
  }

  /**
   * `parseInt(s)` (no radix: a `0x` prefix switches to base 16) when `detectHex`,
   * `parseInt(s, 10)` otherwise. NaN exactly when no digit follows the sign.
   */
  function ParseIntRadix(s: string, detectHex: bool): (r: Num)
    ensures !detectHex ==> (r.NaN? <==> !(|Unsigned(s)| > 0 && IsDigit(Unsigned(s)[0])))
    ensures detectHex ==>
      (r.NaN? <==> (var u := Unsigned(s);
                    !(|u| > 0 && IsDigit(u[0])) || (HasHexPrefix(u) && !(|u| > 2 && IsHexDigit(u[2])))))
  {
    var t := TrimStart(s);
    match UnsignedValue(Unsigned(s), detectHex)
    case None => NaN
    case Some(m) => Int(if |t| > 0 && t[0] == '-' then 0 - m else m)
  }

  /** Text that starts with neither white space, a sign nor a digit parses to `NaN`. */
  lemma ParseIntOfNonNumeral(s: string, detectHex: bool)
    requires |s| > 0 && !IsJsSpace(s[0]) && s[0] != '-' && s[0] != '+' && !IsDigit(s[0])
    ensures ParseIntRadix(s, detectHex) == NaN
  {
    assert TrimStart(s) == s;
  }

  /** `parseInt(s)`. */
  function ParseInt(s: string): Num {
    ParseIntRadix(s, true)
  }

  /** `parseInt(s, 10)`. */
  function ParseInt10(s: string): Num {
    ParseIntRadix(s, false)
  }

  lemma LeadingDigitsOfDigits(s: string, hex: bool)
    requires AllDigits(s)
    ensures LeadingDigits(s, hex) == s
  {
  }

  lemma UnsignedValueOfDigits(d: string, detectHex: bool)
    requires |d| > 0 && AllDigits(d)
    ensures UnsignedValue(d, detectHex) == Some(DecimalValue(d))
  {
    assert !HasHexPrefix(d) by {
      if |d| >= 2 {
        assert IsDigit(d[1]);
      }
    }
    LeadingDigitsOfDigits(d, false);
  }

  /** `parseInt` of a run of decimal digits is its value. */
  lemma ParseIntOfDigits(d: string, detectHex: bool)
    requires |d| > 0 && AllDigits(d)
    ensures ParseIntRadix(d, detectHex) == Int(DecimalValue(d))
  {
    assert IsDigit(d[0]) && !IsJsSpace(d[0]);
    assert TrimStart(d) == d;
    assert Unsigned(d) == d;
    UnsignedValueOfDigits(d, detectHex);
    assert UnsignedValue(Unsigned(d), detectHex) == Some(DecimalValue(d));
  }

  /** `parseInt` reads back every integer that `toString` writes, in both radix modes. */
  lemma ParseIntOfIntToString(i: int, detectHex: bool)
    ensures ParseIntRadix(IntToString(i), detectHex) == Int(i)
  {
    var s := IntToString(i);
    assert !IsJsSpace(s[0]);
    assert TrimStart(s) == s;
    if i < 0 {
      var d := s[1..];
      assert Unsigned(s) == d;
      UnsignedValueOfDigits(d, detectHex);
      assert UnsignedValue(Unsigned(s), detectHex) == Some(-i);
    } else {
      assert Unsigned(s) == s;
      UnsignedValueOfDigits(s, detectHex);
      assert UnsignedValue(Unsigned(s), detectHex) == Some(i);
    }
  }

  /** Java `Integer.parseInt` over ASCII digits; `None` stands for NumberFormatException. */
  function JavaParseInt(s: string): (r: Option<int>)
    ensures r.Some? ==> -0x8000_0000 <= r.value < 0x8000_0000
    ensures r.Some? ==> |s| > 0
  {
    if |s| == 0 then None
    else
      var digits := if s[0] == '-' || s[0] == '+' then s[1..] else s;
      if |digits| == 0 || !AllDigits(digits) then None
      else
        var v: int := if s[0] == '-' then 0 - DecimalValue(digits) else DecimalValue(digits);
        if -0x8000_0000 <= v < 0x8000_0000 then Some(v) else None
  }

  /** `Integer.parseInt` reads back every 32-bit integer that `Integer.toString` writes. */
  lemma JavaParseIntOfIntToString(i: int)
    requires -0x8000_0000 <= i < 0x8000_0000
    ensures JavaParseInt(IntToString(i)) == Some(i)
  {
  }

  /**
   * A string that is not a numeral is refused by `Integer.parseInt`: the
   * empty string, a bare sign, a first character that is neither a sign nor
   * a digit, or a non-digit anywhere after the first character.
   */
  lemma JavaParseIntRefusesNonNumerals(s: string)
    requires |s| == 0 || s == "-" || s == "+" ||
      (!IsDigit(s[0]) && s[0] != '-' && s[0] != '+') ||
      (exists i :: 0 < i < |s| && !IsDigit(s[i]))
    ensures JavaParseInt(s) == None
  {
    if |s| > 0 && s != "-" && s != "+" && (IsDigit(s[0]) || s[0] == '-' || s[0] == '+') {
      var i :| 0 < i < |s| && !IsDigit(s[i]);
      var digits := if s[0] == '-' || s[0] == '+' then s[1..] else s;
      if s[0] == '-' || s[0] == '+' {
        assert digits[i - 1] == s[i];
      } else {
        assert digits[i] == s[i];
      }
    }
  }

  /**
   * A numeral whose value lies outside 32 bits is refused as well: above
   * 2147483647 unsigned or with `+`, below -2147483648 with `-`.
   */
  lemma JavaParseIntRefusesOutOfRange(sign: string, digits: string)
    requires sign == "" || sign == "-" || sign == "+"
    requires |digits| > 0 && AllDigits(digits)
    requires DecimalValue(digits) > 0x8000_0000 || (DecimalValue(digits) == 0x8000_0000 && sign != "-")
    ensures JavaParseInt(sign + digits) == None
  {
    var s := sign + digits;
    if sign == "" {
      assert s == digits;
    } else {
      assert s[1..] == digits;
    }
  }
}

=== FILE: worddata.dfy ===
/**
 * `WordDataExtractor.java`: prints the words of one verse as a one-line JSON
 * array, with the token texts interpolated as they are.
 */
module WordData {
  import opened Wrappers
  import opened Text
  import opened JsonString
  import opened Console
  import opened QuranWords

  /** What `Document.getVerse` does: hands out the tokens, returns `null`, or throws. */
  datatype VerseLookup = Found(tokens: seq<Token>) | Missing | Fails(thrown: Thrown)

  const OpenPosition: string := "{\"position\": "
  const OpenArabic: string := ", \"arabic\": \""
  const OpenTransliteration: string := "\", \"transliteration\": \""
  const CloseObject: string := "\"}"

  /** The `String.format` of one token; the texts go in unescaped. */
  function ObjectText(t: Token): string {
    OpenPosition + IntToString(t.number) + OpenArabic + t.arabic + OpenTransliteration + t.buckwalter + CloseObject
  }

  /** The same object with its strings escaped as a JSON writer would. */
  function EscapedObjectText(t: Token): string {
    OpenPosition + IntToString(t.number) + OpenArabic + Escape(t.arabic) + OpenTransliteration + Escape(t.buckwalter) + CloseObject
  }

  predicate NeedsEscape(s: string) {
    exists i :: 0 <= i < |s| && IsEscaped(s[i])
  }

  /**
   * The printed object is well-escaped JSON exactly when neither text holds a
   * character `escape` would rewrite; otherwise it differs from the escaped one.
   */
  lemma VerbatimIsEscapedIffClean(t: Token)
    ensures ObjectText(t) == EscapedObjectText(t) <==> !NeedsEscape(t.arabic) && !NeedsEscape(t.buckwalter)
  {
    EscapeLength(t.arabic);
    EscapeLength(t.buckwalter);
    if !NeedsEscape(t.arabic) && !NeedsEscape(t.buckwalter) {
      assert Escape(t.arabic) == t.arabic;
      assert Escape(t.buckwalter) == t.buckwalter;
    } else {
      assert |ObjectText(t)| < |EscapedObjectText(t)|;
    }
  }

  function Objects(tokens: seq<Token>, render: Token -> string): seq<string> {
    seq(|tokens|, i requires 0 <= i < |tokens| => render(tokens[i]))
  }

  lemma ObjectsSnoc(tokens: seq<Token>, i: nat, render: Token -> string)
    requires i < |tokens|
    ensures Objects(tokens[..i + 1], render) == Objects(tokens[..i], render) + [render(tokens[i])]
  {
    var a, b := Objects(tokens[..i + 1], render), Objects(tokens[..i], render) + [render(tokens[i])];
    assert |a| == |b|;
    forall k | 0 <= k < |a|
      ensures a[k] == b[k]
    {
      assert tokens[..i + 1][k] == tokens[k];
    }
  }

  /**
   * The printing loop: each object followed by `", "` unless it is the last,
   * then `]` and a newline. It prints exactly the objects joined by `", "`.
   */
  method PrintArray(tokens: seq<Token>, render: Token -> string) returns (out: string)
    ensures out == "[" + Join(Objects(tokens, render), ", ") + "]\n"
  {
    out := "[";
    var i := 0;
    while i < |tokens|
      invariant 0 <= i <= |tokens|
      invariant out == "[" + Join(Objects(tokens[..i], render), ", ") + (if 0 < i < |tokens| then ", " else "")
    {
      ObjectsSnoc(tokens, i, render);
      if i > 0 {
        JoinSnoc(Objects(tokens[..i], render), render(tokens[i]), ", ");
      } else {
        assert Objects(tokens[..1], render) == [render(tokens[0])];
      }
      out := out + render(tokens[i]);
      if i < |tokens| - 1 {
        out := out + ", ";
      }
      i := i + 1;
    }
    assert tokens[..i] == tokens;
    out := out + "]\n";
  }

  /** The line printed for a verse's tokens. */
  function ArrayLine(tokens: seq<Token>): string {
    "[" + Join(Objects(tokens, ObjectText), ", ") + "]\n"
  }

  const Usage: string := "Usage: java WordDataExtractor <surah_number> <verse_number>"
  const FormatError: string := "Error: Invalid surah or verse number format"

  /**
   * `main`: fewer than two arguments prints the usage and exits 1; a malformed
   * number, a missing verse or a failing lookup is reported on standard error
   * with exit 1, the failing lookup with its stack trace, whose frame lines are
   * `frames`; otherwise the array of the verse's tokens is printed.
   */
  method Run(args: seq<string>, getVerse: (int, int) -> VerseLookup, frames: string) returns (o: Outcome)
    ensures |args| < 2 ==> o == OutLine(Usage, 1)
    ensures |args| >= 2 && (JavaParseInt(args[0]).None? || JavaParseInt(args[1]).None?) ==> o == ErrLine(FormatError, 1)
    ensures o.exitCode == 0 || o.exitCode == 1
    ensures o.exitCode == 0 <==> (
      |args| >= 2 && JavaParseInt(args[0]).Some? && JavaParseInt(args[1]).Some? &&
      getVerse(JavaParseInt(args[0]).value, JavaParseInt(args[1]).value).Found?)
    ensures o.exitCode == 0 ==> (
      o.stderr == "" &&
      o.stdout == ArrayLine(getVerse(JavaParseInt(args[0]).value, JavaParseInt(args[1]).value).tokens))
    ensures (|args| >= 2 && JavaParseInt(args[0]).Some? && JavaParseInt(args[1]).Some? &&
      getVerse(JavaParseInt(args[0]).value, JavaParseInt(args[1]).value).Missing?) ==> (
      o == ErrLine("Error: Verse not found: " + IntToString(JavaParseInt(args[0]).value) + ":" +
        IntToString(JavaParseInt(args[1]).value), 1))
    ensures (|args| >= 2 && JavaParseInt(args[0]).Some? && JavaParseInt(args[1]).Some? &&
      getVerse(JavaParseInt(args[0]).value, JavaParseInt(args[1]).value).Fails?) ==> (
      o == Outcome("", ReportText(getVerse(JavaParseInt(args[0]).value, JavaParseInt(args[1]).value).thrown, frames), 1))
  {
    if |args| < 2 {
      return OutLine(Usage, 1);
    }
    var surahNumber := JavaParseInt(args[0]);
    var verseNumber := JavaParseInt(args[1]);
    if surahNumber.None? || verseNumber.None? {
      return ErrLine(FormatError, 1);
    }
    match getVerse(surahNumber.value, verseNumber.value)
    case Missing =>
      o := ErrLine("Error: Verse not found: " + IntToString(surahNumber.value) + ":" + IntToString(verseNumber.value), 1);
    case Fails(thrown) =>
      o := Outcome("", ReportText(thrown, frames), 1);
    case Found(tokens) =>
      var out := PrintArray(tokens, ObjectText);
      o := Outcome(out, "", 0);
  }
}

=== FILE: wordextractor.dfy ===
/**
 * `WordExtractor.java`: the morphological analysis of one verse as a JSON
 * object `{surah, verse, words}`. The json-simple objects are hash maps, so the
 * result is modelled as a JSON value and not as printed text.
 */
module WordExtractor {
  import opened Wrappers
  import opened Text
  import opened Console
  import Json

  /** The parts of a JQuranTree word analysis that are read; each may be `null`. */
  datatype Analysis = Analysis(lemmaText: Option<string>, root: Option<string>, partOfSpeech: Option<string>)

  /** A token of the analysis text: whether its word type is not NONE, its Arabic text and its analysis. */
  datatype AToken = AToken(isWord: bool, arabic: string, analysis: Option<Analysis>)

  /** Opening a verse: its analysed tokens, or the exception the library throws. */
  datatype VerseLookup = Found(tokens: seq<AToken>) | Fails(thrown: Thrown)

  /** `x != null ? x.toString() : null` put into a JSON object. */
  function Nullable(x: Option<string>): Json.Value {
    if x.Some? then Json.Str(x.value) else Json.Null
  }

  /** The object built for the token at index `i`. */
  function WordObject(i: nat, t: AToken): (r: Json.Value)
    ensures r.Obj? && "position" in r.fields && "arabic" in r.fields && r.fields["position"] == Json.Number(i + 1) && r.fields["arabic"] == Json.Str(t.arabic)
    ensures t.analysis.None? ==> r.fields.Keys == {"position", "arabic"}
    ensures t.analysis.Some? ==> (
      r.fields.Keys == {"position", "arabic", "lemma", "root", "partOfSpeech", "translation"} &&
      r.fields["translation"] == r.fields["lemma"] == Nullable(t.analysis.value.lemmaText) &&
      r.fields["root"] == Nullable(t.analysis.value.root) &&
      r.fields["partOfSpeech"] == Nullable(t.analysis.value.partOfSpeech))
  {
    var base := map["position" := Json.Number(i + 1), "arabic" := Json.Str(t.arabic)];
    match t.analysis
    case None => Json.Obj(base)
    case Some(a) =>
      var lemmaValue := Nullable(a.lemmaText);
      Json.Obj(base["lemma" := lemmaValue]["root" := Nullable(a.root)]["partOfSpeech" := Nullable(a.partOfSpeech)]["translation" := lemmaValue])
  }

  /** The `position` of a word object. */
  function Position(v: Json.Value): int {
    if v.Obj? && "position" in v.fields && v.fields["position"].Number? then v.fields["position"].n else 0
  }

  /** `v` is the object of a word token past index `lo`, placed at that token's position. */
  predicate ObjectOfWord(tokens: seq<AToken>, lo: nat, v: Json.Value) {
    lo < Position(v) <= |tokens| && tokens[Position(v) - 1].isWord &&
    v == WordObject(Position(v) - 1, tokens[Position(v) - 1])
  }

  /** The loop over tokens `i..`: tokens whose word type is NONE are skipped. */
  function WordsFrom(tokens: seq<AToken>, i: nat): (r: seq<Json.Value>)
    requires i <= |tokens|
    ensures forall k :: 0 <= k < |r| ==> ObjectOfWord(tokens, i, r[k])
    ensures forall j, k :: 0 <= j < k < |r| ==> Position(r[j]) < Position(r[k])
    decreases |tokens| - i
  {
    if i == |tokens| then []
    else
      var rest := WordsFrom(tokens, i + 1);
      if tokens[i].isWord then
        var w := WordObject(i, tokens[i]);
        WordsFromCons(tokens, i, rest);
        [w] + rest
      else rest
  }

  /** Putting the object of word `i` in front of the list for `i + 1..` keeps the list's three properties. */
  lemma WordsFromCons(tokens: seq<AToken>, i: nat, rest: seq<Json.Value>)
    requires i < |tokens| && tokens[i].isWord
    requires forall k :: 0 <= k < |rest| ==> ObjectOfWord(tokens, i + 1, rest[k])
    requires forall j, k :: 0 <= j < k < |rest| ==> Position(rest[j]) < Position(rest[k])
    ensures var r := [WordObject(i, tokens[i])] + rest;
      forall k :: 0 <= k < |r| ==> ObjectOfWord(tokens, i, r[k])
    ensures var r := [WordObject(i, tokens[i])] + rest;
      forall j, k :: 0 <= j < k < |r| ==> Position(r[j]) < Position(r[k])
  {
    var w := WordObject(i, tokens[i]);
    assert Position(w) == i + 1;
    var r := [w] + rest;
    assert forall k :: 1 <= k < |r| ==> r[k] == rest[k - 1];
  }

  /** No word is lost: every token whose type is not NONE has its object, at position index plus one. */
  lemma {:induction false} EveryWordListed(tokens: seq<AToken>, i: nat, j: nat)
    requires i <= j < |tokens| && tokens[j].isWord
    ensures WordObject(j, tokens[j]) in WordsFrom(tokens, i)
    decreases j - i
  {
    var rest := WordsFrom(tokens, i + 1);
    if i < j {
      EveryWordListed(tokens, i + 1, j);
      assert WordObject(j, tokens[j]) in rest;
    }
  }

  /** Without NONE tokens, positions run 1..n with no gap. */
  lemma {:induction false} AllWordsContiguous(tokens: seq<AToken>, i: nat)
    requires i <= |tokens|
    requires forall k :: i <= k < |tokens| ==> tokens[k].isWord
    ensures |WordsFrom(tokens, i)| == |tokens| - i
    ensures forall k :: 0 <= k < |WordsFrom(tokens, i)| ==> Position(WordsFrom(tokens, i)[k]) == i + k + 1
    decreases |tokens| - i
  {
    if i < |tokens| {
      AllWordsContiguous(tokens, i + 1);
      var rest := WordsFrom(tokens, i + 1);
      var r := WordsFrom(tokens, i);
      assert r == [WordObject(i, tokens[i])] + rest;
      forall k | 0 <= k < |r|
        ensures Position(r[k]) == i + k + 1
      {
        if k > 0 {
          assert r[k] == rest[k - 1];
        }
      }
    }
  }

  /** How a run ends: the result object printed with exit 0, or a message on standard error with exit 1. */
  datatype Run = Printed(result: Json.Value) | Failed(stderr: string, exitCode: int)

  const Usage: string := "Usage: java WordExtractor <surahNumber> <verseNumber>"

  /**
   * `main`: fewer than two arguments prints the usage and exits 1; any
   * exception (a malformed number, a missing chapter or verse) prints its
   * message and its stack trace, whose frame lines are `frames`, and exits 1;
   * otherwise `{surah, verse, words}` is printed.
   */
  function Extract(args: seq<string>, lookup: (int, int) -> VerseLookup, frames: string): (r: Run)
    ensures |args| < 2 ==> r == Failed(Usage + "\n", 1)
    ensures |args| >= 2 && JavaParseInt(args[0]).None? ==> r == Failed(ReportText(NumberFormat(args[0]), frames), 1)
    ensures |args| >= 2 && JavaParseInt(args[0]).Some? && JavaParseInt(args[1]).None? ==>
      r == Failed(ReportText(NumberFormat(args[1]), frames), 1)
    ensures r.Failed? ==> r.exitCode == 1
    ensures r.Printed? <==> (
      |args| >= 2 && JavaParseInt(args[0]).Some? && JavaParseInt(args[1]).Some? &&
      lookup(JavaParseInt(args[0]).value, JavaParseInt(args[1]).value).Found?)
    ensures r.Printed? ==> (
      var s, v := JavaParseInt(args[0]).value, JavaParseInt(args[1]).value;
      r.result == Json.Obj(map["surah" := Json.Number(s), "verse" := Json.Number(v),
        "words" := Json.Arr(WordsFrom(lookup(s, v).tokens, 0))]))
    ensures (|args| >= 2 && JavaParseInt(args[0]).Some? && JavaParseInt(args[1]).Some? &&
      lookup(JavaParseInt(args[0]).value, JavaParseInt(args[1]).value).Fails?) ==>
      r == Failed(ReportText(lookup(JavaParseInt(args[0]).value, JavaParseInt(args[1]).value).thrown, frames), 1)
  {
    if |args| < 2 then Failed(Usage + "\n", 1)
    else match (JavaParseInt(args[0]), JavaParseInt(args[1]))
      case (None, _) => Failed(ReportText(NumberFormat(args[0]), frames), 1)
      case (_, None) => Failed(ReportText(NumberFormat(args[1]), frames), 1)
      case (Some(s), Some(v)) =>
        match lookup(s, v)
        case Fails(thrown) => Failed(ReportText(thrown, frames), 1)
        case Found(tokens) =>
          Printed(Json.Obj(map["surah" := Json.Number(s), "verse" := Json.Number(v), "words" := Json.Arr(WordsFrom(tokens, 0))]))
  }
}

=== FILE: wordservice.dfy ===
/**
 * The word-by-word service of `server/word-service.ts`: splitting a verse's
 * Arabic text into words, and the handler of
 * `GET /api/word-analysis/:surahNumber/:verseNumber`, which returns the stored
 * analysis of a verse or stores a made one first.
 */
module WordService {
  import opened Wrappers
  import opened Text
  import opened Seqs
  import opened Schema
  import opened Routes

  /** `word.trim().length > 0`. */
  predicate HasText(piece: string) {
    |Trim(piece)| > 0
  }

  /** The pieces of `split(' ')` that are not blank. */
  function Words(text: string): (r: seq<string>)
    ensures forall i :: 0 <= i < |r| ==> ' ' !in r[i] && !AllSpace(r[i])
    ensures IsSubsequence(r, Split(text, ' '))
    ensures forall p :: multiset(r)[p] == if HasText(p) then multiset(Split(text, ' '))[p] else 0
  {
    var parts := Split(text, ' ');
    KeptPieces(parts);
    Filter(parts, HasText)
  }

  /** The kept pieces of a space split hold no space, are not blank, and are counted as in the split. */
  lemma KeptPieces(parts: seq<string>)
    requires forall i :: 0 <= i < |parts| ==> ' ' !in parts[i]
    ensures var r := Filter(parts, HasText);
      (forall i :: 0 <= i < |r| ==> ' ' !in r[i] && !AllSpace(r[i])) &&
      forall p :: multiset(r)[p] == if HasText(p) then multiset(parts)[p] else 0
  {
    var r := Filter(parts, HasText);
    forall i | 0 <= i < |r|
      ensures ' ' !in r[i] && !AllSpace(r[i])
    {
      assert r[i] in parts && HasText(r[i]);
      var j :| 0 <= j < |parts| && parts[j] == r[i];
    }
    forall p
      ensures multiset(r)[p] == if HasText(p) then multiset(parts)[p] else 0
    {
      FilterCount(parts, HasText, p);
    }
  }

  /**
   * `extractSimpleWordAnalysis`: one row per word, positions 1..n in text
   * order, all analysis columns null. Ids are given by the database on insert,
   * so they are 0 here.
   */
  function SimpleWordAnalysis(verseId: int, arabicText: string, now: int): (r: seq<WordRow>)
    ensures |r| == |Words(arabicText)|
    ensures forall i :: 0 <= i < |r| ==> r[i].wordPosition == i + 1 && r[i].wordText == Words(arabicText)[i]
    ensures forall i :: 0 <= i < |r| ==> r[i].verseId == verseId && r[i].createdAt == now
    ensures forall i :: 0 <= i < |r| ==>
      r[i].transliteration.None? && r[i].translation.None? && r[i].root.None? && r[i].partOfSpeech.None?
  {
    WordRows(verseId, Words(arabicText), now)
  }

  /** One bare row per word, numbered from 1 in order. */
  function WordRows(verseId: int, words: seq<string>, now: int): (r: seq<WordRow>)
    ensures |r| == |words|
    ensures forall i :: 0 <= i < |r| ==> r[i] == WordRow(0, verseId, i + 1, words[i], None, None, None, None, now)
  {
    seq(|words|, i requires 0 <= i < |words| => WordRow(0, verseId, i + 1, words[i], None, None, None, None, now))
  }

  /**
   * Words separated by single spaces come back as they were: the split
   * inverts the join when no word is blank or holds a space.
   */
  lemma WordsOfJoin(words: seq<string>)
    requires |words| > 0
    requires forall i :: 0 <= i < |words| ==> ' ' !in words[i] && HasText(words[i])
    ensures Words(Join(words, " ")) == words
  {
    SplitJoin(words, ' ');
    FilterAll(words, HasText);
  }

  /** The verse and word-analysis tables the handler reads and writes; `nextWordId` is the serial column. */
  datatype WordDb = WordDb(verses: seq<Verse>, words: seq<WordRow>, nextWordId: int)

  function WordPosition(w: WordRow): int {
    w.wordPosition
  }

  function VerseIdIs(verseId: int): WordRow -> bool {
    (w: WordRow) => w.verseId == verseId
  }

  /** Database calls `from` up to `from + n` all go through. */
  predicate AllOk(ok: nat -> bool, from: nat, n: nat) {
    forall k: nat :: from <= k < from + n ==> ok(k)
  }

  /** The tables after the insert loop, the rows it stored, and whether an insert threw. */
  datatype Inserted = Inserted(db: WordDb, stored: seq<WordRow>, failed: bool)

  /**
   * `db.insert(wordAnalysis).values(word).returning()` for each word in turn;
   * the insert of `rows[i]` goes through iff `ok(from + i)`, and the first one
   * that throws ends the loop with the rows before it kept.
   */
  function InsertAll(db: WordDb, rows: seq<WordRow>, ok: nat -> bool, from: nat): (r: Inserted)
    ensures r.db.verses == db.verses && r.db.nextWordId == db.nextWordId + |r.stored|
    ensures r.db.words == db.words + r.stored
    ensures |r.stored| <= |rows|
    ensures forall i :: 0 <= i < |r.stored| ==> r.stored[i] == rows[i].(id := db.nextWordId + i) && ok(from + i)
    ensures r.failed <==> |r.stored| < |rows|
    ensures r.failed ==> !ok(from + |r.stored|)
    ensures !r.failed <==> AllOk(ok, from, |rows|)
    decreases |rows|
  {
    if |rows| == 0 then Inserted(db, [], false)
    else if !ok(from) then Inserted(db, [], true)
    else
      var stored := rows[0].(id := db.nextWordId);
      var next := db.(words := db.words + [stored], nextWordId := db.nextWordId + 1);
      var rest := InsertAll(next, rows[1..], ok, from + 1);
      InsertAllStep(db, rows, ok, from, rest);
      Inserted(rest.db, [stored] + rest.stored, rest.failed)
  }

  /** One step of `InsertAll`: the first row stored under the next id, then the rest. */
  lemma InsertAllStep(db: WordDb, rows: seq<WordRow>, ok: nat -> bool, from: nat, rest: Inserted)
    requires |rows| > 0 && ok(from)
    requires rest.db.verses == db.verses && rest.db.nextWordId == db.nextWordId + 1 + |rest.stored|
    requires rest.db.words == (db.words + [rows[0].(id := db.nextWordId)]) + rest.stored
    requires |rest.stored| <= |rows[1..]|
    requires forall i :: 0 <= i < |rest.stored| ==> rest.stored[i] == rows[1..][i].(id := db.nextWordId + 1 + i) && ok(from + 1 + i)
    requires rest.failed <==> |rest.stored| < |rows[1..]|
    requires rest.failed ==> !ok(from + 1 + |rest.stored|)
    requires !rest.failed <==> AllOk(ok, from + 1, |rows| - 1)
    ensures var s := [rows[0].(id := db.nextWordId)] + rest.stored;
      rest.db.words == db.words + s && |s| <= |rows| && rest.db.nextWordId == db.nextWordId + |s| &&
      (forall i :: 0 <= i < |s| ==> s[i] == rows[i].(id := db.nextWordId + i) && ok(from + i)) &&
      (rest.failed <==> |s| < |rows|) && (rest.failed ==> !ok(from + |s|)) &&
      (!rest.failed <==> AllOk(ok, from, |rows|))
  {
    var s := [rows[0].(id := db.nextWordId)] + rest.stored;
    ConsRenumbered(rows, db.nextWordId, rest.stored);
    assert forall i :: 1 <= i < |s| ==> s[i] == rest.stored[i - 1];
    assert AllOk(ok, from, |rows|) <==> AllOk(ok, from + 1, |rows| - 1);
  }

  /** Numbering the first row `base` in front of rest rows numbered from `base + 1` numbers all of them from `base`. */
  lemma ConsRenumbered(rows: seq<WordRow>, base: int, rest: seq<WordRow>)
    requires |rows| > 0 && |rest| <= |rows| - 1
    requires forall i :: 0 <= i < |rest| ==> rest[i] == rows[1..][i].(id := base + 1 + i)
    ensures forall i :: 0 <= i < |rest| + 1 ==> ([rows[0].(id := base)] + rest)[i] == rows[i].(id := base + i)
  {
    forall i | 1 <= i < |rest| + 1
      ensures ([rows[0].(id := base)] + rest)[i] == rows[i].(id := base + i)
    {
      assert ([rows[0].(id := base)] + rest)[i] == rest[i - 1] && rows[i] == rows[1..][i - 1];
    }
  }

  datatype Served = Served(db: WordDb, reply: Reply<seq<WordRow>>)

  const RequiredMessage: string := "Surah number and verse number are required"
  const InvalidMessage: string := "Invalid surah or verse number"
  const NotFoundMessage: string := "Verse not found"
  const ServerErrorMessage: string := "Error processing word analysis"

  /** The verse the handler settles on: the first whose key is `surahNum:verseNum`. */
  function VerseAt(db: WordDb, surahNum: int, verseNum: int): (r: Option<Verse>)
    ensures r.None? <==> forall i :: 0 <= i < |db.verses| ==> db.verses[i].uniqueKey != VerseKey(surahNum, verseNum)
    ensures r.Some? ==> r.value in db.verses && r.value.uniqueKey == VerseKey(surahNum, verseNum)
  {
    var key := VerseKey(surahNum, verseNum);
    Find(db.verses, (v: Verse) => v.uniqueKey == key)
  }

  /** The stored analysis rows of a verse. */
  function Existing(db: WordDb, verse: Verse): seq<WordRow> {
    Filter(db.words, VerseIdIs(verse.id))
  }

  /**
   * The branch for a verse with no stored rows: its words inserted one by
   * one, the insert of word `i` going through iff `ok(2 + i)`; the first one
   * that throws answers 500 and keeps the rows inserted before it.
   */
  function StoreFresh(db: WordDb, verse: Verse, now: int, ok: nat -> bool): (r: Served)
    ensures r.reply.Body? || r.reply == Message(500, ServerErrorMessage)
    ensures r.reply.Body? ==> r.reply.status == 200 && SortedBy(r.reply.body, WordPosition)
    ensures r.db.verses == db.verses && |db.words| <= |r.db.words| && r.db.words[..|db.words|] == db.words
    ensures Kept(db, SimpleWordAnalysis(verse.id, verse.arabicText, now), ok, r)
  {
    var made := SimpleWordAnalysis(verse.id, verse.arabicText, now);
    assert SortedBy(made, WordPosition);
    Reply(db, made, ok, InsertAll(db, made, ok, 2))
  }

  /** The reply once the insert loop is over: 500 if an insert threw, else the stored rows in position order. */
  function Reply(db: WordDb, made: seq<WordRow>, ok: nat -> bool, ins: Inserted): (r: Served)
    requires SortedBy(made, WordPosition)
    requires ins == InsertAll(db, made, ok, 2)
    ensures r.reply.Body? || r.reply == Message(500, ServerErrorMessage)
    ensures r.reply.Body? ==> r.reply.status == 200 && SortedBy(r.reply.body, WordPosition)
    ensures r.db.verses == db.verses && |db.words| <= |r.db.words| && r.db.words[..|db.words|] == db.words
    ensures Kept(db, made, ok, r)
  {
    assert forall i :: 0 <= i < |ins.stored| ==> ins.stored[i] == made[i].(id := db.nextWordId + i);
    StoredSorted(made, ins);
    SortBySortedInput(ins.stored, WordPosition);
    var r := if ins.failed then Served(ins.db, Message(500, ServerErrorMessage))
      else Served(ins.db, Body(200, SortBy(ins.stored, WordPosition)));
    InsertedKept(db, made, ok, ins, r);
    r
  }

  /**
   * What the insert loop leaves behind: the old rows untouched and `k` new
   * rows after them, the first `k` words numbered from the next id; the reply
   * is those rows exactly when every insert went through, and otherwise the
   * insert of word `k` threw.
   */
  predicate Kept(db: WordDb, made: seq<WordRow>, ok: nat -> bool, r: Served)
    requires |db.words| <= |r.db.words|
  {
    var k := |r.db.words| - |db.words|;
    k <= |made| && r.db.nextWordId == db.nextWordId + k &&
    (forall i :: 0 <= i < k ==> r.db.words[|db.words| + i] == made[i].(id := db.nextWordId + i)) &&
    (r.reply.Body? <==> AllOk(ok, 2, |made|)) &&
    (r.reply.Body? ==> k == |made| && r.reply.body == r.db.words[|db.words|..]) &&
    (r.reply.Message? ==> k < |made| && !ok(2 + k))
  }

  /** Rows made in position order and renumbered stay in position order. */
  lemma StoredSorted(made: seq<WordRow>, ins: Inserted)
    requires SortedBy(made, WordPosition)
    requires |ins.stored| <= |made|
    requires forall i :: 0 <= i < |ins.stored| ==> ins.stored[i].wordPosition == made[i].wordPosition
    ensures SortedBy(ins.stored, WordPosition)
  {
  }

  /** The insert loop's result read as the handler's reply. */
  lemma InsertedKept(db: WordDb, made: seq<WordRow>, ok: nat -> bool, ins: Inserted, r: Served)
    requires ins == InsertAll(db, made, ok, 2)
    requires r == (if ins.failed then Served(ins.db, Message(500, ServerErrorMessage)) else Served(ins.db, Body(200, ins.stored)))
    ensures r.db.verses == db.verses && |db.words| <= |r.db.words| && r.db.words[..|db.words|] == db.words
    ensures Kept(db, made, ok, r)
  {
    assert r.db.words[..|db.words|] == db.words;
    assert r.db.words[|db.words|..] == ins.stored;
  }

  /**
   * The answer once the verse is known: its stored rows sorted by position
   * with nothing written, or, when there are none, what `StoreFresh` does.
   * Database call `k` of the handler goes through iff `ok(k)`; call 1 is the
   * select of the stored rows, and a call that throws answers 500.
   */
  function Answer(db: WordDb, verse: Verse, now: int, ok: nat -> bool): (r: Served)
    ensures r.reply.Body? || r.reply == Message(500, ServerErrorMessage)
    ensures r.reply.Body? ==> r.reply.status == 200 && SortedBy(r.reply.body, WordPosition)
    ensures !ok(1) ==> r == Served(db, Message(500, ServerErrorMessage))
    ensures ok(1) && |Existing(db, verse)| > 0 ==> (
      r.db == db && r.reply.Body? && multiset(r.reply.body) == multiset(Existing(db, verse)) &&
      forall p :: WithKey(r.reply.body, WordPosition, p) == WithKey(Existing(db, verse), WordPosition, p))
    ensures ok(1) && |Existing(db, verse)| == 0 ==> r == StoreFresh(db, verse, now, ok)
  {
    if !ok(1) then Served(db, Message(500, ServerErrorMessage))
    else
      var existing := Existing(db, verse);
      if |existing| > 0 then
        SortByStableAll(existing, WordPosition);
        Served(db, Body(200, SortBy(existing, WordPosition)))
      else StoreFresh(db, verse, now, ok)
  }

  /**
   * `getVerseWordAnalysis`; `ok(0)` says whether the select of the verse goes
   * through, and `Answer` consults the later calls.
   */
  function GetVerseWordAnalysis(db: WordDb, surahNumber: string, verseNumber: string, now: int, ok: nat -> bool): (r: Served)
    ensures |surahNumber| == 0 || |verseNumber| == 0 ==> r == Served(db, Message(400, RequiredMessage))
    ensures r.reply.Message? && r.reply.status != 500 ==> r.db == db
    ensures (|surahNumber| > 0 && |verseNumber| > 0 && (ParseInt(surahNumber).NaN? || ParseInt(verseNumber).NaN?)) ==> (
      r == Served(db, Message(400, InvalidMessage)))
    ensures (|surahNumber| > 0 && |verseNumber| > 0 && ParseInt(surahNumber).Int? && ParseInt(verseNumber).Int? && !ok(0)) ==> (
      r == Served(db, Message(500, ServerErrorMessage)))
    ensures r.reply == Message(404, NotFoundMessage) <==> (
      |surahNumber| > 0 && |verseNumber| > 0 && ParseInt(surahNumber).Int? && ParseInt(verseNumber).Int? && ok(0) &&
      VerseAt(db, ParseInt(surahNumber).value, ParseInt(verseNumber).value).None?)
    ensures r.reply.Body? || r.db != db ==> (
      |surahNumber| > 0 && |verseNumber| > 0 && ParseInt(surahNumber).Int? && ParseInt(verseNumber).Int? && ok(0) &&
      VerseAt(db, ParseInt(surahNumber).value, ParseInt(verseNumber).value).Some? &&
      r == Answer(db, VerseAt(db, ParseInt(surahNumber).value, ParseInt(verseNumber).value).value, now, ok))
  {
    if |surahNumber| == 0 || |verseNumber| == 0 then Served(db, Message(400, RequiredMessage))
    else
      var surahNum, verseNum := ParseInt(surahNumber), ParseInt(verseNumber);
      if surahNum.NaN? || verseNum.NaN? then Served(db, Message(400, InvalidMessage))
      else if !ok(0) then Served(db, Message(500, ServerErrorMessage))
      else
        match VerseAt(db, surahNum.value, verseNum.value)
        case None => Served(db, Message(404, NotFoundMessage))
        case Some(verse) => Answer(db, verse, now, ok)
  }
}

=== FILE: wrappers.dfy ===
/** Failure-compatible wrappers shared by every module of the model. */
module Wrappers {

  /** A value that may be absent: JavaScript `undefined`/`null`, Java `null`. */
  datatype Option<+T> = None | Some(value: T) {
    function GetOr(default: T): T {
      match this
      case Some(v) => v
      case None => default
    }
  }

  /** The outcome of a step that may throw: `Err` carries the reported message. */
  datatype Result<+T, +E> = Ok(value: T) | Err(error: E)
}
